=== FILE: README.md ===
# Gadgeteer socket layer, bit-banged buses and drivers, in Dafny

This project models the core of GHI Electronics' Gadgeteer library for Windows IoT. A module
asks a *socket* for a pin or a bus. The socket works out how to give it one: a native pin, a
creator installed by the mainboard, a software bus built from plain pins, or a failure.

- `socket_interfaces.dfy` (`SocketInterfaces`) covers the interfaces a socket hands out:
  DigitalIO, AnalogIO, PwmOutput, I2cDevice, SpiDevice and SerialDevice. Each one's base class
  adds behaviour on top of a few members the implementation supplies: the drive mode forced on
  Read and Write, the interrupt armed by the first subscriber and disarmed by the last, the edge
  filter, PWM value caching, and the register helpers.
- `socket.dfy` (`Sockets`) is the socket itself. It holds the socket types it supports (with X
  standing in for Y), its native pins and its creators. It also holds every Create path in its
  fixed order: native pin, creator, failure. This includes the redirection between the
  default-pin and explicit-pin I2C and SPI overloads, which is shown not to loop.
- `software_interfaces.dfy` (`SoftwareInterfaces`) is the I2C master that is bit-banged over SDA
  and SCL. It follows the I2C-bus specification (NXP UM10204): START and STOP, eight data bits
  most significant first, an acknowledge bit per byte, and the address byte with its R/W bit.
  `WriteThenRead` keeps the bus started between its two phases, which gives the repeated START.
- `software_spi.dfy` (`SoftwareSpi`) is the SPI master that is bit-banged over four pins. It
  shifts `max(writeLength, readLength)` byte slots, each most significant bit first, and SPI
  modes 0 to 3 set the clock and sample order.
- `ads7830.dfy`, `pca9685.dfy` and `pca9535.dfy` are the three I2C chip drivers:
  - the ADS7830 analog-to-digital converter;
  - the PCA9685 PWM controller;
  - the PCA9535 I/O expander, whose output and configuration shadows change one bit at a time
    and whose interrupt handler reports the pins that changed.
- `module_base.dfy` (`ModuleBase`) is the module base class. It keeps the registry of provided
  sockets and does the socket-count check and Initialize dispatch of module creation.
- The module and mainboard files are `fez_cream.dfy`, `hub_ap5.dfy`, `max_o.dfy`,
  `character_display.dfy`, `rotary_h1.dfy`, `led_strip.dfy` and `led7c.dfy`. The FEZ Cream and
  the Hub AP5 route socket pins through expanders and converters and keep fixed pin tables. Their
  creators arbitrate lines shared between two functions before handing a pin out.
- `bytes.dfy`, `casts.dfy`, `transfers.dfy` and `errors.dfy` hold shared definitions:
  - bits of a byte in bus order and single-bit updates;
  - the `(byte)` casts and C#'s wrapping 32-bit int arithmetic;
  - the records of bus transfers;
  - the exceptions, as `Result` and `Outcome` values.

State that the code changes in place is modelled as classes with those fields. A buffer or
shadow becomes an `array` or a `seq`; a chip's or pin's history becomes an ordered log of the
calls made on it (`calls`, `transfers`, `trace`, `log`, `wire`). What an operation does is then
stated as the exact entries it appends, and lemmas about those logs state what the far end
receives:

- the bits a software bus puts on the wire;
- the nibbles the character display latches;
- the bytes a counter or a channel register holds.

The outside world is a parameter. Pin levels read back, the bytes a chip answers and the
number of times a slave stretches the clock are chosen freely by the environment, and every
contract holds for every choice. Exceptions are error values, and each operation's contract
says which error it gives in which case.

Two behaviours of the code are easy to miss:

- A socket without an analog creator makes the native AnalogIO stub and then sets its drive
  mode to Input (Socket.cs:143-158). The stub's DriveMode setter throws NotSupported
  (NativeInterfaces.cs:47-53), so `CreateAnalogIO` fails when the pin is created
  (`Sockets.Socket.CreateAnalogIO`).
- Disabling a Hub AP5 PWM output makes its expander pin an input (HubAP5.cs:224-230,
  `HubAp5.IndirectedPwmOutput.SetEnabled`). The FEZ Cream instead turns the channel fully off
  (`FezCream.IndirectedPwmOutput.SetEnabled`).

## Model

| member | source | states |
|---|---|---|
| `SocketInterfaces.FallingEdgeNeverForwarded` | ghi_elect-windows-iot-183b64180b7c/Gadgeteer/Core/SocketInterfaces.cs:83-86 | as written (GpioPinEdge.FallingEdge is 0), the filter forwards no falling edge, whatever InterruptType holds |
| `SocketInterfaces.FilterDiscrepancy` | ghi_elect-windows-iot-183b64180b7c/Gadgeteer/Core/SocketInterfaces.cs:83-86 | the filter as written agrees with the intended one on rising edges, and drops a falling edge even when it was requested |
| `SocketInterfaces.BothEdgesIsRisingEdge` | ghi_elect-windows-iot-183b64180b7c/Gadgeteer/Core/SocketInterfaces.cs:84 | `FallingEdge \| RisingEdge` is the same number as `RisingEdge` alone |
| `SocketInterfaces.RemoveLast` | ghi_elect-windows-iot-183b64180b7c/Gadgeteer/Core/SocketInterfaces.cs:38-39 | removing a handler that is not subscribed leaves the list unchanged; removing one that is makes the list one shorter |
| `SocketInterfaces.RemoveLastMultiset` | ghi_elect-windows-iot-183b64180b7c/Gadgeteer/Core/SocketInterfaces.cs:38-39 | removal drops exactly one occurrence of the handler and nothing else |
| `SocketInterfaces.RemoveLastKeepsLaterOnes` | ghi_elect-windows-iot-183b64180b7c/Gadgeteer/Core/SocketInterfaces.cs:38-39 | the occurrence dropped is the last one, and the handlers after it stay in place |
| `SocketInterfaces.ArmedMeans` | ghi_elect-windows-iot-183b64180b7c/Gadgeteer/Core/SocketInterfaces.cs:31-44 | the implementation's interrupt is on exactly when the last interrupt call was EnableInterrupt |
| `SocketInterfaces.ArmedAfter` | ghi_elect-windows-iot-183b64180b7c/Gadgeteer/Core/SocketInterfaces.cs:31-44 | EnableInterrupt turns the interrupt on, DisableInterrupt turns it off, and any other call leaves it as it was |
| `SocketInterfaces.DigitalIO.constructor` | ghi_elect-windows-iot-183b64180b7c/Gadgeteer/Core/SocketInterfaces.cs:20-29 | a new pin has no subscriber, no edge requested, the given drive mode, and its interrupt off |
| `SocketInterfaces.DigitalIO.SetDriveMode` | ghi_elect-windows-iot-183b64180b7c/Gadgeteer/Core/SocketInterfaces.cs:28 | the drive mode takes the value, the implementation is told once, and subscribers and edges are unchanged |
| `SocketInterfaces.DigitalIO.ReadInternal` | ghi_elect-windows-iot-183b64180b7c/Gadgeteer/Core/SocketInterfaces.cs:23 | one sample of the pin, with nothing else changed |
| `SocketInterfaces.DigitalIO.WriteInternal` | ghi_elect-windows-iot-183b64180b7c/Gadgeteer/Core/SocketInterfaces.cs:24 | one drive of the pin, with nothing else changed |
| `SocketInterfaces.DigitalIO.Read` | ghi_elect-windows-iot-183b64180b7c/Gadgeteer/Core/SocketInterfaces.cs:46-50 | the pin is switched to Input and then sampled, in that order, and ends in Input |
| `SocketInterfaces.DigitalIO.Write` | ghi_elect-windows-iot-183b64180b7c/Gadgeteer/Core/SocketInterfaces.cs:52-56 | the pin is switched to Output and then driven, in that order, and ends in Output |
| `SocketInterfaces.DigitalIO.GetValue` | ghi_elect-windows-iot-183b64180b7c/Gadgeteer/Core/SocketInterfaces.cs:58-61 | the Value getter samples without touching the drive mode |
| `SocketInterfaces.DigitalIO.SetValue` | ghi_elect-windows-iot-183b64180b7c/Gadgeteer/Core/SocketInterfaces.cs:62-64 | the Value setter drives without touching the drive mode |
| `SocketInterfaces.DigitalIO.SetHigh` | ghi_elect-windows-iot-183b64180b7c/Gadgeteer/Core/SocketInterfaces.cs:67-69 | drives the pin high without touching the drive mode |
| `SocketInterfaces.DigitalIO.SetLow` | ghi_elect-windows-iot-183b64180b7c/Gadgeteer/Core/SocketInterfaces.cs:71-73 | drives the pin low without touching the drive mode |
| `SocketInterfaces.DigitalIO.IsHigh` | ghi_elect-windows-iot-183b64180b7c/Gadgeteer/Core/SocketInterfaces.cs:75-77 | the result is the level sampled, and the drive mode is untouched |
| `SocketInterfaces.DigitalIO.IsLow` | ghi_elect-windows-iot-183b64180b7c/Gadgeteer/Core/SocketInterfaces.cs:79-81 | the result is the negation of the level sampled, and the drive mode is untouched |
| `SocketInterfaces.DigitalIO.SetInterruptType` | ghi_elect-windows-iot-183b64180b7c/Gadgeteer/Core/SocketInterfaces.cs:29 | InterruptType holds the edges set |
| `SocketInterfaces.DigitalIO.AddValueChanged` | ghi_elect-windows-iot-183b64180b7c/Gadgeteer/Core/SocketInterfaces.cs:32-37 | the handler is appended, and EnableInterrupt is called exactly when the list was empty |
| `SocketInterfaces.DigitalIO.RemoveValueChanged` | ghi_elect-windows-iot-183b64180b7c/Gadgeteer/Core/SocketInterfaces.cs:38-43 | the handler's last occurrence is removed, and DisableInterrupt is called exactly when the list is left empty |
| `SocketInterfaces.DigitalIO.OnValueChanged` | ghi_elect-windows-iot-183b64180b7c/Gadgeteer/Core/SocketInterfaces.cs:83-86 | (corrected filter) every subscriber, in subscription order, is notified when the change's edge was requested; nobody is notified otherwise |
| `SocketInterfaces.AnalogIO.constructor` | ghi_elect-windows-iot-183b64180b7c/Gadgeteer/Core/SocketInterfaces.cs:89-94 | a new analog pin has made no call, and its implementation accepts the given modes |
| `SocketInterfaces.AnalogIO.SetDriveMode` | ghi_elect-windows-iot-183b64180b7c/Gadgeteer/Core/SocketInterfaces.cs:94 | a mode the implementation accepts is passed on; any other mode throws NotSupported and passes nothing |
| `SocketInterfaces.AnalogIO.ReadVoltage` | ghi_elect-windows-iot-183b64180b7c/Gadgeteer/Core/SocketInterfaces.cs:96-100 | Input is set before the sample; the call throws NotSupported, with no sample, when the implementation refuses Input |
| `SocketInterfaces.AnalogIO.WriteVoltage` | ghi_elect-windows-iot-183b64180b7c/Gadgeteer/Core/SocketInterfaces.cs:102-106 | Output is set before the drive; the call throws NotSupported, with no drive, when the implementation refuses Output |
| `SocketInterfaces.AnalogIO.GetVoltage` | ghi_elect-windows-iot-183b64180b7c/Gadgeteer/Core/SocketInterfaces.cs:116-119 | the Voltage getter samples without touching the drive mode |
| `SocketInterfaces.AnalogIO.SetVoltage` | ghi_elect-windows-iot-183b64180b7c/Gadgeteer/Core/SocketInterfaces.cs:120-122 | the Voltage setter drives without touching the drive mode |
| `SocketInterfaces.PwmOutput.constructor` | ghi_elect-windows-iot-183b64180b7c/Gadgeteer/Core/SocketInterfaces.cs:135-138 | a new output is off, has made no call, and records whether its implementation supports the calls |
| `SocketInterfaces.PwmOutput.Set` | ghi_elect-windows-iot-183b64180b7c/Gadgeteer/Core/SocketInterfaces.cs:143-149 | SetValues is called exactly when the output is on; when that call throws NotSupported (the native stub) nothing is stored, otherwise frequency and duty are stored |
| `SocketInterfaces.PwmOutput.SetEnabled` | ghi_elect-windows-iot-183b64180b7c/Gadgeteer/Core/SocketInterfaces.cs:151-160 | the flag is stored and then passed to SetEnabled, which the native stub refuses with NotSupported after the flag is stored; frequency and duty are kept |
| `SocketInterfaces.PwmOutput.SetFrequency` | ghi_elect-windows-iot-183b64180b7c/Gadgeteer/Core/SocketInterfaces.cs:162-169 | the frequency is set, the stored duty is kept, and the pair is forwarded only when the output is on; a refused forward throws NotSupported and stores nothing |
| `SocketInterfaces.PwmOutput.SetDutyCycle` | ghi_elect-windows-iot-183b64180b7c/Gadgeteer/Core/SocketInterfaces.cs:171-178 | the duty is set, the stored frequency is kept, and the pair is forwarded only when the output is on; a refused forward throws NotSupported and stores nothing |
| `SocketInterfaces.I2cDevice.constructor` | ghi_elect-windows-iot-183b64180b7c/Gadgeteer/Core/SocketInterfaces.cs:190-194 | a new device has made no transfer |
| `SocketInterfaces.I2cDevice.Write` | ghi_elect-windows-iot-183b64180b7c/Gadgeteer/Core/SocketInterfaces.cs:186 | one write of the buffer |
| `SocketInterfaces.I2cDevice.WriteThenRead` | ghi_elect-windows-iot-183b64180b7c/Gadgeteer/Core/SocketInterfaces.cs:188 | one write-then-read, and the read buffer holds what the device answered |
| `SocketInterfaces.I2cDevice.WriteRegister` | ghi_elect-windows-iot-183b64180b7c/Gadgeteer/Core/SocketInterfaces.cs:196-201 | exactly one write of `[register, value]` |
| `SocketInterfaces.I2cDevice.WriteRegisters` | ghi_elect-windows-iot-183b64180b7c/Gadgeteer/Core/SocketInterfaces.cs:203-213 | a null array throws ArgumentNull with no transfer; otherwise one write of the register followed by all the values |
| `SocketInterfaces.I2cDevice.ReadRegister` | ghi_elect-windows-iot-183b64180b7c/Gadgeteer/Core/SocketInterfaces.cs:215-221 | one write-then-read of `[register]` that returns one byte |
| `SocketInterfaces.I2cDevice.ReadRegistersInto` | ghi_elect-windows-iot-183b64180b7c/Gadgeteer/Core/SocketInterfaces.cs:223-229 | a null array throws ArgumentNull with no transfer; otherwise one write-then-read of `[register]` that fills the array |
| `SocketInterfaces.I2cDevice.ReadRegisters` | ghi_elect-windows-iot-183b64180b7c/Gadgeteer/Core/SocketInterfaces.cs:231-241 | a count below 1 throws ArgumentOutOfRange with no transfer; otherwise one write-then-read of `[register]` that returns exactly `count` bytes |
| `SocketInterfaces.SpiDevice.constructor` | ghi_elect-windows-iot-183b64180b7c/Gadgeteer/Core/SocketInterfaces.cs:250-252 | a new device has made no transfer |
| `SocketInterfaces.SpiDevice.Write` | ghi_elect-windows-iot-183b64180b7c/Gadgeteer/Core/SocketInterfaces.cs:247 | one write of the buffer |
| `SocketInterfaces.SpiDevice.WriteThenRead` | ghi_elect-windows-iot-183b64180b7c/Gadgeteer/Core/SocketInterfaces.cs:246 | one write-then-read, and the read buffer holds what the device answered |
| `SocketInterfaces.SerialDevice.constructor` | ghi_elect-windows-iot-183b64180b7c/Gadgeteer/Core/SocketInterfaces.cs:265-267 | a new port has made no transfer |
| `SocketInterfaces.SerialDevice.ReadByte` | ghi_elect-windows-iot-183b64180b7c/Gadgeteer/Core/SocketInterfaces.cs:269-275 | one one-byte read, whose byte is returned |
| `SocketInterfaces.SerialDevice.WriteByte` | ghi_elect-windows-iot-183b64180b7c/Gadgeteer/Core/SocketInterfaces.cs:277-279 | one one-byte write of the given byte |
| `Sockets.PinNumber` | ghi_elect-windows-iot-183b64180b7c/Gadgeteer/Core/Socket.cs:9-17 | socket pins are numbered 3 to 9 |
| `Sockets.YServesX` | ghi_elect-windows-iot-183b64180b7c/Gadgeteer/Core/Socket.cs:95-97 | a socket that supports Y serves a request for X |
| `Sockets.OtherTypesExact` | ghi_elect-windows-iot-183b64180b7c/Gadgeteer/Core/Socket.cs:95-97 | every type other than X is served exactly when it was added |
| `Sockets.WithTypes` | ghi_elect-windows-iot-183b64180b7c/Gadgeteer/Core/Socket.cs:99-102 | adding a list of types gives the union of the old set and the types listed |
| `Sockets.WithTypesIdempotent` | ghi_elect-windows-iot-183b64180b7c/Gadgeteer/Core/Socket.cs:99-102 | adding the same types a second time changes nothing |
| `Sockets.I2cRedirectsExclusive` | ghi_elect-windows-iot-183b64180b7c/Gadgeteer/Core/Socket.cs:178-198 | the two I2C overloads' redirect guards never both hold, so they cannot call each other forever |
| `Sockets.SpiRedirectsExclusive` | ghi_elect-windows-iot-183b64180b7c/Gadgeteer/Core/Socket.cs:200-222 | the two SPI overloads' redirect guards never both hold |
| `Sockets.DigitalSteps` | ghi_elect-windows-iot-183b64180b7c/Gadgeteer/Core/Socket.cs:108-124 | making a digital pin makes exactly one call when it can be made (the native mapping first, then the creator) and none otherwise |
| `Sockets.FourSteps` | ghi_elect-windows-iot-183b64180b7c/Gadgeteer/Core/Socket.cs:212-222 | making four pins is making the first two and then, if both were made, the other two; all four can be made exactly when each can |
| `Sockets.PinStepsAppend` | ghi_elect-windows-iot-183b64180b7c/Gadgeteer/Core/Socket.cs:194-195 | making the pins of `a + b`, when every pin of `a` can be made, is making those of `a` and then those of `b` |
| `Sockets.PinStepsExtend` | ghi_elect-windows-iot-183b64180b7c/Gadgeteer/Core/Socket.cs:194-195 | one more pin that can be made extends the calls by its own call |
| `Sockets.PinStepsStop` | ghi_elect-windows-iot-183b64180b7c/Gadgeteer/Core/Socket.cs:194-195 | the first pin that cannot be made ends the calls and fails the whole run |
| `Sockets.AddOutputKeeps` | ghi_elect-windows-iot-183b64180b7c/Gadgeteer/Core/Socket.cs:134-141 | a fresh output, driven once to its level, joins the run of outputs made before it |
| `Sockets.BusCalls` | ghi_elect-windows-iot-183b64180b7c/Gadgeteer/Core/Socket.cs:184-187 | a bus comes from its creator exactly when one is installed, and from the native bus otherwise |
| `Sockets.Socket.constructor` | ghi_elect-windows-iot-183b64180b7c/Gadgeteer/Core/Socket.cs:83-88 | a new socket has its number, no type, no native pin, no creator and no call |
| `Sockets.Socket.EnsureTypeIsSupported` | ghi_elect-windows-iot-183b64180b7c/Gadgeteer/Core/Socket.cs:90-93 | passes exactly when the type is supported, and fails only with UnsupportedSocketType |
| `Sockets.Socket.AddSupportedTypes` | ghi_elect-windows-iot-183b64180b7c/Gadgeteer/Core/Socket.cs:99-102 | the supported set becomes the old set together with the types listed |
| `Sockets.Socket.SetNativePin` | ghi_elect-windows-iot-183b64180b7c/Gadgeteer/Core/Socket.cs:104-106 | the pin maps to the native pin given, replacing any earlier mapping; the other pins are unchanged |
| `Sockets.Socket.SetCreator` | ghi_elect-windows-iot-183b64180b7c/Gadgeteer/Core/Socket.cs:76-81 | setting a creator installs it, and setting null removes it |
| `Sockets.Socket.CreateDigitalIO` | ghi_elect-windows-iot-183b64180b7c/Gadgeteer/Core/Socket.cs:108-124 | succeeds exactly when the pin is mapped natively or a digital creator is installed, and fails with UnsupportedPinMode otherwise; the native mapping is preferred; the pin handed out is fresh, in Input, with no subscriber |
| `Sockets.Socket.CreateDigitalIOWithEdges` | ghi_elect-windows-iot-183b64180b7c/Gadgeteer/Core/Socket.cs:126-132 | as CreateDigitalIO, and the pin's InterruptType holds the requested edges |
| `Sockets.Socket.CreateOutputs` | ghi_elect-windows-iot-183b64180b7c/Gadgeteer/Core/Socket.cs:134-141 | a run of initial-value creations in order: it succeeds exactly when every pin can be made, stops at the first that cannot, and hands out distinct fresh outputs, each driven once to its initial level |
| `Sockets.Socket.CreateDigitalIOWithValue` | ghi_elect-windows-iot-183b64180b7c/Gadgeteer/Core/Socket.cs:134-141 | as CreateDigitalIO, then the pin is switched to Output and driven to the initial value |
| `Sockets.Socket.CreateAnalogIO` | ghi_elect-windows-iot-183b64180b7c/Gadgeteer/Core/Socket.cs:143-158 | type A is checked before any call; without a creator the native stub is made and refuses Input, which throws NotSupported; with a creator the pin handed out has been put in Input |
| `Sockets.Socket.CreateAnalogIOWithVoltage` | ghi_elect-windows-iot-183b64180b7c/Gadgeteer/Core/Socket.cs:160-167 | as CreateAnalogIO, then the pin is switched to Output and driven to the initial voltage |
| `Sockets.Socket.CreatePwmOutput` | ghi_elect-windows-iot-183b64180b7c/Gadgeteer/Core/Socket.cs:169-176 | type P is checked before any call; the creator is preferred to the native stub; the output is fresh and off, and its calls are supported exactly when it came from the creator (NativeInterfaces.cs:57-65 throws from both) |
| `Sockets.Socket.CreateSerialDevice` | ghi_elect-windows-iot-183b64180b7c/Gadgeteer/Core/Socket.cs:224-231 | type U is checked before any call; the creator is preferred to the native port |
| `Sockets.Socket.OpenBus` | ghi_elect-windows-iot-183b64180b7c/Gadgeteer/Core/Socket.cs:184-187 | a bus is opened by its creator if one is installed, else natively |
| `Sockets.Socket.CreateI2cDevice` | ghi_elect-windows-iot-183b64180b7c/Gadgeteer/Core/Socket.cs:178-188 | a socket with Y and without I gets the software engine on pins Eight and Nine; a socket with neither throws UnsupportedSocketType; a socket with I gets the creator's device or the native bus |
| `Sockets.Socket.CreateI2cDeviceOnPins` | ghi_elect-windows-iot-183b64180b7c/Gadgeteer/Core/Socket.cs:190-198 | pins (Eight, Nine) on a socket with I take the default path; anything else makes SDA and then SCL and builds the software engine on them, or throws UnsupportedPinMode |
| `Sockets.Socket.CreatePair` | ghi_elect-windows-iot-183b64180b7c/Gadgeteer/Core/Socket.cs:194-195 | two pins made one after the other: both must be makeable, and the second is not tried when the first fails |
| `Sockets.Socket.CreateSpiDevice` | ghi_elect-windows-iot-183b64180b7c/Gadgeteer/Core/Socket.cs:200-210 | a socket with Y and without S gets the software engine on pins Six to Nine; one with neither throws UnsupportedSocketType; one with S gets the creator's device or the native bus |
| `Sockets.Socket.CreateSpiDeviceOnPins` | ghi_elect-windows-iot-183b64180b7c/Gadgeteer/Core/Socket.cs:212-222 | pins (Six, Seven, Eight, Nine) on a socket with S take the default path; anything else makes CS, MOSI, MISO and CLK in that order and builds the software engine |
| `Sockets.Socket.BuildSoftwareSpi` | ghi_elect-windows-iot-183b64180b7c/Gadgeteer/Core/Socket.cs:216-221 | the four pins are made in order and the engine is built on them; it throws NotSupported unless words are 8 bits |
| `Sockets.Socket.CreateFour` | ghi_elect-windows-iot-183b64180b7c/Gadgeteer/Core/Socket.cs:216-219 | four pins made in order, with none tried after the first that fails; every pin handed out is fresh and in Input |
| `SoftwareInterfaces.AddressBytes` | ghi_elect-windows-iot-183b64180b7c/Gadgeteer/Core/SoftwareInterfaces.cs:17-18 | the write address is twice the slave address truncated to a byte, its read bit is clear, and the address's low seven bits can be recovered from it |
| `SoftwareInterfaces.ShiftSevenBits` | ghi_elect-windows-iot-183b64180b7c/Gadgeteer/Core/SoftwareInterfaces.cs:17 | a seven-bit value shifted left loses nothing, and its bit 0 is clear |
| `SoftwareInterfaces.FlattenAppend` | ghi_elect-windows-iot-183b64180b7c/Gadgeteer/Core/SoftwareInterfaces.cs:171-186 | the pin calls of two runs of bus steps are those of the first followed by those of the second |
| `SoftwareInterfaces.BitsOutStep` | ghi_elect-windows-iot-183b64180b7c/Gadgeteer/Core/SoftwareInterfaces.cs:143-147 | one round of the transmit loop extends the bits driven so far by the next bit of the byte, most significant first |
| `SoftwareInterfaces.SentFrame` | ghi_elect-windows-iot-183b64180b7c/Gadgeteer/Core/SoftwareInterfaces.cs:139-155 | a frame that drove the eight bits of a byte and sampled the acknowledgement bit stands for that byte sent, acknowledged exactly when SDA read low |
| `SoftwareInterfaces.ReceivedFrame` | ghi_elect-windows-iot-183b64180b7c/Gadgeteer/Core/SoftwareInterfaces.cs:157-169 | a frame that sampled the eight bits of a byte and drove the acknowledgement bit stands for that byte received, with the master's ACK or NACK |
| `SoftwareInterfaces.AllDriven` | ghi_elect-windows-iot-183b64180b7c/Gadgeteer/Core/SoftwareInterfaces.cs:143-147 | a run of steps drives as many bits as it has steps exactly when every step is a driven bit |
| `SoftwareInterfaces.AllSampled` | ghi_elect-windows-iot-183b64180b7c/Gadgeteer/Core/SoftwareInterfaces.cs:160-161 | a run of steps samples as many bits as it has steps exactly when every step is a sampled bit |
| `SoftwareInterfaces.WellFormedBits` | ghi_elect-windows-iot-183b64180b7c/Gadgeteer/Core/SoftwareInterfaces.cs:139-169 | in a well-formed frame the eight data steps are all driven bits for a sent byte and all sampled bits for a received one, the acknowledgement going the other way |
| `SoftwareInterfaces.WellFormedSnoc` | ghi_elect-windows-iot-183b64180b7c/Gadgeteer/Core/SoftwareInterfaces.cs:175-185 | appending a well-formed frame to a well-formed run keeps it well formed |
| `SoftwareInterfaces.FlagAfterReceived` | ghi_elect-windows-iot-183b64180b7c/Gadgeteer/Core/SoftwareInterfaces.cs:126-137 | a received byte leaves the `start` flag set exactly when it was set and no successful STOP followed |
| `SoftwareInterfaces.FlagAfterSent` | ghi_elect-windows-iot-183b64180b7c/Gadgeteer/Core/SoftwareInterfaces.cs:107-137 | a sent byte sets `start` when its START succeeded, and clears it when its STOP succeeded |
| `SoftwareInterfaces.StoreReceived` | ghi_elect-windows-iot-183b64180b7c/Gadgeteer/Core/SoftwareInterfaces.cs:184-185 | storing received byte `i` into slot `i` keeps the read-phase description true of the buffer |
| `SoftwareInterfaces.WriteCompletes` | ghi_elect-windows-iot-183b64180b7c/Gadgeteer/Core/SoftwareInterfaces.cs:171-178 | a write phase with every byte acknowledged has the full write-phase shape |
| `SoftwareInterfaces.ReceivedBytesAgree` | ghi_elect-windows-iot-183b64180b7c/Gadgeteer/Core/SoftwareInterfaces.cs:184-185 | what the received bytes say depends only on the slots filled so far |
| `SoftwareInterfaces.CompleteWrite` | ghi_elect-windows-iot-183b64180b7c/Gadgeteer/Core/SoftwareInterfaces.cs:30-37 | a write whose every byte is acknowledged sends the address byte and every data byte in order, with exactly one STOP, at the end |
| `SoftwareInterfaces.FlagWithoutStop` | ghi_elect-windows-iot-183b64180b7c/Gadgeteer/Core/SoftwareInterfaces.cs:107-137 | bytes with no STOP, and a START on the first byte at most, leave `start` set if that START succeeded and unchanged otherwise |
| `SoftwareInterfaces.AbortedWriteLeavesBusStarted` | ghi_elect-windows-iot-183b64180b7c/Gadgeteer/Core/SoftwareInterfaces.cs:171-178 | a write cut short by a NACK sends no STOP, so the bus stays started if it was, or if the phase's START succeeded |
| `SoftwareInterfaces.WriteThenReadRepeats` | ghi_elect-windows-iot-183b64180b7c/Gadgeteer/Core/SoftwareInterfaces.cs:39-48 | the write half of WriteThenRead sends no STOP once it has data, so its read half begins with a repeated START exactly when the bus was started |
| `SoftwareInterfaces.I2cDevice.constructor` | ghi_elect-windows-iot-183b64180b7c/Gadgeteer/Core/SoftwareInterfaces.cs:13-19 | the engine starts with `start` clear and no pin call, and with the write and read address bytes of the slave address |
| `SoftwareInterfaces.I2cDevice.ClearScl` | ghi_elect-windows-iot-183b64180b7c/Gadgeteer/Core/SoftwareInterfaces.cs:50-52 | one call driving SCL low |
| `SoftwareInterfaces.I2cDevice.ClearSda` | ghi_elect-windows-iot-183b64180b7c/Gadgeteer/Core/SoftwareInterfaces.cs:54-56 | one call driving SDA low |
| `SoftwareInterfaces.I2cDevice.ReadScl` | ghi_elect-windows-iot-183b64180b7c/Gadgeteer/Core/SoftwareInterfaces.cs:66-68 | one sample of SCL, whose level is returned |
| `SoftwareInterfaces.I2cDevice.ReadSda` | ghi_elect-windows-iot-183b64180b7c/Gadgeteer/Core/SoftwareInterfaces.cs:70-72 | one sample of SDA, whose level is returned |
| `SoftwareInterfaces.I2cDevice.WaitForScl` | ghi_elect-windows-iot-183b64180b7c/Gadgeteer/Core/SoftwareInterfaces.cs:74-77 | SCL is read until it reads high: some number of low reads, then one high read |
| `SoftwareInterfaces.I2cDevice.WriteBit` | ghi_elect-windows-iot-183b64180b7c/Gadgeteer/Core/SoftwareInterfaces.cs:79-93 | one bit out: a 1 releases SDA and a 0 pulls it low; the call waits for SCL; it fails, without lowering SCL, when a released SDA reads low |
| `SoftwareInterfaces.I2cDevice.ReadBit` | ghi_elect-windows-iot-183b64180b7c/Gadgeteer/Core/SoftwareInterfaces.cs:95-105 | one bit in: SDA released, SCL waited for, SDA sampled, SCL lowered; the bit is the level sampled |
| `SoftwareInterfaces.I2cDevice.SendStart` | ghi_elect-windows-iot-183b64180b7c/Gadgeteer/Core/SoftwareInterfaces.cs:107-124 | a repeated START (when `start` was set) first releases SDA and waits for SCL; a bus with SDA low fails with no further call; otherwise SDA and then SCL are pulled low and `start` is set |
| `SoftwareInterfaces.I2cDevice.SendStop` | ghi_elect-windows-iot-183b64180b7c/Gadgeteer/Core/SoftwareInterfaces.cs:126-137 | SDA is pulled low and SCL waited for; `start` is cleared exactly when SDA then reads high |
| `SoftwareInterfaces.I2cDevice.Read` | ghi_elect-windows-iot-183b64180b7c/Gadgeteer/Core/SoftwareInterfaces.cs:21-28 | a null buffer throws ArgumentNull with no pin call; otherwise a read phase with START and STOP, then both lines released; every frame is well formed: eight data bits, at most one START before them and one STOP after the acknowledgement |
| `SoftwareInterfaces.I2cDevice.Write` | ghi_elect-windows-iot-183b64180b7c/Gadgeteer/Core/SoftwareInterfaces.cs:30-37 | a null buffer throws ArgumentNull with no pin call; otherwise a write phase with START and STOP, then both lines released; every frame is well formed: eight data bits, at most one START before them and one STOP after the acknowledgement |
| `SoftwareInterfaces.I2cDevice.WriteThenRead` | ghi_elect-windows-iot-183b64180b7c/Gadgeteer/Core/SoftwareInterfaces.cs:39-48 | either buffer null throws ArgumentNull with no pin call, a non-null read buffer left as it was; otherwise a write phase without STOP, then a read phase from the flag it left, then both lines released; every frame is well formed: eight data bits, at most one START before them and one STOP after the acknowledgement |
| `SoftwareInterfaces.I2cDevice.ReleaseLines` | ghi_elect-windows-iot-183b64180b7c/Gadgeteer/Core/SoftwareInterfaces.cs:58-64 | SCL and then SDA are let go by reading them |
| `SoftwareInterfaces.I2cDevice.WriteBytes` | ghi_elect-windows-iot-183b64180b7c/Gadgeteer/Core/SoftwareInterfaces.cs:171-178 | the write phase: the address byte (STOP only if the buffer is empty), then the data bytes with the STOP on the last when requested, ending at the first byte not acknowledged; every frame is well formed: eight data bits, at most one START before them and one STOP after the acknowledgement |
| `SoftwareInterfaces.I2cDevice.WriteData` | ghi_elect-windows-iot-183b64180b7c/Gadgeteer/Core/SoftwareInterfaces.cs:175-177 | the data loop of the write phase keeps the write-phase shape, the `start` flag and the frames' well-formedness in step |
| `SoftwareInterfaces.I2cDevice.SendData` | ghi_elect-windows-iot-183b64180b7c/Gadgeteer/Core/SoftwareInterfaces.cs:176 | data byte `i` is sent with a STOP exactly when it is the last and a STOP was requested, in a well-formed frame of eight driven bits and a sampled acknowledgement |
| `SoftwareInterfaces.I2cDevice.ReadBytes` | ghi_elect-windows-iot-183b64180b7c/Gadgeteer/Core/SoftwareInterfaces.cs:180-186 | the read phase: the read-address byte; if acknowledged, one byte received into each slot, ACKed except the last, the last followed by a STOP when requested; a buffer the slave did not answer for is unchanged; every frame is well formed: eight data bits, at most one START before them and one STOP after the acknowledgement |
| `SoftwareInterfaces.I2cDevice.ReadData` | ghi_elect-windows-iot-183b64180b7c/Gadgeteer/Core/SoftwareInterfaces.cs:184-185 | the receive loop fills every slot of the buffer, one received byte each, every frame well formed |
| `SoftwareInterfaces.I2cDevice.ReceiveInto` | ghi_elect-windows-iot-183b64180b7c/Gadgeteer/Core/SoftwareInterfaces.cs:185 | received byte `i` is stored in slot `i`, ACKed unless it is the last, in a well-formed frame of eight sampled bits and a driven acknowledgement |
| `SoftwareInterfaces.I2cDevice.Transmit` | ghi_elect-windows-iot-183b64180b7c/Gadgeteer/Core/SoftwareInterfaces.cs:139-155 | an optional START, the byte's eight bits most significant first, the slave's acknowledgement bit, an optional STOP; the result is true exactly when SDA read low on the ninth bit, whatever the START and STOP returned; the frame is well formed, its eight bits driven and its acknowledgement sampled |
| `SoftwareInterfaces.I2cDevice.StartIf` | ghi_elect-windows-iot-183b64180b7c/Gadgeteer/Core/SoftwareInterfaces.cs:140-141 | the optional START of Transmit; its result is only reflected in `start` |
| `SoftwareInterfaces.I2cDevice.StopIf` | ghi_elect-windows-iot-183b64180b7c/Gadgeteer/Core/SoftwareInterfaces.cs:151-152 | the optional STOP of Transmit and Receive; its result is only reflected in `start` |
| `SoftwareInterfaces.I2cDevice.ShiftOut` | ghi_elect-windows-iot-183b64180b7c/Gadgeteer/Core/SoftwareInterfaces.cs:143-147 | the transmit loop drives exactly the eight bits of the byte, most significant first, each step a driven bit |
| `SoftwareInterfaces.I2cDevice.Receive` | ghi_elect-windows-iot-183b64180b7c/Gadgeteer/Core/SoftwareInterfaces.cs:157-169 | eight bits sampled most significant first make the byte returned; then ACK (SDA low) when `sendAck` and NACK (released) otherwise; then an optional STOP; the frame is well formed, its eight bits sampled and its acknowledgement driven |
| `SoftwareInterfaces.I2cDevice.ShiftIn` | ghi_elect-windows-iot-183b64180b7c/Gadgeteer/Core/SoftwareInterfaces.cs:160-161 | the receive loop samples eight bits, and the byte it builds has exactly those bits, most significant first, each step a sampled bit |
| `SoftwareSpi.ClockEdge` | ghi_elect-windows-iot-183b64180b7c/Gadgeteer/Core/SoftwareInterfaces.cs:205 | the clock phase is set exactly for modes 1 and 3 (bit 0 of the mode) |
| `SoftwareSpi.ClockPolarity` | ghi_elect-windows-iot-183b64180b7c/Gadgeteer/Core/SoftwareInterfaces.cs:206 | the clock's first level is high exactly for modes 0 and 1 (bit 1 of the mode clear) |
| `SoftwareSpi.ModesDiffer` | ghi_elect-windows-iot-183b64180b7c/Gadgeteer/Core/SoftwareInterfaces.cs:205-206 | the four modes give four different (phase, polarity) pairs |
| `SoftwareSpi.MaskedBit` | ghi_elect-windows-iot-183b64180b7c/Gadgeteer/Core/SoftwareInterfaces.cs:255-279 | after `j` shifts of the 0x80 mask, `w & mask` picks bit `j` of `w`, most significant first |
| `SoftwareSpi.LevelsAre` | ghi_elect-windows-iot-183b64180b7c/Gadgeteer/Core/SoftwareInterfaces.cs:255-279 | the first `n` levels a slot sends are the first `n` bits of its byte, most significant first |
| `SoftwareSpi.SentBitIs` | ghi_elect-windows-iot-183b64180b7c/Gadgeteer/Core/SoftwareInterfaces.cs:261 | the bit sent in place `k` is bit `k` of the byte, most significant first |
| `SoftwareSpi.BitsOut` | ghi_elect-windows-iot-183b64180b7c/Gadgeteer/Core/SoftwareInterfaces.cs:257-280 | the first bits of a slot drive master-out with the first bits of its byte, in order |
| `SoftwareSpi.BitsClock` | ghi_elect-windows-iot-183b64180b7c/Gadgeteer/Core/SoftwareInterfaces.cs:257-280 | the first bits of a slot pulse the clock once each, starting from the polarity level |
| `SoftwareSpi.BitsSelect` | ghi_elect-windows-iot-183b64180b7c/Gadgeteer/Core/SoftwareInterfaces.cs:257-280 | the bits of a slot never touch chip select |
| `SoftwareSpi.BitsSample` | ghi_elect-windows-iot-183b64180b7c/Gadgeteer/Core/SoftwareInterfaces.cs:257-280 | the bits of a slot that has a read byte sample master-in once each, in order; a slot with no read byte samples nothing |
| `SoftwareSpi.SlotOut` | ghi_elect-windows-iot-183b64180b7c/Gadgeteer/Core/SoftwareInterfaces.cs:249-285 | a whole slot drives its byte onto master-out, most significant first, and then a low |
| `SoftwareSpi.SlotClock` | ghi_elect-windows-iot-183b64180b7c/Gadgeteer/Core/SoftwareInterfaces.cs:249-285 | a whole slot pulses the clock eight times and parks it at its first level |
| `SoftwareSpi.SlotSelect` | ghi_elect-windows-iot-183b64180b7c/Gadgeteer/Core/SoftwareInterfaces.cs:249-285 | a slot never touches chip select |
| `SoftwareSpi.SlotSample` | ghi_elect-windows-iot-183b64180b7c/Gadgeteer/Core/SoftwareInterfaces.cs:249-285 | a slot with a read byte samples exactly the bits of the byte it stores |
| `SoftwareSpi.ExchangeSample` | ghi_elect-windows-iot-183b64180b7c/Gadgeteer/Core/SoftwareInterfaces.cs:249-285 | over a whole transfer, master-in's samples are the bits of the bytes read, byte after byte, most significant first, for the read buffer's slots only |
| `SoftwareSpi.ExchangeOut` | ghi_elect-windows-iot-183b64180b7c/Gadgeteer/Core/SoftwareInterfaces.cs:249-285 | over a whole transfer, master-out carries each slot's byte (0 past the write buffer's end), each followed by a low |
| `SoftwareSpi.ExchangeSelect` | ghi_elect-windows-iot-183b64180b7c/Gadgeteer/Core/SoftwareInterfaces.cs:249-285 | the byte slots of a transfer never touch chip select |
| `SoftwareSpi.SpiDevice.constructor` | ghi_elect-windows-iot-183b64180b7c/Gadgeteer/Core/SoftwareInterfaces.cs:197-207 | the engine records the clock phase and polarity of the mode and has made no pin call |
| `SoftwareSpi.SpiDevice.Create` | ghi_elect-windows-iot-183b64180b7c/Gadgeteer/Core/SoftwareInterfaces.cs:197-207 | construction fails with NotSupported exactly when words are not 8 bits long; otherwise the engine has the mode's phase and polarity |
| `SoftwareSpi.SpiDevice.WritePin` | ghi_elect-windows-iot-183b64180b7c/Gadgeteer/Core/SoftwareInterfaces.cs:247 | one call driving one line |
| `SoftwareSpi.SpiDevice.ReadMasterIn` | ghi_elect-windows-iot-183b64180b7c/Gadgeteer/Core/SoftwareInterfaces.cs:266 | one sample of master-in, whose level is returned |
| `SoftwareSpi.SpiDevice.Write` | ghi_elect-windows-iot-183b64180b7c/Gadgeteer/Core/SoftwareInterfaces.cs:209-213 | a null buffer throws ArgumentNull with no pin call; otherwise chip select low, one slot per byte reading nothing, chip select high |
| `SoftwareSpi.SpiDevice.Read` | ghi_elect-windows-iot-183b64180b7c/Gadgeteer/Core/SoftwareInterfaces.cs:215-219 | (corrected) a null buffer throws ArgumentNull; otherwise chip select low, one slot per buffer byte sending 0, chip select high, and the buffer holds the bytes sampled |
| `SoftwareSpi.SpiDevice.ReadAsWritten` | ghi_elect-windows-iot-183b64180b7c/Gadgeteer/Core/SoftwareInterfaces.cs:215-219 | as written, the null write buffer passed on is dereferenced first, so every read of a non-null buffer fails with NullReference before any pin moves, the buffer left as it was |
| `SoftwareSpi.SpiDevice.WriteThenRead` | ghi_elect-windows-iot-183b64180b7c/Gadgeteer/Core/SoftwareInterfaces.cs:221-227 | (corrected) either buffer null throws ArgumentNull with no pin call, a non-null read buffer left as it was; otherwise a write with chip select left low, then a read that raises it; the read buffer holds the bytes sampled in the read phase |
| `SoftwareSpi.SpiDevice.WriteThenReadAsWritten` | ghi_elect-windows-iot-183b64180b7c/Gadgeteer/Core/SoftwareInterfaces.cs:221-227 | as written, either buffer null throws ArgumentNull with no pin call; otherwise the write phase runs and the read phase then fails with NullReference, leaving chip select low; the read buffer is never touched |
| `SoftwareSpi.SpiDevice.WriteAndRead` | ghi_elect-windows-iot-183b64180b7c/Gadgeteer/Core/SoftwareInterfaces.cs:229-234 | (corrected) either buffer null throws ArgumentNull with no pin call, a non-null read buffer left as it was; otherwise one full-duplex transfer over the longer buffer; the read buffer holds what was sampled into its slots; a buffer that is both write and read buffer sends zeros |
| `SoftwareSpi.SpiDevice.WriteRead` | ghi_elect-windows-iot-183b64180b7c/Gadgeteer/Core/SoftwareInterfaces.cs:236-289 | (corrected) the read buffer is cleared, chip select is driven low, `max(writeLength, readLength)` slots run (0 sent past the write data, samples only into existing read bytes), and chip select is raised only when `deselectAfter` |
| `SoftwareSpi.SpiDevice.WriteReadAsWritten` | ghi_elect-windows-iot-183b64180b7c/Gadgeteer/Core/SoftwareInterfaces.cs:236-289 | as written: a null write buffer throws NullReference before any pin call, the read buffer left as it was; a read buffer shorter than the write buffer is indexed past its end in the first bit of the first slot beyond it (IndexOutOfRange); otherwise as `WriteRead` |
| `SoftwareSpi.SpiDevice.Overrunning` | ghi_elect-windows-iot-183b64180b7c/Gadgeteer/Core/SoftwareInterfaces.cs:249-272 | with a shorter read buffer, the as-written transfer runs the read buffer's slots and then the pin calls of one more bit up to the failing index |
| `SoftwareSpi.SpiDevice.FirstBit` | ghi_elect-windows-iot-183b64180b7c/Gadgeteer/Core/SoftwareInterfaces.cs:258-272 | the pin calls of a slot's first bit before the read buffer is indexed |
| `SoftwareSpi.SpiDevice.Clear` | ghi_elect-windows-iot-183b64180b7c/Gadgeteer/Core/SoftwareInterfaces.cs:240-245 | every byte of the read buffer is 0 |
| `SoftwareSpi.SpiDevice.Transfer` | ghi_elect-windows-iot-183b64180b7c/Gadgeteer/Core/SoftwareInterfaces.cs:249-285 | `count` slots: slot `i` sends the write buffer's byte `i` (0 past its end) and stores the sampled byte when the read buffer has a byte `i`; the other bytes stay 0 |
| `SoftwareSpi.SpiDevice.NextSlot` | ghi_elect-windows-iot-183b64180b7c/Gadgeteer/Core/SoftwareInterfaces.cs:250-284 | slot `i` extends the transfer by one slot and stores byte `i` |
| `SoftwareSpi.SpiDevice.Slot` | ghi_elect-windows-iot-183b64180b7c/Gadgeteer/Core/SoftwareInterfaces.cs:255-284 | one slot: eight bits, then master-out low and the clock parked; a reading slot's byte becomes the byte sampled, and no other byte changes |
| `SoftwareSpi.SpiDevice.ShiftBits` | ghi_elect-windows-iot-183b64180b7c/Gadgeteer/Core/SoftwareInterfaces.cs:255-280 | the eight bits of a slot; a reading slot's byte is the OR of the sampled levels under the walking mask |
| `SoftwareSpi.SpiDevice.NextBit` | ghi_elect-windows-iot-183b64180b7c/Gadgeteer/Core/SoftwareInterfaces.cs:257-280 | bit `j` of a slot extends the bits so far, with the mask at bit `j` |
| `SoftwareSpi.SpiDevice.ClockBit` | ghi_elect-windows-iot-183b64180b7c/Gadgeteer/Core/SoftwareInterfaces.cs:258-277 | one bit in the order the clock phase asks for; a sampled high level ORs the mask into the slot's byte |
| `SoftwareSpi.SpiDevice.SampleInto` | ghi_elect-windows-iot-183b64180b7c/Gadgeteer/Core/SoftwareInterfaces.cs:265-266 | when the slot reads, master-in is sampled and a high level ORs the mask into the slot's byte; nothing else changes |
| `Bytes.BitsOf` | ghi_elect-windows-iot-183b64180b7c/Gadgeteer/Core/SoftwareInterfaces.cs:143-147 | a byte has eight bits, which both software buses shift most significant first |
| `Bytes.SetBit` | ghi_elect-windows-iot-183b64180b7c/Drivers/PCA9535.cs:109-131 | after `\|= (1 << i)` or `&= ~(1 << i)`, bit `i` holds the value set |
| `Bytes.SetBitKeeps` | ghi_elect-windows-iot-183b64180b7c/Drivers/PCA9535.cs:109-131 | setting or clearing one bit keeps every other bit |
| `Bytes.FromBitsOf` | ghi_elect-windows-iot-183b64180b7c/Gadgeteer/Core/SoftwareInterfaces.cs:160-161 | receiving the eight bits of a byte with `(d << 1) \| bit` rebuilds that byte |
| `Bytes.BitsOfFromBits` | ghi_elect-windows-iot-183b64180b7c/Gadgeteer/Core/SoftwareInterfaces.cs:160-161 | the bits of the byte received from eight levels are those levels |
| `Bytes.TopBit` | ghi_elect-windows-iot-183b64180b7c/Gadgeteer/Core/SoftwareInterfaces.cs:143-147 | after `k` rounds of `data <<= 1`, the top bit is the original's bit `k`, most significant first |
| `Bytes.ShiftBitsOf` | ghi_elect-windows-iot-183b64180b7c/Gadgeteer/Core/SoftwareInterfaces.cs:146 | shifting left moves every bit but the top one up one place |
| `Bytes.WalkBit` | ghi_elect-windows-iot-183b64180b7c/Gadgeteer/Core/SoftwareInterfaces.cs:255-279 | after `j` rounds of `mask >>= 1` from 0x80, the mask picks bit `j`, most significant first |
| `Bytes.OrInto` | ghi_elect-windows-iot-183b64180b7c/Gadgeteer/Core/SoftwareInterfaces.cs:266 | ORing the next level in under the walking mask extends the assembled byte by that level |
| `Bytes.OrBitsRoundTrip` | ghi_elect-windows-iot-183b64180b7c/Gadgeteer/Core/SoftwareInterfaces.cs:266 | the SPI master's OR-ing and the I2C master's shifting assemble the same byte from the same eight levels, and that byte's bits are the levels |
| `Bytes.FromBitsSnoc` | ghi_elect-windows-iot-183b64180b7c/Gadgeteer/Core/SoftwareInterfaces.cs:161 | appending a level to the received prefix shifts it in at the bottom |
| `Casts.CountedByte` | ghi_elect-windows-iot-183b64180b7c/Drivers/PCA9685.cs:125-129 | a value in 0..255 is reached by a byte whose value it is |
| `Casts.ByteOfValue` | ghi_elect-windows-iot-183b64180b7c/Drivers/PCA9685.cs:125-129 | a value in 0..255 survives the `(byte)` cast and back |
| `Casts.WrapInt32` | ghi_elect-windows-iot-183b64180b7c/Gadgeteer/Modules/RotaryH1.cs:79 | C# int arithmetic: the result lies in the 32-bit signed range, agrees with the value modulo 2^32, and is the value itself when that fits |
| `ModuleBase.OverloadFor` | ghi_elect-windows-iot-183b64180b7c/Gadgeteer/Core/Module.cs:56-64 | a count of 0 picks `Initialize()`, a count of 1 picks `Initialize(socket)`, and any other count picks the array overload |
| `ModuleBase.Arguments` | ghi_elect-windows-iot-183b64180b7c/Gadgeteer/Core/Module.cs:56-64 | no socket goes to the overload for 0; otherwise the overload receives the parent sockets (the one socket for a count of 1) |
| `ModuleBase.Module.constructor` | ghi_elect-windows-iot-183b64180b7c/Gadgeteer/Core/Module.cs:15-17 | a new module has no provided socket and has received no Initialize call |
| `ModuleBase.Module.CreateSocket` | ghi_elect-windows-iot-183b64180b7c/Gadgeteer/Core/Module.cs:31-37 | a new number registers a fresh empty socket under it, and ProvidedSockets grows by one; a number already registered throws ArgumentException (the dictionary's Add) and leaves the registry unchanged |
| `ModuleBase.Module.GetProvidedSocket` | ghi_elect-windows-iot-183b64180b7c/Gadgeteer/Core/Module.cs:43-48 | succeeds exactly for a registered number, returning that socket; an unknown number throws ArgumentException |
| `ModuleBase.Module.SetDebugLed` | ghi_elect-windows-iot-183b64180b7c/Gadgeteer/Core/Module.cs:39-41 | the base module throws NotSupported |
| `ModuleBase.Module.Initialize` | ghi_elect-windows-iot-183b64180b7c/Gadgeteer/Core/Module.cs:19-29 | an overload the module overrides runs; one it does not is the base's, which throws InvalidModuleDefinition |
| `ModuleBase.CreateAsync` | ghi_elect-windows-iot-183b64180b7c/Gadgeteer/Core/Module.cs:50-67 | a socket count other than RequiredSockets throws ArgumentException; otherwise exactly one Initialize overload, chosen by the count, runs, and creation succeeds exactly when the module overrides it |
| `Ads7830.GetAddress` | ghi_elect-windows-iot-183b64180b7c/Drivers/ADS7830.cs:11 | the address lies in 0x48..0x4B, its upper bits are 0x48, and bits 0 and 1 are exactly the two address pins |
| `Ads7830.Selector` | ghi_elect-windows-iot-183b64180b7c/Drivers/ADS7830.cs:36 | the channel-select field lies in 0..7, and on channels 0..7 it is below 4 exactly for even channels |
| `Ads7830.ChannelOf` | ghi_elect-windows-iot-183b64180b7c/Drivers/ADS7830.cs:36 | the channel a selector names lies in 0..7 |
| `Ads7830.SelectorBijective` | ghi_elect-windows-iot-183b64180b7c/Drivers/ADS7830.cs:36 | the selector is a bijection from channels 0..7 onto 0..7, since `ChannelOf` undoes it in both directions |
| `Ads7830.Command` | ghi_elect-windows-iot-183b64180b7c/Drivers/ADS7830.cs:36 | every command byte has single-ended mode, the reference off and the converter on (`cmd & 0x8F == 0x84`) |
| `Ads7830.CommandSelects` | ghi_elect-windows-iot-183b64180b7c/Drivers/ADS7830.cs:36 | bits 6..4 of the command byte hold the channel's selector |
| `Ads7830.CommandInjective` | ghi_elect-windows-iot-183b64180b7c/Drivers/ADS7830.cs:36 | distinct channels 0..7 send distinct command bytes |
| `Ads7830.ChannelEightAliasesOne` | ghi_elect-windows-iot-183b64180b7c/Drivers/ADS7830.cs:34-36 | channel 8 passes the guard as written but is not a channel of the chip, and its command byte is channel 1's |
| `Ads7830.AcceptedExactly` | ghi_elect-windows-iot-183b64180b7c/Drivers/ADS7830.cs:34 | the corrected guard accepts exactly what the written guard accepts, except channel 8 |
| `Ads7830.Proportion` | ghi_elect-windows-iot-183b64180b7c/Drivers/ADS7830.cs:40 | the reading lies in 0..1; it is 0 exactly for sample 0 and 1 exactly for sample 0xFF |
| `Ads7830.ProportionMonotone` | ghi_elect-windows-iot-183b64180b7c/Drivers/ADS7830.cs:40 | a larger sample gives a strictly larger reading |
| `Ads7830.Voltage` | ghi_elect-windows-iot-183b64180b7c/Drivers/ADS7830.cs:40 | the voltage lies in 0..full scale, and over full scale it is the sample's proportion |
| `Ads7830.ScaleCancels` | ghi_elect-windows-iot-183b64180b7c/Drivers/ADS7830.cs:40 | a fraction scaled by a positive full scale and divided by it again is the fraction |
| `Ads7830.Ads7830.constructor` | ghi_elect-windows-iot-183b64180b7c/Drivers/ADS7830.cs:15-20 | a new driver is not disposed and has made no transfer |
| `Ads7830.Ads7830.Dispose` | ghi_elect-windows-iot-183b64180b7c/Drivers/ADS7830.cs:22-30 | afterwards the driver is disposed |
| `Ads7830.Ads7830.ReadAsWritten` | ghi_elect-windows-iot-183b64180b7c/Drivers/ADS7830.cs:32-41 | the read as written: ObjectDisposed after disposal; ArgumentOutOfRange outside 0..8, with no transfer; otherwise exactly one write-then-read of the one command byte, returning the byte answered over 255 (`Proportion`) |
| `Ads7830.Ads7830.Read` | ghi_elect-windows-iot-183b64180b7c/Drivers/ADS7830.cs:32-41 | the read with the guard corrected to channels 0..7; otherwise the same as `ReadAsWritten` |
| `Ads7830.Ads7830.Convert` | ghi_elect-windows-iot-183b64180b7c/Drivers/ADS7830.cs:36-38 | one conversion appends one write-then-read of `[Command(channel)]` that returns one sample byte |
| `Pca9685.GetAddress` | ghi_elect-windows-iot-183b64180b7c/Drivers/PCA9685.cs:22 | the address lies in 0x40..0x7F, its top two bits are 01, and bits 0..5 are exactly the six address pins |
| `Pca9685.PrescaleInRange` | ghi_elect-windows-iot-183b64180b7c/Drivers/PCA9685.cs:68-75 | for every frequency the setter accepts (40..1500), the prescale lies in 2..137, so the `(byte)` cast never truncates |
| `Pca9685.PrescaleMonotone` | ghi_elect-windows-iot-183b64180b7c/Drivers/PCA9685.cs:71-75 | a higher frequency never gives a larger prescale |
| `Pca9685.ChannelBytes` | ghi_elect-windows-iot-183b64180b7c/Drivers/PCA9685.cs:123-129 | SetChannel writes exactly five bytes |
| `Pca9685.CountRoundTrip` | ghi_elect-windows-iot-183b64180b7c/Drivers/PCA9685.cs:126-129 | a count up to 4096, split into its low and high bytes, is recovered from them |
| `Pca9685.RegisterRoundTrip` | ghi_elect-windows-iot-183b64180b7c/Drivers/PCA9685.cs:125 | the ON_L register address `0x06 + 4*channel` lies in 0x06..0x42 and leads back to the channel |
| `Pca9685.ChannelBytesDecode` | ghi_elect-windows-iot-183b64180b7c/Drivers/PCA9685.cs:123-129 | from the five bytes one can read back the channel (byte 0), the ON count (bytes 1-2, low first) and the OFF count (bytes 3-4) |
| `Pca9685.ChannelBytesInjective` | ghi_elect-windows-iot-183b64180b7c/Drivers/PCA9685.cs:123-129 | distinct (channel, on, off) updates write distinct byte sequences |
| `Pca9685.FullOnAndOff` | ghi_elect-windows-iot-183b64180b7c/Drivers/PCA9685.cs:95-101 | TurnOn sets the full-on bit (0x10 of ON_H) and leaves OFF_H clear; TurnOff does the reverse |
| `Pca9685.DutyCount` | ghi_elect-windows-iot-183b64180b7c/Drivers/PCA9685.cs:112-114 | for a duty cycle strictly between 0 and 1, the OFF count is below 4096 and is `4096*duty` truncated |
| `Pca9685.Pca9685.constructor` | ghi_elect-windows-iot-183b64180b7c/Drivers/PCA9685.cs:30-47 | the output-enable pin, if present, is driven low, then Mode1 = 0x20 and Mode2 = 0x06 are written, in that order |
| `Pca9685.Pca9685.Dispose` | ghi_elect-windows-iot-183b64180b7c/Drivers/PCA9685.cs:49-58 | afterwards the driver is disposed |
| `Pca9685.Pca9685.SetOutputEnabled` | ghi_elect-windows-iot-183b64180b7c/Drivers/PCA9685.cs:83-93 | ObjectDisposed after disposal; NotSupported without an output-enable pin; otherwise the getter afterwards returns the value set (active low) |
| `Pca9685.Pca9685.SetFrequency` | ghi_elect-windows-iot-183b64180b7c/Drivers/PCA9685.cs:66-80 | ObjectDisposed, or ArgumentOutOfRange outside 40..1500, with no transfer; otherwise a read of Mode1 followed by sleep (`Mode1|0x10`), the prescale, and Mode1 restored |
| `Pca9685.Pca9685.TurnOn` | ghi_elect-windows-iot-183b64180b7c/Drivers/PCA9685.cs:95-97 | the guards of SetChannel, then one write of `ChannelBytes(channel, 0x1000, 0)` |
| `Pca9685.Pca9685.TurnOff` | ghi_elect-windows-iot-183b64180b7c/Drivers/PCA9685.cs:99-101 | the guards of SetChannel, then one write of `ChannelBytes(channel, 0, 0x1000)` |
| `Pca9685.Pca9685.SetDutyCycle` | ghi_elect-windows-iot-183b64180b7c/Drivers/PCA9685.cs:103-115 | a duty outside 0..1 is refused before anything else; 1 turns the channel fully on, 0 fully off, and anything between writes ON 0 and OFF `DutyCount(duty)` |
| `Pca9685.Pca9685.SetChannel` | ghi_elect-windows-iot-183b64180b7c/Drivers/PCA9685.cs:117-130 | ObjectDisposed, then ArgumentOutOfRange for a channel outside 0..15 or a count above 4096, with no transfer; otherwise exactly one five-byte write of `ChannelBytes` |
| `Pca9685.Pca9685.ChannelBuffer` | ghi_elect-windows-iot-183b64180b7c/Drivers/PCA9685.cs:123-128 | the fresh five-byte buffer holds `ChannelBytes(channel, on, off)` |
| `Pca9685.Pca9685.WriteRegister` | ghi_elect-windows-iot-183b64180b7c/Drivers/PCA9685.cs:132-137 | a register write is one write of `[register, value]` |
| `Pca9685.Pca9685.ReadRegister` | ghi_elect-windows-iot-183b64180b7c/Drivers/PCA9685.cs:139-145 | a register read is one write-then-read of `[register]` that returns one byte |
| `Pca9535.GetAddress` | ghi_elect-windows-iot-183b64180b7c/Drivers/PCA9535.cs:40 | the address lies in 0x20..0x27, its upper bits are 0x20, and bits 0..2 are exactly the three address pins |
| `Pca9535.BitOf` | ghi_elect-windows-iot-183b64180b7c/Drivers/PCA9535.cs:97-102 | a valid pin (0..7 or 10..17) occupies a bit 0..7 of its port |
| `Pca9535.PinAt` | ghi_elect-windows-iot-183b64180b7c/Drivers/PCA9535.cs:80-86 | the pin number reported for bit i of port 0 or 1 is a valid pin on that port, at bit i |
| `Pca9535.PinNumbering` | ghi_elect-windows-iot-183b64180b7c/Drivers/PCA9535.cs:80-86 | pin numbers and (port, bit) pairs correspond one to one |
| `Pca9535.ChangesExactly` | ghi_elect-windows-iot-183b64180b7c/Drivers/PCA9535.cs:78-86 | a report is produced exactly for a pin whose bit differs between the cached and the new input byte, and it carries the new bit |
| `Pca9535.ChangesIncreasing` | ghi_elect-windows-iot-183b64180b7c/Drivers/PCA9535.cs:78-86 | reports come in increasing pin order, so no pin is reported twice |
| `Pca9535.NoChangeNoReport` | ghi_elect-windows-iot-183b64180b7c/Drivers/PCA9535.cs:78-86 | a port whose input byte did not change reports nothing |
| `Pca9535.Pca9535.constructor` | ghi_elect-windows-iot-183b64180b7c/Drivers/PCA9535.cs:46-62 | the output and configuration shadows start at 0xFF, and the interrupt pin becomes an input |
| `Pca9535.Pca9535.Dispose` | ghi_elect-windows-iot-183b64180b7c/Drivers/PCA9535.cs:64-73 | afterwards the driver is disposed |
| `Pca9535.Pca9535.OnInterruptValueChanged` | ghi_elect-windows-iot-183b64180b7c/Drivers/PCA9535.cs:75-89 | both input ports are read, in order; the reports are the changes of port 0, then those of port 1 numbered from 10; the cache then holds the new bytes |
| `Pca9535.Pca9535.Read` | ghi_elect-windows-iot-183b64180b7c/Drivers/PCA9535.cs:93-103 | ObjectDisposed, or ArgumentOutOfRange for an invalid pin, with no transfer; otherwise one read of the pin's input port, returning the pin's bit |
| `Pca9535.Pca9535.Write` | ghi_elect-windows-iot-183b64180b7c/Drivers/PCA9535.cs:105-133 | the guards as for Read; otherwise exactly the pin's bit of its output shadow takes the state, the other port's shadow is unchanged, and the whole shadow byte is written to 0x02 or 0x03 |
| `Pca9535.Pca9535.SetDriveMode` | ghi_elect-windows-iot-183b64180b7c/Drivers/PCA9535.cs:135-163 | the guards as for Read; otherwise the pin's configuration bit is set for Input and cleared for any other mode, and the whole byte is written to 0x06 or 0x07 |
| `Pca9535.Pca9535.WriteRegister` | ghi_elect-windows-iot-183b64180b7c/Drivers/PCA9535.cs:165-170 | a register write is one write of `[register, value]` |
| `Pca9535.Pca9535.ReadRegister` | ghi_elect-windows-iot-183b64180b7c/Drivers/PCA9535.cs:172-178 | a register read is one write-then-read of `[register]` that returns one byte |
| `Pca9535.WriteTouchesOneBit` | ghi_elect-windows-iot-183b64180b7c/Drivers/PCA9535.cs:105-133 | after a Write, the pin's shadow bit is the state written, and every other pin of the same port keeps its bit |
| `Led7c.ColorValue` | ghi_elect-windows-iot-183b64180b7c/Gadgeteer/Modules/LED7C.cs:13-22 | every colour's enum value lies in 0..7 |
| `Led7c.ColorOf` | ghi_elect-windows-iot-183b64180b7c/Gadgeteer/Modules/LED7C.cs:13-22 | each value 0..7 names the colour whose enum value it is |
| `Led7c.ColorValueInjective` | ghi_elect-windows-iot-183b64180b7c/Gadgeteer/Modules/LED7C.cs:13-22 | no two colours share an enum value |
| `Led7c.LevelsOf` | ghi_elect-windows-iot-183b64180b7c/Gadgeteer/Modules/LED7C.cs:31-35 | the red, green and blue levels (masks 4, 2, 1) spell the colour's value in binary |
| `Led7c.LevelsInjective` | ghi_elect-windows-iot-183b64180b7c/Gadgeteer/Modules/LED7C.cs:31-35 | different colours light different LED combinations |
| `Led7c.LevelsSurjective` | ghi_elect-windows-iot-183b64180b7c/Gadgeteer/Modules/LED7C.cs:31-35 | every combination of the three LEDs is lit by some colour |
| `Led7c.NamedColors` | ghi_elect-windows-iot-183b64180b7c/Gadgeteer/Modules/LED7C.cs:13-22 | the primaries light their one LED, the secondaries the two they mix, Off none and White all three |
| `Led7c.Led7c.constructor` | ghi_elect-windows-iot-183b64180b7c/Gadgeteer/Modules/LED7C.cs:9-11 | the module holds the three pins it is given |
| `Led7c.Led7c.SetColor` | ghi_elect-windows-iot-183b64180b7c/Gadgeteer/Modules/LED7C.cs:30-36 | each LED is switched to output and written with its bit of the colour; its handlers are untouched |
| `Led7c.Initialize` | ghi_elect-windows-iot-183b64180b7c/Gadgeteer/Modules/LED7C.cs:24-28 | red, green and blue are made from pins 4, 5 and 3, in that order, as fresh outputs driven low; creation succeeds exactly when the socket can make all three, and otherwise fails with the socket's error |
| `LedStrip.PinOf` | ghi_elect-windows-iot-183b64180b7c/Gadgeteer/Modules/LEDStrip.cs:16 | LED i is on socket pin i + 3 |
| `LedStrip.PinsInOrder` | ghi_elect-windows-iot-183b64180b7c/Gadgeteer/Modules/LEDStrip.cs:15-16 | Initialize's pins are pins 3..9, LED 0 first |
| `LedStrip.CheckAsWritten` | ghi_elect-windows-iot-183b64180b7c/Gadgeteer/Modules/LEDStrip.cs:30-32 | the index guard together with the 7-entry array lets exactly LEDs 0..6 through |
| `LedStrip.Check` | ghi_elect-windows-iot-183b64180b7c/Gadgeteer/Modules/LEDStrip.cs:30 | LEDs 0..6 pass; any other index is an ArgumentOutOfRange |
| `LedStrip.SeventhLedPassesGuard` | ghi_elect-windows-iot-183b64180b7c/Gadgeteer/Modules/LEDStrip.cs:30-32 | LED 7 passes the guard as written and then fails on the array with IndexOutOfRange instead of ArgumentOutOfRange |
| `LedStrip.ChecksAgreeElsewhere` | ghi_elect-windows-iot-183b64180b7c/Gadgeteer/Modules/LEDStrip.cs:30-32 | apart from LED 7 the written and the corrected checks give the same outcome |
| `LedStrip.LedStrip.constructor` | ghi_elect-windows-iot-183b64180b7c/Gadgeteer/Modules/LEDStrip.cs:10 | the strip holds the pins it is given |
| `LedStrip.LedStrip.TurnAllOn` | ghi_elect-windows-iot-183b64180b7c/Gadgeteer/Modules/LEDStrip.cs:19-22 | every LED gets one SetHigh, with its drive mode and handlers untouched |
| `LedStrip.LedStrip.TurnAllOff` | ghi_elect-windows-iot-183b64180b7c/Gadgeteer/Modules/LEDStrip.cs:24-27 | every LED gets one SetLow, with its drive mode and handlers untouched |
| `LedStrip.LedStrip.SetAll` | ghi_elect-windows-iot-183b64180b7c/Gadgeteer/Modules/LEDStrip.cs:47-50 | every LED is switched to output and written with the state |
| `LedStrip.LedStrip.TurnOnAsWritten` | ghi_elect-windows-iot-183b64180b7c/Gadgeteer/Modules/LEDStrip.cs:29-33 | the outcome is the written check's; on a pass only the chosen LED is set high, on a failure nothing changes |
| `LedStrip.LedStrip.TurnOn` | ghi_elect-windows-iot-183b64180b7c/Gadgeteer/Modules/LEDStrip.cs:29-33 | the outcome is the corrected check's; on a pass only the chosen LED is set high, on a failure nothing changes |
| `LedStrip.LedStrip.TurnOffAsWritten` | ghi_elect-windows-iot-183b64180b7c/Gadgeteer/Modules/LEDStrip.cs:35-39 | the outcome is the written check's; on a pass only the chosen LED is set low, on a failure nothing changes |
| `LedStrip.LedStrip.TurnOff` | ghi_elect-windows-iot-183b64180b7c/Gadgeteer/Modules/LEDStrip.cs:35-39 | the outcome is the corrected check's; on a pass only the chosen LED is set low, on a failure nothing changes |
| `LedStrip.LedStrip.SetAsWritten` | ghi_elect-windows-iot-183b64180b7c/Gadgeteer/Modules/LEDStrip.cs:41-45 | the outcome is the written check's; on a pass only the chosen LED is written, as an output, with the state |
| `LedStrip.LedStrip.Set` | ghi_elect-windows-iot-183b64180b7c/Gadgeteer/Modules/LEDStrip.cs:41-45 | the outcome is the corrected check's; on a pass only the chosen LED is written, as an output, with the state |
| `LedStrip.Initialize` | ghi_elect-windows-iot-183b64180b7c/Gadgeteer/Modules/LEDStrip.cs:12-17 | LED k is made from pin k + 3 as a fresh output driven low, LED 0 first; creation succeeds exactly when the socket can make all seven, and otherwise fails with the socket's error |
| `MaxO.CsQuot` | ghi_elect-windows-iot-183b64180b7c/Gadgeteer/Modules/MaxO.cs:96 | C#'s `/` truncates toward zero: the quotient agrees with Dafny's for non-negative dividends and is negated for negative ones |
| `MaxO.CsRem` | ghi_elect-windows-iot-183b64180b7c/Gadgeteer/Modules/MaxO.cs:99 | C#'s `%` completes the truncating division and takes the dividend's sign |
| `MaxO.PinMask` | ghi_elect-windows-iot-183b64180b7c/Gadgeteer/Modules/MaxO.cs:99 | for a non-negative pin the mask is bit `pin % 8`; for a negative remainder the 5-bit shift lands outside the byte and the mask is 0 |
| `MaxO.UpdateAsWrittenMeaning` | ghi_elect-windows-iot-183b64180b7c/Gadgeteer/Modules/MaxO.cs:98-103 | the written update sets or clears bit `pin % 8` for a non-negative pin and leaves the byte alone for a negative pin that is not a multiple of 8 |
| `MaxO.Index` | ghi_elect-windows-iot-183b64180b7c/Gadgeteer/Modules/MaxO.cs:96 | for a board from 1 and a pin in 0..31 the byte index lies among that board's own four bytes |
| `MaxO.SetPinGuardTooWide` | ghi_elect-windows-iot-183b64180b7c/Gadgeteer/Modules/MaxO.cs:94-96 | the guard lets through pin 32 of board 1 of a two-board chain, which then sets bit 0 of board 2's first byte; it lets through pin -1, which changes nothing, and it lets through board 0 |
| `MaxO.NoWrapInRange` | ghi_elect-windows-iot-183b64180b7c/Gadgeteer/Modules/MaxO.cs:94-96 | for a board from 1 whose byte count fits in an int and a pin in 0..31, the written guard's product and index do not wrap and equal the plain ones |
| `MaxO.SetPinGuardWraps` | ghi_elect-windows-iot-183b64180b7c/Gadgeteer/Modules/MaxO.cs:94-96 | board `0x4000_0000` passes the written guard of any shadow because `board * 4` wraps to 0, and pin 32 of it lands on byte 0, board 1's first |
| `MaxO.Reversed` | ghi_elect-windows-iot-183b64180b7c/Gadgeteer/Modules/MaxO.cs:80-82 | the result has the same length, and entry i is the source's entry from the other end |
| `MaxO.ReversedInvolution` | ghi_elect-windows-iot-183b64180b7c/Gadgeteer/Modules/MaxO.cs:80-82 | reversing twice gives the shadow back |
| `MaxO.ReversedInjective` | ghi_elect-windows-iot-183b64180b7c/Gadgeteer/Modules/MaxO.cs:80-82 | different shadows are sent as different byte strings |
| `MaxO.MaxO.constructor` | ghi_elect-windows-iot-183b64180b7c/Gadgeteer/Modules/MaxO.cs:20-23 | a new module holds its bus and its two lines, with no boards and a null shadow |
| `MaxO.MaxO.SetBoards` | ghi_elect-windows-iot-183b64180b7c/Gadgeteer/Modules/MaxO.cs:33-39 | a second set throws InvalidOperation and a count that is not positive throws ArgumentOutOfRange, both leaving the state alone; otherwise the count is stored with a fresh zeroed shadow of four bytes per board |
| `MaxO.MaxO.ArraySize` | ghi_elect-windows-iot-183b64180b7c/Gadgeteer/Modules/MaxO.cs:42-46 | four bytes per board once Boards is set; before that the null shadow makes it throw NullReference |
| `MaxO.MaxO.GetOutputEnabled` | ghi_elect-windows-iot-183b64180b7c/Gadgeteer/Modules/MaxO.cs:49-51 | the enable line is read as an input, and the outputs count as enabled exactly when it reads low |
| `MaxO.MaxO.SetOutputEnabled` | ghi_elect-windows-iot-183b64180b7c/Gadgeteer/Modules/MaxO.cs:52-54 | the enable line is written, as an output, with the opposite of the value |
| `MaxO.MaxO.Clear` | ghi_elect-windows-iot-183b64180b7c/Gadgeteer/Modules/MaxO.cs:57-72 | without boards it throws InvalidOperation and touches nothing; otherwise the outputs are disabled, clear is pulsed low around a one-byte write of 0, the outputs are enabled again, and the shadow ends all zeros |
| `MaxO.MaxO.Write` | ghi_elect-windows-iot-183b64180b7c/Gadgeteer/Modules/MaxO.cs:74-90 | without boards it throws InvalidOperation; a null buffer throws NullReference; a buffer of the wrong length throws Argument, with nothing touched; otherwise the buffer goes out back to front, with the outputs disabled around the write, and becomes the shadow |
| `MaxO.MaxO.SetPinAsWritten` | ghi_elect-windows-iot-183b64180b7c/Gadgeteer/Modules/MaxO.cs:92-106 | the guard as written rejects only a board whose `board * 4`, wrapped to 32 bits, is past the end; the index is `(board - 1) * 4 + pin / 8` with each step wrapped; an index outside the shadow throws IndexOutOfRange; otherwise the written byte update is applied at the written index and the whole shadow is sent |
| `MaxO.MaxO.SetPin` | ghi_elect-windows-iot-183b64180b7c/Gadgeteer/Modules/MaxO.cs:92-106 | a board outside 1..Boards throws Argument and a pin outside 0..31 throws ArgumentOutOfRange, with nothing touched; otherwise exactly bit `pin % 8` of the board's byte `pin / 8` takes the value, and the whole shadow is sent back to front |
| `MaxO.MaxO.ReadAsWritten` | ghi_elect-windows-iot-183b64180b7c/Gadgeteer/Modules/MaxO.cs:108-116 | without boards it throws InvalidOperation; otherwise it returns the shadow array itself |
| `MaxO.MaxO.Read` | ghi_elect-windows-iot-183b64180b7c/Gadgeteer/Modules/MaxO.cs:108-116 | without boards it throws InvalidOperation; otherwise it returns a fresh array with the shadow's contents |
| `MaxO.ReadAliasesShadow` | ghi_elect-windows-iot-183b64180b7c/Gadgeteer/Modules/MaxO.cs:115 | through the array the written Read returns, a caller changes the shadow with no transfer made |
| `MaxO.ReversedCopy` | ghi_elect-windows-iot-183b64180b7c/Gadgeteer/Modules/MaxO.cs:80-82 | the loop's result is the buffer reversed |
| `MaxO.Zero` | ghi_elect-windows-iot-183b64180b7c/Gadgeteer/Modules/MaxO.cs:70-71 | after the loop every byte of the shadow is 0 |
| `MaxO.Store` | ghi_elect-windows-iot-183b64180b7c/Gadgeteer/Modules/MaxO.cs:98-103 | exactly one byte of the shadow is replaced |
| `MaxO.CopyInto` | ghi_elect-windows-iot-183b64180b7c/Gadgeteer/Modules/MaxO.cs:86-87 | the target ends with the source's contents |
| `MaxO.Initialize` | ghi_elect-windows-iot-183b64180b7c/Gadgeteer/Modules/MaxO.cs:20-27 | the socket is asked for the SPI bus in mode 0, then makes pin 3 as the enable line driven low and pin 4 as the clear line driven high; the module starts with no boards and no transfers on its own byte-level SPI device |
| `MaxO.OpenPins` | ghi_elect-windows-iot-183b64180b7c/Gadgeteer/Modules/MaxO.cs:24-26 | on success the two lines are distinct fresh outputs, enable low and clear high, and the socket could make both pins |
| `CharacterDisplay.ReceivedAppend` | ghi_elect-windows-iot-183b64180b7c/Gadgeteer/Modules/CharacterDisplay.cs:54-64 | what the display latches from a call log split in two is what it latches from the first part, then from the second, starting from the levels the first part left |
| `CharacterDisplay.WriteLineReceived` | ghi_elect-windows-iot-183b64180b7c/Gadgeteer/Modules/CharacterDisplay.cs:55-58 | writing a data or RS line latches nothing and only moves that line |
| `CharacterDisplay.StrobeReceived` | ghi_elect-windows-iot-183b64180b7c/Gadgeteer/Modules/CharacterDisplay.cs:60-61 | E high then low latches one nibble, the data lines' value under RS's level, and leaves E low |
| `CharacterDisplay.NibbleReceived` | ghi_elect-windows-iot-183b64180b7c/Gadgeteer/Modules/CharacterDisplay.cs:54-64 | WriteNibble delivers exactly one nibble, the byte's low four bits, under the current RS level |
| `CharacterDisplay.CommandReceived` | ghi_elect-windows-iot-183b64180b7c/Gadgeteer/Modules/CharacterDisplay.cs:66-75 | SendCommand delivers the command as two command nibbles (RS low), high half first, and leaves RS high, E low and the backlight as it was |
| `CharacterDisplay.CharReceived` | ghi_elect-windows-iot-183b64180b7c/Gadgeteer/Modules/CharacterDisplay.cs:82-86 | a character other than a newline delivers the two nibbles of its casts under the RS level already on the line, leaving RS, E low and the backlight as they were |
| `CharacterDisplay.CharNibblesSpellByte` | ghi_elect-windows-iot-183b64180b7c/Gadgeteer/Modules/CharacterDisplay.cs:84-85 | the two nibbles put together are the character's low byte, so a character past 0xFF arrives as its low byte |
| `CharacterDisplay.NibblesRebuild` | ghi_elect-windows-iot-183b64180b7c/Gadgeteer/Modules/CharacterDisplay.cs:69-70 | the high and low nibbles of a byte give the byte back |
| `CharacterDisplay.CursorCommand` | ghi_elect-windows-iot-183b64180b7c/Gadgeteer/Modules/CharacterDisplay.cs:114 | the set-cursor command for a row in 0..1 and a column in 0..15 is 0x80 + 0x40 * row + column |
| `CharacterDisplay.CursorAddress` | ghi_elect-windows-iot-183b64180b7c/Gadgeteer/Modules/CharacterDisplay.cs:114 | OR-ing the set-cursor bit, the row's offset and the column adds them, since they occupy different bits |
| `CharacterDisplay.PrintedStep` | ghi_elect-windows-iot-183b64180b7c/Gadgeteer/Modules/CharacterDisplay.cs:77-80 | printing one more character appends that character's calls, made from the row the earlier characters left, and moves the row by it |
| `CharacterDisplay.PrintOneKeeps` | ghi_elect-windows-iot-183b64180b7c/Gadgeteer/Modules/CharacterDisplay.cs:82-90 | printing one character from rest leaves RS high and E low, so a character other than a newline is latched as two data nibbles |
| `CharacterDisplay.NewlineMovesToOtherRow` | ghi_elect-windows-iot-183b64180b7c/Gadgeteer/Modules/CharacterDisplay.cs:87-89 | a newline moves the cursor to column 0 of the other row, sent as a set-cursor command |
| `CharacterDisplay.MadeQuiet` | ghi_elect-windows-iot-183b64180b7c/Gadgeteer/Modules/CharacterDisplay.cs:27-33 | making a pin as an output drives it once and latches nothing, unless it is E falling from high |
| `CharacterDisplay.CreationQuiet` | ghi_elect-windows-iot-183b64180b7c/Gadgeteer/Modules/CharacterDisplay.cs:27-33 | making the seven pins latches nothing and leaves every line low but the backlight |
| `CharacterDisplay.FourCommandsReceived` | ghi_elect-windows-iot-183b64180b7c/Gadgeteer/Modules/CharacterDisplay.cs:37-40 | four commands in a row arrive as eight command nibbles, each command's high half first |
| `CharacterDisplay.InitializeReceived` | ghi_elect-windows-iot-183b64180b7c/Gadgeteer/Modules/CharacterDisplay.cs:26-43 | during Initialize the display receives, as commands, the nibbles 3, 3, 3, 2 (into 4-bit mode), then display on (0x0C) and clear (0x01), and nothing else |
| `CharacterDisplay.CharacterDisplay.constructor` | ghi_elect-windows-iot-183b64180b7c/Gadgeteer/Modules/CharacterDisplay.cs:21 | a display starts on row 0 with the given call log |
| `CharacterDisplay.CharacterDisplay.GetBacklightEnabled` | ghi_elect-windows-iot-183b64180b7c/Gadgeteer/Modules/CharacterDisplay.cs:46-48 | the backlight pin is switched to input and sampled, and the sample is the result |
| `CharacterDisplay.CharacterDisplay.SetBacklightEnabled` | ghi_elect-windows-iot-183b64180b7c/Gadgeteer/Modules/CharacterDisplay.cs:49-51 | the backlight pin is written with the value, and the backlight line then carries it |
| `CharacterDisplay.CharacterDisplay.SendInitCommands` | ghi_elect-windows-iot-183b64180b7c/Gadgeteer/Modules/CharacterDisplay.cs:37-40 | the four initialization commands are sent in order, and the lines end at rest |
| `CharacterDisplay.CharacterDisplay.SendCommand` | ghi_elect-windows-iot-183b64180b7c/Gadgeteer/Modules/CharacterDisplay.cs:66-75 | the command's calls are appended, and the display receives exactly its two command nibbles more |
| `CharacterDisplay.CharacterDisplay.PrintChar` | ghi_elect-windows-iot-183b64180b7c/Gadgeteer/Modules/CharacterDisplay.cs:82-90 | the character's calls from the current row are appended and the row moves by the character; a non-newline adds exactly its two data nibbles to what the display received |
| `CharacterDisplay.CharacterDisplay.Print` | ghi_elect-windows-iot-183b64180b7c/Gadgeteer/Modules/CharacterDisplay.cs:77-80 | the string's characters are printed in order from the current row, and the row ends where they leave it |
| `CharacterDisplay.CharacterDisplay.Clear` | ghi_elect-windows-iot-183b64180b7c/Gadgeteer/Modules/CharacterDisplay.cs:92-98 | the clear command is sent and the cursor is back on row 0 |
| `CharacterDisplay.CharacterDisplay.CursorHome` | ghi_elect-windows-iot-183b64180b7c/Gadgeteer/Modules/CharacterDisplay.cs:100-106 | the home command is sent and the cursor is back on row 0 |
| `CharacterDisplay.CharacterDisplay.SetCursorPosition` | ghi_elect-windows-iot-183b64180b7c/Gadgeteer/Modules/CharacterDisplay.cs:108-115 | a column past 15 or a row past 1 throws ArgumentOutOfRange before anything is sent; otherwise the row is remembered and the set-cursor command for that place is sent |
| `CharacterDisplay.Start` | ghi_elect-windows-iot-183b64180b7c/Gadgeteer/Modules/CharacterDisplay.cs:35-40 | after the pins are made the display is on row 0 and at rest, its log being the creation calls and the four commands |
| `CharacterDisplay.Initialize` | ghi_elect-windows-iot-183b64180b7c/Gadgeteer/Modules/CharacterDisplay.cs:26-43 | the seven pins are made in the order RS, E, D4, D5, D6, D7, backlight, all low but the backlight; creation succeeds exactly when the socket can make them all, and then the four initialization commands follow with the cursor on row 0 |
| `RotaryH1.Instruction` | ghi_elect-windows-iot-183b64180b7c/Gadgeteer/Modules/RotaryH1.cs:75 | the instruction byte carries the command in bits 7..6 and the register in bits 5..0 |
| `RotaryH1.InstructionInjective` | ghi_elect-windows-iot-183b64180b7c/Gadgeteer/Modules/RotaryH1.cs:107-121 | different command and register pairs give different instruction bytes |
| `RotaryH1.Mode0Byte` | ghi_elect-windows-iot-183b64180b7c/Gadgeteer/Modules/RotaryH1.cs:61-68 | the Mode0 byte is free running, index disabled, filter clock divided by two (0x80), with the mode's quadrature bits in bits 1..0 |
| `RotaryH1.Mode0ByteInjective` | ghi_elect-windows-iot-183b64180b7c/Gadgeteer/Modules/RotaryH1.cs:61-68 | each counting mode writes its own Mode0 byte |
| `RotaryH1.Decode` | ghi_elect-windows-iot-183b64180b7c/Gadgeteer/Modules/RotaryH1.cs:79 | the decoded counter is a 32-bit signed value, negative exactly when the top byte's high bit is set |
| `RotaryH1.Encode` | ghi_elect-windows-iot-183b64180b7c/Gadgeteer/Modules/RotaryH1.cs:79 | four bytes for a 32-bit signed value |
| `RotaryH1.Unsigned` | ghi_elect-windows-iot-183b64180b7c/Gadgeteer/Modules/RotaryH1.cs:79 | the unsigned value of four bytes lies in 0..2^32 - 1 |
| `RotaryH1.DecodeIsWrappedUnsigned` | ghi_elect-windows-iot-183b64180b7c/Gadgeteer/Modules/RotaryH1.cs:79 | Read's sum of shifted bytes is the bytes' unsigned value read as two's complement |
| `RotaryH1.UnsignedDigits` | ghi_elect-windows-iot-183b64180b7c/Gadgeteer/Modules/RotaryH1.cs:79 | the four bytes are the base-256 digits of their unsigned value, most significant first |
| `RotaryH1.EncodeUnsigned` | ghi_elect-windows-iot-183b64180b7c/Gadgeteer/Modules/RotaryH1.cs:79 | Encode's bytes spell the value modulo 2^32 |
| `RotaryH1.DecodeEncode` | ghi_elect-windows-iot-183b64180b7c/Gadgeteer/Modules/RotaryH1.cs:79 | decoding the encoding of a 32-bit signed value gives it back |
| `RotaryH1.EncodeDecode` | ghi_elect-windows-iot-183b64180b7c/Gadgeteer/Modules/RotaryH1.cs:79 | encoding a decoded counter gives the four bytes back, so no reading is lost |
| `RotaryH1.UnsignedInjective` | ghi_elect-windows-iot-183b64180b7c/Gadgeteer/Modules/RotaryH1.cs:79 | four bytes are determined by their unsigned value |
| `RotaryH1.InitBytes` | ghi_elect-windows-iot-183b64180b7c/Gadgeteer/Modules/RotaryH1.cs:30-38 | Initialize's transfers are the bytes 0x08, 0x10, 0x30, 0x20, 0xE8, then 0x88 0x81 and 0x90 0x00 |
| `RotaryH1.RotaryH1.constructor` | ghi_elect-windows-iot-183b64180b7c/Gadgeteer/Modules/RotaryH1.cs:23-25 | a new module has fresh distinct buffers of one, two and four bytes, and the default mode None |
| `RotaryH1.RotaryH1.Write` | ghi_elect-windows-iot-183b64180b7c/Gadgeteer/Modules/RotaryH1.cs:82-86 | exactly one transfer, the instruction byte alone |
| `RotaryH1.RotaryH1.WriteValue` | ghi_elect-windows-iot-183b64180b7c/Gadgeteer/Modules/RotaryH1.cs:88-100 | exactly one transfer, the instruction byte followed by the value |
| `RotaryH1.RotaryH1.Read` | ghi_elect-windows-iot-183b64180b7c/Gadgeteer/Modules/RotaryH1.cs:74-80 | exactly one write-then-read of the instruction byte and four bytes, and the result is those bytes decoded |
| `RotaryH1.RotaryH1.GetCount` | ghi_elect-windows-iot-183b64180b7c/Gadgeteer/Modules/RotaryH1.cs:41-45 | the counter is loaded into the output register, the output register is read, and the count is the four bytes decoded, within the 32-bit signed range |
| `RotaryH1.RotaryH1.ResetCount` | ghi_elect-windows-iot-183b64180b7c/Gadgeteer/Modules/RotaryH1.cs:47-49 | exactly one transfer, which clears the counter register |
| `RotaryH1.RotaryH1.SetMode` | ghi_elect-windows-iot-183b64180b7c/Gadgeteer/Modules/RotaryH1.cs:51-72 | setting the mode it already has sends nothing; any other mode is remembered and Mode0 is written with that mode's byte |
| `RotaryH1.SetModeTwice` | ghi_elect-windows-iot-183b64180b7c/Gadgeteer/Modules/RotaryH1.cs:56-57 | setting the same mode twice sends at most one transfer |
| `RotaryH1.Start` | ghi_elect-windows-iot-183b64180b7c/Gadgeteer/Modules/RotaryH1.cs:30-38 | after the pins are made the transfers are exactly the initialization sequence, and the mode is Quad1 |
| `RotaryH1.Initialize` | ghi_elect-windows-iot-183b64180b7c/Gadgeteer/Modules/RotaryH1.cs:20-39 | on success the socket could make pin 5, the enable line is a fresh output driven high, the module's own byte-level SPI device has seen exactly the initialization transfers, and the mode is Quad1 |
| `RotaryH1.OpenPins` | ghi_elect-windows-iot-183b64180b7c/Gadgeteer/Modules/RotaryH1.cs:27-28 | on success pin 5 is a fresh output driven high, after the bus is made in SPI mode 0 |
| `HubAp5.Cy8c9560a.constructor` | ghi_elect-windows-iot-183b64180b7c/Gadgeteer/Modules/HubAP5.cs:20 | a freshly opened expander has received no call |
| `HubAp5.Cy8c9560a.SetInput` | ghi_elect-windows-iot-183b64180b7c/Gadgeteer/Modules/HubAP5.cs:147 | records that the pin was made an input, and nothing else |
| `HubAp5.Cy8c9560a.SetOutput` | ghi_elect-windows-iot-183b64180b7c/Gadgeteer/Modules/HubAP5.cs:137 | records that the pin was made an output, and nothing else |
| `HubAp5.Cy8c9560a.SetInterrupt` | ghi_elect-windows-iot-183b64180b7c/Gadgeteer/Modules/HubAP5.cs:142 | records that the pin was made an interrupt input, and nothing else |
| `HubAp5.Cy8c9560a.SetPwm` | ghi_elect-windows-iot-183b64180b7c/Gadgeteer/Modules/HubAP5.cs:226 | records the PWM start with its frequency and duty cycle, and nothing else |
| `HubAp5.Cy8c9560a.ReadDigital` | ghi_elect-windows-iot-183b64180b7c/Gadgeteer/Modules/HubAP5.cs:151 | records the read together with the level it returns |
| `HubAp5.Cy8c9560a.WriteDigital` | ghi_elect-windows-iot-183b64180b7c/Gadgeteer/Modules/HubAP5.cs:155 | records the write with its level, and nothing else |
| `HubAp5.PinMapAsWritten` | ghi_elect-windows-iot-183b64180b7c/Gadgeteer/Modules/HubAP5.cs:42-116 | the table has one row for each of the eight sockets |
| `HubAp5.SharedExpanderPin` | ghi_elect-windows-iot-183b64180b7c/Gadgeteer/Modules/HubAP5.cs:95 | socket 6's pin Nine and socket 8's pin Seven are both given expander pin (6, 0) |
| `HubAp5.PinMap` | ghi_elect-windows-iot-183b64180b7c/Gadgeteer/Modules/HubAP5.cs:42-116 | the corrected table differs from the written one only in socket 6's pin Nine, moved to (7, 0) |
| `HubAp5.PinAt` | ghi_elect-windows-iot-183b64180b7c/Gadgeteer/Modules/HubAP5.cs:123 | the pin at offset k from Three has number k + 3 |
| `HubAp5.LocateInvertsRow` | ghi_elect-windows-iot-183b64180b7c/Gadgeteer/Modules/HubAP5.cs:42-116 | locating any expander pin of a socket's row gives back that socket and socket pin |
| `HubAp5.LocateInverts` | ghi_elect-windows-iot-183b64180b7c/Gadgeteer/Modules/HubAP5.cs:118-120 | every socket pin of the corrected table is recovered from its expander pin |
| `HubAp5.PinMapInjective` | ghi_elect-windows-iot-183b64180b7c/Gadgeteer/Modules/HubAP5.cs:42-116 | in the corrected table no two socket pins share an expander pin |
| `HubAp5.Lookup` | ghi_elect-windows-iot-183b64180b7c/Gadgeteer/Modules/HubAP5.cs:118-120 | on a given table: succeeds exactly for socket numbers 1..(rows), giving that row's entry for the pin; any other number is the list indexer's ArgumentOutOfRange |
| `HubAp5.GetPin` | ghi_elect-windows-iot-183b64180b7c/Gadgeteer/Modules/HubAP5.cs:118-120 | on the corrected table: succeeds exactly for sockets 1..8 with the corrected entry, else ArgumentOutOfRange |
| `HubAp5.GetPinAsWritten` | ghi_elect-windows-iot-183b64180b7c/Gadgeteer/Modules/HubAP5.cs:118-120 | on the table as written: succeeds exactly for sockets 1..8 with the written entry, else ArgumentOutOfRange |
| `HubAp5.CorrectionIsLocal` | ghi_elect-windows-iot-183b64180b7c/Gadgeteer/Modules/HubAP5.cs:95 | the written and corrected lookups agree everywhere except socket 6's pin Nine, which is (6, 0) as written and (7, 0) corrected |
| `HubAp5.GetChannel` | ghi_elect-windows-iot-183b64180b7c/Gadgeteer/Modules/HubAP5.cs:122-124 | the channel is a byte |
| `HubAp5.GetChannelFits` | ghi_elect-windows-iot-183b64180b7c/Gadgeteer/Modules/HubAP5.cs:122-124 | for sockets 1..8 the byte cast does not truncate, and the channel is (socket - 1) * 3 + (pin - 3), at most 27 |
| `HubAp5.GetChannelInjectiveInPin` | ghi_elect-windows-iot-183b64180b7c/Gadgeteer/Modules/HubAP5.cs:122-124 | within a socket different pins have different channels |
| `HubAp5.AnalogChannels` | ghi_elect-windows-iot-183b64180b7c/Gadgeteer/Modules/HubAP5.cs:29-31 | the analog pins Three to Five of the two A sockets get six different channels within 0..5, all of which the ADS7830 accepts |
| `HubAp5.HubTypesStated` | ghi_elect-windows-iot-183b64180b7c/Gadgeteer/Modules/HubAP5.cs:27-34 | every socket supports Y, sockets 1 and 2 also A, sockets 4 to 8 also P, and socket 3 only Y |
| `HubAp5.Configure` | ghi_elect-windows-iot-183b64180b7c/Gadgeteer/Modules/HubAP5.cs:27-38 | a new socket gets the types its number calls for and all three pin creators |
| `HubAp5.HubAp5.constructor` | ghi_elect-windows-iot-183b64180b7c/Gadgeteer/Modules/HubAP5.cs:11-22 | the hub holds its two chips and the pin table its creators use |
| `HubAp5.HubAp5.CreateDigitalIO` | ghi_elect-windows-iot-183b64180b7c/Gadgeteer/Modules/HubAP5.cs:36 | a socket number outside 1..8 throws ArgumentOutOfRange with no expander call; otherwise a fresh adapter on the hub table's pin for the socket and pin, whose expander pin is made an output, with cached mode Input and no interrupt |
| `HubAp5.HubAp5.CreateAnalogIO` | ghi_elect-windows-iot-183b64180b7c/Gadgeteer/Modules/HubAP5.cs:37 | a socket number outside 1..8 throws ArgumentOutOfRange with no expander call; otherwise a fresh adapter on the socket pin's channel and the hub's two chips, whose expander pin (from the hub's table) is made an input |
| `HubAp5.HubAp5.CreatePwmOutput` | ghi_elect-windows-iot-183b64180b7c/Gadgeteer/Modules/HubAP5.cs:38 | a socket number outside 1..8 throws ArgumentOutOfRange; otherwise a fresh adapter on the hub table's pin for the socket and pin |
| `HubAp5.AddSocket` | ghi_elect-windows-iot-183b64180b7c/Gadgeteer/Modules/HubAP5.cs:26-38 | a number the module already provides throws Argument and changes nothing; otherwise exactly that number gets a fresh configured socket |
| `HubAp5.SharedOutputAsWritten` | ghi_elect-windows-iot-183b64180b7c/Gadgeteer/Modules/HubAP5.cs:95 | a hub on the table as written gives socket 6's pin Nine and socket 8's pin Seven the same expander pin, (6, 0), and its digital creator makes that one pin an output twice |
| `HubAp5.SeparateOutputs` | ghi_elect-windows-iot-183b64180b7c/Gadgeteer/Modules/HubAP5.cs:95 | a hub on the corrected table gives those two socket pins (7, 0) and (6, 0), each made an output once |
| `HubAp5.Initialize` | ghi_elect-windows-iot-183b64180b7c/Gadgeteer/Modules/HubAP5.cs:18-40 | creation succeeds exactly when none of 1..8 is already provided; sockets already provided are kept; on success 1..8 each hold a fresh configured socket, both chips are fresh and unused, and the hub's creators use the corrected table |
| `HubAp5.ModeCall` | ghi_elect-windows-iot-183b64180b7c/Gadgeteer/Modules/HubAP5.cs:163-175 | Input makes the pin an interrupt input while an interrupt is enabled and a plain input otherwise; any other mode makes it an output |
| `HubAp5.IndirectedDigitalIO.constructor` | ghi_elect-windows-iot-183b64180b7c/Gadgeteer/Modules/HubAP5.cs:132-138 | the adapter makes its expander pin an output, while its cached mode starts as Input and no interrupt is enabled |
| `HubAp5.IndirectedDigitalIO.EnableInterrupt` | ghi_elect-windows-iot-183b64180b7c/Gadgeteer/Modules/HubAP5.cs:140-143 | the interrupt flag is set and the pin made an interrupt input |
| `HubAp5.IndirectedDigitalIO.DisableInterrupt` | ghi_elect-windows-iot-183b64180b7c/Gadgeteer/Modules/HubAP5.cs:145-148 | the interrupt flag is cleared and the pin made a plain input |
| `HubAp5.IndirectedDigitalIO.ReadInternal` | ghi_elect-windows-iot-183b64180b7c/Gadgeteer/Modules/HubAP5.cs:150-152 | one expander read, whose level is the result |
| `HubAp5.IndirectedDigitalIO.WriteInternal` | ghi_elect-windows-iot-183b64180b7c/Gadgeteer/Modules/HubAP5.cs:154-156 | one expander write of the level |
| `HubAp5.IndirectedDigitalIO.SetDriveMode` | ghi_elect-windows-iot-183b64180b7c/Gadgeteer/Modules/HubAP5.cs:158-177 | the mode is cached and exactly the mode's expander call is made |
| `HubAp5.IndirectedDigitalIO.Read` | ghi_elect-windows-iot-183b64180b7c/Gadgeteer/Modules/HubAP5.cs:150-152 | the pin is made an input (an interrupt input if one is enabled) and then read |
| `HubAp5.IndirectedDigitalIO.Write` | ghi_elect-windows-iot-183b64180b7c/Gadgeteer/Modules/HubAP5.cs:154-156 | the pin is made an output and then written |
| `HubAp5.FullScaleAsWritten` | ghi_elect-windows-iot-183b64180b7c/Gadgeteer/Modules/HubAP5.cs:195-197 | a full-scale conversion is a fraction of 1, which the written ReadInternal returns as a voltage, so ReadProportion gives 1 / 3.3 instead of 1; the voltage is 3.3 V |
| `HubAp5.IndirectedAnalogIO.constructor` | ghi_elect-windows-iot-183b64180b7c/Gadgeteer/Modules/HubAP5.cs:187-193 | the adapter keeps its channel and chips and makes its expander pin an input |
| `HubAp5.IndirectedAnalogIO.ReadInternalAsWritten` | ghi_elect-windows-iot-183b64180b7c/Gadgeteer/Modules/HubAP5.cs:195-197 | a disposed converter throws ObjectDisposed and a channel outside the written range 0..8 throws ArgumentOutOfRange, with no transfer; otherwise, channel 8 included, one conversion, returned as a fraction of full scale |
| `HubAp5.IndirectedAnalogIO.ReadInternal` | ghi_elect-windows-iot-183b64180b7c/Gadgeteer/Modules/HubAP5.cs:195-197 | the same errors; otherwise one conversion, returned as a voltage on the 3.3 V scale |
| `HubAp5.IndirectedAnalogIO.ReadProportion` | ghi_elect-windows-iot-183b64180b7c/Gadgeteer/Modules/HubAP5.cs:195-197 | the same errors; otherwise one conversion whose proportion is the converter's fraction of full scale |
| `HubAp5.IndirectedAnalogIO.WriteInternal` | ghi_elect-windows-iot-183b64180b7c/Gadgeteer/Modules/HubAP5.cs:199-201 | always throws NotSupported |
| `HubAp5.IndirectedAnalogIO.DriveMode` | ghi_elect-windows-iot-183b64180b7c/Gadgeteer/Modules/HubAP5.cs:204-206 | the mode reads as Input |
| `HubAp5.IndirectedAnalogIO.SetDriveMode` | ghi_elect-windows-iot-183b64180b7c/Gadgeteer/Modules/HubAP5.cs:208-211 | Input is accepted; any other mode throws NotSupported |
| `HubAp5.IndirectedPwmOutput.constructor` | ghi_elect-windows-iot-183b64180b7c/Gadgeteer/Modules/HubAP5.cs:219-222 | the adapter keeps its pin and expander, with no call made |
| `HubAp5.IndirectedPwmOutput.SetEnabled` | ghi_elect-windows-iot-183b64180b7c/Gadgeteer/Modules/HubAP5.cs:224-231 | enabling starts the PWM with the current frequency and duty cycle; disabling makes the pin an input |
| `HubAp5.IndirectedPwmOutput.SetValues` | ghi_elect-windows-iot-183b64180b7c/Gadgeteer/Modules/HubAP5.cs:233-235 | the PWM is restarted with the new frequency and duty cycle |
| `FezCream.ExpanderLinesValid` | ghi_elect-windows-iot-183b64180b7c/Gadgeteer/Modules/FEZCream.cs:163-207 | every expander line in the GPIO table names expander 1 or 2 and a pin the PCA9535 accepts |
| `FezCream.OwnerInverts` | ghi_elect-windows-iot-183b64180b7c/Gadgeteer/Modules/FEZCream.cs:163-207 | reading the GPIO table backwards gives every socket pin back from its expander line |
| `FezCream.ExpanderLinesDistinct` | ghi_elect-windows-iot-183b64180b7c/Gadgeteer/Modules/FEZCream.cs:163-207 | no two socket pins share an expander line |
| `FezCream.PwmSharingWired` | ghi_elect-windows-iot-183b64180b7c/Gadgeteer/Modules/FEZCream.cs:246-255 | every PWM pin's channel is in the sharing table, so the lookup does not throw; the shared line is the pin's own expander line; the select line is one of pins 2 to 7 of expander 1; the channel is not the debug LED's |
| `FezCream.PwmChannelsDistinct` | ghi_elect-windows-iot-183b64180b7c/Gadgeteer/Modules/FEZCream.cs:223-255 | different PWM pins have different channels and different select lines |
| `FezCream.SelectLinesFree` | ghi_elect-windows-iot-183b64180b7c/Gadgeteer/Modules/FEZCream.cs:163-255 | no multiplexer select line is any socket pin's expander line |
| `FezCream.AnalogSharingWired` | ghi_elect-windows-iot-183b64180b7c/Gadgeteer/Modules/FEZCream.cs:209-244 | every analog pin has a channel the ADS7830 accepts, and it is shared exactly when the pin also has a digital line: the native pin when the table says chip 0, the pin's own expander line otherwise |
| `FezCream.AnalogChannelsDistinct` | ghi_elect-windows-iot-183b64180b7c/Gadgeteer/Modules/FEZCream.cs:209-221 | different analog pins have different channels |
| `FezCream.SocketsMatchTables` | ghi_elect-windows-iot-183b64180b7c/Gadgeteer/Modules/FEZCream.cs:45-97 | the A sockets are exactly those with analog pins and the P sockets those with PWM pins; only socket 3 lacks the digital creator; every pin with an expander line is on a socket with the digital creator and has no native line |
| `FezCream.Configure` | ghi_elect-windows-iot-183b64180b7c/Gadgeteer/Modules/FEZCream.cs:45-97 | socket n gets the types, native pins, creators and bus ids its part of Initialize gives it |
| `FezCream.ConfigureI2c` | ghi_elect-windows-iot-183b64180b7c/Gadgeteer/Modules/FEZCream.cs:45-49 | type I, pin Three native, the I2C1 bus and the digital creator |
| `FezCream.ConfigureSpi` | ghi_elect-windows-iot-183b64180b7c/Gadgeteer/Modules/FEZCream.cs:56-62 | types S and X, pins Three to Five native, the SPI0 bus with chip select 0, and no creator |
| `FezCream.ConfigureSignal` | ghi_elect-windows-iot-183b64180b7c/Gadgeteer/Modules/FEZCream.cs:69-91 | type A with the analog creator or types P and Y with the PWM creator, pin Three native, and the digital creator |
| `FezCream.AddSocket` | ghi_elect-windows-iot-183b64180b7c/Gadgeteer/Modules/FEZCream.cs:45-97 | a number the module already provides throws Argument and changes nothing; otherwise exactly that number gets a fresh configured socket |
| `FezCream.CreateSockets` | ghi_elect-windows-iot-183b64180b7c/Gadgeteer/Modules/FEZCream.cs:43-97 | sockets 1 to 9 are created exactly when none is provided yet; sockets already provided are kept; on success each of 1..9 holds a fresh configured socket |
| `FezCream.ModeChangeIsLocal` | ghi_elect-windows-iot-183b64180b7c/Gadgeteer/Modules/FEZCream.cs:300 | a mode change sets the pin's configuration bit as the mode says (set for an input) and keeps every other pin's |
| `FezCream.DriveLine` | ghi_elect-windows-iot-183b64180b7c/Gadgeteer/Modules/FEZCream.cs:119-120 | a port-0 line made an output and driven: exactly its configuration bit cleared and its output bit set, in two register writes |
| `FezCream.SelectsConfigBits` | ghi_elect-windows-iot-183b64180b7c/Gadgeteer/Modules/FEZCream.cs:38-41 | after the loop's first steps exactly the pins handled so far are outputs among port 0's |
| `FezCream.HighStaysHigh` | ghi_elect-windows-iot-183b64180b7c/Gadgeteer/Modules/FEZCream.cs:40 | driving a line high on an all-high output byte changes nothing |
| `FezCream.SelectsStartHigh` | ghi_elect-windows-iot-183b64180b7c/Gadgeteer/Modules/FEZCream.cs:38-41 | every select line is among pins 2 to 7, is an output after Initialize's loop, and is driven high, so every PWM pin starts on its expander line |
| `FezCream.FezCream.constructor` | ghi_elect-windows-iot-183b64180b7c/Gadgeteer/Modules/FEZCream.cs:31-36 | the board holds its four chips and has made no native input |
| `FezCream.FezCream.Gpio` | ghi_elect-windows-iot-183b64180b7c/Gadgeteer/Modules/FEZCream.cs:123 | chip 1 is the first expander and chip 2 the second |
| `FezCream.FezCream.SetDebugLed` | ghi_elect-windows-iot-183b64180b7c/Gadgeteer/Modules/FEZCream.cs:100-107 | channel 15 is written fully on or fully off; a disposed chip throws ObjectDisposed |
| `FezCream.FezCream.CreateDigitalIO` | ghi_elect-windows-iot-183b64180b7c/Gadgeteer/Modules/FEZCream.cs:109-124 | succeeds exactly for a pin with an expander line, else UnsupportedPinMode with nothing touched; a PWM pin's select line is first made an output driven high; the adapter is on the pin's line of its expander |
| `FezCream.FezCream.CreateAnalogIO` | ghi_elect-windows-iot-183b64180b7c/Gadgeteer/Modules/FEZCream.cs:126-146 | succeeds exactly for an analog pin, else UnsupportedPinMode; a shared channel's digital line is first made an input, natively or on expander 2; the adapter is on the pin's channel |
| `FezCream.FezCream.CreatePwmOutput` | ghi_elect-windows-iot-183b64180b7c/Gadgeteer/Modules/FEZCream.cs:148-161 | succeeds exactly for a PWM pin, else UnsupportedPinMode with nothing touched; the pin's expander line is made an input and its select line an output driven low, in three register writes |
| `FezCream.SelectsOn` | ghi_elect-windows-iot-183b64180b7c/Gadgeteer/Modules/FEZCream.cs:38-41 | pins 2 to 7 of expander 1 become outputs driven high, and nothing else changes |
| `FezCream.Start` | ghi_elect-windows-iot-183b64180b7c/Gadgeteer/Modules/FEZCream.cs:31-41 | the chips are fresh and open; the PCA9685 has had its two mode writes; expander 1 has made its select lines outputs driven high; expander 2 is untouched |
| `FezCream.Initialize` | ghi_elect-windows-iot-183b64180b7c/Gadgeteer/Modules/FEZCream.cs:24-98 | creation succeeds exactly when none of 1..9 is already provided; sockets already provided are kept; on success 1..9 each hold a fresh configured socket, and the chips are as `Start` leaves them: the converter open with no transfer, the PCA9685's two mode writes, expander 1's select lines outputs driven high, expander 2 untouched, no native input |
| `FezCream.Matching` | ghi_elect-windows-iot-183b64180b7c/Gadgeteer/Modules/FEZCream.cs:268-271 | no more values than reports |
| `FezCream.MatchingChanges` | ghi_elect-windows-iot-183b64180b7c/Gadgeteer/Modules/FEZCream.cs:268-271 | of the chip's change reports for a port, a pin's handler sees exactly the new level of its own pin, and only if that pin changed |
| `FezCream.IndirectedDigitalIO.constructor` | ghi_elect-windows-iot-183b64180b7c/Gadgeteer/Modules/FEZCream.cs:262-266 | the adapter is on the given pin and expander, its cached mode Input, not subscribed |
| `FezCream.IndirectedDigitalIO.EnableInterrupt` | ghi_elect-windows-iot-183b64180b7c/Gadgeteer/Modules/FEZCream.cs:273-275 | the handler is subscribed to the expander's change event |
| `FezCream.IndirectedDigitalIO.DisableInterrupt` | ghi_elect-windows-iot-183b64180b7c/Gadgeteer/Modules/FEZCream.cs:277-279 | the handler is unsubscribed |
| `FezCream.IndirectedDigitalIO.Notifications` | ghi_elect-windows-iot-183b64180b7c/Gadgeteer/Modules/FEZCream.cs:268-271 | a subscribed adapter forwards the new level of every report for its own pin, in order; an unsubscribed one forwards nothing |
| `FezCream.IndirectedDigitalIO.SetDriveMode` | ghi_elect-windows-iot-183b64180b7c/Gadgeteer/Modules/FEZCream.cs:295-304 | the expander's mode write for the pin happens before the mode is cached; an expander that cannot act throws and changes nothing |
| `FezCream.IndirectedDigitalIO.ReadInternal` | ghi_elect-windows-iot-183b64180b7c/Gadgeteer/Modules/FEZCream.cs:281-286 | the pin is switched to input first only if it is not one; the result is the pin's bit of the input register read |
| `FezCream.IndirectedDigitalIO.WriteInternal` | ghi_elect-windows-iot-183b64180b7c/Gadgeteer/Modules/FEZCream.cs:288-293 | the pin is switched to output first only if it is not one; then exactly its output bit takes the value |
| `FezCream.IndirectedAnalogIO.constructor` | ghi_elect-windows-iot-183b64180b7c/Gadgeteer/Modules/FEZCream.cs:313-316 | the adapter keeps its channel and converter |
| `FezCream.IndirectedAnalogIO.ReadInternal` | ghi_elect-windows-iot-183b64180b7c/Gadgeteer/Modules/FEZCream.cs:318-320 | a disposed converter or an unaccepted channel throws with no transfer; otherwise one conversion, as a voltage on the 3.3 V scale |
| `FezCream.IndirectedAnalogIO.WriteInternal` | ghi_elect-windows-iot-183b64180b7c/Gadgeteer/Modules/FEZCream.cs:322-324 | always throws NotSupported |
| `FezCream.IndirectedAnalogIO.DriveMode` | ghi_elect-windows-iot-183b64180b7c/Gadgeteer/Modules/FEZCream.cs:327-329 | the mode reads as Input |
| `FezCream.IndirectedAnalogIO.SetDriveMode` | ghi_elect-windows-iot-183b64180b7c/Gadgeteer/Modules/FEZCream.cs:330-333 | Input is accepted; any other mode throws NotSupported |
| `FezCream.Truncate` | ghi_elect-windows-iot-183b64180b7c/Gadgeteer/Modules/FEZCream.cs:355 | the C# `(int)` cast of a double truncates toward zero |
| `FezCream.DutyWrite` | ghi_elect-windows-iot-183b64180b7c/Gadgeteer/Modules/FEZCream.cs:357-362 | a channel outside 0..15 or a duty cycle outside 0..1 throws ArgumentOutOfRange; 1 is written fully on without the duty-cycle check |
| `FezCream.DutyWriteEnds` | ghi_elect-windows-iot-183b64180b7c/Gadgeteer/Modules/FEZCream.cs:357-362 | a duty cycle of 1 is fully on, 0 fully off, and the two writes differ |
| `FezCream.IndirectedPwmOutput.constructor` | ghi_elect-windows-iot-183b64180b7c/Gadgeteer/Modules/FEZCream.cs:341-344 | the adapter keeps its channel and chip |
| `FezCream.IndirectedPwmOutput.SetValues` | ghi_elect-windows-iot-183b64180b7c/Gadgeteer/Modules/FEZCream.cs:354-363 | a disposed chip or a truncated frequency outside 40..1500 throws with no transfer; otherwise the chip is retuned to the truncated frequency, then the channel's duty write is made or its error thrown |
| `FezCream.IndirectedPwmOutput.SetEnabled` | ghi_elect-windows-iot-183b64180b7c/Gadgeteer/Modules/FEZCream.cs:346-352 | disabling turns the channel fully off; enabling applies the current frequency and duty cycle as SetValues does |

## Left out

- async/await: every `Create*Async` and `Initialize` is a synchronous method.
- Events and delegates become returned lists. The PCA9535 `PinChanged` event is the report
  list `OnInterruptValueChanged` returns; a DigitalIO's `ValueChanged` invocation is the
  subscriber list `OnValueChanged` returns. Timestamps are not modelled.
- Timing: the fixed millisecond delays of the character display, MaxO and the I2C master are not
  modelled.
- SoftwareInterfaces.I2cDevice.WaitForScl: the number of low SCL reads before the high one is
  chosen by the environment, with no bound. A slave that never releases the clock, which hangs
  the real loop, is not modelled.
- Floating point: doubles are exact reals. This covers the ADS7830's `/ 255.0`, the FEZ Cream's
  `* MaxVoltage`, the PCA9685 duty-cycle count and the PWM frequency and duty values. The
  PCA9685 Frequency getter and the AnalogIO proportion members (SocketInterfaces.cs:108-132)
  are not modelled.
- FezCream.Truncate: a double too large for an int is not modelled, nor are NaN and infinities.
- NativeInterfaces.cs is not part of this model. A native pin or bus appears only as a log
  entry on the socket and a fresh interface object. The native AnalogIO stub appears only as the
  NotSupported its DriveMode setter throws, and the native PwmOutput stub as an output whose
  two calls throw NotSupported (`supported` false).
- Connection settings: I2C and SPI clock frequencies, native device ids and the chip-select
  line of a native SPI bus are left out, apart from being recorded on the socket.
- CY8C9560A.cs is not part of this model. The Hub AP5's expander (`HubAp5.Cy8c9560a`) only
  records the calls made on it, and the interrupt callback passed to `SetInterrupt` is not
  modelled.
- Dispose is modelled as the disposed flag only; releasing OS handles is not modelled.
- FezCream.FezCream: the `gpios` array of two expanders is two fields, `gpio1` and `gpio2`.
  Opening a native GPIO in the analog creator is recorded as the line number in
  `nativeInputs`.
- FezCream.FezCream.CreateDigitalIO, FezCream.FezCream.CreateAnalogIO and
  FezCream.FezCream.CreatePwmOutput require `Valid()`: the two expanders are distinct and not
  disposed. The board never disposes them, and the disposed paths of the expander calls are
  not restated for the creators.
- MaxO.Initialize: the bus the socket returns is not handed to the module. The module records
  its transfers on a fresh byte-level SPI device instead, so its writes are stated as byte
  transfers, not as the pin activity of a software bus or a call on the socket's native bus.
  Only the success direction is stated (success implies the socket could make pins 3 and 4),
  and the failure cases of the SPI bus creation are not enumerated.
- RotaryH1.Initialize: the bus the socket returns is not handed to the module either. Its
  transfers are recorded on a fresh byte-level SPI device in the same way. Only the success
  direction is stated (success implies the socket could make pin 5), and the failure cases of
  the SPI bus creation are not enumerated.
- MaxO.MaxO.SetBoards: the 32-bit overflow of `value * 4` for a count above 2^29 is not
  modelled.
- Strings are sequences of Unicode scalar values, not UTF-16 code units. A surrogate pair is
  therefore not split into two display characters.
- Sockets.Socket: what an installed creator does is modelled by the board that installs it
  (`FezCream.FezCream.Create*`, `HubAp5.HubAp5.Create*`). The socket records only that it
  called the creator and hands out a fresh interface.

## Findings

| source | as written | input that shows it | evidently intended | confidence | as-written member | corrected member |
|---|---|---|---|---|---|---|
| ghi_elect-windows-iot-183b64180b7c/Gadgeteer/Core/SoftwareInterfaces.cs:215-219 | SPI `Read` calls `WriteRead(null, buffer, true)`, whose first statement reads `writeBuffer.Length` | any non-null read buffer | a read that clocks out zeros and fills the buffer | not executed | `SoftwareSpi.SpiDevice.ReadAsWritten` | `SoftwareSpi.SpiDevice.Read` |
| ghi_elect-windows-iot-183b64180b7c/Gadgeteer/Core/SoftwareInterfaces.cs:221-227 | SPI `WriteThenRead`'s read phase passes a null write buffer in the same way | any two non-null buffers: the write runs, then NullReference leaves chip select low | a write, then a read, then chip select raised | not executed | `SoftwareSpi.SpiDevice.WriteThenReadAsWritten` | `SoftwareSpi.SpiDevice.WriteThenRead` |
| ghi_elect-windows-iot-183b64180b7c/Gadgeteer/Core/SoftwareInterfaces.cs:249-272 | `WriteRead` runs `max(writeLength, readLength)` slots and ORs into `readBuffer[i]` in each of them | `WriteAndRead` with a 2-byte write buffer and a 1-byte read buffer: IndexOutOfRange in slot 1 | samples stored only into bytes that exist | not executed | `SoftwareSpi.SpiDevice.WriteReadAsWritten` | `SoftwareSpi.SpiDevice.WriteRead` |
| ghi_elect-windows-iot-183b64180b7c/Gadgeteer/Core/SocketInterfaces.cs:83-86 | the falling-edge test is `(InterruptType & FallingEdge) != 0`, and FallingEdge is 0 | InterruptType = FallingEdge and a change to low: nothing is raised | falling edges forwarded when requested | not executed | `SocketInterfaces.FallingEdgeNeverForwarded` | `SocketInterfaces.DigitalIO.OnValueChanged` |
| ghi_elect-windows-iot-183b64180b7c/Drivers/ADS7830.cs:34 | the guard rejects `channel > 8`, so channel 8 is accepted | `Read(8)` sends channel 1's command and returns channel 1 | channels 0 to 7 only | not executed | `Ads7830.ChannelEightAliasesOne` | `Ads7830.Ads7830.Read` |
| ghi_elect-windows-iot-183b64180b7c/Gadgeteer/Modules/LEDStrip.cs:30 | the guard rejects `led > 7` on a 7-entry array | `TurnOn(7)`: IndexOutOfRange instead of ArgumentOutOfRange | LEDs 0 to 6 only | not executed | `LedStrip.SeventhLedPassesGuard` | `LedStrip.LedStrip.TurnOn` |
| ghi_elect-windows-iot-183b64180b7c/Gadgeteer/Modules/MaxO.cs:94-96 | only `board * 4 > data.Length` is checked; the pin is not | two boards, `SetPin(1, 32, true)`: bit 0 of board 2 is set | board 1..Boards, pin 0..31 | not executed | `MaxO.SetPinGuardTooWide` | `MaxO.MaxO.SetPin` |
| ghi_elect-windows-iot-183b64180b7c/Gadgeteer/Modules/MaxO.cs:94-96 | `board * 4` and the index are computed in wrapping 32-bit int arithmetic | one board, `SetPin(0x40000000, 32, true)`: the product wraps to 0, the guard passes, and bit 0 of board 1's byte 0 is set | a board outside 1..Boards rejected, whatever its product wraps to | not executed | `MaxO.SetPinGuardWraps` | `MaxO.MaxO.SetPin` |
| ghi_elect-windows-iot-183b64180b7c/Gadgeteer/Modules/MaxO.cs:108-116 | `Read` builds a copy and returns `this.data` | writing 0xFF into the returned array's byte 0 changes the shadow with no transfer | the copy returned | not executed | `MaxO.ReadAliasesShadow` | `MaxO.MaxO.Read` |
| ghi_elect-windows-iot-183b64180b7c/Gadgeteer/Modules/HubAP5.cs:95 | socket 6's pin Nine is given expander pin (6, 0) | socket 8's pin Seven is (6, 0) too (line 111), so driving one drives the other | (7, 0): it carries socket 6's run (6, 6), (6, 7) on into port 7, just before socket 5's (7, 1), (7, 2), (7, 3), and no socket pin uses it | not executed | `HubAp5.SharedOutputAsWritten` | `HubAp5.PinMapInjective` |
| ghi_elect-windows-iot-183b64180b7c/Gadgeteer/Modules/HubAP5.cs:195-197 | `ReadInternal` returns the ADS7830's fraction of full scale where a voltage is expected | a full-scale input reads as 1 V, and as a proportion of 1 / 3.3 | the fraction times the 3.3 V full scale, as on the FEZ Cream | not executed | `HubAp5.FullScaleAsWritten` | `HubAp5.IndirectedAnalogIO.ReadProportion` |

=== FILE: ads7830.dfy ===
/** The ADS7830 eight-channel 8-bit analog-to-digital converter on I2C: its address, the command
  * byte that selects a single-ended channel, and the one-transfer read. */
module Ads7830 {
  import opened Errors
  import opened Transfers

  /** The chip's 7-bit address: 0x48 with the two address pins in bits 0 and 1. */
  function GetAddress(a0: bool, a1: bool): (r: bv8)
    ensures 0x48 <= r <= 0x4B
    ensures r & 0xFC == 0x48
    ensures (r & 0x01 != 0) == a0 && (r & 0x02 != 0) == a1
  {
    0x48 | (if a0 then 0x01 else 0x00) | (if a1 then 0x02 else 0x00)
  }

  /** The channel-select field of the command: even channels map to `channel / 2`, odd ones to
    * `(channel - 1) / 2 + 4` (the chip numbers its single-ended inputs 0, 2, 4, 6, 1, 3, 5, 7). */
  function Selector(channel: int): (sel: int)
    requires 0 <= channel <= 8
    ensures 0 <= sel <= 7
    ensures channel < 8 ==> (sel < 4 <==> channel % 2 == 0)
  {
    if channel % 2 == 0 then channel / 2 else (channel - 1) / 2 + 4
  }

  /** The channel a selector value stands for: the inverse of `Selector` on channels 0 to 7. */
  function ChannelOf(sel: int): (channel: int)
    requires 0 <= sel <= 7
    ensures 0 <= channel <= 7
  {
    if sel < 4 then 2 * sel else 2 * (sel - 4) + 1
  }

  /** `Selector` is a bijection from channels 0..7 onto 0..7: `ChannelOf` undoes it both ways. */
  lemma SelectorBijective(channel: int, sel: int)
    requires 0 <= channel <= 7 && 0 <= sel <= 7
    ensures ChannelOf(Selector(channel)) == channel
    ensures Selector(ChannelOf(sel)) == sel
  {
  }

  /** The command byte: single-ended mode with the internal reference off and the converter on
    * (0x84), and the selector in bits 6..4. */
  function Command(channel: int): (cmd: bv8)
    requires 0 <= channel <= 8
    ensures cmd & 0x8F == 0x84
  {
    0x84 | ((Selector(channel) as bv8) << 4)
  }

  /** The command carries its selector in bits 6..4, so it can be read back from the byte. */
  lemma CommandSelects(channel: int)
    requires 0 <= channel <= 8
    ensures ((Command(channel) >> 4) & 0x07) as int == Selector(channel)
  {
    var sel := Selector(channel);
    assert 0 <= sel <= 7;
    if sel == 0 { } else if sel == 1 { } else if sel == 2 { } else if sel == 3 { }
    else if sel == 4 { } else if sel == 5 { } else if sel == 6 { } else { }
  }

  /** Distinct channels 0..7 send distinct commands. */
  lemma CommandInjective(c1: int, c2: int)
    requires 0 <= c1 <= 7 && 0 <= c2 <= 7
    requires Command(c1) == Command(c2)
    ensures c1 == c2
  {
    CommandSelects(c1);
    CommandSelects(c2);
    SelectorBijective(c1, Selector(c2));
    SelectorBijective(c2, Selector(c1));
  }

  /** The guard as written: channels 0 to 8 are let through. */
  predicate AcceptedAsWritten(channel: int) {
    !(channel > 8 || channel < 0)
  }

  /** The guard for a chip with eight channels: 0 to 7. */
  predicate Accepted(channel: int) {
    0 <= channel <= 7
  }

  /** Channel 8 passes the guard as written and sends channel 1's command, so a read of the
    * non-existent ninth channel returns channel 1. */
  lemma ChannelEightAliasesOne()
    ensures AcceptedAsWritten(8) && !Accepted(8)
    ensures Command(8) == Command(1)
  {
  }

  /** The corrected guard differs from the written one at channel 8 alone. */
  lemma AcceptedExactly(channel: int)
    ensures Accepted(channel) <==> AcceptedAsWritten(channel) && channel != 8
  {
  }

  /** The fraction of full scale a conversion stands for: the driver returns the sample over 255
    * (a double in the driver, an exact real here). */
  function Proportion(sample: bv8): (p: real)
    ensures 0.0 <= p <= 1.0
    ensures sample == 0 <==> p == 0.0
    ensures sample == 0xFF <==> p == 1.0
  {
    (sample as int) as real / 255.0
  }

  /** Larger samples stand for larger fractions, so distinct samples stay distinct. */
  lemma ProportionMonotone(s1: bv8, s2: bv8)
    requires s1 < s2
    ensures Proportion(s1) < Proportion(s2)
  {
  }

  /** The voltage a conversion stands for on an input whose full scale is `maxVoltage`. */
  function Voltage(sample: bv8, maxVoltage: real): (v: real)
    requires maxVoltage > 0.0
    ensures 0.0 <= v <= maxVoltage
    ensures v / maxVoltage == Proportion(sample)
  {
    var p := Proportion(sample);
    ScaleCancels(p, maxVoltage);
    p * maxVoltage
  }

  /** Scaling by a positive full scale and dividing by it again gives the fraction back. */
  lemma ScaleCancels(p: real, m: real)
    requires m > 0.0
    ensures p * m / m == p
  {
    assert p * m == p * m / m * m;
  }

  /** A driver instance: its disposal flag and the transfers it made on its I2C device. */
  class Ads7830 {
    var disposed: bool
    var transfers: seq<I2cTransfer>

    constructor ()
      ensures !disposed && transfers == []
    {
      disposed := false;
      transfers := [];
    }

    method Dispose()
      modifies this`disposed
      ensures disposed
    {
      disposed := true;
    }

    /** Read as written: the conversion of `channel` as a fraction of full scale, where channel 8
      * is accepted. */
    method ReadAsWritten(channel: int) returns (r: Result<real>)
      modifies this`transfers
      ensures disposed ==> r == Err(ObjectDisposed) && transfers == old(transfers)
      ensures !disposed && !AcceptedAsWritten(channel) ==> r == Err(ArgumentOutOfRange) && transfers == old(transfers)
      ensures !disposed && AcceptedAsWritten(channel) ==> r.Ok? && exists sample: bv8 ::
        transfers == old(transfers) + [I2cWriteRead([Command(channel)], [sample])] && r.value == Proportion(sample)
    {
      if disposed {
        return Err(ObjectDisposed);
      }
      if channel > 8 || channel < 0 {
        return Err(ArgumentOutOfRange);
      }
      var sample := Convert(channel);
      r := Ok(Proportion(sample));
    }

    /** Read with the guard corrected to the chip's eight channels: the byte the chip answers,
      * over 255. */
    method Read(channel: int) returns (r: Result<real>)
      modifies this`transfers
      ensures disposed ==> r == Err(ObjectDisposed) && transfers == old(transfers)
      ensures !disposed && !Accepted(channel) ==> r == Err(ArgumentOutOfRange) && transfers == old(transfers)
      ensures !disposed && Accepted(channel) ==> r.Ok? && exists sample: bv8 ::
        transfers == old(transfers) + [I2cWriteRead([Command(channel)], [sample])] && r.value == Proportion(sample)
    {
      if disposed {
        return Err(ObjectDisposed);
      }
      if !Accepted(channel) {
        return Err(ArgumentOutOfRange);
      }
      var sample := Convert(channel);
      r := Ok(Proportion(sample));
    }

    /** One write of the command byte followed by a one-byte read of the conversion result. */
    method Convert(channel: int) returns (sample: bv8)
      requires 0 <= channel <= 8
      modifies this`transfers
      ensures transfers == old(transfers) + [I2cWriteRead([Command(channel)], [sample])]
    {
      sample :| true;
      transfers := transfers + [I2cWriteRead([Command(channel)], [sample])];
    }
  }
}

=== FILE: bytes.dfy ===
/** Bytes, their bits in bus order, and single-bit updates of a register shadow. */
module Bytes {

  /** The eight bits of `b`, most significant first: the order both software buses shift them. */
  function BitsOf(b: bv8): (bits: seq<bool>)
    ensures |bits| == 8
  {
    [b & 0x80 != 0, b & 0x40 != 0, b & 0x20 != 0, b & 0x10 != 0,
     b & 0x08 != 0, b & 0x04 != 0, b & 0x02 != 0, b & 0x01 != 0]
  }

  /** The byte whose bits, most significant first, are `bits`: the receive loops' `(d << 1) | bit`. */
  function FromBits(bits: seq<bool>): bv8
    requires |bits| <= 8
  {
    if |bits| == 0 then 0
    else (FromBits(bits[..|bits| - 1]) << 1) | Bit(bits[|bits| - 1])
  }

  /** The byte with only bit `i` set (0 = least significant): the drivers' `(byte)(1 << i)`. */
  function Mask(i: nat): (m: bv8)
    requires i < 8
  {
    if i == 0 then 0x01 else if i == 1 then 0x02 else if i == 2 then 0x04 else if i == 3 then 0x08
    else if i == 4 then 0x10 else if i == 5 then 0x20 else if i == 6 then 0x40 else 0x80
  }

  /** Bit `i` (0 = least significant) of `b`. */
  predicate TestBit(b: bv8, i: nat)
    requires i < 8
  {
    b & Mask(i) != 0
  }

  /** `b` with bit `i` set to `v`: the `|= (byte)(1 << pin)` and `&= (byte)~(1 << pin)` updates. */
  function SetBit(b: bv8, i: nat, v: bool): (r: bv8)
    requires i < 8
    ensures TestBit(r, i) == v
  {
    if v then b | Mask(i) else b & !Mask(i)
  }

  /** Setting or clearing one bit keeps every other bit. */
  lemma SetBitKeeps(b: bv8, i: nat, v: bool, j: nat)
    requires i < 8 && j < 8 && i != j
    ensures TestBit(SetBit(b, i, v), j) == TestBit(b, j)
  {
  }

  /** One step of the receive loop: the prefix of length `k` extends the prefix of length `k - 1`. */
  lemma PrefixStep(bits: seq<bool>, k: nat)
    requires 0 < k <= |bits| <= 8
    ensures FromBits(bits[..k]) == (FromBits(bits[..k - 1]) << 1) | Bit(bits[k - 1])
  {
    assert bits[..k][..k - 1] == bits[..k - 1];
  }

  /** `FromBits` of the first four of eight bits, written out. */
  lemma {:induction false} FromBitsHigh(bits: seq<bool>)
    requires |bits| == 8
    ensures FromBits(bits[..4]) == (Bit(bits[0]) << 3) | (Bit(bits[1]) << 2) | (Bit(bits[2]) << 1) | Bit(bits[3])
  {
    var p0 := FromBits(bits[..0]);
    assert p0 == 0;
    PrefixStep(bits, 1);
    var p1 := FromBits(bits[..1]);
    PrefixStep(bits, 2);
    var p2 := FromBits(bits[..2]);
    PrefixStep(bits, 3);
    var p3 := FromBits(bits[..3]);
    PrefixStep(bits, 4);
    HalfSteps(p0, p1, p2, p3, FromBits(bits[..4]), bits[0], bits[1], bits[2], bits[3]);
  }

  /** `FromBits` of eight bits, written out. */
  lemma {:induction false} FromBitsEight(bits: seq<bool>)
    requires |bits| == 8
    ensures FromBits(bits) == Pack(bits[0], bits[1], bits[2], bits[3], bits[4], bits[5], bits[6], bits[7])
  {
    FromBitsHigh(bits);
    var p4 := FromBits(bits[..4]);
    PrefixStep(bits, 5);
    var p5 := FromBits(bits[..5]);
    PrefixStep(bits, 6);
    var p6 := FromBits(bits[..6]);
    PrefixStep(bits, 7);
    var p7 := FromBits(bits[..7]);
    PrefixStep(bits, 8);
    assert bits[..8] == bits;
    PackSteps(p4, p5, p6, p7, FromBits(bits), bits[0], bits[1], bits[2], bits[3], bits[4], bits[5], bits[6], bits[7]);
  }

  /** Eight bits, most significant first, as a byte. */
  function Pack(b7: bool, b6: bool, b5: bool, b4: bool, b3: bool, b2: bool, b1: bool, b0: bool): bv8 {
    (Bit(b7) << 7) | (Bit(b6) << 6) | (Bit(b5) << 5) | (Bit(b4) << 4)
    | (Bit(b3) << 3) | (Bit(b2) << 2) | (Bit(b1) << 1) | Bit(b0)
  }

  lemma HalfSteps(p0: bv8, p1: bv8, p2: bv8, p3: bv8, p4: bv8, b7: bool, b6: bool, b5: bool, b4: bool)
    requires p0 == 0
    requires p1 == (p0 << 1) | Bit(b7) && p2 == (p1 << 1) | Bit(b6)
    requires p3 == (p2 << 1) | Bit(b5) && p4 == (p3 << 1) | Bit(b4)
    ensures p4 == (Bit(b7) << 3) | (Bit(b6) << 2) | (Bit(b5) << 1) | Bit(b4)
  {
  }

  lemma PackSteps(p4: bv8, p5: bv8, p6: bv8, p7: bv8, p8: bv8,
                  b7: bool, b6: bool, b5: bool, b4: bool, b3: bool, b2: bool, b1: bool, b0: bool)
    requires p4 == (Bit(b7) << 3) | (Bit(b6) << 2) | (Bit(b5) << 1) | Bit(b4)
    requires p5 == (p4 << 1) | Bit(b3) && p6 == (p5 << 1) | Bit(b2)
    requires p7 == (p6 << 1) | Bit(b1) && p8 == (p7 << 1) | Bit(b0)
    ensures p8 == Pack(b7, b6, b5, b4, b3, b2, b1, b0)
  {
  }

  /** Receiving the bits of a byte rebuilds that byte. */
  lemma FromBitsOf(b: bv8)
    ensures FromBits(BitsOf(b)) == b
  {
    var bits := BitsOf(b);
    FromBitsEight(bits);
  }

  /** The bits of the byte received from eight bits are those bits. */
  lemma BitsOfFromBits(bits: seq<bool>)
    requires |bits| == 8
    ensures BitsOf(FromBits(bits)) == bits
  {
    FromBitsEight(bits);
  }

  /** A bit as the byte 0 or 1. */
  function Bit(v: bool): bv8 {
    if v then 1 else 0
  }

  /** `data` after `k` rounds of the transmit loop's `data <<= 1`. */
  function Shifted(data: bv8, k: nat): bv8
    requires k <= 8
  {
    if k == 0 then data else if k == 1 then data << 1 else if k == 2 then data << 2
    else if k == 3 then data << 3 else if k == 4 then data << 4 else if k == 5 then data << 5
    else if k == 6 then data << 6 else if k == 7 then data << 7 else 0
  }

  /** One more round of `data <<= 1`. */
  lemma ShiftedNext(data: bv8, k: nat)
    requires k < 8
    ensures Shifted(data, k) << 1 == Shifted(data, k + 1)
  {
  }

  /** After `k` shifts the top bit of the shifted byte is bit `k` (most significant first) of the
    * original: the bit the transmit loop sends in round `k`. */
  lemma TopBit(data: bv8, k: nat)
    requires k < 8
    ensures (Shifted(data, k) & 0x80 != 0) == BitsOf(data)[k]
  {
  }

  /** Shifting left moves every bit but the top one up by one place. */
  lemma ShiftBitsOf(b: bv8, j: nat)
    requires j < 7
    ensures BitsOf(b << 1)[j] == BitsOf(b)[j + 1]
  {
  }

  /** The SPI loop's walking mask after `j` rounds of `mask >>= 1`, starting from 0x80. */
  function Walk(j: nat): bv8
    requires j <= 8
  {
    if j == 0 then 0x80 else if j == 1 then 0x40 else if j == 2 then 0x20 else if j == 3 then 0x10
    else if j == 4 then 0x08 else if j == 5 then 0x04 else if j == 6 then 0x02 else if j == 7 then 0x01
    else 0
  }

  /** One more round of `mask >>= 1`. */
  lemma WalkNext(j: nat)
    requires j < 8
    ensures Walk(j) >> 1 == Walk(j + 1)
  {
  }

  /** The walking mask picks bit `j` (most significant first): the bit the SPI loop sends. */
  lemma WalkBit(b: bv8, j: nat)
    requires j < 8
    ensures (b & Walk(j) != 0) == BitsOf(b)[j]
  {
  }

  /** The byte the SPI loop assembles from the levels it samples, most significant first:
    * `readBuffer[i] |= level ? mask : 0` round by round, starting from 0. */
  function OrBits(bits: seq<bool>): bv8
    requires |bits| <= 8
  {
    if |bits| == 0 then 0
    else OrBits(bits[..|bits| - 1]) | (if bits[|bits| - 1] then Walk(|bits| - 1) else 0)
  }

  /** A byte holding the first bits, with the next one ORed in under its mask. */
  lemma OrInto(bits: seq<bool>, b: bool, mask: bv8, before: bv8, after: bv8)
    requires |bits| < 8 && mask == Walk(|bits|)
    requires before == OrBits(bits) && after == before | (if b then mask else 0)
    ensures after == OrBits(bits + [b])
  {
    OrBitsSnoc(bits, b);
  }

  /** One more sampled level ORs in the next mask. */
  lemma OrBitsSnoc(bits: seq<bool>, b: bool)
    requires |bits| < 8
    ensures OrBits(bits + [b]) == OrBits(bits) | (if b then Walk(|bits|) else 0)
  {
    assert (bits + [b])[..|bits|] == bits;
  }

  lemma OrPrefixStep(bits: seq<bool>, k: nat)
    requires 0 < k <= |bits| <= 8
    ensures OrBits(bits[..k]) == OrBits(bits[..k - 1]) | (if bits[k - 1] then Walk(k - 1) else 0)
  {
    assert bits[..k][..k - 1] == bits[..k - 1];
  }

  /** `OrBits` of the first four of eight levels, written out. */
  lemma {:induction false} OrBitsHigh(bits: seq<bool>)
    requires |bits| == 8
    ensures OrBits(bits[..4]) == (if bits[0] then 0x80 else 0) | (if bits[1] then 0x40 else 0)
                               | (if bits[2] then 0x20 else 0) | (if bits[3] then 0x10 else 0)
  {
    assert OrBits(bits[..0]) == 0;
    OrPrefixStep(bits, 1);
    OrPrefixStep(bits, 2);
    OrPrefixStep(bits, 3);
    OrPrefixStep(bits, 4);
  }

  /** `OrBits` of eight levels, written out. */
  lemma {:induction false} OrBitsEight(bits: seq<bool>)
    requires |bits| == 8
    ensures OrBits(bits) == Pack(bits[0], bits[1], bits[2], bits[3], bits[4], bits[5], bits[6], bits[7])
  {
    OrBitsHigh(bits);
    OrPrefixStep(bits, 5);
    OrPrefixStep(bits, 6);
    OrPrefixStep(bits, 7);
    OrPrefixStep(bits, 8);
    assert bits[..8] == bits;
    OrSteps(OrBits(bits[..4]), OrBits(bits[..5]), OrBits(bits[..6]), OrBits(bits[..7]), OrBits(bits),
            bits[0], bits[1], bits[2], bits[3], bits[4], bits[5], bits[6], bits[7]);
  }

  lemma OrSteps(p4: bv8, p5: bv8, p6: bv8, p7: bv8, p8: bv8,
                b7: bool, b6: bool, b5: bool, b4: bool, b3: bool, b2: bool, b1: bool, b0: bool)
    requires p4 == (if b7 then 0x80 else 0) | (if b6 then 0x40 else 0) | (if b5 then 0x20 else 0) | (if b4 then 0x10 else 0)
    requires p5 == p4 | (if b3 then 0x08 else 0) && p6 == p5 | (if b2 then 0x04 else 0)
    requires p7 == p6 | (if b1 then 0x02 else 0) && p8 == p7 | (if b0 then 0x01 else 0)
    ensures p8 == Pack(b7, b6, b5, b4, b3, b2, b1, b0)
  {
  }

  /** The SPI master's OR-ing and the I2C master's shifting assemble the same byte from the same
    * eight levels, and that byte's bits are the levels. */
  lemma OrBitsRoundTrip(bits: seq<bool>)
    requires |bits| == 8
    ensures OrBits(bits) == FromBits(bits)
    ensures BitsOf(OrBits(bits)) == bits
  {
    OrBitsEight(bits);
    FromBitsEight(bits);
  }

  /** Appending a bit to the received prefix shifts it in at the bottom. */
  lemma FromBitsSnoc(bits: seq<bool>, b: bool)
    requires |bits| < 8
    ensures FromBits(bits + [b]) == (FromBits(bits) << 1) | Bit(b)
  {
    assert (bits + [b])[..|bits|] == bits;
  }
}

=== FILE: casts.dfy ===
/** The conversions between a byte and its value that the drivers' `(byte)` casts rely on, and
  * C#'s wrapping 32-bit int arithmetic. */
module Casts {
  /** A byte survives the trip to its value and back. */
  lemma ValueOfByte(b: bv8)
    ensures (b as int) as bv8 == b
  {
  }

  /** The byte whose value is `x`, reached by counting up from zero. */
  function CountedByte(x: int): (b: bv8)
    requires 0 <= x < 0x100
    ensures b as int == x
  {
    if x == 0 then 0 else CountedByte(x - 1) + 1
  }

  /** A value in 0..255 survives the trip to a byte and back. */
  lemma ByteOfValue(x: int)
    requires 0 <= x < 0x100
    ensures (x as bv8) as int == x
  {
    ValueOfByte(CountedByte(x));
  }

  const TwoTo31: int := 0x8000_0000
  const TwoTo32: int := 0x1_0000_0000

  /** A C# int: the value taken modulo 2^32 into -2^31 .. 2^31 - 1. */
  function WrapInt32(v: int): (r: int)
    ensures -TwoTo31 <= r < TwoTo31
    ensures (v - r) % TwoTo32 == 0
    ensures -TwoTo31 <= v < TwoTo31 ==> r == v
  {
    var m := v % TwoTo32;
    if m >= TwoTo31 then m - TwoTo32 else m
  }
}

=== FILE: character_display.dfy ===
/** The Character Display module: an HD44780-style two-row, sixteen-column text display driven
  * in 4-bit mode on six pins (RS, Enable, D4..D7) plus a backlight pin. The display latches the four
  * data lines, with RS telling command (low) from character (high), when E falls; the module
  * sends each byte as two such nibbles, high nibble first.
  *
  * The calls the module makes on its pins are recorded in one ordered log, `wire`, because the
  * protocol lives in their order across pins; `Received` is the display's side of that log. */
module CharacterDisplay {
  import opened Errors
  import opened SocketInterfaces
  import opened Sockets
  import SoftwareInterfaces

  /** The module's pins: RS on 4, E (`Enable`) on 3, D4 on 5, D5 on 7, D6 on 9, D7 on 6, backlight on 8. */
  datatype Line = RS | Enable | D4 | D5 | D6 | D7 | Backlight

  /** One call on one pin. */
  datatype Signal = Signal(line: Line, call: IoCall)

  /** The levels the display sees on its lines. */
  datatype Levels = Levels(rs: bool, e: bool, d4: bool, d5: bool, d6: bool, d7: bool, backlight: bool)

  /** A nibble latched by the display: RS's level and the data lines' value. */
  datatype Nibble = Nibble(rs: bool, value: bv8)

  /** The commands the module sends. */
  const DisplayOnCommand: bv8 := 0x0C
  const ClearDisplayCommand: bv8 := 0x01
  const CursorHomeCommand: bv8 := 0x02
  const SetCursorCommand: bv8 := 0x80

  /** The address of the first character of each row. */
  const RowOffsets: seq<bv8> := [0x00, 0x40, 0x14, 0x54]

  // ---------------------------------------------------------------------------------------------
  // The display's side
  // ---------------------------------------------------------------------------------------------

  function Drive(st: Levels, line: Line, v: bool): Levels {
    match line
    case RS => st.(rs := v)
    case Enable => st.(e := v)
    case D4 => st.(d4 := v)
    case D5 => st.(d5 := v)
    case D6 => st.(d6 := v)
    case D7 => st.(d7 := v)
    case Backlight => st.(backlight := v)
  }

  /** A driven level changes its line; mode changes and samples do not. */
  function Step(st: Levels, s: Signal): Levels {
    if s.call.Driven? then Drive(st, s.line, s.call.level) else st
  }

  /** The data lines as a value, D7 the high bit. */
  function DataValue(st: Levels): bv8 {
    (if st.d7 then 8 else 0) | (if st.d6 then 4 else 0) | (if st.d5 then 2 else 0) | (if st.d4 then 1 else 0)
  }

  /** E falling from high latches a nibble. */
  function Latch(st: Levels, s: Signal): seq<Nibble> {
    if s == Signal(Enable, Driven(false)) && st.e then [Nibble(st.rs, DataValue(st))] else []
  }

  /** The nibbles the display latches from `w`, starting from levels `st`. */
  function Received(st: Levels, w: seq<Signal>): seq<Nibble>
    decreases |w|
  {
    if |w| == 0 then [] else Latch(st, w[0]) + Received(Step(st, w[0]), w[1..])
  }

  /** The levels after `w`. */
  function Final(st: Levels, w: seq<Signal>): Levels
    decreases |w|
  {
    if |w| == 0 then st else Final(Step(st, w[0]), w[1..])
  }

  /** Receiving a log in two parts is receiving the first, then the second from where the first
    * left the lines. */
  lemma {:induction false} ReceivedAppend(st: Levels, a: seq<Signal>, b: seq<Signal>)
    ensures Received(st, a + b) == Received(st, a) + Received(Final(st, a), b)
    ensures Final(st, a + b) == Final(Final(st, a), b)
    decreases |a|
  {
    if |a| == 0 {
      assert a + b == b;
    } else {
      assert (a + b)[0] == a[0] && (a + b)[1..] == a[1..] + b;
      ReceivedAppend(Step(st, a[0]), a[1..], b);
    }
  }

  lemma ReceivedOne(st: Levels, s: Signal)
    ensures Received(st, [s]) == Latch(st, s) && Final(st, [s]) == Step(st, s)
  {
    assert [s][1..] == [];
  }

  lemma ReceivedTwo(st: Levels, s: Signal, t: Signal)
    ensures Received(st, [s, t]) == Latch(st, s) + Latch(Step(st, s), t)
    ensures Final(st, [s, t]) == Step(Step(st, s), t)
  {
    assert [s, t] == [s] + [t];
    ReceivedAppend(st, [s], [t]);
    ReceivedOne(st, s);
    ReceivedOne(Step(st, s), t);
  }

  // ---------------------------------------------------------------------------------------------
  // The module's side
  // ---------------------------------------------------------------------------------------------

  /** A DigitalIO Write: the pin made an output, then driven. */
  function WriteLine(line: Line, v: bool): seq<Signal> {
    [Signal(line, DriveModeSet(Output)), Signal(line, Driven(v))]
  }

  /** A DigitalIO Read: the pin made an input, then sampled. */
  function ReadLine(line: Line, v: bool): seq<Signal> {
    [Signal(line, DriveModeSet(Input)), Signal(line, Sampled(v))]
  }

  /** The strobe: E set high, then low. */
  const Strobe: seq<Signal> := [Signal(Enable, Driven(true)), Signal(Enable, Driven(false))]

  /** WriteNibble: D7..D4 written with bits 3..0 of `b`, then the strobe. */
  function NibbleSignals(b: bv8): seq<Signal> {
    WriteLine(D7, b & 0x8 != 0) + WriteLine(D6, b & 0x4 != 0) + WriteLine(D5, b & 0x2 != 0)
    + WriteLine(D4, b & 0x1 != 0) + Strobe
  }

  /** SendCommand: RS low, the two nibbles, RS high again. */
  function CommandSignals(command: bv8): seq<Signal> {
    [Signal(RS, Driven(false))] + NibbleSignals(command >> 4) + NibbleSignals(command) + [Signal(RS, Driven(true))]
  }

  /** `(byte)(value >> 4)` and `(byte)value` of a character. */
  function HighByte(ch: char): bv8 {
    (((ch as bv32) >> 4) & 0xFF) as bv8
  }

  function LowByte(ch: char): bv8 {
    ((ch as bv32) & 0xFF) as bv8
  }

  /** Print of a character other than a newline: its two nibbles, RS left as it is. */
  function CharSignals(ch: char): seq<Signal> {
    NibbleSignals(HighByte(ch)) + NibbleSignals(LowByte(ch))
  }

  /** The command that puts the cursor at `column` of `row`: 0x80 with the row's offset and the
    * column. */
  function CursorCommand(row: nat, column: nat): (c: bv8)
    requires row <= 1 && column <= 15
    ensures c as int == 0x80 + 0x40 * row + column
  {
    var command := SetCursorCommand | RowOffsets[row] | column as bv8;
    CursorAddress(row, column);
    command
  }

  /** The set-cursor command's address is `0x40 * row + column`: the offset and the column
    * occupy different bits, so OR adds them. */
  lemma CursorAddress(row: nat, column: nat)
    requires row <= 1 && column <= 15
    ensures (SetCursorCommand | RowOffsets[row] | column as bv8) as int == 0x80 + 0x40 * row + column
  {
    var c := column as bv8;
    assert c < 16;
    if row == 0 {
      assert SetCursorCommand | RowOffsets[row] | c == 0x80 + c;
    } else {
      assert SetCursorCommand | RowOffsets[row] | c == 0xC0 + c;
    }
  }

  /** Print of one character from row `row`: a newline moves the cursor to the start of the other
    * row; anything else is sent as data. */
  function PrintOne(row: nat, ch: char): seq<Signal>
    requires row <= 1
  {
    if ch != '\n' then CharSignals(ch) else CommandSignals(CursorCommand((row + 1) % 2, 0))
  }

  function RowAfter(row: nat, ch: char): (r: nat)
    requires row <= 1
    ensures r <= 1
  {
    if ch != '\n' then row else (row + 1) % 2
  }

  /** The row after printing `s` from row `row`. */
  function PrintedRow(row: nat, s: string): (r: nat)
    requires row <= 1
    ensures r <= 1
    decreases |s|
  {
    if |s| == 0 then row else RowAfter(PrintedRow(row, s[..|s| - 1]), s[|s| - 1])
  }

  /** The calls Print makes for `s` from row `row`. */
  function PrintedSignals(row: nat, s: string): seq<Signal>
    requires row <= 1
    decreases |s|
  {
    if |s| == 0 then []
    else PrintedSignals(row, s[..|s| - 1]) + PrintOne(PrintedRow(row, s[..|s| - 1]), s[|s| - 1])
  }

  /** Printing one more character extends the calls and moves the row by that character. */
  lemma PrintedStep(row: nat, s: string, i: int)
    requires row <= 1 && 0 <= i < |s|
    ensures PrintedSignals(row, s[..i + 1]) == PrintedSignals(row, s[..i]) + PrintOne(PrintedRow(row, s[..i]), s[i])
    ensures PrintedRow(row, s[..i + 1]) == RowAfter(PrintedRow(row, s[..i]), s[i])
  {
    assert s[..i + 1][..i] == s[..i];
  }

  // ---------------------------------------------------------------------------------------------
  // What the display receives
  // ---------------------------------------------------------------------------------------------

  /** Writing a data or RS line latches nothing and drives the line. */
  lemma WriteLineReceived(st: Levels, line: Line, v: bool)
    requires line != Enable
    ensures Received(st, WriteLine(line, v)) == [] && Final(st, WriteLine(line, v)) == Drive(st, line, v)
  {
    ReceivedTwo(st, Signal(line, DriveModeSet(Output)), Signal(line, Driven(v)));
  }

  /** The strobe latches the data lines under RS and leaves E low. */
  lemma StrobeReceived(st: Levels)
    ensures Received(st, Strobe) == [Nibble(st.rs, DataValue(st))] && Final(st, Strobe) == st.(e := false)
  {
    ReceivedTwo(st, Signal(Enable, Driven(true)), Signal(Enable, Driven(false)));
  }

  /** The data lines after D7..D4 are written with the bits of `b`. */
  function DataLines(st: Levels, b: bv8): (r: Levels)
    ensures r.rs == st.rs && r.e == st.e && r.backlight == st.backlight
  {
    Drive(Drive(Drive(Drive(st, D7, b & 0x8 != 0), D6, b & 0x4 != 0), D5, b & 0x2 != 0), D4, b & 0x1 != 0)
  }

  lemma DataLinesValue(st: Levels, b: bv8)
    ensures DataValue(DataLines(st, b)) == b & 0x0F
  {
    var r := DataLines(st, b);
    assert r.d7 == (b & 0x8 != 0) && r.d6 == (b & 0x4 != 0) && r.d5 == (b & 0x2 != 0) && r.d4 == (b & 0x1 != 0);
  }

  /** WriteNibble latches the low four bits of `b`, under whatever RS was, and leaves E low. */
  lemma NibbleReceived(st: Levels, b: bv8)
    ensures Received(st, NibbleSignals(b)) == [Nibble(st.rs, b & 0x0F)]
    ensures Final(st, NibbleSignals(b)) == DataLines(st, b).(e := false)
  {
    var w7, w6, w5, w4 := WriteLine(D7, b & 0x8 != 0), WriteLine(D6, b & 0x4 != 0),
                          WriteLine(D5, b & 0x2 != 0), WriteLine(D4, b & 0x1 != 0);
    var s1 := Drive(st, D7, b & 0x8 != 0);
    var s2 := Drive(s1, D6, b & 0x4 != 0);
    var s3 := Drive(s2, D5, b & 0x2 != 0);
    var s4 := Drive(s3, D4, b & 0x1 != 0);
    WriteLineReceived(st, D7, b & 0x8 != 0);
    WriteLineReceived(s1, D6, b & 0x4 != 0);
    WriteLineReceived(s2, D5, b & 0x2 != 0);
    WriteLineReceived(s3, D4, b & 0x1 != 0);
    StrobeReceived(s4);
    DataLinesValue(st, b);
    ReceivedAppend(st, w7, w6);
    ReceivedAppend(st, w7 + w6, w5);
    ReceivedAppend(st, w7 + w6 + w5, w4);
    ReceivedAppend(st, w7 + w6 + w5 + w4, Strobe);
  }

  /** SendCommand delivers the command as two command nibbles, high first, and leaves RS high and
    * E low. */
  lemma CommandReceived(st: Levels, command: bv8)
    ensures Received(st, CommandSignals(command)) == [Nibble(false, command >> 4), Nibble(false, command & 0x0F)]
    ensures Final(st, CommandSignals(command)).rs && !Final(st, CommandSignals(command)).e
    ensures Final(st, CommandSignals(command)).backlight == st.backlight
  {
    var lo := [Signal(RS, Driven(false))];
    var hi := [Signal(RS, Driven(true))];
    ReceivedOne(st, lo[0]);
    var s1 := Final(st, lo);
    NibbleReceived(s1, command >> 4);
    var s2 := Final(s1, NibbleSignals(command >> 4));
    NibbleReceived(s2, command);
    var s3 := Final(s2, NibbleSignals(command));
    ReceivedOne(s3, hi[0]);
    assert (command >> 4) & 0x0F == command >> 4;
    ReceivedAppend(st, lo, NibbleSignals(command >> 4));
    ReceivedAppend(st, lo + NibbleSignals(command >> 4), NibbleSignals(command));
    ReceivedAppend(st, lo + NibbleSignals(command >> 4) + NibbleSignals(command), hi);
  }

  /** Printing a character delivers its low byte as two nibbles under the RS level already on the
    * line, and leaves RS as it was and E low. */
  lemma CharReceived(st: Levels, ch: char)
    ensures Received(st, CharSignals(ch)) == CharNibbles(st.rs, ch)
    ensures Final(st, CharSignals(ch)).rs == st.rs && !Final(st, CharSignals(ch)).e
    ensures Final(st, CharSignals(ch)).backlight == st.backlight
  {
    NibbleReceived(st, HighByte(ch));
    NibbleReceived(Final(st, NibbleSignals(HighByte(ch))), LowByte(ch));
    ReceivedAppend(st, NibbleSignals(HighByte(ch)), NibbleSignals(LowByte(ch)));
  }

  /** The nibbles a character's two WriteNibble calls present: bits 7..4, then bits 3..0. */
  function CharNibbles(rs: bool, ch: char): seq<Nibble> {
    [Nibble(rs, HighByte(ch) & 0x0F), Nibble(rs, LowByte(ch) & 0x0F)]
  }

  /** The two nibbles of a character are its low byte, high half first: a character past 0xFF
    * arrives as its low byte. */
  lemma CharNibblesSpellByte(rs: bool, ch: char)
    ensures CharNibbles(rs, ch)[0].value == LowByte(ch) >> 4
    ensures (CharNibbles(rs, ch)[0].value << 4) | CharNibbles(rs, ch)[1].value == LowByte(ch)
  {
  }

  /** The two nibbles of a byte give the byte back. */
  lemma NibblesRebuild(b: bv8)
    ensures ((b >> 4) << 4) | (b & 0x0F) == b
  {
  }

  /** Printing keeps the lines where every operation leaves them, RS high and E low, so every
    * character is latched as data. */
  lemma PrintOneKeeps(st: Levels, row: nat, ch: char)
    requires row <= 1 && st.rs && !st.e
    ensures Final(st, PrintOne(row, ch)).rs && !Final(st, PrintOne(row, ch)).e
    ensures Final(st, PrintOne(row, ch)).backlight == st.backlight
    ensures ch != '\n' ==> Received(st, PrintOne(row, ch)) == CharNibbles(true, ch)
  {
    if ch != '\n' {
      CharReceived(st, ch);
    } else {
      CommandReceived(st, CursorCommand((row + 1) % 2, 0));
    }
  }

  /** A newline moves the cursor to column 0 of the other row. */
  lemma NewlineMovesToOtherRow(st: Levels, row: nat)
    requires row <= 1
    ensures RowAfter(row, '\n') == 1 - row
    ensures Received(st, PrintOne(row, '\n')) == [Nibble(false, 0x8 + 0x4 * (1 - row) as bv8), Nibble(false, 0)]
  {
    var c := CursorCommand((row + 1) % 2, 0);
    CommandReceived(st, c);
    if row == 0 {
      assert c == 0xC0;
    } else {
      assert c == 0x80;
    }
  }

  // ---------------------------------------------------------------------------------------------
  // The module
  // ---------------------------------------------------------------------------------------------

  /** The levels before the module drives anything. */
  const PowerOn: Levels := Levels(false, false, false, false, false, false, false)

  /** The calls Initialize makes while creating the pins, in order. */
  function Made(line: Line, v: bool): seq<Signal> {
    [Signal(line, DriveModeSet(Input)), Signal(line, DriveModeSet(Output)), Signal(line, Driven(v))]
  }

  const Creation: seq<Signal> :=
    Made(RS, false) + Made(Enable, false) + Made(D4, false) + Made(D5, false) + Made(D6, false) + Made(D7, false)
    + Made(Backlight, true)

  /** The pins in creation order, with their initial levels. */
  const Pins: seq<SocketPin> := [Four, Three, Five, Seven, Nine, Six, Eight]
  const InitialLevels: seq<bool> := [false, false, false, false, false, false, true]

  /** The four commands Initialize sends: into 4-bit mode, display on, clear. */
  const InitCommands: seq<Signal> :=
    CommandSignals(0x33) + CommandSignals(0x32) + CommandSignals(DisplayOnCommand) + CommandSignals(ClearDisplayCommand)

  class CharacterDisplay {
    var currentRow: nat
    var wire: seq<Signal>

    /** Between operations the cursor is on one of the two rows and the lines are at rest: RS
      * high, so that characters are data, and E low, so that the next strobe latches. */
    ghost predicate Valid()
      reads this
    {
      currentRow <= 1 && Final(PowerOn, wire).rs && !Final(PowerOn, wire).e
    }

    constructor (wire: seq<Signal>)
      ensures this.wire == wire && currentRow == 0
    {
      this.wire := wire;
      currentRow := 0;
    }

    /** The BacklightEnabled getter: the backlight pin read, which makes it an input. */
    method GetBacklightEnabled() returns (enabled: bool)
      requires Valid()
      modifies this`wire
      ensures Valid()
      ensures wire == old(wire) + ReadLine(Backlight, enabled)
    {
      enabled :| true;
      ReceivedAppend(PowerOn, wire, ReadLine(Backlight, enabled));
      ReceivedTwo(Final(PowerOn, wire), ReadLine(Backlight, enabled)[0], ReadLine(Backlight, enabled)[1]);
      wire := wire + ReadLine(Backlight, enabled);
    }

    /** The BacklightEnabled setter: the backlight pin written. */
    method SetBacklightEnabled(value: bool)
      requires Valid()
      modifies this`wire
      ensures Valid()
      ensures wire == old(wire) + WriteLine(Backlight, value)
      ensures Final(PowerOn, wire).backlight == value
    {
      ReceivedAppend(PowerOn, wire, WriteLine(Backlight, value));
      ReceivedTwo(Final(PowerOn, wire), WriteLine(Backlight, value)[0], WriteLine(Backlight, value)[1]);
      wire := wire + WriteLine(Backlight, value);
    }

    /** The four commands Initialize sends, one after the other. */
    method SendInitCommands()
      requires currentRow <= 1
      modifies this`wire
      ensures Valid()
      ensures wire == old(wire) + InitCommands
    {
      ghost var w0 := wire;
      SendCommand(0x33);
      SendCommand(0x32);
      SendCommand(DisplayOnCommand);
      SendCommand(ClearDisplayCommand);
      Regroup(w0, CommandSignals(0x33), CommandSignals(0x32), CommandSignals(DisplayOnCommand),
              CommandSignals(ClearDisplayCommand));
    }

    /** SendCommand: the command delivered as two command nibbles; the lines end at rest. */
    method SendCommand(command: bv8)
      requires currentRow <= 1
      modifies this`wire
      ensures Valid()
      ensures wire == old(wire) + CommandSignals(command)
      ensures Received(PowerOn, wire) == old(Received(PowerOn, wire)) + [Nibble(false, command >> 4), Nibble(false, command & 0x0F)]
    {
      CommandReceived(Final(PowerOn, wire), command);
      ReceivedAppend(PowerOn, wire, CommandSignals(command));
      wire := wire + CommandSignals(command);
    }

    /** Print of one character. */
    method PrintChar(value: char)
      requires Valid()
      modifies this
      ensures Valid()
      ensures wire == old(wire) + PrintOne(old(currentRow), value)
      ensures currentRow == RowAfter(old(currentRow), value)
      ensures value != '\n' ==>
        Received(PowerOn, wire) == old(Received(PowerOn, wire)) + CharNibbles(true, value)
    {
      if value != '\n' {
        CharReceived(Final(PowerOn, wire), value);
        ReceivedAppend(PowerOn, wire, CharSignals(value));
        wire := wire + CharSignals(value);
      } else {
        var r := SetCursorPosition((currentRow + 1) % 2, 0);
      }
    }

    /** Print of a string: each character in turn. */
    method Print(value: string)
      requires Valid()
      modifies this
      ensures Valid()
      ensures wire == old(wire) + PrintedSignals(old(currentRow), value)
      ensures currentRow == PrintedRow(old(currentRow), value)
    {
      for i := 0 to |value|
        invariant Valid()
        invariant wire == old(wire) + PrintedSignals(old(currentRow), value[..i])
        invariant currentRow == PrintedRow(old(currentRow), value[..i])
      {
        PrintedStep(old(currentRow), value, i);
        PrintChar(value[i]);
        SoftwareInterfaces.Assoc(old(wire), PrintedSignals(old(currentRow), value[..i]), PrintOne(PrintedRow(old(currentRow), value[..i]), value[i]));
      }
      assert value[..|value|] == value;
    }

    /** Clear: the clear command, and the cursor back on row 0. */
    method Clear()
      requires Valid()
      modifies this
      ensures Valid() && currentRow == 0
      ensures wire == old(wire) + CommandSignals(ClearDisplayCommand)
    {
      SendCommand(ClearDisplayCommand);
      currentRow := 0;
    }

    /** CursorHome: the home command, and the cursor back on row 0. */
    method CursorHome()
      requires Valid()
      modifies this
      ensures Valid() && currentRow == 0
      ensures wire == old(wire) + CommandSignals(CursorHomeCommand)
    {
      SendCommand(CursorHomeCommand);
      currentRow := 0;
    }

    /** SetCursorPosition: a column past 15, then a row past 1, is refused before anything is
      * sent; otherwise the row is remembered and the set-cursor command sent. */
    method SetCursorPosition(row: nat, column: nat) returns (r: Outcome)
      requires Valid()
      modifies this
      ensures Valid()
      ensures (column > 15 || row > 1) ==> r == Fail(ArgumentOutOfRange) && wire == old(wire) && currentRow == old(currentRow)
      ensures column <= 15 && row <= 1 ==>
        r == Pass && currentRow == row && wire == old(wire) + CommandSignals(CursorCommand(row, column))
    {
      if column > 15 {
        return Fail(ArgumentOutOfRange);
      }
      if row > 1 {
        return Fail(ArgumentOutOfRange);
      }
      currentRow := row;
      SendCommand(CursorCommand(row, column));
      r := Pass;
    }
  }

  /** Making a pin drives it once; unless it is E falling from high, nothing is latched. */
  lemma MadeQuiet(st: Levels, line: Line, v: bool)
    requires line != Enable || !st.e || v
    ensures Received(st, Made(line, v)) == [] && Final(st, Made(line, v)) == Drive(st, line, v)
  {
    var m := Made(line, v);
    assert m == [m[0]] + [m[1], m[2]];
    ReceivedAppend(st, [m[0]], [m[1], m[2]]);
    ReceivedOne(st, m[0]);
    ReceivedTwo(st, m[1], m[2]);
  }

  /** Making the pins latches nothing and leaves each line at its initial level. */
  lemma CreationQuiet()
    ensures Received(PowerOn, Creation) == []
    ensures Final(PowerOn, Creation) == Levels(false, false, false, false, false, false, true)
  {
    var s0 := PowerOn;
    MadeQuiet(s0, RS, false);
    var s1 := Drive(s0, RS, false);
    MadeQuiet(s1, Enable, false);
    var s2 := Drive(s1, Enable, false);
    MadeQuiet(s2, D4, false);
    var s3 := Drive(s2, D4, false);
    MadeQuiet(s3, D5, false);
    var s4 := Drive(s3, D5, false);
    MadeQuiet(s4, D6, false);
    var s5 := Drive(s4, D6, false);
    MadeQuiet(s5, D7, false);
    var s6 := Drive(s5, D7, false);
    MadeQuiet(s6, Backlight, true);
    var a1 := Made(RS, false);
    var a2 := a1 + Made(Enable, false);
    var a3 := a2 + Made(D4, false);
    var a4 := a3 + Made(D5, false);
    var a5 := a4 + Made(D6, false);
    var a6 := a5 + Made(D7, false);
    ReceivedAppend(s0, a1, Made(Enable, false));
    ReceivedAppend(s0, a2, Made(D4, false));
    ReceivedAppend(s0, a3, Made(D5, false));
    ReceivedAppend(s0, a4, Made(D6, false));
    ReceivedAppend(s0, a5, Made(D7, false));
    ReceivedAppend(s0, a6, Made(Backlight, true));
  }

  /** Four commands in a row arrive as eight command nibbles, each command high half first. */
  lemma {:induction false} FourCommandsReceived(st: Levels, c1: bv8, c2: bv8, c3: bv8, c4: bv8)
    ensures Received(st, CommandSignals(c1) + CommandSignals(c2) + CommandSignals(c3) + CommandSignals(c4))
            == [Nibble(false, c1 >> 4), Nibble(false, c1 & 0x0F), Nibble(false, c2 >> 4), Nibble(false, c2 & 0x0F),
                Nibble(false, c3 >> 4), Nibble(false, c3 & 0x0F), Nibble(false, c4 >> 4), Nibble(false, c4 & 0x0F)]
  {
    var w1 := CommandSignals(c1);
    var w2 := w1 + CommandSignals(c2);
    var w3 := w2 + CommandSignals(c3);
    CommandReceived(st, c1);
    CommandReceived(Final(st, w1), c2);
    ReceivedAppend(st, w1, CommandSignals(c2));
    CommandReceived(Final(st, w2), c3);
    ReceivedAppend(st, w2, CommandSignals(c3));
    CommandReceived(Final(st, w3), c4);
    ReceivedAppend(st, w3, CommandSignals(c4));
  }

  /** What the display receives from Initialize: no nibble while the pins are made, then, as
    * commands, 3, 3, 3, 2 (into 4-bit mode), display on, clear. */
  lemma InitializeReceived()
    ensures Received(PowerOn, Creation + InitCommands)
            == [Nibble(false, 0x3), Nibble(false, 0x3), Nibble(false, 0x3), Nibble(false, 0x2),
                Nibble(false, 0x0), Nibble(false, 0xC), Nibble(false, 0x0), Nibble(false, 0x1)]
  {
    CreationQuiet();
    ReceivedAppend(PowerOn, Creation, InitCommands);
    FourCommandsReceived(Final(PowerOn, Creation), 0x33, 0x32, DisplayOnCommand, ClearDisplayCommand);
  }

  lemma Regroup(w: seq<Signal>, a: seq<Signal>, b: seq<Signal>, c: seq<Signal>, d: seq<Signal>)
    ensures w + a + b + c + d == w + (a + b + c + d)
  {
  }

  /** The commands Initialize sends once the pins are made: into 4-bit mode, display on, clear. */
  method Start() returns (display: CharacterDisplay)
    ensures fresh(display) && display.Valid() && display.currentRow == 0
    ensures display.wire == Creation + InitCommands
  {
    display := new CharacterDisplay(Creation);
    display.SendInitCommands();
  }

  /** Initialize: the seven pins made in the order RS, Enable, D4, D5, D6, D7, backlight, all low but
    * the backlight; then the four initialization commands, the cursor on row 0. */
  method Initialize(parentSocket: Socket) returns (r: Result<CharacterDisplay>)
    modifies parentSocket`log
    ensures r.Ok? <==> CanMakeAll(parentSocket.nativePins, parentSocket.creators, Pins)
    ensures r.Err? ==> r.error == UnsupportedPinMode
    ensures parentSocket.log == old(parentSocket.log) + PinSteps(parentSocket.nativePins, parentSocket.creators, Pins)
    ensures r.Ok? ==> fresh(r.value) && r.value.Valid() && r.value.currentRow == 0
    ensures r.Ok? ==> r.value.wire == Creation + InitCommands
  {
    var outs :- parentSocket.CreateOutputs(Pins, InitialLevels);
    var display := Start();
    r := Ok(display);
  }
}

=== FILE: errors.dfy ===
/** The exceptions the Gadgeteer layer and its drivers throw, and the result types that carry them. */
module Errors {

  /** One constructor per exception type the modelled code throws (or runs into). */
  datatype Error =
    | ArgumentNull              // System.ArgumentNullException
    | ArgumentOutOfRange        // System.ArgumentOutOfRangeException
    | Argument                  // System.ArgumentException (also Dictionary.Add on a duplicate key)
    | InvalidOperation          // System.InvalidOperationException
    | NotSupported              // System.NotSupportedException
    | ObjectDisposed            // System.ObjectDisposedException
    | NullReference             // dereferencing a null array
    | IndexOutOfRange           // indexing an array outside its bounds
    | UnsupportedSocketType     // UnsupportedSocketTypeException
    | UnsupportedPinMode        // UnsupportedPinModeException
    | InvalidModuleDefinition   // InvalidModuleDefinitionException

  /** A value, or the exception that was thrown instead of returning it. */
  datatype Result<+T> = Ok(value: T) | Err(error: Error) {
    predicate IsFailure() { Err? }

    function PropagateFailure<U>(): Result<U>
      requires Err?
    {
      Err(error)
    }

    function Extract(): T
      requires Ok?
    {
      value
    }
  }

  /** The outcome of an operation that returns nothing. */
  datatype Outcome = Pass | Fail(error: Error) {
    predicate IsFailure() { Fail? }

    function PropagateFailure(): Outcome
      requires Fail?
    {
      this
    }
  }
}

=== FILE: fez_cream.dfy ===
/** The FEZ Cream mainboard: nine sockets over native pins and buses, an ADS7830 for analog
  * inputs, a PCA9685 for PWM and two PCA9535 expanders for the remaining digital pins. A socket
  * pin is found in fixed tables: its expander line, its analog channel, its PWM channel.
  * Some lines are shared. Two analog inputs sit on lines that are also digital pins, and the
  * creator makes that line an input. Each PWM channel shares its pin with an expander line
  * through a multiplexer, whose select line (on expander 1) picks the expander when high and
  * the PCA9685 when low. */
module FezCream {
  import opened Errors
  import opened Transfers
  import opened Bytes
  import opened SocketInterfaces
  import opened Sockets
  import ModuleBase
  import Ads7830
  import Pca9685
  import Pca9535

  /** A line of expander 1 or 2 (its PCA9535 pin number); in the analog sharing table chip 0
    * stands for a native GPIO line. */
  datatype Line = Line(chip: int, pin: int)

  /** How a PWM channel shares its pin: the expander line wired to the same pin, and the
    * multiplexer select line. */
  datatype PwmShare = PwmShare(line: Line, select: Line)

  // ---------------------------------------------------------------------------------------------
  // The tables
  // ---------------------------------------------------------------------------------------------

  /** The expander line of each digital socket pin that has no native line. */
  function GpioMap(): map<int, map<SocketPin, Line>> {
    map[1 := map[Six := Line(2, 7)],
        2 := map[Three := Line(2, 5), Six := Line(2, 6)],
        4 := map[Four := Line(2, 0), Five := Line(2, 17), Six := Line(2, 1), Seven := Line(2, 4), Eight := Line(2, 2), Nine := Line(2, 3)],
        5 := map[Four := Line(2, 14), Six := Line(2, 16)],
        6 := map[Four := Line(2, 13), Six := Line(2, 15)],
        7 := map[Four := Line(2, 11), Five := Line(2, 10), Six := Line(2, 12), Seven := Line(1, 12), Eight := Line(1, 11), Nine := Line(1, 10)],
        8 := map[Four := Line(1, 0), Five := Line(1, 16), Six := Line(1, 1), Seven := Line(1, 15), Eight := Line(1, 14), Nine := Line(1, 13)],
        9 := map[Six := Line(1, 17)]]
  }

  /** The ADS7830 channel of each analog socket pin. */
  function AnalogMap(): map<int, map<SocketPin, int>> {
    map[5 := map[Three := 4, Four := 5, Five := 3],
        6 := map[Three := 2, Four := 0, Five := 1]]
  }

  /** The PCA9685 channel of each PWM socket pin. */
  function PwmMap(): map<int, map<SocketPin, int>> {
    map[7 := map[Seven := 2, Eight := 1, Nine := 0],
        8 := map[Seven := 3, Eight := 4, Nine := 5]]
  }

  /** The digital line each shared analog channel is wired to. */
  function AnalogSharedMap(): map<int, Line> {
    map[4 := Line(0, 12), 5 := Line(2, 14), 2 := Line(0, 16), 0 := Line(2, 13)]
  }

  /** The sharing of each PWM channel. */
  function PwmSharedMap(): map<int, PwmShare> {
    map[2 := PwmShare(Line(1, 12), Line(1, 5)),
        1 := PwmShare(Line(1, 11), Line(1, 6)),
        0 := PwmShare(Line(1, 10), Line(1, 7)),
        3 := PwmShare(Line(1, 15), Line(1, 2)),
        4 := PwmShare(Line(1, 14), Line(1, 3)),
        5 := PwmShare(Line(1, 13), Line(1, 4))]
  }

  /** The socket pin has an expander line. */
  predicate Routed(n: int, p: SocketPin) {
    n in GpioMap() && p in GpioMap()[n]
  }

  /** The socket pin has an analog channel. */
  predicate AnalogRouted(n: int, p: SocketPin) {
    n in AnalogMap() && p in AnalogMap()[n]
  }

  /** The socket pin has a PWM channel. */
  predicate PwmRouted(n: int, p: SocketPin) {
    n in PwmMap() && p in PwmMap()[n]
  }

  /** The PCA9685 channel of the debug LED. */
  const DebugLedChannel: int := 15

  /** Every expander line names expander 1 or 2 and a pin the PCA9535 accepts. */
  lemma ExpanderLinesValid(n: int, p: SocketPin)
    requires Routed(n, p)
    ensures GpioMap()[n][p].chip == 1 || GpioMap()[n][p].chip == 2
    ensures Pca9535.ValidPin(GpioMap()[n][p].pin)
  {
  }

  /** The socket pin an expander line serves: the table read backwards. */
  function Owner(l: Line): (int, SocketPin) {
    if l.chip == 2 then
      if l.pin == 7 then (1, Six) else if l.pin == 5 then (2, Three) else if l.pin == 6 then (2, Six)
      else if l.pin == 0 then (4, Four) else if l.pin == 17 then (4, Five) else if l.pin == 1 then (4, Six)
      else if l.pin == 4 then (4, Seven) else if l.pin == 2 then (4, Eight) else if l.pin == 3 then (4, Nine)
      else if l.pin == 14 then (5, Four) else if l.pin == 16 then (5, Six)
      else if l.pin == 13 then (6, Four) else if l.pin == 15 then (6, Six)
      else if l.pin == 11 then (7, Four) else if l.pin == 10 then (7, Five) else (7, Six)
    else
      if l.pin == 12 then (7, Seven) else if l.pin == 11 then (7, Eight) else if l.pin == 10 then (7, Nine)
      else if l.pin == 0 then (8, Four) else if l.pin == 16 then (8, Five) else if l.pin == 1 then (8, Six)
      else if l.pin == 15 then (8, Seven) else if l.pin == 14 then (8, Eight) else if l.pin == 13 then (8, Nine)
      else (9, Six)
  }

  /** Owner undoes the table. */
  lemma OwnerInverts(n: int, p: SocketPin)
    requires Routed(n, p)
    ensures Owner(GpioMap()[n][p]) == (n, p)
  {
    if n <= 4 {
    } else if n <= 6 {
    } else {
    }
  }

  /** No two socket pins share an expander line. */
  lemma ExpanderLinesDistinct(n1: int, p1: SocketPin, n2: int, p2: SocketPin)
    requires Routed(n1, p1) && Routed(n2, p2)
    requires GpioMap()[n1][p1] == GpioMap()[n2][p2]
    ensures n1 == n2 && p1 == p2
  {
    OwnerInverts(n1, p1);
    OwnerInverts(n2, p2);
  }

  /** Every PWM pin's channel is in the sharing table, so its lookup does not throw; the shared
    * line is the pin's own expander line; the select line is one of pins 2 to 7 of expander 1;
    * and the channel is a PCA9685 channel other than the debug LED's. */
  lemma PwmSharingWired(n: int, p: SocketPin)
    requires PwmRouted(n, p)
    ensures PwmMap()[n][p] in PwmSharedMap()
    ensures 0 <= PwmMap()[n][p] <= 15 && PwmMap()[n][p] != DebugLedChannel
    ensures Routed(n, p) && PwmSharedMap()[PwmMap()[n][p]].line == GpioMap()[n][p]
    ensures PwmSharedMap()[PwmMap()[n][p]].line.chip == 1
    ensures 10 <= PwmSharedMap()[PwmMap()[n][p]].line.pin <= 15
    ensures PwmSharedMap()[PwmMap()[n][p]].select.chip == 1
    ensures 2 <= PwmSharedMap()[PwmMap()[n][p]].select.pin <= 7
  {
  }

  /** Different PWM pins have different channels, and different channels different select lines,
    * so switching one pin's multiplexer leaves every other pin's alone. */
  lemma PwmChannelsDistinct(n1: int, p1: SocketPin, n2: int, p2: SocketPin)
    requires PwmRouted(n1, p1) && PwmRouted(n2, p2)
    requires PwmMap()[n1][p1] == PwmMap()[n2][p2]
      || PwmSharedMap()[PwmMap()[n1][p1]].select == PwmSharedMap()[PwmMap()[n2][p2]].select
    ensures n1 == n2 && p1 == p2
  {
    PwmSharingWired(n1, p1);
    PwmSharingWired(n2, p2);
  }

  /** No select line is any socket pin's expander line. */
  lemma SelectLinesFree(n: int, p: SocketPin, channel: int)
    requires Routed(n, p) && channel in PwmSharedMap()
    ensures GpioMap()[n][p] != PwmSharedMap()[channel].select
  {
  }

  /** Every analog pin has a channel the ADS7830 accepts. The channel is shared exactly when the
    * pin also has a digital line: a native pin when the table says chip 0, the pin's expander
    * line otherwise. */
  lemma AnalogSharingWired(n: int, p: SocketPin)
    requires AnalogRouted(n, p)
    ensures Ads7830.Accepted(AnalogMap()[n][p])
    ensures AnalogMap()[n][p] in AnalogSharedMap() <==> p in CreamNatives(n) || Routed(n, p)
    ensures AnalogMap()[n][p] in AnalogSharedMap() && AnalogSharedMap()[AnalogMap()[n][p]].chip == 0 ==>
      p in CreamNatives(n) && CreamNatives(n)[p] == AnalogSharedMap()[AnalogMap()[n][p]].pin
    ensures AnalogMap()[n][p] in AnalogSharedMap() && AnalogSharedMap()[AnalogMap()[n][p]].chip != 0 ==>
      Routed(n, p) && GpioMap()[n][p] == AnalogSharedMap()[AnalogMap()[n][p]]
      && AnalogSharedMap()[AnalogMap()[n][p]].chip == 2
  {
  }

  /** Different analog pins have different channels. */
  lemma AnalogChannelsDistinct(n1: int, p1: SocketPin, n2: int, p2: SocketPin)
    requires AnalogRouted(n1, p1) && AnalogRouted(n2, p2)
    requires AnalogMap()[n1][p1] == AnalogMap()[n2][p2]
    ensures n1 == n2 && p1 == p2
  {
  }

  // ---------------------------------------------------------------------------------------------
  // The sockets
  // ---------------------------------------------------------------------------------------------

  /** The types of socket `n`. */
  function CreamTypes(n: int): set<SocketType> {
    if n == 1 || n == 9 then {I} else if n == 2 then {U} else if n == 3 then {S, X}
    else if n == 4 then {Y} else if n == 5 || n == 6 then {A} else {P, Y}
  }

  /** The native pins of socket `n`. */
  function CreamNatives(n: int): map<SocketPin, int> {
    if n == 1 then map[Three := 18] else if n == 2 then map[]
    else if n == 3 then map[Three := 24, Four := 25, Five := 13]
    else if n == 4 then map[Three := 6] else if n == 5 then map[Three := 12]
    else if n == 6 then map[Three := 16] else if n == 7 then map[Three := 5]
    else if n == 8 then map[Three := 27] else map[Three := 23]
  }

  /** The creators socket `n` is given. */
  function CreamCreators(n: int): set<Kind> {
    if n == 3 then {} else if n == 5 || n == 6 then {DigitalKind, AnalogKind}
    else if n == 7 || n == 8 then {DigitalKind, PwmKind} else {DigitalKind}
  }

  /** The sockets agree with the tables. Analog sockets are exactly those with analog pins,
    * and PWM sockets exactly those with PWM pins. Every socket pin with an expander line sits
    * on a socket with the digital creator and has no native line, so the socket asks the
    * creator for it. */
  lemma SocketsMatchTables(n: int, p: SocketPin)
    requires 1 <= n <= 9
    ensures (A in CreamTypes(n) <==> n in AnalogMap()) && (AnalogKind in CreamCreators(n) <==> n in AnalogMap())
    ensures (P in CreamTypes(n) <==> n in PwmMap()) && (PwmKind in CreamCreators(n) <==> n in PwmMap())
    ensures DigitalKind in CreamCreators(n) <==> n != 3
    ensures Routed(n, p) ==> DigitalKind in CreamCreators(n) && p !in CreamNatives(n)
    ensures PwmRouted(n, p) ==> p !in CreamNatives(n)
  {
  }

  /** Socket `n` as Initialize leaves it. */
  ghost predicate Configured(s: Socket, n: int)
    reads s
  {
    && s.number == n && s.supportedTypes == CreamTypes(n) && s.nativePins == CreamNatives(n)
    && s.creators == CreamCreators(n) && s.log == []
    && ((n == 1 || n == 9) ==> s.nativeI2cDeviceId == "I2C1")
    && (n == 2 ==> s.nativeSerialDeviceId == "COM1")
    && (n == 3 ==> s.nativeSpiDeviceId == "SPI0" && s.nativeSpiChipSelectPin == 0)
  }

  /** The statements Initialize runs on the new socket `n`. */
  method Configure(socket: Socket)
    requires 1 <= socket.number <= 9
    requires socket.supportedTypes == {} && socket.nativePins == map[] && socket.creators == {} && socket.log == []
    modifies socket
    ensures Configured(socket, socket.number)
  {
    var n := socket.number;
    if n == 1 || n == 9 {
      ConfigureI2c(socket, if n == 1 then 18 else 23);
    } else if n == 2 {
      socket.AddSupportedTypes([U]);
      socket.nativeSerialDeviceId := "COM1";
      socket.SetCreator(DigitalKind, true);
    } else if n == 3 {
      ConfigureSpi(socket);
    } else if n == 4 {
      socket.AddSupportedTypes([Y]);
      socket.SetNativePin(Three, 6);
      socket.SetCreator(DigitalKind, true);
    } else if n == 5 || n == 6 {
      ConfigureSignal(socket, true, if n == 5 then 12 else 16);
    } else {
      ConfigureSignal(socket, false, if n == 7 then 5 else 27);
    }
  }

  /** Sockets 1 and 9: type I on the native I2C bus, pin Three native. */
  method ConfigureI2c(socket: Socket, nativePin: int)
    requires socket.supportedTypes == {} && socket.nativePins == map[] && socket.creators == {}
    modifies socket
    ensures socket.supportedTypes == {I} && socket.nativePins == map[Three := nativePin]
    ensures socket.creators == {DigitalKind} && socket.nativeI2cDeviceId == "I2C1" && socket.log == old(socket.log)
  {
    socket.AddSupportedTypes([I]);
    socket.SetNativePin(Three, nativePin);
    socket.nativeI2cDeviceId := "I2C1";
    socket.SetCreator(DigitalKind, true);
  }

  /** Socket 3: types S and X on the native SPI bus, pins Three to Five native. */
  method ConfigureSpi(socket: Socket)
    requires socket.supportedTypes == {} && socket.nativePins == map[] && socket.creators == {}
    modifies socket
    ensures socket.supportedTypes == {S, X} && socket.nativePins == map[Three := 24, Four := 25, Five := 13]
    ensures socket.creators == {} && socket.nativeSpiDeviceId == "SPI0" && socket.nativeSpiChipSelectPin == 0
    ensures socket.log == old(socket.log)
  {
    socket.AddSupportedTypes([S, X]);
    socket.SetNativePin(Three, 24);
    socket.SetNativePin(Four, 25);
    socket.SetNativePin(Five, 13);
    socket.nativeSpiDeviceId := "SPI0";
    socket.nativeSpiChipSelectPin := 0;
  }

  /** Sockets 5 to 8: type A with the analog creator (sockets 5 and 6) or types P and Y with the
    * PWM creator (sockets 7 and 8), pin Three native, and the digital creator. */
  method ConfigureSignal(socket: Socket, analog: bool, nativePin: int)
    requires socket.supportedTypes == {} && socket.nativePins == map[] && socket.creators == {}
    modifies socket
    ensures socket.supportedTypes == (if analog then {A} else {P, Y}) && socket.nativePins == map[Three := nativePin]
    ensures socket.creators == (if analog then {DigitalKind, AnalogKind} else {DigitalKind, PwmKind})
    ensures socket.log == old(socket.log)
  {
    socket.AddSupportedTypes(if analog then [A] else [P, Y]);
    socket.SetNativePin(Three, nativePin);
    socket.SetCreator(DigitalKind, true);
    socket.SetCreator(if analog then AnalogKind else PwmKind, true);
  }

  /** One socket of Initialize: socket `n` created and configured. */
  method AddSocket(m: ModuleBase.Module, n: int) returns (r: Outcome)
    requires 1 <= n <= 9
    modifies m`providedSockets
    ensures r.Pass? <==> n !in old(m.providedSockets)
    ensures r.Fail? ==> r.error == Argument && m.providedSockets == old(m.providedSockets)
    ensures r.Pass? ==>
      && n in m.providedSockets && m.providedSockets == old(m.providedSockets)[n := m.providedSockets[n]]
      && fresh(m.providedSockets[n]) && Configured(m.providedSockets[n], n)
  {
    var created := m.CreateSocket(n);
    if created.Err? {
      return Fail(created.error);
    }
    Configure(created.value);
    r := Pass;
  }

  /** Initialize's sockets 1 to 9, in order; a number the module already provides throws. */
  method CreateSockets(m: ModuleBase.Module) returns (r: Outcome)
    modifies m`providedSockets
    ensures r.Pass? <==> forall n :: 1 <= n <= 9 ==> n !in old(m.providedSockets)
    ensures r.Fail? ==> r.error == Argument
    ensures forall n :: n in old(m.providedSockets) ==> n in m.providedSockets && m.providedSockets[n] == old(m.providedSockets)[n]
    ensures r.Pass? ==> forall n :: n in m.providedSockets <==> n in old(m.providedSockets) || 1 <= n <= 9
    ensures r.Pass? ==> forall n :: 1 <= n <= 9 ==> fresh(m.providedSockets[n]) && Configured(m.providedSockets[n], n)
  {
    for n := 1 to 10
      invariant forall k :: 1 <= k < n ==> k !in old(m.providedSockets)
      invariant forall k :: k in m.providedSockets <==> k in old(m.providedSockets) || 1 <= k < n
      invariant forall k :: k in old(m.providedSockets) ==> m.providedSockets[k] == old(m.providedSockets)[k]
      invariant forall k :: 1 <= k < n ==> fresh(m.providedSockets[k]) && Configured(m.providedSockets[k], k)
    {
      r := AddSocket(m, n);
      if r.Fail? {
        return;
      }
    }
    r := Pass;
  }

  // ---------------------------------------------------------------------------------------------
  // The expander lines
  // ---------------------------------------------------------------------------------------------

  /** The two configuration bytes after SetDriveMode(pin, mode): the pin's bit set for an input,
    * cleared otherwise. */
  function ConfigAfter(pin: int, c0: bv8, c1: bv8, mode: DriveMode): (bv8, bv8)
    requires Pca9535.ValidPin(pin)
  {
    if Pca9535.OnPortZero(pin) then (SetBit(c0, Pca9535.BitOf(pin), mode == Input), c1)
    else (c0, SetBit(c1, Pca9535.BitOf(pin), mode == Input))
  }

  /** The register write SetDriveMode(pin, mode) makes. */
  function ModeWrite(pin: int, c0: bv8, c1: bv8, mode: DriveMode): I2cTransfer
    requires Pca9535.ValidPin(pin)
  {
    if Pca9535.OnPortZero(pin) then I2cWrite([Pca9535.ConfigurationPort0, ConfigAfter(pin, c0, c1, mode).0])
    else I2cWrite([Pca9535.ConfigurationPort1, ConfigAfter(pin, c0, c1, mode).1])
  }

  /** The two output bytes after Write(pin, state). */
  function OutputAfter(pin: int, o0: bv8, o1: bv8, state: bool): (bv8, bv8)
    requires Pca9535.ValidPin(pin)
  {
    if Pca9535.OnPortZero(pin) then (SetBit(o0, Pca9535.BitOf(pin), state), o1)
    else (o0, SetBit(o1, Pca9535.BitOf(pin), state))
  }

  /** The register write Write(pin, state) makes. */
  function LevelWrite(pin: int, o0: bv8, o1: bv8, state: bool): I2cTransfer
    requires Pca9535.ValidPin(pin)
  {
    if Pca9535.OnPortZero(pin) then I2cWrite([Pca9535.OutputPort0, OutputAfter(pin, o0, o1, state).0])
    else I2cWrite([Pca9535.OutputPort1, OutputAfter(pin, o0, o1, state).1])
  }

  /** The input register a pin is read from. */
  function InputPort(pin: int): bv8 {
    if Pca9535.OnPortZero(pin) then Pca9535.InputPort0 else Pca9535.InputPort1
  }

  /** A mode change reaches the chip as the pin's configuration bit and nothing else: every other
    * pin keeps its mode. */
  lemma ModeChangeIsLocal(pin: int, c0: bv8, c1: bv8, mode: DriveMode, other: int)
    requires Pca9535.ValidPin(pin) && Pca9535.ValidPin(other) && other != pin
    ensures var (a0, a1) := ConfigAfter(pin, c0, c1, mode);
      TestBit(if Pca9535.OnPortZero(pin) then a0 else a1, Pca9535.BitOf(pin)) == (mode == Input)
      && TestBit(if Pca9535.OnPortZero(other) then a0 else a1, Pca9535.BitOf(other))
         == TestBit(if Pca9535.OnPortZero(other) then c0 else c1, Pca9535.BitOf(other))
  {
    if Pca9535.OnPortZero(pin) == Pca9535.OnPortZero(other) {
      SetBitKeeps(if Pca9535.OnPortZero(pin) then c0 else c1, Pca9535.BitOf(pin), mode == Input, Pca9535.BitOf(other));
    }
  }

  /** A line of port 0 made an output and driven to `level`: the two writes of a select line. */
  method DriveLine(g: Pca9535.Pca9535, pin: int, level: bool)
    requires !g.disposed && 0 <= pin <= 7
    modifies g
    ensures !g.disposed && g.config1 == old(g.config1) && g.out1 == old(g.out1)
    ensures g.in0 == old(g.in0) && g.in1 == old(g.in1) && g.interruptMode == old(g.interruptMode)
    ensures g.config0 == SetBit(old(g.config0), pin, false) && g.out0 == SetBit(old(g.out0), pin, level)
    ensures g.transfers == old(g.transfers)
      + [I2cWrite([Pca9535.ConfigurationPort0, g.config0]), I2cWrite([Pca9535.OutputPort0, g.out0])]
  {
    var moded := g.SetDriveMode(pin, Output);
    var written := g.Write(pin, level);
  }

  /** Expander 1's configuration byte after Initialize has made pins 2 to `i - 1` outputs. */
  function SelectsConfig(i: int): bv8
    requires 2 <= i <= 8
  {
    if i == 2 then 0xFF else SetBit(SelectsConfig(i - 1), i - 1, false)
  }

  /** The writes Initialize makes on expander 1 for pins 2 to `i - 1`. */
  function SelectsWrites(i: int): seq<I2cTransfer>
    requires 2 <= i <= 8
  {
    if i == 2 then []
    else SelectsWrites(i - 1) + [I2cWrite([Pca9535.ConfigurationPort0, SelectsConfig(i)]), I2cWrite([Pca9535.OutputPort0, 0xFF])]
  }

  /** After Initialize's loop, pins 2 to 7 of expander 1's port 0 are outputs and pins 0 and 1
    * still inputs. */
  lemma {:induction false} SelectsConfigBits(i: int, k: nat)
    requires 2 <= i <= 8 && k < 8
    ensures TestBit(SelectsConfig(i), k) <==> !(2 <= k < i)
  {
    if i > 2 {
      SelectsConfigBits(i - 1, k);
      if k != i - 1 {
        SetBitKeeps(SelectsConfig(i - 1), i - 1, false, k);
      }
    }
  }

  /** Driving a line high on an all-high output byte changes nothing. */
  lemma HighStaysHigh(k: nat)
    requires k < 8
    ensures SetBit(0xFF, k, true) == 0xFF
  {
  }

  /** So every PWM pin starts on its expander line: its select line is an output driven high. */
  lemma SelectsStartHigh(channel: int)
    requires channel in PwmSharedMap()
    ensures 2 <= PwmSharedMap()[channel].select.pin <= 7
    ensures !TestBit(SelectsConfig(8), PwmSharedMap()[channel].select.pin)
    ensures TestBit(0xFF, PwmSharedMap()[channel].select.pin)
  {
    SelectsConfigBits(8, PwmSharedMap()[channel].select.pin);
  }

  // ---------------------------------------------------------------------------------------------
  // The board
  // ---------------------------------------------------------------------------------------------

  /** The board's chips, and the native lines its analog creator has made inputs. */
  class FezCream {
    const analog: Ads7830.Ads7830
    const pwm: Pca9685.Pca9685
    const gpio1: Pca9535.Pca9535
    const gpio2: Pca9535.Pca9535
    var nativeInputs: seq<int>

    /** The two expanders are distinct and open (the board never disposes them). */
    ghost predicate Valid()
      reads this, gpio1, gpio2
    {
      gpio1 != gpio2 && !gpio1.disposed && !gpio2.disposed
    }

    constructor (analog: Ads7830.Ads7830, pwm: Pca9685.Pca9685, gpio1: Pca9535.Pca9535, gpio2: Pca9535.Pca9535)
      ensures this.analog == analog && this.pwm == pwm && this.gpio1 == gpio1 && this.gpio2 == gpio2
      ensures nativeInputs == []
    {
      this.analog := analog;
      this.pwm := pwm;
      this.gpio1 := gpio1;
      this.gpio2 := gpio2;
      nativeInputs := [];
    }

    /** `gpios[chip - 1]`. */
    function Gpio(chip: int): (g: Pca9535.Pca9535)
      requires chip == 1 || chip == 2
      reads this
      ensures g == if chip == 1 then gpio1 else gpio2
    {
      if chip == 1 then gpio1 else gpio2
    }

    /** SetDebugLed: channel 15 of the PCA9685 fully on or fully off. */
    method SetDebugLed(state: bool) returns (r: Outcome)
      modifies pwm`transfers
      ensures pwm.disposed ==> r == Fail(ObjectDisposed) && pwm.transfers == old(pwm.transfers)
      ensures !pwm.disposed ==>
        r == Pass && pwm.transfers == old(pwm.transfers) + [I2cWrite(if state then Pca9685.ChannelBytes(DebugLedChannel, Pca9685.Full, 0) else Pca9685.ChannelBytes(DebugLedChannel, 0, Pca9685.Full))]
    {
      if state {
        r := pwm.TurnOn(DebugLedChannel);
      } else {
        r := pwm.TurnOff(DebugLedChannel);
      }
    }

    /** The DigitalIOCreator: the pin's expander line; a PWM pin's multiplexer is first switched
      * to the expander (its select line an output driven high). */
    method CreateDigitalIO(socket: Socket, pin: SocketPin) returns (r: Result<IndirectedDigitalIO>)
      requires Valid()
      modifies gpio1
      ensures Valid()
      ensures r.Ok? <==> Routed(socket.number, pin)
      ensures r.Err? ==> r.error == UnsupportedPinMode && unchanged(gpio1)
      ensures r.Ok? ==>
        && fresh(r.value) && r.value.pin == GpioMap()[socket.number][pin].pin
        && r.value.gpio == Gpio(GpioMap()[socket.number][pin].chip)
        && r.value.driveMode == Input && !r.value.subscribed
      ensures r.Ok? && !PwmRouted(socket.number, pin) ==> unchanged(gpio1)
      ensures r.Ok? && PwmRouted(socket.number, pin) ==>
        var select := PwmSharedMap()[PwmMap()[socket.number][pin]].select.pin;
        && gpio1.config0 == SetBit(old(gpio1.config0), select, false) && gpio1.out0 == SetBit(old(gpio1.out0), select, true)
        && gpio1.config1 == old(gpio1.config1) && gpio1.out1 == old(gpio1.out1)
        && gpio1.transfers == old(gpio1.transfers)
          + [I2cWrite([Pca9535.ConfigurationPort0, gpio1.config0]), I2cWrite([Pca9535.OutputPort0, gpio1.out0])]
    {
      var n := socket.number;
      if !(n in GpioMap()) || !(pin in GpioMap()[n]) {
        return Err(UnsupportedPinMode);
      }
      var line := GpioMap()[n][pin];
      if n in PwmMap() && pin in PwmMap()[n] {
        var channel := PwmMap()[n][pin];
        PwmSharingWired(n, pin);
        var shared := PwmSharedMap()[channel];
        DriveLine(Gpio(shared.select.chip), shared.select.pin, true);
      }
      ExpanderLinesValid(n, pin);
      var io := new IndirectedDigitalIO(line.pin, Gpio(line.chip));
      r := Ok(io);
    }

    /** The AnalogIOCreator: the pin's ADS7830 channel; a shared channel's digital line is first
      * made an input, on the native GPIO or on the expander. */
    method CreateAnalogIO(socket: Socket, pin: SocketPin) returns (r: Result<IndirectedAnalogIO>)
      requires Valid()
      modifies this`nativeInputs, gpio2
      ensures Valid()
      ensures r.Ok? <==> AnalogRouted(socket.number, pin)
      ensures r.Err? ==> r.error == UnsupportedPinMode && unchanged(gpio2) && nativeInputs == old(nativeInputs)
      ensures r.Ok? ==> fresh(r.value) && r.value.channel == AnalogMap()[socket.number][pin] && r.value.analog == analog
      ensures r.Ok? && r.value.channel !in AnalogSharedMap() ==> unchanged(gpio2) && nativeInputs == old(nativeInputs)
      ensures r.Ok? && r.value.channel in AnalogSharedMap() && AnalogSharedMap()[r.value.channel].chip == 0 ==>
        unchanged(gpio2) && nativeInputs == old(nativeInputs) + [AnalogSharedMap()[r.value.channel].pin]
      ensures r.Ok? && r.value.channel in AnalogSharedMap() && AnalogSharedMap()[r.value.channel].chip != 0 ==>
        var line := AnalogSharedMap()[r.value.channel].pin;
        && Pca9535.ValidPin(line) && nativeInputs == old(nativeInputs)
        && (gpio2.config0, gpio2.config1) == ConfigAfter(line, old(gpio2.config0), old(gpio2.config1), Input)
        && gpio2.out0 == old(gpio2.out0) && gpio2.out1 == old(gpio2.out1)
        && gpio2.transfers == old(gpio2.transfers) + [ModeWrite(line, old(gpio2.config0), old(gpio2.config1), Input)]
    {
      var n := socket.number;
      if !(n in AnalogMap()) || !(pin in AnalogMap()[n]) {
        return Err(UnsupportedPinMode);
      }
      var channel := AnalogMap()[n][pin];
      if channel in AnalogSharedMap() {
        var shared := AnalogSharedMap()[channel];
        if shared.chip == 0 {
          nativeInputs := nativeInputs + [shared.pin];
        } else {
          AnalogSharingWired(n, pin);
          ExpanderLinesValid(n, pin);
          var moded := Gpio(shared.chip).SetDriveMode(shared.pin, Input);
        }
      }
      var io := new IndirectedAnalogIO(channel, analog);
      r := Ok(io);
    }

    /** The PwmOutputCreator: the pin's PCA9685 channel; its expander line is made an input and
      * its multiplexer switched to the PCA9685 (the select line an output driven low). */
    method CreatePwmOutput(socket: Socket, pin: SocketPin) returns (r: Result<IndirectedPwmOutput>)
      requires Valid()
      modifies gpio1
      ensures Valid()
      ensures r.Ok? <==> PwmRouted(socket.number, pin)
      ensures r.Err? ==> r.error == UnsupportedPinMode && unchanged(gpio1)
      ensures r.Ok? ==> fresh(r.value) && r.value.channel == PwmMap()[socket.number][pin] && r.value.pwm == pwm
      ensures r.Ok? ==>
        var shared := PwmSharedMap()[PwmMap()[socket.number][pin]];
        && 10 <= shared.line.pin <= 15 && 2 <= shared.select.pin <= 7
        && gpio1.config1 == SetBit(old(gpio1.config1), shared.line.pin - 10, true) && gpio1.out1 == old(gpio1.out1)
        && gpio1.config0 == SetBit(old(gpio1.config0), shared.select.pin, false)
        && gpio1.out0 == SetBit(old(gpio1.out0), shared.select.pin, false)
        && gpio1.transfers == old(gpio1.transfers) + [I2cWrite([Pca9535.ConfigurationPort1, gpio1.config1]),
             I2cWrite([Pca9535.ConfigurationPort0, gpio1.config0]), I2cWrite([Pca9535.OutputPort0, gpio1.out0])]
    {
      var n := socket.number;
      if !(n in PwmMap()) || !(pin in PwmMap()[n]) {
        return Err(UnsupportedPinMode);
      }
      var channel := PwmMap()[n][pin];
      PwmSharingWired(n, pin);
      var shared := PwmSharedMap()[channel];
      var moded := Gpio(shared.line.chip).SetDriveMode(shared.line.pin, Input);
      DriveLine(Gpio(shared.select.chip), shared.select.pin, false);
      var io := new IndirectedPwmOutput(channel, pwm);
      r := Ok(io);
    }
  }

  /** Initialize's loop: pins 2 to 7 of expander 1 made outputs and driven high. */
  method SelectsOn(g: Pca9535.Pca9535)
    requires !g.disposed && g.config0 == 0xFF && g.out0 == 0xFF && g.transfers == []
    modifies g
    ensures !g.disposed && g.config0 == SelectsConfig(8) && g.out0 == 0xFF
    ensures g.config1 == old(g.config1) && g.out1 == old(g.out1) && g.transfers == SelectsWrites(8)
  {
    for i := 2 to 8
      invariant !g.disposed && g.config0 == SelectsConfig(i) && g.out0 == 0xFF
      invariant g.config1 == old(g.config1) && g.out1 == old(g.out1) && g.transfers == SelectsWrites(i)
    {
      HighStaysHigh(i);
      DriveLine(g, i, true);
    }
  }

  /** The chips Initialize opens, and its loop over expander 1's pins 2 to 7 (each made an output
    * and driven high, so every PWM pin starts on its expander line). */
  method Start() returns (cream: FezCream)
    ensures fresh(cream) && fresh(cream.analog) && fresh(cream.pwm) && fresh(cream.gpio1) && fresh(cream.gpio2)
    ensures cream.Valid() && cream.nativeInputs == []
    ensures !cream.analog.disposed && cream.analog.transfers == []
    ensures !cream.pwm.disposed && !cream.pwm.hasOutputEnable
    ensures cream.pwm.transfers == [I2cWrite([Pca9685.Mode1, 0x20]), I2cWrite([Pca9685.Mode2, 0x06])]
    ensures cream.gpio1.config0 == SelectsConfig(8) && cream.gpio1.out0 == 0xFF
    ensures cream.gpio1.config1 == 0xFF && cream.gpio1.out1 == 0xFF && cream.gpio1.transfers == SelectsWrites(8)
    ensures cream.gpio2.config0 == 0xFF && cream.gpio2.out0 == 0xFF
    ensures cream.gpio2.config1 == 0xFF && cream.gpio2.out1 == 0xFF && cream.gpio2.transfers == []
  {
    var analog := new Ads7830.Ads7830();
    var pwm := new Pca9685.Pca9685(false);
    var gpio1 := new Pca9535.Pca9535();
    var gpio2 := new Pca9535.Pca9535();
    SelectsOn(gpio1);
    cream := new FezCream(analog, pwm, gpio1, gpio2);
  }

  /** Initialize: the chips and the select lines, then sockets 1 to 9; a socket number the module
    * already provides throws. */
  method Initialize(m: ModuleBase.Module) returns (r: Result<FezCream>)
    modifies m`providedSockets
    ensures r.Ok? <==> forall n :: 1 <= n <= 9 ==> n !in old(m.providedSockets)
    ensures r.Err? ==> r.error == Argument
    ensures forall n :: n in old(m.providedSockets) ==> n in m.providedSockets && m.providedSockets[n] == old(m.providedSockets)[n]
    ensures r.Ok? ==> forall n :: n in m.providedSockets <==> n in old(m.providedSockets) || 1 <= n <= 9
    ensures r.Ok? ==> forall n :: 1 <= n <= 9 ==> fresh(m.providedSockets[n]) && Configured(m.providedSockets[n], n)
    ensures r.Ok? ==>
      && fresh(r.value) && fresh(r.value.analog) && fresh(r.value.pwm) && fresh(r.value.gpio1) && fresh(r.value.gpio2)
      && r.value.Valid() && r.value.nativeInputs == []
    ensures r.Ok? ==> !r.value.analog.disposed && r.value.analog.transfers == []
    ensures r.Ok? ==>
      && !r.value.pwm.disposed && !r.value.pwm.hasOutputEnable
      && r.value.pwm.transfers == [I2cWrite([Pca9685.Mode1, 0x20]), I2cWrite([Pca9685.Mode2, 0x06])]
    ensures r.Ok? ==>
      && r.value.gpio1.config0 == SelectsConfig(8) && r.value.gpio1.out0 == 0xFF
      && r.value.gpio1.config1 == 0xFF && r.value.gpio1.out1 == 0xFF && r.value.gpio1.transfers == SelectsWrites(8)
    ensures r.Ok? ==>
      && r.value.gpio2.config0 == 0xFF && r.value.gpio2.out0 == 0xFF
      && r.value.gpio2.config1 == 0xFF && r.value.gpio2.out1 == 0xFF && r.value.gpio2.transfers == []
  {
    var cream := Start();
    var created := CreateSockets(m);
    if created.Fail? {
      return Err(created.error);
    }
    r := Ok(cream);
  }

  // ---------------------------------------------------------------------------------------------
  // The adapters
  // ---------------------------------------------------------------------------------------------

  /** The values among `reports` that concern `pin`, in order. */
  function Matching(pin: int, reports: seq<Pca9535.PinChange>): (values: seq<bool>)
    ensures |values| <= |reports|
  {
    if |reports| == 0 then [] else
      Matching(pin, reports[..|reports| - 1])
      + (if reports[|reports| - 1].pin == pin then [reports[|reports| - 1].newState] else [])
  }

  /** One interrupt's reports for a port concern a pin of that port at most once: exactly when
    * its bit changed, with the new bit. */
  lemma {:induction false} MatchingChanges(pin: int, cached: bv8, current: bv8, offset: int, n: nat)
    requires n <= 8
    ensures Matching(pin, Pca9535.Changes(cached, current, offset, n)) ==
      if offset <= pin < offset + n && TestBit(cached, pin - offset) != TestBit(current, pin - offset)
      then [TestBit(current, pin - offset)] else []
  {
    if n > 0 {
      MatchingChanges(pin, cached, current, offset, n - 1);
      var before := Pca9535.Changes(cached, current, offset, n - 1);
      var changed := TestBit(cached, n - 1) != TestBit(current, n - 1);
      var last := if changed then [Pca9535.PinChange(offset + n - 1, TestBit(current, n - 1))] else [];
      assert Pca9535.Changes(cached, current, offset, n) == before + last;
      MatchingAppend(pin, before, last);
      if changed {
        MatchingSingle(pin, Pca9535.PinChange(offset + n - 1, TestBit(current, n - 1)));
      }
      if pin == offset + n - 1 {
        assert Matching(pin, before) == [];
        assert Matching(pin, last) == if changed then [TestBit(current, n - 1)] else [];
      } else {
        assert Matching(pin, last) == [];
        assert (offset <= pin < offset + n) == (offset <= pin < offset + n - 1);
      }
    }
  }

  lemma MatchingSingle(pin: int, c: Pca9535.PinChange)
    ensures Matching(pin, [c]) == if c.pin == pin then [c.newState] else []
  {
    assert [c][..0] == [];
  }

  lemma {:induction false} MatchingAppend(pin: int, a: seq<Pca9535.PinChange>, b: seq<Pca9535.PinChange>)
    ensures Matching(pin, a + b) == Matching(pin, a) + Matching(pin, b)
  {
    if |b| > 0 {
      assert (a + b)[..|a + b| - 1] == a + b[..|b| - 1];
      MatchingAppend(pin, a, b[..|b| - 1]);
    } else {
      assert a + b == a;
    }
  }

  /** A digital pin on an expander line. */
  class IndirectedDigitalIO {
    const pin: int
    const gpio: Pca9535.Pca9535
    var driveMode: DriveMode
    /** OnPinChanged is subscribed to the expander's PinChanged event. */
    var subscribed: bool

    constructor (channel: int, pca: Pca9535.Pca9535)
      ensures pin == channel && gpio == pca && driveMode == Input && !subscribed
    {
      pin := channel;
      gpio := pca;
      driveMode := Input;
      subscribed := false;
    }

    /** The chip can act on the pin. */
    ghost predicate Ready()
      reads gpio
    {
      !gpio.disposed && Pca9535.ValidPin(pin)
    }

    method EnableInterrupt()
      modifies this`subscribed
      ensures subscribed
    {
      subscribed := true;
    }

    method DisableInterrupt()
      modifies this`subscribed
      ensures !subscribed
    {
      subscribed := false;
    }

    /** The values OnPinChanged passes on for the expander's `reports`: those of this pin, while
      * subscribed. */
    function Notifications(reports: seq<Pca9535.PinChange>): (values: seq<bool>)
      reads this
      ensures !subscribed ==> values == []
      ensures subscribed ==> values == Matching(pin, reports)
    {
      if subscribed then Matching(pin, reports) else []
    }

    /** The DriveMode setter: the chip's mode first, then the cached one. */
    method SetDriveMode(value: DriveMode) returns (r: Outcome)
      modifies this`driveMode, gpio`config0, gpio`config1, gpio`transfers
      ensures r.Pass? <==> old(Ready())
      ensures r.Fail? ==> driveMode == old(driveMode) && unchanged(gpio)
      ensures r.Pass? ==>
        && driveMode == value
        && (gpio.config0, gpio.config1) == ConfigAfter(pin, old(gpio.config0), old(gpio.config1), value)
        && gpio.transfers == old(gpio.transfers) + [ModeWrite(pin, old(gpio.config0), old(gpio.config1), value)]
    {
      r := gpio.SetDriveMode(pin, value);
      if r.Fail? {
        return;
      }
      driveMode := value;
    }

    /** ReadInternal: an input first if it is not one, then the pin's bit of its input port. */
    method ReadInternal() returns (r: Result<bool>)
      modifies this`driveMode, gpio`config0, gpio`config1, gpio`transfers
      ensures r.Ok? <==> old(Ready())
      ensures r.Err? ==> driveMode == old(driveMode) && unchanged(gpio)
      ensures r.Ok? ==> driveMode == Input && gpio.out0 == old(gpio.out0) && gpio.out1 == old(gpio.out1)
      ensures r.Ok? && old(driveMode) == Input ==>
        gpio.config0 == old(gpio.config0) && gpio.config1 == old(gpio.config1)
        && exists b: bv8 ::
             gpio.transfers == old(gpio.transfers) + [I2cWriteRead([InputPort(pin)], [b])]
             && r.value == TestBit(b, Pca9535.BitOf(pin))
      ensures r.Ok? && old(driveMode) != Input ==>
        (gpio.config0, gpio.config1) == ConfigAfter(pin, old(gpio.config0), old(gpio.config1), Input)
        && exists b: bv8 ::
             gpio.transfers == old(gpio.transfers)
               + [ModeWrite(pin, old(gpio.config0), old(gpio.config1), Input), I2cWriteRead([InputPort(pin)], [b])]
             && r.value == TestBit(b, Pca9535.BitOf(pin))
    {
      if driveMode != Input {
        var moded := SetDriveMode(Input);
        if moded.Fail? {
          return Err(moded.error);
        }
      }
      r := gpio.Read(pin);
    }

    /** WriteInternal: an output first if it is not one, then the pin's output bit. */
    method WriteInternal(value: bool) returns (r: Outcome)
      modifies this`driveMode, gpio`config0, gpio`config1, gpio`out0, gpio`out1, gpio`transfers
      ensures r.Pass? <==> old(Ready())
      ensures r.Fail? ==> driveMode == old(driveMode) && unchanged(gpio)
      ensures r.Pass? ==>
        && driveMode == Output
        && (gpio.out0, gpio.out1) == OutputAfter(pin, old(gpio.out0), old(gpio.out1), value)
      ensures r.Pass? && old(driveMode) == Output ==>
        gpio.config0 == old(gpio.config0) && gpio.config1 == old(gpio.config1)
        && gpio.transfers == old(gpio.transfers) + [LevelWrite(pin, old(gpio.out0), old(gpio.out1), value)]
      ensures r.Pass? && old(driveMode) != Output ==>
        (gpio.config0, gpio.config1) == ConfigAfter(pin, old(gpio.config0), old(gpio.config1), Output)
        && gpio.transfers == old(gpio.transfers)
          + [ModeWrite(pin, old(gpio.config0), old(gpio.config1), Output), LevelWrite(pin, old(gpio.out0), old(gpio.out1), value)]
    {
      if driveMode != Output {
        var moded := SetDriveMode(Output);
        if moded.Fail? {
          return moded;
        }
      }
      r := gpio.Write(pin, value);
    }
  }

  /** The full scale of the board's analog inputs. */
  const MaxVoltage: real := 3.3

  /** An analog pin: a channel of the ADS7830. */
  class IndirectedAnalogIO {
    const channel: int
    const analog: Ads7830.Ads7830

    constructor (channel: int, analog: Ads7830.Ads7830)
      ensures this.channel == channel && this.analog == analog
    {
      this.channel := channel;
      this.analog := analog;
    }

    /** ReadInternal: the conversion as a voltage on the 3.3 V scale. */
    method ReadInternal() returns (r: Result<real>)
      modifies analog`transfers
      ensures analog.disposed ==> r == Err(ObjectDisposed) && analog.transfers == old(analog.transfers)
      ensures !analog.disposed && !Ads7830.Accepted(channel) ==> r == Err(ArgumentOutOfRange) && analog.transfers == old(analog.transfers)
      ensures !analog.disposed && Ads7830.Accepted(channel) ==> r.Ok? && exists sample: bv8 ::
        analog.transfers == old(analog.transfers) + [I2cWriteRead([Ads7830.Command(channel)], [sample])]
        && r.value == Ads7830.Voltage(sample, MaxVoltage)
    {
      var fraction :- analog.Read(channel);
      r := Ok(fraction * MaxVoltage);
    }

    /** WriteInternal: an analog input cannot be driven. */
    method WriteInternal(voltage: real) returns (r: Outcome)
      ensures r == Fail(NotSupported)
    {
      r := Fail(NotSupported);
    }

    /** The DriveMode getter: always Input. */
    function DriveMode(): (m: SocketInterfaces.DriveMode)
      ensures m == Input
    {
      Input
    }

    /** The DriveMode setter: only Input is accepted, and changes nothing. */
    method SetDriveMode(value: SocketInterfaces.DriveMode) returns (r: Outcome)
      ensures r.Pass? <==> value == Input
      ensures r.Fail? ==> r.error == NotSupported
    {
      if value != Input {
        return Fail(NotSupported);
      }
      r := Pass;
    }
  }

  /** C#'s `(int)` on a double: the fraction dropped toward zero. */
  function Truncate(x: real): (n: int)
    ensures x >= 0.0 ==> n as real <= x < n as real + 1.0
    ensures x < 0.0 ==> n as real - 1.0 < x <= n as real
  {
    if x >= 0.0 then x.Floor else -((-x).Floor)
  }

  /** The channel write SetValues makes for `dutyCycle`, or the exception it throws: 1 turns the
    * channel fully on without the duty-cycle check; anything else goes through SetDutyCycle. */
  function DutyWrite(channel: int, dutyCycle: real): (r: Result<seq<bv8>>)
    ensures r.Ok? <==> 0 <= channel <= 15 && 0.0 <= dutyCycle <= 1.0
    ensures r.Err? ==> r.error == ArgumentOutOfRange
  {
    if dutyCycle != 1.0 && !(0.0 <= dutyCycle <= 1.0) then Err(ArgumentOutOfRange)
    else if !(0 <= channel <= 15) then Err(ArgumentOutOfRange)
    else if dutyCycle == 1.0 then Ok(Pca9685.ChannelBytes(channel, Pca9685.Full, 0))
    else if dutyCycle == 0.0 then Ok(Pca9685.ChannelBytes(channel, 0, Pca9685.Full))
    else Ok(Pca9685.ChannelBytes(channel, 0, Pca9685.DutyCount(dutyCycle)))
  }

  /** The special case for 1 agrees with what SetDutyCycle(1) would write, and the ends of the
    * range are the chip's full-on and full-off settings. */
  lemma DutyWriteEnds(channel: int)
    requires 0 <= channel <= 15
    ensures DutyWrite(channel, 1.0) == Ok(Pca9685.ChannelBytes(channel, Pca9685.Full, 0))
    ensures DutyWrite(channel, 0.0) == Ok(Pca9685.ChannelBytes(channel, 0, Pca9685.Full))
    ensures Pca9685.ChannelBytes(channel, Pca9685.Full, 0) != Pca9685.ChannelBytes(channel, 0, Pca9685.Full)
  {
    Pca9685.FullOnAndOff(channel);
  }

  /** The outcome and the transfers of SetValues on a chip that accepted the frequency: the
    * frequency writes, then the channel write unless the duty cycle or the channel throws. */
  ghost predicate Applied(before: seq<I2cTransfer>, after: seq<I2cTransfer>, r: Outcome, channel: int, frequency: real, dutyCycle: real) {
    40 <= Truncate(frequency) <= 1500 && exists mode: bv8 ::
      var tuned := before + [I2cWriteRead([Pca9685.Mode1], [mode])] + Pca9685.FrequencyWrites(mode, Truncate(frequency));
      && (DutyWrite(channel, dutyCycle).Ok? ==> r == Pass && after == tuned + [I2cWrite(DutyWrite(channel, dutyCycle).value)])
      && (DutyWrite(channel, dutyCycle).Err? ==> r == Fail(DutyWrite(channel, dutyCycle).error) && after == tuned)
  }

  /** A PWM output on a PCA9685 channel. */
  class IndirectedPwmOutput {
    const channel: int
    const pwm: Pca9685.Pca9685

    constructor (channel: int, pwm: Pca9685.Pca9685)
      ensures this.channel == channel && this.pwm == pwm
    {
      this.channel := channel;
      this.pwm := pwm;
    }

    /** SetValues: the chip's frequency set to the truncated frequency, then the channel's duty
      * cycle. */
    method SetValues(frequency: real, dutyCycle: real) returns (r: Outcome)
      modifies pwm`transfers
      ensures pwm.disposed ==> r == Fail(ObjectDisposed) && pwm.transfers == old(pwm.transfers)
      ensures !pwm.disposed && !(40 <= Truncate(frequency) <= 1500) ==>
        r == Fail(ArgumentOutOfRange) && pwm.transfers == old(pwm.transfers)
      ensures !pwm.disposed && 40 <= Truncate(frequency) <= 1500 ==> Applied(old(pwm.transfers), pwm.transfers, r, channel, frequency, dutyCycle)
    {
      r := pwm.SetFrequency(Truncate(frequency));
      if r.Fail? {
        return;
      }
      ghost var tuned := pwm.transfers;
      if dutyCycle != 1.0 {
        r := pwm.SetDutyCycle(channel, dutyCycle);
      } else {
        r := pwm.TurnOn(channel);
      }
      assert pwm.transfers == tuned || pwm.transfers == tuned + [I2cWrite(DutyWrite(channel, dutyCycle).value)];
    }

    /** SetEnabled, given the frequency and duty cycle the base class keeps: on applies them, off
      * turns the channel fully off. */
    method SetEnabled(state: bool, frequency: real, dutyCycle: real) returns (r: Outcome)
      modifies pwm`transfers
      ensures pwm.disposed ==> r == Fail(ObjectDisposed) && pwm.transfers == old(pwm.transfers)
      ensures !state && !pwm.disposed && !(0 <= channel <= 15) ==> r == Fail(ArgumentOutOfRange) && pwm.transfers == old(pwm.transfers)
      ensures !state && !pwm.disposed && 0 <= channel <= 15 ==>
        r == Pass && pwm.transfers == old(pwm.transfers) + [I2cWrite(Pca9685.ChannelBytes(channel, 0, Pca9685.Full))]
      ensures state && !pwm.disposed && !(40 <= Truncate(frequency) <= 1500) ==>
        r == Fail(ArgumentOutOfRange) && pwm.transfers == old(pwm.transfers)
      ensures state && !pwm.disposed && 40 <= Truncate(frequency) <= 1500 ==> Applied(old(pwm.transfers), pwm.transfers, r, channel, frequency, dutyCycle)
    {
      if state {
        r := SetValues(frequency, dutyCycle);
      } else {
        r := pwm.TurnOff(channel);
      }
    }
  }
}

=== FILE: hub_ap5.dfy ===
/** The Hub AP5 module: eight Y sockets whose pins all lead to a CY8C9560A port expander, the
  * first two also analog through an ADS7830, the last five also PWM. A socket's pin reaches the
  * expander through a fixed table, and its analog channel is computed from the socket and pin
  * numbers.
  *
  * The expander's driver is not part of this model: it is an object that records the calls made
  * on it. */
module HubAp5 {
  import opened Errors
  import opened SocketInterfaces
  import opened Sockets
  import ModuleBase
  import Ads7830

  /** A pin of the expander: its port and its bit in the port. */
  datatype ExpanderPin = ExpanderPin(port: int, bit: int)

  /** A call made on the expander. */
  datatype ExpanderCall =
    | InputMade(pin: ExpanderPin)
    | OutputMade(pin: ExpanderPin)
    | InterruptMade(pin: ExpanderPin)
    | PwmStarted(pin: ExpanderPin, frequency: real, dutyCycle: real)
    | DigitalRead(pin: ExpanderPin, level: bool)
    | DigitalWritten(pin: ExpanderPin, state: bool)

  /** The CY8C9560A, as the calls made on it. */
  class Cy8c9560a {
    var calls: seq<ExpanderCall>

    constructor ()
      ensures calls == []
    {
      calls := [];
    }

    method SetInput(pin: ExpanderPin)
      modifies this
      ensures calls == old(calls) + [InputMade(pin)]
    {
      calls := calls + [InputMade(pin)];
    }

    method SetOutput(pin: ExpanderPin)
      modifies this
      ensures calls == old(calls) + [OutputMade(pin)]
    {
      calls := calls + [OutputMade(pin)];
    }

    method SetInterrupt(pin: ExpanderPin)
      modifies this
      ensures calls == old(calls) + [InterruptMade(pin)]
    {
      calls := calls + [InterruptMade(pin)];
    }

    method SetPwm(pin: ExpanderPin, frequency: real, dutyCycle: real)
      modifies this
      ensures calls == old(calls) + [PwmStarted(pin, frequency, dutyCycle)]
    {
      calls := calls + [PwmStarted(pin, frequency, dutyCycle)];
    }

    /** The level is whatever the expander reports. */
    method ReadDigital(pin: ExpanderPin) returns (level: bool)
      modifies this
      ensures calls == old(calls) + [DigitalRead(pin, level)]
    {
      level :| true;
      calls := calls + [DigitalRead(pin, level)];
    }

    method WriteDigital(pin: ExpanderPin, state: bool)
      modifies this
      ensures calls == old(calls) + [DigitalWritten(pin, state)]
    {
      calls := calls + [DigitalWritten(pin, state)];
    }
  }

  // ---------------------------------------------------------------------------------------------
  // The pin table
  // ---------------------------------------------------------------------------------------------

  /** One socket's row of the table: the expander pins of socket pins Three to Nine, a
    * dictionary that holds every socket pin. */
  datatype Row = Row(p3: ExpanderPin, p4: ExpanderPin, p5: ExpanderPin, p6: ExpanderPin,
                     p7: ExpanderPin, p8: ExpanderPin, p9: ExpanderPin)
  {
    function Get(p: SocketPin): ExpanderPin {
      match p
      case Three => p3
      case Four => p4
      case Five => p5
      case Six => p6
      case Seven => p7
      case Eight => p8
      case Nine => p9
    }
  }

  /** The table as written: socket 6's pin Nine is given expander pin (6, 0), which socket 8's pin
    * Seven also has. */
  function PinMapAsWritten(): (t: seq<Row>)
    ensures |t| == 8
  {
    [ Row(ExpanderPin(5, 0), ExpanderPin(5, 1), ExpanderPin(5, 2), ExpanderPin(5, 3), ExpanderPin(5, 4), ExpanderPin(5, 5), ExpanderPin(5, 6)),
      Row(ExpanderPin(4, 0), ExpanderPin(4, 1), ExpanderPin(4, 2), ExpanderPin(4, 3), ExpanderPin(4, 4), ExpanderPin(4, 5), ExpanderPin(4, 6)),
      Row(ExpanderPin(3, 0), ExpanderPin(3, 1), ExpanderPin(3, 2), ExpanderPin(3, 3), ExpanderPin(3, 4), ExpanderPin(3, 5), ExpanderPin(3, 6)),
      Row(ExpanderPin(2, 0), ExpanderPin(2, 1), ExpanderPin(2, 2), ExpanderPin(2, 3), ExpanderPin(7, 4), ExpanderPin(7, 5), ExpanderPin(7, 6)),
      Row(ExpanderPin(1, 4), ExpanderPin(1, 5), ExpanderPin(1, 6), ExpanderPin(1, 7), ExpanderPin(7, 1), ExpanderPin(7, 2), ExpanderPin(7, 3)),
      Row(ExpanderPin(1, 0), ExpanderPin(1, 1), ExpanderPin(1, 2), ExpanderPin(1, 3), ExpanderPin(6, 6), ExpanderPin(6, 7), ExpanderPin(6, 0)),
      Row(ExpanderPin(0, 4), ExpanderPin(0, 5), ExpanderPin(0, 6), ExpanderPin(0, 7), ExpanderPin(6, 3), ExpanderPin(6, 4), ExpanderPin(6, 5)),
      Row(ExpanderPin(0, 0), ExpanderPin(0, 1), ExpanderPin(0, 2), ExpanderPin(0, 3), ExpanderPin(6, 0), ExpanderPin(6, 1), ExpanderPin(6, 2)) ]
  }

  /** Two sockets share one expander pin in the table as written: setting socket 6's pin Nine
    * also sets socket 8's pin Seven. */
  lemma SharedExpanderPin()
    ensures PinMapAsWritten()[5].Get(Nine) == PinMapAsWritten()[7].Get(Seven) == ExpanderPin(6, 0)
  {
  }

  /** The table with socket 6's pin Nine on (7, 0), which continues that row's run (6, 6), (6, 7)
    * into port 7 as the next row's run (7, 1), (7, 2), (7, 3) begins, and which no socket pin
    * uses in the table as written. */
  function PinMap(): (t: seq<Row>)
    ensures |t| == 8
    ensures forall s :: 0 <= s < 8 && s != 5 ==> t[s] == PinMapAsWritten()[s]
    ensures t[5] == PinMapAsWritten()[5].(p9 := ExpanderPin(7, 0))
  {
    PinMapAsWritten()[5 := PinMapAsWritten()[5].(p9 := ExpanderPin(7, 0))]
  }

  /** The socket pin with offset `k` from pin Three. */
  function PinAt(k: int): (p: SocketPin)
    ensures 0 <= k <= 6 ==> PinNumber(p) == k + 3
  {
    if k == 0 then Three else if k == 1 then Four else if k == 2 then Five else if k == 3 then Six
    else if k == 4 then Seven else if k == 5 then Eight else Nine
  }

  /** Where an expander pin leads in the corrected table: a socket index and a socket pin. */
  function Locate(e: ExpanderPin): (int, SocketPin) {
    if e.port == 5 || e.port == 4 || e.port == 3 then (5 - e.port, PinAt(e.bit))
    else if e.port == 2 then (3, PinAt(e.bit))
    else if e.port == 7 then
      (if e.bit >= 4 then (3, PinAt(e.bit)) else if e.bit >= 1 then (4, PinAt(e.bit + 3)) else (5, Nine))
    else if e.port == 1 then
      (if e.bit >= 4 then (4, PinAt(e.bit - 4)) else (5, PinAt(e.bit)))
    else if e.port == 6 then
      (if e.bit >= 6 then (5, PinAt(e.bit - 2)) else if e.bit >= 3 then (6, PinAt(e.bit + 1)) else (7, PinAt(e.bit + 4)))
    else
      (if e.bit >= 4 then (6, PinAt(e.bit - 4)) else (7, PinAt(e.bit)))
  }

  /** Locate undoes one row of the corrected table. */
  lemma LocateInvertsRow(s: int, row: Row)
    requires 0 <= s < 8 && row == PinMap()[s]
    ensures forall p: SocketPin :: Locate(row.Get(p)) == (s, p)
  {
    forall p: SocketPin
      ensures Locate(row.Get(p)) == (s, p)
    {
      match p
      case Three =>
      case Four =>
      case Five =>
      case Six =>
      case Seven =>
      case Eight =>
      case Nine =>
    }
  }

  /** Locate undoes the corrected table. */
  lemma LocateInverts(s: int, p: SocketPin)
    requires 0 <= s < 8
    ensures Locate(PinMap()[s].Get(p)) == (s, p)
  {
    LocateInvertsRow(s, PinMap()[s]);
  }

  /** In the corrected table no two socket pins share an expander pin. */
  lemma PinMapInjective(s1: int, p1: SocketPin, s2: int, p2: SocketPin)
    requires 0 <= s1 < 8 && 0 <= s2 < 8
    requires PinMap()[s1].Get(p1) == PinMap()[s2].Get(p2)
    ensures s1 == s2 && p1 == p2
  {
    LocateInverts(s1, p1);
    LocateInverts(s2, p2);
  }

  /** GetPin on a table: the socket's row (the list indexer throws ArgumentOutOfRange for a
    * socket number past the table), then the pin, which every row maps. */
  function Lookup(table: seq<Row>, number: int, pin: SocketPin): (r: Result<ExpanderPin>)
    ensures r.Ok? <==> 1 <= number <= |table|
    ensures r.Err? ==> r.error == ArgumentOutOfRange
    ensures r.Ok? ==> r.value == table[number - 1].Get(pin)
  {
    if number < 1 || number > |table| then Err(ArgumentOutOfRange) else Ok(table[number - 1].Get(pin))
  }

  /** GetPin on the corrected table. */
  function GetPin(number: int, pin: SocketPin): (r: Result<ExpanderPin>)
    ensures r.Ok? <==> 1 <= number <= 8
    ensures r.Err? ==> r.error == ArgumentOutOfRange
    ensures r.Ok? ==> r.value == PinMap()[number - 1].Get(pin)
  {
    Lookup(PinMap(), number, pin)
  }

  /** GetPin on the table as written. */
  function GetPinAsWritten(number: int, pin: SocketPin): (r: Result<ExpanderPin>)
    ensures r.Ok? <==> 1 <= number <= 8
    ensures r.Err? ==> r.error == ArgumentOutOfRange
    ensures r.Ok? ==> r.value == PinMapAsWritten()[number - 1].Get(pin)
  {
    Lookup(PinMapAsWritten(), number, pin)
  }

  /** The two lookups differ at socket 6's pin Nine alone, which the correction moves from
    * (6, 0) to (7, 0). */
  lemma CorrectionIsLocal(number: int, pin: SocketPin)
    ensures GetPin(number, pin) == GetPinAsWritten(number, pin) <==> !(number == 6 && pin == Nine)
    ensures number == 6 && pin == Nine ==>
      GetPinAsWritten(number, pin) == Ok(ExpanderPin(6, 0)) && GetPin(number, pin) == Ok(ExpanderPin(7, 0))
  {
    if 1 <= number <= 8 && number != 6 {
      assert PinMap()[number - 1] == PinMapAsWritten()[number - 1];
    }
  }

  /** GetChannel: `(socket - 1) * 3 + (pin - 3)`, cast to a byte. */
  function GetChannel(number: int, pin: SocketPin): (c: int)
    ensures 0 <= c < 0x100
  {
    ((number - 1) * 3 + (PinNumber(pin) - 3)) % 0x100
  }

  /** For sockets 1 to 8 the byte cast never truncates: the channel is the formula's value. */
  lemma GetChannelFits(number: int, pin: SocketPin)
    requires 1 <= number <= 8
    ensures GetChannel(number, pin) == (number - 1) * 3 + PinNumber(pin) - 3 <= 27
  {
  }

  /** Within a socket, different pins have different channels. */
  lemma GetChannelInjectiveInPin(number: int, p1: SocketPin, p2: SocketPin)
    requires 1 <= number <= 8
    requires GetChannel(number, p1) == GetChannel(number, p2)
    ensures p1 == p2
  {
  }

  /** The analog pins (Three, Four, Five) of the two analog sockets get the six channels 0..5,
    * one each, all of which the ADS7830 accepts. */
  lemma AnalogChannels(n1: int, p1: SocketPin, n2: int, p2: SocketPin)
    requires 1 <= n1 <= 2 && 1 <= n2 <= 2
    requires PinNumber(p1) <= 5 && PinNumber(p2) <= 5
    ensures Ads7830.Accepted(GetChannel(n1, p1)) && GetChannel(n1, p1) <= 5
    ensures GetChannel(n1, p1) == GetChannel(n2, p2) ==> n1 == n2 && p1 == p2
  {
    GetChannelFits(n1, p1);
    GetChannelFits(n2, p2);
    if GetChannel(n1, p1) == GetChannel(n2, p2) {
      assert n1 == n2;
      GetChannelInjectiveInPin(n1, p1, p2);
    }
  }

  // ---------------------------------------------------------------------------------------------
  // The sockets
  // ---------------------------------------------------------------------------------------------

  /** The types socket `n` supports: Y for all, also A for sockets 1 and 2, also P for 4 to 8. */
  function HubTypes(n: int): set<SocketType> {
    {Y} + (if n <= 2 then {A} else if n > 3 then {P} else {})
  }

  lemma HubTypesStated(n: int)
    requires 1 <= n <= 8
    ensures Y in HubTypes(n)
    ensures A in HubTypes(n) <==> n <= 2
    ensures P in HubTypes(n) <==> n >= 4
    ensures n == 3 ==> HubTypes(n) == {Y}
  {
  }

  /** A hub socket as Initialize leaves it: numbered, its types, all three pin creators, no
    * native pin. */
  ghost predicate Configured(s: Socket, n: int)
    reads s
  {
    s.number == n && s.supportedTypes == HubTypes(n) && s.nativePins == map[]
    && s.creators == {DigitalKind, AnalogKind, PwmKind} && s.log == []
  }

  /** The body of the socket loop on a new socket. */
  method Configure(socket: Socket, i: int)
    requires socket.supportedTypes == {} && socket.nativePins == map[] && socket.creators == {}
    requires socket.log == [] && socket.number == i + 1
    modifies socket
    ensures Configured(socket, i + 1)
  {
    socket.AddSupportedTypes([Y]);
    if i < 2 {
      socket.AddSupportedTypes([A]);
    } else if i > 2 {
      socket.AddSupportedTypes([P]);
    }
    socket.SetCreator(DigitalKind, true);
    socket.SetCreator(AnalogKind, true);
    socket.SetCreator(PwmKind, true);
  }

  /** The hub: the two chips behind its sockets and the pin table its creators look pins up in. */
  class HubAp5 {
    const analog: Ads7830.Ads7830
    const gpio: Cy8c9560a
    const pinMap: seq<Row>

    constructor (analog: Ads7830.Ads7830, gpio: Cy8c9560a, pinMap: seq<Row>)
      ensures this.analog == analog && this.gpio == gpio && this.pinMap == pinMap
    {
      this.analog := analog;
      this.gpio := gpio;
      this.pinMap := pinMap;
    }

    /** The DigitalIOCreator: an adapter on the pin's expander pin, which it makes an output. */
    method CreateDigitalIO(socket: Socket, pin: SocketPin) returns (r: Result<IndirectedDigitalIO>)
      modifies gpio
      ensures r.Ok? <==> Lookup(pinMap, socket.number, pin).Ok?
      ensures r.Err? ==> r.error == ArgumentOutOfRange && gpio.calls == old(gpio.calls)
      ensures r.Ok? ==>
        && fresh(r.value) && r.value.cy8 == gpio && r.value.pin == Lookup(pinMap, socket.number, pin).value
        && r.value.driveMode == Input && !r.value.isInterrupt
        && gpio.calls == old(gpio.calls) + [OutputMade(r.value.pin)]
    {
      var p :- Lookup(pinMap, socket.number, pin);
      var io := new IndirectedDigitalIO(p, gpio);
      r := Ok(io);
    }

    /** The AnalogIOCreator: an adapter on the pin's channel, its expander pin made an input. */
    method CreateAnalogIO(socket: Socket, pin: SocketPin) returns (r: Result<IndirectedAnalogIO>)
      modifies gpio
      ensures r.Ok? <==> Lookup(pinMap, socket.number, pin).Ok?
      ensures r.Err? ==> r.error == ArgumentOutOfRange && gpio.calls == old(gpio.calls)
      ensures r.Ok? ==>
        && fresh(r.value) && r.value.channel == GetChannel(socket.number, pin)
        && r.value.ads == analog && r.value.cy8 == gpio
        && gpio.calls == old(gpio.calls) + [InputMade(Lookup(pinMap, socket.number, pin).value)]
    {
      var channel := GetChannel(socket.number, pin);
      var p :- Lookup(pinMap, socket.number, pin);
      var io := new IndirectedAnalogIO(channel, p, analog, gpio);
      r := Ok(io);
    }

    /** The PwmOutputCreator: an adapter on the pin's expander pin; nothing is called yet. */
    method CreatePwmOutput(socket: Socket, pin: SocketPin) returns (r: Result<IndirectedPwmOutput>)
      ensures r.Ok? <==> Lookup(pinMap, socket.number, pin).Ok?
      ensures r.Err? ==> r.error == ArgumentOutOfRange
      ensures r.Ok? ==> fresh(r.value) && r.value.cy8 == gpio && r.value.pin == Lookup(pinMap, socket.number, pin).value
    {
      var p :- Lookup(pinMap, socket.number, pin);
      var io := new IndirectedPwmOutput(p, gpio);
      r := Ok(io);
    }
  }

  /** One turn of Initialize's socket loop: socket `n` created and configured. */
  method AddSocket(m: ModuleBase.Module, n: int) returns (r: Outcome)
    modifies m`providedSockets
    ensures r.Pass? <==> n !in old(m.providedSockets)
    ensures r.Fail? ==> r.error == Argument && m.providedSockets == old(m.providedSockets)
    ensures r.Pass? ==>
      && n in m.providedSockets && m.providedSockets == old(m.providedSockets)[n := m.providedSockets[n]]
      && fresh(m.providedSockets[n]) && Configured(m.providedSockets[n], n)
  {
    var created := m.CreateSocket(n);
    if created.Err? {
      return Fail(created.error);
    }
    Configure(created.value, n - 1);
    r := Pass;
  }

  /** Initialize: the two chips opened, then sockets 1 to 8 created and configured in turn; a
    * socket number the module already provides throws, as the registry's Add does. */
  method Initialize(m: ModuleBase.Module) returns (r: Result<HubAp5>)
    modifies m`providedSockets
    ensures r.Ok? <==> forall n :: 1 <= n <= 8 ==> n !in old(m.providedSockets)
    ensures r.Err? ==> r.error == Argument
    ensures forall n :: n in old(m.providedSockets) ==> n in m.providedSockets && m.providedSockets[n] == old(m.providedSockets)[n]
    ensures r.Ok? ==> forall n :: n in m.providedSockets <==> n in old(m.providedSockets) || 1 <= n <= 8
    ensures r.Ok? ==> forall n :: 1 <= n <= 8 ==> fresh(m.providedSockets[n]) && Configured(m.providedSockets[n], n)
    ensures r.Ok? ==>
      && fresh(r.value) && fresh(r.value.analog) && fresh(r.value.gpio) && r.value.pinMap == PinMap()
      && r.value.gpio.calls == [] && r.value.analog.transfers == [] && !r.value.analog.disposed
  {
    var analog := new Ads7830.Ads7830();
    var gpio := new Cy8c9560a();
    for i := 0 to 8
      invariant forall n :: 1 <= n <= i ==> n !in old(m.providedSockets)
      invariant forall n :: n in m.providedSockets <==> n in old(m.providedSockets) || 1 <= n <= i
      invariant forall n :: n in old(m.providedSockets) ==> m.providedSockets[n] == old(m.providedSockets)[n]
      invariant forall n :: 1 <= n <= i ==> fresh(m.providedSockets[n]) && Configured(m.providedSockets[n], n)
      invariant gpio.calls == [] && analog.transfers == [] && !analog.disposed
    {
      var added := AddSocket(m, i + 1);
      if added.Fail? {
        return Err(added.error);
      }
    }
    var hub := new HubAp5(analog, gpio, PinMap());
    r := Ok(hub);
  }

  /** With the table as written, the digital pins of socket 6's pin Nine and socket 8's pin Seven
    * are one expander pin: both creators make (6, 0) an output. */
  method SharedOutputAsWritten(s6: Socket, s8: Socket) returns (d6: IndirectedDigitalIO, d8: IndirectedDigitalIO)
    requires s6.number == 6 && s8.number == 8
    ensures d6.cy8 == d8.cy8 && d6.pin == d8.pin == ExpanderPin(6, 0)
    ensures d6.cy8.calls == [OutputMade(ExpanderPin(6, 0)), OutputMade(ExpanderPin(6, 0))]
  {
    var analog := new Ads7830.Ads7830();
    var gpio := new Cy8c9560a();
    var hub := new HubAp5(analog, gpio, PinMapAsWritten());
    var r6 := hub.CreateDigitalIO(s6, Nine);
    var r8 := hub.CreateDigitalIO(s8, Seven);
    d6, d8 := r6.value, r8.value;
  }

  /** With the corrected table the same two socket pins get distinct expander pins. */
  method SeparateOutputs(s6: Socket, s8: Socket) returns (d6: IndirectedDigitalIO, d8: IndirectedDigitalIO)
    requires s6.number == 6 && s8.number == 8
    ensures d6.cy8 == d8.cy8 && d6.pin == ExpanderPin(7, 0) && d8.pin == ExpanderPin(6, 0)
    ensures d6.cy8.calls == [OutputMade(ExpanderPin(7, 0)), OutputMade(ExpanderPin(6, 0))]
  {
    var analog := new Ads7830.Ads7830();
    var gpio := new Cy8c9560a();
    var hub := new HubAp5(analog, gpio, PinMap());
    var r6 := hub.CreateDigitalIO(s6, Nine);
    var r8 := hub.CreateDigitalIO(s8, Seven);
    d6, d8 := r6.value, r8.value;
  }

  // ---------------------------------------------------------------------------------------------
  // The adapters
  // ---------------------------------------------------------------------------------------------

  /** The expander call the DriveMode setter makes: an input is an interrupt input while an
    * interrupt is enabled; every other mode is an output. */
  function ModeCall(pin: ExpanderPin, mode: DriveMode, isInterrupt: bool): (c: ExpanderCall)
    ensures c.pin == pin
    ensures c.OutputMade? <==> mode != Input
    ensures c.InterruptMade? <==> mode == Input && isInterrupt
    ensures c.InputMade? <==> mode == Input && !isInterrupt
  {
    if mode == Input then (if isInterrupt then InterruptMade(pin) else InputMade(pin)) else OutputMade(pin)
  }

  /** A digital pin on the expander. Its cached mode starts as Input (the enum's zero) although
    * the constructor makes the expander pin an output. */
  class IndirectedDigitalIO {
    const pin: ExpanderPin
    const cy8: Cy8c9560a
    var driveMode: DriveMode
    var isInterrupt: bool

    constructor (pin: ExpanderPin, cy8: Cy8c9560a)
      modifies cy8
      ensures this.pin == pin && this.cy8 == cy8 && driveMode == Input && !isInterrupt
      ensures cy8.calls == old(cy8.calls) + [OutputMade(pin)]
    {
      this.pin := pin;
      isInterrupt := false;
      this.cy8 := cy8;
      driveMode := Input;
      new;
      cy8.SetOutput(pin);
    }

    /** EnableInterrupt: the pin becomes an interrupt input, and stays one across mode changes. */
    method EnableInterrupt()
      modifies this`isInterrupt, cy8
      ensures isInterrupt && cy8.calls == old(cy8.calls) + [InterruptMade(pin)]
    {
      isInterrupt := true;
      cy8.SetInterrupt(pin);
    }

    /** DisableInterrupt: the pin becomes a plain input. */
    method DisableInterrupt()
      modifies this`isInterrupt, cy8
      ensures !isInterrupt && cy8.calls == old(cy8.calls) + [InputMade(pin)]
    {
      isInterrupt := false;
      cy8.SetInput(pin);
    }

    method ReadInternal() returns (level: bool)
      modifies cy8
      ensures cy8.calls == old(cy8.calls) + [DigitalRead(pin, level)]
    {
      level := cy8.ReadDigital(pin);
    }

    method WriteInternal(state: bool)
      modifies cy8
      ensures cy8.calls == old(cy8.calls) + [DigitalWritten(pin, state)]
    {
      cy8.WriteDigital(pin, state);
    }

    /** The DriveMode setter: the mode cached, then dispatched to the expander. */
    method SetDriveMode(value: DriveMode)
      modifies this`driveMode, cy8
      ensures driveMode == value
      ensures cy8.calls == old(cy8.calls) + [ModeCall(pin, value, isInterrupt)]
    {
      driveMode := value;
      if value == Input {
        if isInterrupt {
          cy8.SetInterrupt(pin);
        } else {
          cy8.SetInput(pin);
        }
      } else {
        cy8.SetOutput(pin);
      }
    }

    /** The base class's Read on this pin: input (an interrupt input if one is enabled), then
      * sampled. */
    method Read() returns (level: bool)
      modifies this`driveMode, cy8
      ensures driveMode == Input
      ensures cy8.calls == old(cy8.calls) + [ModeCall(pin, Input, isInterrupt), DigitalRead(pin, level)]
    {
      SetDriveMode(Input);
      level := ReadInternal();
    }

    /** The base class's Write on this pin: output, then driven. */
    method Write(state: bool)
      modifies this`driveMode, cy8
      ensures driveMode == Output
      ensures cy8.calls == old(cy8.calls) + [OutputMade(pin), DigitalWritten(pin, state)]
    {
      SetDriveMode(Output);
      WriteInternal(state);
    }
  }

  /** The full scale of the hub's analog inputs. */
  const MaxVoltage: real := 3.3

  /** ReadProportion on top of the written ReadInternal divides the fraction by the full scale a
    * second time: a full-scale conversion reads as 1 V and as a proportion of 1 / 3.3. */
  lemma FullScaleAsWritten()
    ensures Ads7830.Proportion(0xFF) == 1.0 && Ads7830.Proportion(0xFF) / MaxVoltage != 1.0
    ensures Ads7830.Voltage(0xFF, MaxVoltage) == MaxVoltage
  {
  }

  /** An analog pin: a channel of the ADS7830, its expander pin left as an input. */
  class IndirectedAnalogIO {
    const channel: int
    const ads: Ads7830.Ads7830
    const cy8: Cy8c9560a

    constructor (channel: int, pin: ExpanderPin, ads: Ads7830.Ads7830, cy8: Cy8c9560a)
      modifies cy8
      ensures this.channel == channel && this.ads == ads && this.cy8 == cy8
      ensures cy8.calls == old(cy8.calls) + [InputMade(pin)]
    {
      this.ads := ads;
      this.channel := channel;
      this.cy8 := cy8;
      new;
      cy8.SetInput(pin);
    }

    /** ReadInternal as written: the ADS7830's read as written, whose guard lets channel 8
      * through, and its fraction of full scale returned where the base class expects a voltage. */
    method ReadInternalAsWritten() returns (r: Result<real>)
      modifies ads`transfers
      ensures ads.disposed ==> r == Err(ObjectDisposed) && ads.transfers == old(ads.transfers)
      ensures !ads.disposed && !Ads7830.AcceptedAsWritten(channel) ==> r == Err(ArgumentOutOfRange) && ads.transfers == old(ads.transfers)
      ensures !ads.disposed && Ads7830.AcceptedAsWritten(channel) ==> r.Ok? && exists sample: bv8 ::
        ads.transfers == old(ads.transfers) + [Transfers.I2cWriteRead([Ads7830.Command(channel)], [sample])]
        && r.value == Ads7830.Proportion(sample)
    {
      var fraction :- ads.ReadAsWritten(channel);
      r := Ok(fraction);
    }

    /** ReadInternal: the conversion as a voltage on the 3.3 V scale. */
    method ReadInternal() returns (r: Result<real>)
      modifies ads`transfers
      ensures ads.disposed ==> r == Err(ObjectDisposed) && ads.transfers == old(ads.transfers)
      ensures !ads.disposed && !Ads7830.Accepted(channel) ==> r == Err(ArgumentOutOfRange) && ads.transfers == old(ads.transfers)
      ensures !ads.disposed && Ads7830.Accepted(channel) ==> r.Ok? && exists sample: bv8 ::
        ads.transfers == old(ads.transfers) + [Transfers.I2cWriteRead([Ads7830.Command(channel)], [sample])]
        && r.value == Ads7830.Voltage(sample, MaxVoltage)
    {
      var fraction :- ads.Read(channel);
      r := Ok(fraction * MaxVoltage);
    }

    /** The base class's ReadProportion: the voltage over the full scale, which gives back the
      * conversion's fraction. */
    method ReadProportion() returns (r: Result<real>)
      modifies ads`transfers
      ensures ads.disposed ==> r == Err(ObjectDisposed) && ads.transfers == old(ads.transfers)
      ensures !ads.disposed && !Ads7830.Accepted(channel) ==> r == Err(ArgumentOutOfRange) && ads.transfers == old(ads.transfers)
      ensures !ads.disposed && Ads7830.Accepted(channel) ==> r.Ok? && exists sample: bv8 ::
        ads.transfers == old(ads.transfers) + [Transfers.I2cWriteRead([Ads7830.Command(channel)], [sample])]
        && r.value == Ads7830.Proportion(sample)
    {
      var voltage :- ReadInternal();
      r := Ok(voltage / MaxVoltage);
    }

    /** WriteInternal: an analog input cannot be driven. */
    method WriteInternal(voltage: real) returns (r: Outcome)
      ensures r == Fail(NotSupported)
    {
      r := Fail(NotSupported);
    }

    /** The DriveMode getter: always Input. */
    function DriveMode(): (m: SocketInterfaces.DriveMode)
      ensures m == Input
    {
      Input
    }

    /** The DriveMode setter: only Input is accepted, and changes nothing. */
    method SetDriveMode(value: SocketInterfaces.DriveMode) returns (r: Outcome)
      ensures r.Pass? <==> value == Input
      ensures r.Fail? ==> r.error == NotSupported
    {
      if value != Input {
        return Fail(NotSupported);
      }
      r := Pass;
    }
  }

  /** A PWM output on an expander pin. */
  class IndirectedPwmOutput {
    const pin: ExpanderPin
    const cy8: Cy8c9560a

    constructor (pin: ExpanderPin, cy8: Cy8c9560a)
      ensures this.pin == pin && this.cy8 == cy8
    {
      this.cy8 := cy8;
      this.pin := pin;
    }

    /** SetEnabled, given the frequency and duty cycle the base class keeps: on starts the PWM
      * with them, off returns the pin to an input. */
    method SetEnabled(state: bool, frequency: real, dutyCycle: real)
      modifies cy8
      ensures state ==> cy8.calls == old(cy8.calls) + [PwmStarted(pin, frequency, dutyCycle)]
      ensures !state ==> cy8.calls == old(cy8.calls) + [InputMade(pin)]
    {
      if state {
        cy8.SetPwm(pin, frequency, dutyCycle);
      } else {
        cy8.SetInput(pin);
      }
    }

    /** SetValues: the PWM restarted with the new values. */
    method SetValues(frequency: real, dutyCycle: real)
      modifies cy8
      ensures cy8.calls == old(cy8.calls) + [PwmStarted(pin, frequency, dutyCycle)]
    {
      cy8.SetPwm(pin, frequency, dutyCycle);
    }
  }
}

=== FILE: led7c.dfy ===
/** The LED7C module: one RGB LED on three digital outputs, red on pin 4, green on pin 5 and
  * blue on pin 3, whose eight colours are the eight on/off combinations of the three. */
module Led7c {
  import opened Errors
  import opened SocketInterfaces
  import opened Sockets

  /** The colours, in the order of their enum values 0 to 7. */
  datatype Color = Off | Blue | Green | Cyan | Red | Magenta | Yellow | White

  /** The colour's enum value. */
  function ColorValue(c: Color): (v: int)
    ensures 0 <= v <= 7
  {
    match c
    case Off => 0
    case Blue => 1
    case Green => 2
    case Cyan => 3
    case Red => 4
    case Magenta => 5
    case Yellow => 6
    case White => 7
  }

  /** The colour with enum value `v`. */
  function ColorOf(v: int): (c: Color)
    requires 0 <= v <= 7
    ensures ColorValue(c) == v
  {
    if v == 0 then Off else if v == 1 then Blue else if v == 2 then Green else if v == 3 then Cyan
    else if v == 4 then Red else if v == 5 then Magenta else if v == 6 then Yellow else White
  }

  /** Enum values and colours are in one-to-one correspondence. */
  lemma ColorValueInjective(c1: Color, c2: Color)
    requires ColorValue(c1) == ColorValue(c2)
    ensures c1 == c2
  {
  }

  /** The levels SetColor drives: red is bit 2 of the value, green bit 1, blue bit 0. */
  datatype Levels = Levels(red: bool, green: bool, blue: bool)

  function Bit(on: bool, weight: int): int {
    if on then weight else 0
  }

  /** The three levels of a colour, read off its value with masks 4, 2 and 1; they spell the
    * value in binary, red first. */
  function LevelsOf(c: Color): (l: Levels)
    ensures ColorValue(c) == Bit(l.red, 4) + Bit(l.green, 2) + Bit(l.blue, 1)
  {
    var v := ColorValue(c) as bv8;
    Levels(v & 4 != 0, v & 2 != 0, v & 1 != 0)
  }

  /** Different colours light different combinations. */
  lemma LevelsInjective(c1: Color, c2: Color)
    requires LevelsOf(c1) == LevelsOf(c2)
    ensures c1 == c2
  {
    ColorValueInjective(c1, c2);
  }

  /** Every combination of the three LEDs is some colour. */
  lemma LevelsSurjective(l: Levels)
    ensures LevelsOf(ColorOf(Bit(l.red, 4) + Bit(l.green, 2) + Bit(l.blue, 1))) == l
  {
    var c := ColorOf(Bit(l.red, 4) + Bit(l.green, 2) + Bit(l.blue, 1));
    var m := LevelsOf(c);
    assert Bit(m.red, 4) + Bit(m.green, 2) + Bit(m.blue, 1) == Bit(l.red, 4) + Bit(l.green, 2) + Bit(l.blue, 1);
  }

  /** The named colours mix as their names say: the primaries light one LED, the secondaries two,
    * Off none and White all three. */
  lemma NamedColors()
    ensures LevelsOf(Off) == Levels(false, false, false)
    ensures LevelsOf(Red) == Levels(true, false, false)
    ensures LevelsOf(Green) == Levels(false, true, false)
    ensures LevelsOf(Blue) == Levels(false, false, true)
    ensures LevelsOf(Yellow) == Levels(true, true, false)
    ensures LevelsOf(Magenta) == Levels(true, false, true)
    ensures LevelsOf(Cyan) == Levels(false, true, true)
    ensures LevelsOf(White) == Levels(true, true, true)
  {
  }

  /** The module's pins, in the order Initialize makes them, with their initial levels. */
  const Pins: seq<SocketPin> := [Four, Five, Three]
  const InitialLevels: seq<bool> := [false, false, false]

  class Led7c {
    const red: DigitalIO
    const green: DigitalIO
    const blue: DigitalIO

    ghost predicate Valid()
      reads this, red, green, blue
    {
      red != green && green != blue && red != blue && red.Valid() && green.Valid() && blue.Valid()
    }

    constructor (red: DigitalIO, green: DigitalIO, blue: DigitalIO)
      ensures this.red == red && this.green == green && this.blue == blue
    {
      this.red := red;
      this.green := green;
      this.blue := blue;
    }

    /** SetColor: each LED is written, as an output, with its bit of the colour's value. */
    method SetColor(color: Color)
      requires Valid()
      modifies red, green, blue
      ensures Valid()
      ensures red.driveMode == Output && green.driveMode == Output && blue.driveMode == Output
      ensures red.calls == old(red.calls) + [DriveModeSet(Output), Driven(LevelsOf(color).red)]
      ensures green.calls == old(green.calls) + [DriveModeSet(Output), Driven(LevelsOf(color).green)]
      ensures blue.calls == old(blue.calls) + [DriveModeSet(Output), Driven(LevelsOf(color).blue)]
      ensures red.handlers == old(red.handlers) && green.handlers == old(green.handlers)
      ensures blue.handlers == old(blue.handlers)
    {
      var c := ColorValue(color) as bv8;
      red.Write(c & 4 != 0);
      green.Write(c & 2 != 0);
      blue.Write(c & 1 != 0);
    }
  }

  /** Initialize: the three pins made as outputs driven low, red from pin 4, green from pin 5,
    * blue from pin 3; a pin the socket cannot make stops it with the socket's error. */
  method Initialize(parentSocket: Socket) returns (r: Result<Led7c>)
    modifies parentSocket`log
    ensures r.Ok? <==> CanMakeAll(parentSocket.nativePins, parentSocket.creators, Pins)
    ensures r.Err? ==> r.error == UnsupportedPinMode
    ensures parentSocket.log == old(parentSocket.log) + PinSteps(parentSocket.nativePins, parentSocket.creators, Pins)
    ensures r.Ok? ==>
      && fresh(r.value) && fresh(r.value.red) && fresh(r.value.green) && fresh(r.value.blue)
      && r.value.Valid()
      && MadeOutput(r.value.red, false) && MadeOutput(r.value.green, false) && MadeOutput(r.value.blue, false)
  {
    var outs :- parentSocket.CreateOutputs(Pins, InitialLevels);
    var led := new Led7c(outs[0], outs[1], outs[2]);
    r := Ok(led);
  }
}

=== FILE: led_strip.dfy ===
/** The LED Strip module: seven LEDs on the seven signal pins of one socket, LED k on pin k + 3.
  * Its single-LED operations guard the index with `0 <= led <= 7`, one more than the strip has:
  * LED 7 passes the guard and the array access that follows is out of range. */
module LedStrip {
  import opened Errors
  import opened SocketInterfaces
  import opened Sockets

  /** The number of LEDs, one per signal pin. */
  const LedCount: int := 7

  /** The pin of LED `i`: pin number i + 3. */
  function PinOf(i: int): (p: SocketPin)
    requires 0 <= i < LedCount
    ensures PinNumber(p) == i + 3
  {
    [Three, Four, Five, Six, Seven, Eight, Nine][i]
  }

  /** Initialize's pins, LED 0 first, and their initial levels. */
  const Pins: seq<SocketPin> := [Three, Four, Five, Six, Seven, Eight, Nine]
  const InitialLevels: seq<bool> := [false, false, false, false, false, false, false]

  lemma PinsInOrder()
    ensures |Pins| == LedCount && forall i :: 0 <= i < LedCount ==> Pins[i] == PinOf(i)
  {
  }

  /** The index check as written: an ArgumentOutOfRange outside 0..7, then the array access,
    * which fails for 7. */
  function CheckAsWritten(led: int): (r: Outcome)
    ensures r == Pass <==> 0 <= led < LedCount
  {
    if led < 0 || led > 7 then Fail(ArgumentOutOfRange)
    else if led >= LedCount then Fail(IndexOutOfRange)
    else Pass
  }

  /** The index check the strip's length calls for. */
  function Check(led: int): (r: Outcome)
    ensures r == Pass <==> 0 <= led < LedCount
    ensures r != Pass ==> r == Fail(ArgumentOutOfRange)
  {
    if led < 0 || led > LedCount - 1 then Fail(ArgumentOutOfRange) else Pass
  }

  /** The two checks disagree only at LED 7, which the written guard lets through to an
    * IndexOutOfRange. */
  lemma SeventhLedPassesGuard()
    ensures !(7 < 0 || 7 > 7)
    ensures CheckAsWritten(7) == Fail(IndexOutOfRange) && Check(7) == Fail(ArgumentOutOfRange)
  {
  }

  lemma ChecksAgreeElsewhere(led: int)
    requires led != 7
    ensures CheckAsWritten(led) == Check(led)
  {
  }

  class LedStrip {
    const outputPins: seq<DigitalIO>

    /** The set of the strip's pins, for frames. */
    ghost function Repr(): set<DigitalIO>
      reads this
    {
      set k | 0 <= k < |outputPins| :: outputPins[k]
    }

    ghost predicate Valid()
      reads this, Repr()
    {
      && |outputPins| == LedCount
      && (forall j, k :: 0 <= j < k < LedCount ==> outputPins[j] != outputPins[k])
      && (forall k :: 0 <= k < LedCount ==> outputPins[k].Valid())
    }

    constructor (outputPins: seq<DigitalIO>)
      ensures this.outputPins == outputPins
    {
      this.outputPins := outputPins;
    }

    /** TurnAllOn: every LED set high, in order, without touching its drive mode. */
    method TurnAllOn()
      requires Valid()
      modifies Repr()
      ensures Valid()
      ensures forall k :: 0 <= k < LedCount ==>
        && outputPins[k].calls == old(outputPins[k].calls) + [Driven(true)]
        && outputPins[k].driveMode == old(outputPins[k].driveMode)
        && outputPins[k].handlers == old(outputPins[k].handlers)
    {
      for i := 0 to LedCount
        invariant Valid()
        invariant forall k :: 0 <= k < i ==>
          && outputPins[k].calls == old(outputPins[k].calls) + [Driven(true)]
          && outputPins[k].driveMode == old(outputPins[k].driveMode)
          && outputPins[k].handlers == old(outputPins[k].handlers)
        invariant forall k :: i <= k < LedCount ==> unchanged(outputPins[k])
      {
        outputPins[i].SetHigh();
      }
    }

    /** TurnAllOff: every LED set low, in order, without touching its drive mode. */
    method TurnAllOff()
      requires Valid()
      modifies Repr()
      ensures Valid()
      ensures forall k :: 0 <= k < LedCount ==>
        && outputPins[k].calls == old(outputPins[k].calls) + [Driven(false)]
        && outputPins[k].driveMode == old(outputPins[k].driveMode)
        && outputPins[k].handlers == old(outputPins[k].handlers)
    {
      for i := 0 to LedCount
        invariant Valid()
        invariant forall k :: 0 <= k < i ==>
          && outputPins[k].calls == old(outputPins[k].calls) + [Driven(false)]
          && outputPins[k].driveMode == old(outputPins[k].driveMode)
          && outputPins[k].handlers == old(outputPins[k].handlers)
        invariant forall k :: i <= k < LedCount ==> unchanged(outputPins[k])
      {
        outputPins[i].SetLow();
      }
    }

    /** SetAll: every LED written, as an output, with `state`. */
    method SetAll(state: bool)
      requires Valid()
      modifies Repr()
      ensures Valid()
      ensures forall k :: 0 <= k < LedCount ==>
        && outputPins[k].calls == old(outputPins[k].calls) + [DriveModeSet(Output), Driven(state)]
        && outputPins[k].driveMode == Output
        && outputPins[k].handlers == old(outputPins[k].handlers)
    {
      for i := 0 to LedCount
        invariant Valid()
        invariant forall k :: 0 <= k < i ==>
          && outputPins[k].calls == old(outputPins[k].calls) + [DriveModeSet(Output), Driven(state)]
          && outputPins[k].driveMode == Output
          && outputPins[k].handlers == old(outputPins[k].handlers)
        invariant forall k :: i <= k < LedCount ==> unchanged(outputPins[k])
      {
        outputPins[i].Write(state);
      }
    }

    /** TurnOn as written: LED 7 gets through the guard and fails on the array. */
    method TurnOnAsWritten(led: int) returns (r: Outcome)
      requires Valid()
      modifies Repr()
      ensures Valid() && r == CheckAsWritten(led)
      ensures r.Fail? ==> unchanged(Repr())
      ensures r.Pass? ==> Lit(old(outputPins[led].calls), old(outputPins[led].driveMode), outputPins[led], true)
      ensures forall k :: 0 <= k < LedCount && k != led ==> unchanged(outputPins[k])
    {
      if led < 0 || led > 7 {
        return Fail(ArgumentOutOfRange);
      }
      if led >= |outputPins| {
        return Fail(IndexOutOfRange);
      }
      outputPins[led].SetHigh();
      r := Pass;
    }

    /** TurnOn: LED `led` set high, its drive mode as it was. */
    method TurnOn(led: int) returns (r: Outcome)
      requires Valid()
      modifies Repr()
      ensures Valid() && r == Check(led)
      ensures r.Fail? ==> unchanged(Repr())
      ensures r.Pass? ==> Lit(old(outputPins[led].calls), old(outputPins[led].driveMode), outputPins[led], true)
      ensures forall k :: 0 <= k < LedCount && k != led ==> unchanged(outputPins[k])
    {
      if led < 0 || led > LedCount - 1 {
        return Fail(ArgumentOutOfRange);
      }
      outputPins[led].SetHigh();
      r := Pass;
    }

    /** TurnOff as written: LED 7 gets through the guard and fails on the array. */
    method TurnOffAsWritten(led: int) returns (r: Outcome)
      requires Valid()
      modifies Repr()
      ensures Valid() && r == CheckAsWritten(led)
      ensures r.Fail? ==> unchanged(Repr())
      ensures r.Pass? ==> Lit(old(outputPins[led].calls), old(outputPins[led].driveMode), outputPins[led], false)
      ensures forall k :: 0 <= k < LedCount && k != led ==> unchanged(outputPins[k])
    {
      if led < 0 || led > 7 {
        return Fail(ArgumentOutOfRange);
      }
      if led >= |outputPins| {
        return Fail(IndexOutOfRange);
      }
      outputPins[led].SetLow();
      r := Pass;
    }

    /** TurnOff: LED `led` set low, its drive mode as it was. */
    method TurnOff(led: int) returns (r: Outcome)
      requires Valid()
      modifies Repr()
      ensures Valid() && r == Check(led)
      ensures r.Fail? ==> unchanged(Repr())
      ensures r.Pass? ==> Lit(old(outputPins[led].calls), old(outputPins[led].driveMode), outputPins[led], false)
      ensures forall k :: 0 <= k < LedCount && k != led ==> unchanged(outputPins[k])
    {
      if led < 0 || led > LedCount - 1 {
        return Fail(ArgumentOutOfRange);
      }
      outputPins[led].SetLow();
      r := Pass;
    }

    /** Set as written: LED 7 gets through the guard and fails on the array. */
    method SetAsWritten(led: int, state: bool) returns (r: Outcome)
      requires Valid()
      modifies Repr()
      ensures Valid() && r == CheckAsWritten(led)
      ensures r.Fail? ==> unchanged(Repr())
      ensures r.Pass? ==> Written(old(outputPins[led].calls), outputPins[led], state)
      ensures forall k :: 0 <= k < LedCount && k != led ==> unchanged(outputPins[k])
    {
      if led < 0 || led > 7 {
        return Fail(ArgumentOutOfRange);
      }
      if led >= |outputPins| {
        return Fail(IndexOutOfRange);
      }
      outputPins[led].Write(state);
      r := Pass;
    }

    /** Set: LED `led` written, as an output, with `state`. */
    method Set(led: int, state: bool) returns (r: Outcome)
      requires Valid()
      modifies Repr()
      ensures Valid() && r == Check(led)
      ensures r.Fail? ==> unchanged(Repr())
      ensures r.Pass? ==> Written(old(outputPins[led].calls), outputPins[led], state)
      ensures forall k :: 0 <= k < LedCount && k != led ==> unchanged(outputPins[k])
    {
      if led < 0 || led > LedCount - 1 {
        return Fail(ArgumentOutOfRange);
      }
      outputPins[led].Write(state);
      r := Pass;
    }
  }

  /** `io` was set to `level` by SetHigh or SetLow, from calls `before` and mode `mode`. */
  ghost predicate Lit(before: seq<IoCall>, mode: DriveMode, io: DigitalIO, level: bool)
    reads io
  {
    io.calls == before + [Driven(level)] && io.driveMode == mode
  }

  /** `io` was written with `level` as an output, from calls `before`. */
  ghost predicate Written(before: seq<IoCall>, io: DigitalIO, level: bool)
    reads io
  {
    io.calls == before + [DriveModeSet(Output), Driven(level)] && io.driveMode == Output
  }

  /** Initialize: LED k made from pin k + 3 as an output driven low, LED 0 first. */
  method Initialize(parentSocket: Socket) returns (r: Result<LedStrip>)
    modifies parentSocket`log
    ensures r.Ok? <==> CanMakeAll(parentSocket.nativePins, parentSocket.creators, Pins)
    ensures r.Err? ==> r.error == UnsupportedPinMode
    ensures parentSocket.log == old(parentSocket.log) + PinSteps(parentSocket.nativePins, parentSocket.creators, Pins)
    ensures r.Ok? ==> fresh(r.value) && r.value.Valid() && Outputs(r.value.outputPins, InitialLevels)
    ensures r.Ok? ==> forall k :: 0 <= k < LedCount ==> fresh(r.value.outputPins[k])
  {
    var outs :- parentSocket.CreateOutputs(Pins, InitialLevels);
    var strip := new LedStrip(outs);
    r := Ok(strip);
  }
}

=== FILE: max_o.dfy ===
/** The MaxO module: a chain of boards of 32 open-drain outputs each, fed by SPI through shift
  * registers. The module keeps a shadow of the 4 bytes per board in `data`; every update sends
  * the whole shadow, last byte first, with the active-low enable line held high meanwhile. */
module MaxO {
  import opened Errors
  import opened Transfers
  import opened SocketInterfaces
  import opened Sockets
  import Bytes
  import Casts
  import SoftwareSpi

  /** The bytes of one board. */
  const BytesPerBoard: int := 4

  /** C#'s integer division, which truncates toward zero. */
  function CsQuot(a: int, b: int): (q: int)
    requires b > 0
    ensures a >= 0 ==> q == a / b
    ensures a < 0 ==> q == -((-a) / b)
  {
    if a >= 0 then a / b else -((-a) / b)
  }

  /** C#'s remainder, which takes the sign of the dividend. */
  function CsRem(a: int, b: int): (r: int)
    requires b > 0
    ensures a == b * CsQuot(a, b) + r
    ensures a >= 0 ==> 0 <= r < b && r == a % b
    ensures a < 0 ==> -b < r <= 0
  {
    a - b * CsQuot(a, b)
  }

  /** The byte `(byte)(1 << (pin % 8))`. For a negative pin the remainder is negative, C# masks
    * the shift count to 5 bits, and the bit lands in 25..31, outside the byte. */
  function PinMask(pin: int): (m: bv8)
    ensures pin >= 0 ==> m == Bytes.Mask(pin % 8)
    ensures CsRem(pin, 8) < 0 ==> m == 0
  {
    var shift := CsRem(pin, 8);
    if shift >= 0 then Bytes.Mask(shift) else 0
  }

  /** SetPin's byte update as written: `b | mask` to set, `b & ~mask` to clear. */
  function UpdateAsWritten(b: bv8, pin: int, value: bool): bv8 {
    if value then b | PinMask(pin) else b & !PinMask(pin)
  }

  /** For a pin that is not negative the update sets or clears bit `pin % 8`; for a negative one
    * that is not a multiple of 8 it leaves the byte as it was. */
  lemma UpdateAsWrittenMeaning(b: bv8, pin: int, value: bool)
    ensures pin >= 0 ==> UpdateAsWritten(b, pin, value) == Bytes.SetBit(b, pin % 8, value)
    ensures CsRem(pin, 8) < 0 ==> UpdateAsWritten(b, pin, value) == b
  {
  }

  /** The product SetPin's written guard compares with the shadow's length: `board * 4` in C#
    * int arithmetic, which wraps around to 32 bits. */
  function GuardAsWritten(board: int): int {
    Casts.WrapInt32(board * BytesPerBoard)
  }

  /** The byte SetPin updates as written: `(board - 1) * 4 + pin / 8` in C# int arithmetic, the
    * division truncating and each step wrapping around to 32 bits. */
  function IndexAsWritten(board: int, pin: int): int {
    Casts.WrapInt32(Casts.WrapInt32(Casts.WrapInt32(board - 1) * BytesPerBoard) + CsQuot(pin, 8))
  }

  /** The byte of output `pin` (0..31) of board `board` (1 first), which lies among that board's
    * own four bytes. */
  function Index(board: int, pin: int): (i: int)
    requires 1 <= board && 0 <= pin < 32
    ensures (board - 1) * BytesPerBoard <= i < board * BytesPerBoard
  {
    (board - 1) * BytesPerBoard + pin / 8
  }

  /** The written guard admits pins outside 0..31 and boards below 1. Pin 32 of board 1 of a
    * two-board chain passes it and sets bit 0 of board 2's first byte; pin -1 passes it and
    * changes nothing; board 0 passes it. */
  lemma SetPinGuardTooWide(b: bv8)
    ensures !(GuardAsWritten(1) > 2 * BytesPerBoard) && IndexAsWritten(1, 32) == 1 * BytesPerBoard
    ensures UpdateAsWritten(b, 32, true) == Bytes.SetBit(b, 0, true)
    ensures UpdateAsWritten(b, -1, true) == b && UpdateAsWritten(b, -1, false) == b
    ensures !(GuardAsWritten(0) > 0)
  {
    UpdateAsWrittenMeaning(b, 32, true);
    UpdateAsWrittenMeaning(b, -1, true);
    UpdateAsWrittenMeaning(b, -1, false);
  }

  /** For a board from 1 whose bytes fit in an int and a pin in 0..31, nothing wraps: the written
    * guard and index are the plain ones. */
  lemma NoWrapInRange(board: int, pin: int)
    requires 1 <= board && board * BytesPerBoard < Casts.TwoTo31 && 0 <= pin < 32
    ensures GuardAsWritten(board) == board * BytesPerBoard
    ensures IndexAsWritten(board, pin) == Index(board, pin)
  {
  }

  /** The wrap-around lets a huge board through the written guard: `0x4000_0000 * 4` wraps to 0,
    * which no shadow is shorter than, and pin 32 of that board then lands on byte 0, board 1's
    * first. */
  lemma SetPinGuardWraps()
    ensures GuardAsWritten(0x4000_0000) == 0
    ensures IndexAsWritten(0x4000_0000, 32) == 0
  {
  }

  /** A sequence back to front: the order in which the shadow is shifted out, so that the first
    * byte, the nearest board's, is the last one sent. */
  function Reversed(s: seq<bv8>): (r: seq<bv8>)
    ensures |r| == |s|
    ensures forall i :: 0 <= i < |s| ==> r[i] == s[|s| - 1 - i]
  {
    seq(|s|, i requires 0 <= i < |s| => s[|s| - 1 - i])
  }

  /** Reversing twice gives the shadow back, so what was sent determines the shadow. */
  lemma ReversedInvolution(s: seq<bv8>)
    ensures Reversed(Reversed(s)) == s
  {
  }

  lemma ReversedInjective(s: seq<bv8>, t: seq<bv8>)
    requires Reversed(s) == Reversed(t)
    ensures s == t
  {
    ReversedInvolution(s);
    ReversedInvolution(t);
  }

  /** The enable line's calls around a transfer: written high, then low. */
  const EnablePulse: seq<IoCall> := [DriveModeSet(Output), Driven(true), DriveModeSet(Output), Driven(false)]

  class MaxO {
    const spi: SpiDevice
    const enable: DigitalIO
    const clr: DigitalIO
    var data: array?<bv8>
    var boards: int

    /** The shadow, when the number of boards is set, holds four bytes per board. */
    ghost predicate Valid()
      reads this, enable, clr
    {
      && enable != clr && enable.Valid() && clr.Valid()
      && (data == null ==> boards == 0)
      && (data != null ==> boards > 0 && data.Length == boards * BytesPerBoard)
    }

    constructor (spi: SpiDevice, enable: DigitalIO, clr: DigitalIO)
      ensures this.spi == spi && this.enable == enable && this.clr == clr
      ensures boards == 0 && data == null
    {
      this.spi := spi;
      this.enable := enable;
      this.clr := clr;
      boards := 0;
      data := null;
    }

    /** The Boards setter: only once, and only to a positive count, which allocates a zeroed
      * shadow of four bytes per board. */
    method SetBoards(value: int) returns (r: Outcome)
      requires Valid()
      modifies this`boards, this`data
      ensures Valid()
      ensures old(data) != null ==> r == Fail(InvalidOperation) && data == old(data) && boards == old(boards)
      ensures old(data) == null && value <= 0 ==> r == Fail(ArgumentOutOfRange) && data == null && boards == old(boards)
      ensures old(data) == null && value > 0 ==>
        r == Pass && boards == value && fresh(data) && data[..] == seq(value * BytesPerBoard, _ => 0)
    {
      if data != null {
        return Fail(InvalidOperation);
      }
      if value <= 0 {
        return Fail(ArgumentOutOfRange);
      }
      boards := value;
      data := new bv8[value * BytesPerBoard](_ => 0);
      r := Pass;
    }

    /** ArraySize: the shadow's length, four bytes per board; before Boards is set the shadow is
      * null and reading its length throws. */
    function ArraySize(): (r: Result<int>)
      requires Valid()
      reads this, enable, clr
      ensures r.Ok? <==> boards > 0
      ensures r.Ok? ==> r.value == BytesPerBoard * boards
      ensures r.Err? ==> r.error == NullReference
    {
      if data == null then Err(NullReference) else Ok(data.Length)
    }

    /** The OutputEnabled getter: the enable line is active low, so the outputs are enabled when
      * it reads low. Reading it switches the line to an input. */
    method GetOutputEnabled() returns (enabled: bool)
      requires Valid()
      modifies enable
      ensures Valid() && enable.driveMode == Input
      ensures enable.calls == old(enable.calls) + [DriveModeSet(Input), Sampled(!enabled)]
    {
      var level := enable.Read();
      enabled := !level;
    }

    /** The OutputEnabled setter: the enable line driven to the opposite level. */
    method SetOutputEnabled(value: bool)
      requires Valid()
      modifies enable
      ensures Valid() && enable.driveMode == Output
      ensures enable.calls == old(enable.calls) + [DriveModeSet(Output), Driven(!value)]
    {
      enable.Write(!value);
    }

    /** Clear: with the outputs disabled, the clear line pulsed low around a one-byte write, then
      * the shadow zeroed. */
    method Clear() returns (r: Outcome)
      requires Valid()
      modifies enable, clr, spi, data
      ensures Valid()
      ensures old(data) == null ==> r == Fail(InvalidOperation) && unchanged(enable, clr, spi)
      ensures old(data) != null ==>
        && r == Pass
        && data[..] == seq(data.Length, _ => 0)
        && enable.calls == old(enable.calls) + EnablePulse
        && clr.calls == old(clr.calls) + [DriveModeSet(Output), Driven(false), DriveModeSet(Output), Driven(true)]
        && spi.transfers == old(spi.transfers) + [SpiWrite([0])]
        && enable.driveMode == Output && clr.driveMode == Output
    {
      if data == null {
        return Fail(InvalidOperation);
      }
      enable.Write(true);
      clr.Write(false);
      spi.Write([0]);
      clr.Write(true);
      enable.Write(false);
      Zero(data);
      r := Pass;
    }

    /** Write: a buffer of exactly the shadow's length is sent back to front with the outputs
      * disabled, and becomes the shadow. A null buffer throws on its length. */
    method Write(buffer: array?<bv8>) returns (r: Outcome)
      requires Valid()
      modifies enable, spi, data
      ensures Valid()
      ensures data == null ==> r == Fail(InvalidOperation) && unchanged(enable, spi)
      ensures data != null && buffer == null ==> r == Fail(NullReference) && unchanged(enable, spi, data)
      ensures data != null && buffer != null && buffer.Length != data.Length ==>
        r == Fail(Argument) && unchanged(enable, spi, data)
      ensures data != null && buffer != null && buffer.Length == data.Length ==>
        && r == Pass
        && data[..] == old(buffer[..])
        && spi.transfers == old(spi.transfers) + [SpiWrite(Reversed(old(buffer[..])))]
        && enable.calls == old(enable.calls) + EnablePulse && enable.driveMode == Output
    {
      if data == null {
        return Fail(InvalidOperation);
      }
      if buffer == null {
        return Fail(NullReference);
      }
      if buffer.Length != data.Length {
        return Fail(Argument);
      }
      enable.Write(true);
      var reversed := ReversedCopy(buffer);
      spi.Write(reversed);
      if data != buffer {
        CopyInto(buffer, data);
      }
      enable.Write(false);
      r := Pass;
    }

    /** SetPin as written: the guard checks only that the board is not past the end, and in
      * wrapping int arithmetic, so a board below 1, a board whose product wraps and a pin outside
      * 0..31 get through; the index that results may fall in another board or outside the
      * shadow. */
    method SetPinAsWritten(board: int, pin: int, value: bool) returns (r: Outcome)
      requires Valid()
      modifies enable, spi, data
      ensures Valid()
      ensures data == null ==> r == Fail(InvalidOperation) && unchanged(enable, spi)
      ensures data != null && GuardAsWritten(board) > data.Length ==>
        r == Fail(Argument) && unchanged(enable, spi, data)
      ensures data != null && GuardAsWritten(board) <= data.Length && !(0 <= IndexAsWritten(board, pin) < data.Length) ==>
        r == Fail(IndexOutOfRange) && unchanged(enable, spi, data)
      ensures data != null && GuardAsWritten(board) <= data.Length && 0 <= IndexAsWritten(board, pin) < data.Length ==>
        var i := IndexAsWritten(board, pin);
        && r == Pass
        && data[..] == old(data[..])[i := UpdateAsWritten(old(data[i]), pin, value)]
        && spi.transfers == old(spi.transfers) + [SpiWrite(Reversed(data[..]))]
        && enable.calls == old(enable.calls) + EnablePulse
    {
      if data == null {
        return Fail(InvalidOperation);
      }
      if Casts.WrapInt32(board * BytesPerBoard) > data.Length {
        return Fail(Argument);
      }
      var index := Casts.WrapInt32(Casts.WrapInt32(Casts.WrapInt32(board - 1) * BytesPerBoard) + CsQuot(pin, 8));
      if !(0 <= index < data.Length) {
        return Fail(IndexOutOfRange);
      }
      Store(data, index, UpdateAsWritten(data[index], pin, value));
      r := Write(data);
    }

    /** SetPin: output `pin` (0..31) of board `board` (1 first) set to `value`: exactly that bit
      * of the shadow changes, then the whole shadow is written. */
    method SetPin(board: int, pin: int, value: bool) returns (r: Outcome)
      requires Valid()
      modifies enable, spi, data
      ensures Valid()
      ensures data == null ==> r == Fail(InvalidOperation) && unchanged(enable, spi)
      ensures data != null && (board < 1 || board * BytesPerBoard > data.Length) ==>
        r == Fail(Argument) && unchanged(enable, spi, data)
      ensures data != null && 1 <= board && board * BytesPerBoard <= data.Length && !(0 <= pin < 32) ==>
        r == Fail(ArgumentOutOfRange) && unchanged(enable, spi, data)
      ensures data != null && 1 <= board && board * BytesPerBoard <= data.Length && 0 <= pin < 32 ==>
        var i := Index(board, pin);
        && r == Pass
        && data[..] == old(data[..])[i := Bytes.SetBit(old(data[i]), pin % 8, value)]
        && spi.transfers == old(spi.transfers) + [SpiWrite(Reversed(data[..]))]
        && enable.calls == old(enable.calls) + EnablePulse
    {
      if data == null {
        return Fail(InvalidOperation);
      }
      if board < 1 || board * BytesPerBoard > data.Length {
        return Fail(Argument);
      }
      if pin < 0 || pin > 31 {
        return Fail(ArgumentOutOfRange);
      }
      var index := Index(board, pin);
      Store(data, index, Bytes.SetBit(data[index], pin % 8, value));
      r := Write(data);
    }

    /** Read as written: it builds a copy of the shadow and then returns the shadow itself. */
    method ReadAsWritten() returns (r: Result<array<bv8>>)
      requires Valid()
      ensures data == null ==> r == Err(InvalidOperation)
      ensures data != null ==> r == Ok(data)
    {
      if data == null {
        return Err(InvalidOperation);
      }
      var buffer := new bv8[data.Length];
      CopyInto(data, buffer);
      r := Ok(data);
    }

    /** Read: a copy of the shadow, which the caller may change freely. */
    method Read() returns (r: Result<array<bv8>>)
      requires Valid()
      ensures data == null ==> r == Err(InvalidOperation)
      ensures data != null ==> r.Ok? && fresh(r.value) && r.value[..] == data[..]
    {
      if data == null {
        return Err(InvalidOperation);
      }
      var buffer := new bv8[data.Length];
      CopyInto(data, buffer);
      r := Ok(buffer);
    }
  }

  /** What the written Read lets a caller do: change an output's shadow without any transfer, so
    * that the shadow no longer says what the boards hold. */
  method ReadAliasesShadow(m: MaxO)
    requires m.Valid() && m.data != null
    modifies m.data
    ensures m.data[0] == 0xFF && m.spi.transfers == old(m.spi.transfers)
  {
    var r := m.ReadAsWritten();
    r.value[0] := 0xFF;
  }

  /** The reversal loop: a new array holding `buffer` back to front. */
  method ReversedCopy(buffer: array<bv8>) returns (reversed: seq<bv8>)
    ensures reversed == Reversed(buffer[..])
  {
    var out := new bv8[buffer.Length];
    for i := 0 to out.Length
      invariant forall k :: 0 <= k < i ==> out[k] == buffer[out.Length - k - 1]
    {
      out[i] := buffer[out.Length - i - 1];
    }
    reversed := out[..];
  }

  /** The zeroing loop. */
  method Zero(a: array<bv8>)
    modifies a
    ensures a[..] == seq(a.Length, _ => 0)
  {
    for i := 0 to a.Length
      invariant forall k :: 0 <= k < i ==> a[k] == 0
    {
      a[i] := 0;
    }
  }

  /** One byte of the shadow replaced. */
  method Store(a: array<bv8>, i: int, b: bv8)
    requires 0 <= i < a.Length
    modifies a
    ensures a[..] == old(a[..])[i := b]
  {
    a[i] := b;
  }

  /** Array.Copy of a whole array into another of the same length. */
  method CopyInto(source: array<bv8>, target: array<bv8>)
    requires source != target && source.Length == target.Length
    modifies target
    ensures target[..] == source[..]
  {
    for i := 0 to target.Length
      invariant forall k :: 0 <= k < i ==> target[k] == source[k]
    {
      target[i] := source[i];
    }
  }

  /** Initialize: the SPI bus in mode 0 with 8-bit words, the enable line from pin 3 driven low
    * (outputs enabled) and the clear line from pin 4 driven high (not clearing); no boards yet. */
  method Initialize(parentSocket: Socket) returns (r: Result<MaxO>)
    modifies parentSocket`log
    ensures r.Ok? ==> CanMakeAll(parentSocket.nativePins, parentSocket.creators, [Three, Four])
    ensures r.Ok? ==>
      && fresh(r.value) && fresh(r.value.spi) && fresh(r.value.enable) && fresh(r.value.clr)
      && r.value.Valid() && r.value.boards == 0 && r.value.data == null && r.value.spi.transfers == []
      && MadeOutput(r.value.enable, false) && MadeOutput(r.value.clr, true)
  {
    var outs :- OpenPins(parentSocket);
    var spi := new SpiDevice();
    var maxO := new MaxO(spi, outs.0, outs.1);
    r := Ok(maxO);
  }

  /** The socket calls of Initialize: the bus in SPI mode 0, then pins 3 and 4 as outputs driven
    * low and high. */
  method OpenPins(parentSocket: Socket) returns (r: Result<(DigitalIO, DigitalIO)>)
    modifies parentSocket`log
    ensures r.Ok? ==> CanMakeAll(parentSocket.nativePins, parentSocket.creators, [Three, Four])
    ensures r.Ok? ==> fresh(r.value.0) && fresh(r.value.1) && r.value.0 != r.value.1
    ensures r.Ok? ==> MadeOutput(r.value.0, false) && MadeOutput(r.value.1, true)
  {
    var bus :- parentSocket.CreateSpiDevice(SoftwareSpi.Mode0, 8);
    var outs :- parentSocket.CreateOutputs([Three, Four], [false, true]);
    r := Ok((outs[0], outs[1]));
  }
}

=== FILE: module_base.dfy ===
/** The base class of every Gadgeteer module: the registry of the sockets a module provides, the
  * socket-count check of module creation and its dispatch to one of three Initialize overloads. */
module ModuleBase {
  import opened Errors
  import opened Sockets

  /** The three Initialize overloads: no socket, one socket, an array of sockets. */
  datatype Overload = NoSockets | OneSocket | SocketArray

  /** One call of an overridden Initialize, with the sockets it was given. */
  datatype InitCall = InitCall(overload: Overload, sockets: seq<Socket>)

  /** The number of sockets a module requires unless it says otherwise. */
  const DefaultRequiredSockets: int := 1

  /** The overload creation calls for a module requiring `count` sockets. */
  function OverloadFor(count: int): (o: Overload)
    ensures o == NoSockets <==> count == 0
    ensures o == OneSocket <==> count == 1
    ensures o == SocketArray <==> count != 0 && count != 1
  {
    if count == 0 then NoSockets else if count == 1 then OneSocket else SocketArray
  }

  /** The sockets handed to the chosen overload: none, the first, or all of them. */
  function Arguments(parentSockets: seq<Socket>): (args: seq<Socket>)
    ensures |parentSockets| != 0 ==> args == parentSockets
    ensures |parentSockets| == 0 ==> args == []
  {
    if |parentSockets| == 0 then []
    else if |parentSockets| == 1 then [parentSockets[0]]
    else parentSockets
  }

  /** A module: how many sockets it requires, which Initialize overloads its concrete class
    * overrides, the sockets it provides, and the Initialize calls it received. */
  class Module {
    const requiredSockets: int
    const overrides: set<Overload>
    var providedSockets: map<int, Socket>
    var initialized: seq<InitCall>

    constructor (requiredSockets: int, overrides: set<Overload>)
      ensures this.requiredSockets == requiredSockets && this.overrides == overrides
      ensures providedSockets == map[] && initialized == []
    {
      this.requiredSockets := requiredSockets;
      this.overrides := overrides;
      providedSockets := map[];
      initialized := [];
    }

    /** ProvidedSockets: the number of registered sockets. */
    function ProvidedSockets(): nat
      reads this`providedSockets
    {
      |providedSockets|
    }

    /** Registers a new socket under its number; a number already registered throws (the
      * dictionary's Add) and leaves the registry as it was. */
    method CreateSocket(socketNumber: int) returns (r: Result<Socket>)
      modifies this`providedSockets
      ensures socketNumber in old(providedSockets) ==> r == Err(Argument) && providedSockets == old(providedSockets)
      ensures socketNumber !in old(providedSockets) ==>
        r.Ok? && fresh(r.value) && r.value.number == socketNumber
        && r.value.supportedTypes == {} && r.value.nativePins == map[] && r.value.creators == {} && r.value.log == []
        && providedSockets == old(providedSockets)[socketNumber := r.value]
      ensures r.Ok? ==> ProvidedSockets() == old(ProvidedSockets()) + 1
    {
      var socket := new Socket(socketNumber);
      if socket.number in providedSockets {
        return Err(Argument);
      }
      providedSockets := providedSockets[socket.number := socket];
      r := Ok(socket);
    }

    /** The socket registered under a number; an unknown number throws ArgumentException. */
    method GetProvidedSocket(socketNumber: int) returns (r: Result<Socket>)
      ensures r.Ok? <==> socketNumber in providedSockets
      ensures r.Ok? ==> r.value == providedSockets[socketNumber]
      ensures r.Err? ==> r.error == Argument
    {
      if socketNumber !in providedSockets {
        return Err(Argument);
      }
      r := Ok(providedSockets[socketNumber]);
    }

    /** The base SetDebugLed: a module without a debug LED does not support it. */
    method SetDebugLed(state: bool) returns (r: Outcome)
      ensures r == Fail(NotSupported)
    {
      r := Fail(NotSupported);
    }

    /** Initialize: an overload the module overrides runs (its effect is the module's own), one
      * it does not is the base's, which throws InvalidModuleDefinition. */
    method Initialize(overload: Overload, sockets: seq<Socket>) returns (r: Outcome)
      modifies this`initialized
      ensures overload in overrides ==> r == Pass && initialized == old(initialized) + [InitCall(overload, sockets)]
      ensures overload !in overrides ==> r == Fail(InvalidModuleDefinition) && initialized == old(initialized)
    {
      if overload !in overrides {
        return Fail(InvalidModuleDefinition);
      }
      initialized := initialized + [InitCall(overload, sockets)];
      r := Pass;
    }
  }

  /** CreateAsync: a new module, the socket count checked against what it requires, then exactly
    * one Initialize overload chosen by that count. */
  method CreateAsync(requiredSockets: int, overrides: set<Overload>, parentSockets: seq<Socket>)
    returns (r: Result<Module>)
    ensures requiredSockets != |parentSockets| ==> r == Err(Argument)
    ensures requiredSockets == |parentSockets| ==>
      (r.Ok? <==> OverloadFor(requiredSockets) in overrides)
      && (r.Err? ==> r.error == InvalidModuleDefinition)
    ensures r.Ok? ==>
      fresh(r.value) && r.value.requiredSockets == requiredSockets
      && r.value.initialized == [InitCall(OverloadFor(requiredSockets), Arguments(parentSockets))]
      && r.value.providedSockets == map[]
  {
    var created := new Module(requiredSockets, overrides);
    if created.requiredSockets != |parentSockets| {
      return Err(Argument);
    }
    var outcome;
    if created.requiredSockets == 0 {
      outcome := created.Initialize(NoSockets, []);
    } else if created.requiredSockets == 1 {
      outcome := created.Initialize(OneSocket, [parentSockets[0]]);
    } else {
      outcome := created.Initialize(SocketArray, parentSockets);
    }
    if outcome.Fail? {
      return Err(outcome.error);
    }
    r := Ok(created);
  }
}

=== FILE: pca9535.dfy ===
/** The PCA9535 sixteen-bit I/O expander on I2C: its address, the pin numbering (0..7 on port 0,
  * 10..17 on port 1), the output and configuration shadows it updates one bit at a time, and the
  * pin-change report of its interrupt handler. */
module Pca9535 {
  import opened Errors
  import opened Transfers
  import opened Bytes
  import SocketInterfaces

  const InputPort0: bv8 := 0x00
  const InputPort1: bv8 := 0x01
  const OutputPort0: bv8 := 0x02
  const OutputPort1: bv8 := 0x03
  const ConfigurationPort0: bv8 := 0x06
  const ConfigurationPort1: bv8 := 0x07

  /** The chip's 7-bit address: 0x20 with the three address pins in bits 0 to 2. */
  function GetAddress(a0: bool, a1: bool, a2: bool): (r: bv8)
    ensures 0x20 <= r <= 0x27
    ensures r & 0xF8 == 0x20
    ensures (r & 0x01 != 0) == a0 && (r & 0x02 != 0) == a1 && (r & 0x04 != 0) == a2
  {
    0x20 | (if a0 then 0x01 else 0x00) | (if a1 then 0x02 else 0x00) | (if a2 then 0x04 else 0x00)
  }

  /** The pin numbers the driver accepts: 0..7 for port 0 and 10..17 for port 1. */
  predicate ValidPin(pin: int) {
    (pin >= 0 && pin <= 7) || (pin >= 10 && pin <= 17)
  }

  /** Whether a valid pin is on port 0. */
  predicate OnPortZero(pin: int) {
    pin < 8
  }

  /** The bit of its port a valid pin occupies. */
  function BitOf(pin: int): (i: nat)
    requires ValidPin(pin)
    ensures i < 8
  {
    if pin < 8 then pin else pin - 10
  }

  /** The pin number of bit `i` of a port. */
  function PinAt(port0: bool, i: nat): (pin: int)
    requires i < 8
    ensures ValidPin(pin) && OnPortZero(pin) == port0 && BitOf(pin) == i
  {
    if port0 then i else i + 10
  }

  /** Pin numbers and (port, bit) pairs are in one-to-one correspondence. */
  lemma PinNumbering(pin: int)
    requires ValidPin(pin)
    ensures PinAt(OnPortZero(pin), BitOf(pin)) == pin
  {
  }

  /** One report of the PinChanged event. */
  datatype PinChange = PinChange(pin: int, newState: bool)

  /** The reports for bits 0 to `n - 1` of a port whose input byte went from `cached` to
    * `current`, pins numbered from `offset`: one per bit that differs, in bit order. */
  function Changes(cached: bv8, current: bv8, offset: int, n: nat): seq<PinChange>
    requires n <= 8
  {
    if n == 0 then [] else
      Changes(cached, current, offset, n - 1)
      + (if TestBit(cached, n - 1) != TestBit(current, n - 1) then [PinChange(offset + n - 1, TestBit(current, n - 1))] else [])
  }

  /** A report is among the changes exactly when its pin's bit differs between the two bytes and
    * it carries the new bit. */
  lemma {:induction false} ChangesExactly(cached: bv8, current: bv8, offset: int, n: nat, c: PinChange)
    requires n <= 8
    ensures c in Changes(cached, current, offset, n) <==>
      offset <= c.pin < offset + n && TestBit(cached, c.pin - offset) != TestBit(current, c.pin - offset)
      && c.newState == TestBit(current, c.pin - offset)
  {
    if n > 0 {
      ChangesExactly(cached, current, offset, n - 1, c);
    }
  }

  /** The reports come in increasing pin order, so no pin is reported twice. */
  lemma {:induction false} ChangesIncreasing(cached: bv8, current: bv8, offset: int, n: nat)
    requires n <= 8
    ensures forall i, j :: 0 <= i < j < |Changes(cached, current, offset, n)| ==>
      Changes(cached, current, offset, n)[i].pin < Changes(cached, current, offset, n)[j].pin
  {
    if n > 0 {
      ChangesIncreasing(cached, current, offset, n - 1);
      forall c | c in Changes(cached, current, offset, n - 1)
        ensures c.pin < offset + n - 1
      {
        ChangesExactly(cached, current, offset, n - 1, c);
      }
    }
  }

  /** A port whose input did not change reports nothing. */
  lemma {:induction false} NoChangeNoReport(b: bv8, offset: int, n: nat)
    requires n <= 8
    ensures Changes(b, b, offset, n) == []
  {
    if n > 0 {
      NoChangeNoReport(b, offset, n - 1);
    }
  }

  /** A driver instance: the shadows of its registers and the transfers it made on its I2C
    * device. `in0`/`in1` cache the input bytes the interrupt handler last read (0 until then). */
  class Pca9535 {
    var disposed: bool
    var in0: bv8
    var in1: bv8
    var out0: bv8
    var out1: bv8
    var config0: bv8
    var config1: bv8
    var transfers: seq<I2cTransfer>
    /** The drive mode the constructor gives the interrupt line. */
    var interruptMode: SocketInterfaces.DriveMode

    /** All outputs high and all pins inputs, as the chip powers up; the interrupt line becomes an
      * input whose changes run the handler. */
    constructor ()
      ensures !disposed && out0 == 0xFF && out1 == 0xFF && config0 == 0xFF && config1 == 0xFF
      ensures in0 == 0 && in1 == 0 && transfers == []
      ensures interruptMode == SocketInterfaces.Input
    {
      disposed := false;
      out0, out1, config0, config1 := 0xFF, 0xFF, 0xFF, 0xFF;
      in0, in1 := 0, 0;
      transfers := [];
      interruptMode := SocketInterfaces.Input;
    }

    method Dispose()
      modifies this`disposed
      ensures disposed
    {
      disposed := true;
    }

    /** The interrupt handler: both input ports are read, every bit that differs from the cache is
      * reported (port 1 pins numbered from 10), then the cache takes the new bytes. */
    method OnInterruptValueChanged() returns (reports: seq<PinChange>)
      modifies this`in0, this`in1, this`transfers
      ensures exists b0: bv8, b1: bv8 ::
        transfers == old(transfers) + [I2cWriteRead([InputPort0], [b0]), I2cWriteRead([InputPort1], [b1])]
        && reports == Changes(old(in0), b0, 0, 8) + Changes(old(in1), b1, 10, 8)
        && in0 == b0 && in1 == b1
    {
      var new0 := ReadRegister(InputPort0);
      var new1 := ReadRegister(InputPort1);
      reports := [];
      for i := 0 to 8
        invariant reports == Changes(in0, new0, 0, i)
      {
        if TestBit(new0, i) != TestBit(in0, i) {
          reports := reports + [PinChange(i, TestBit(new0, i))];
        }
      }
      for i := 0 to 8
        invariant reports == Changes(in0, new0, 0, 8) + Changes(in1, new1, 10, i)
      {
        if TestBit(new1, i) != TestBit(in1, i) {
          reports := reports + [PinChange(i + 10, TestBit(new1, i))];
        }
      }
      in0 := new0;
      in1 := new1;
    }

    /** Read: the pin's bit of a fresh read of its input port. */
    method Read(pin: int) returns (r: Result<bool>)
      modifies this`transfers
      ensures disposed ==> r == Err(ObjectDisposed) && transfers == old(transfers)
      ensures !disposed && !ValidPin(pin) ==> r == Err(ArgumentOutOfRange) && transfers == old(transfers)
      ensures !disposed && ValidPin(pin) ==>
        r.Ok? && exists b: bv8 ::
          transfers == old(transfers) + [I2cWriteRead([if OnPortZero(pin) then InputPort0 else InputPort1], [b])]
          && r.value == TestBit(b, BitOf(pin))
    {
      if disposed {
        return Err(ObjectDisposed);
      }
      if !ValidPin(pin) {
        return Err(ArgumentOutOfRange);
      }
      if pin < 8 {
        var b := ReadRegister(InputPort0);
        r := Ok(TestBit(b, pin));
      } else {
        var b := ReadRegister(InputPort1);
        r := Ok(TestBit(b, pin - 10));
      }
    }

    /** Write: the pin's bit of its output shadow is set (`|=` the pin's mask) or cleared (`&=` its
      * complement), and the
      * whole shadow byte is written to the port's output register. */
    method Write(pin: int, state: bool) returns (r: Outcome)
      modifies this`out0, this`out1, this`transfers
      ensures disposed || !ValidPin(pin) ==> out0 == old(out0) && out1 == old(out1) && transfers == old(transfers)
      ensures disposed ==> r == Fail(ObjectDisposed)
      ensures !disposed && !ValidPin(pin) ==> r == Fail(ArgumentOutOfRange)
      ensures !disposed && ValidPin(pin) && OnPortZero(pin) ==>
        r == Pass && out0 == SetBit(old(out0), BitOf(pin), state) && out1 == old(out1)
        && transfers == old(transfers) + [I2cWrite([OutputPort0, out0])]
      ensures !disposed && ValidPin(pin) && !OnPortZero(pin) ==>
        r == Pass && out1 == SetBit(old(out1), BitOf(pin), state) && out0 == old(out0)
        && transfers == old(transfers) + [I2cWrite([OutputPort1, out1])]
    {
      if disposed {
        return Fail(ObjectDisposed);
      }
      if !ValidPin(pin) {
        return Fail(ArgumentOutOfRange);
      }
      if pin < 8 {
        out0 := SetBit(out0, pin, state);
        WriteRegister(OutputPort0, out0);
      } else {
        out1 := SetBit(out1, pin - 10, state);
        WriteRegister(OutputPort1, out1);
      }
      r := Pass;
    }

    /** SetDriveMode: Input sets the pin's configuration bit, any other mode clears it; the whole
      * shadow byte is written to the port's configuration register. */
    method SetDriveMode(pin: int, driveMode: SocketInterfaces.DriveMode) returns (r: Outcome)
      modifies this`config0, this`config1, this`transfers
      ensures disposed || !ValidPin(pin) ==> config0 == old(config0) && config1 == old(config1) && transfers == old(transfers)
      ensures disposed ==> r == Fail(ObjectDisposed)
      ensures !disposed && !ValidPin(pin) ==> r == Fail(ArgumentOutOfRange)
      ensures !disposed && ValidPin(pin) && OnPortZero(pin) ==>
        r == Pass && config0 == SetBit(old(config0), BitOf(pin), driveMode == SocketInterfaces.Input) && config1 == old(config1)
        && transfers == old(transfers) + [I2cWrite([ConfigurationPort0, config0])]
      ensures !disposed && ValidPin(pin) && !OnPortZero(pin) ==>
        r == Pass && config1 == SetBit(old(config1), BitOf(pin), driveMode == SocketInterfaces.Input) && config0 == old(config0)
        && transfers == old(transfers) + [I2cWrite([ConfigurationPort1, config1])]
    {
      if disposed {
        return Fail(ObjectDisposed);
      }
      if !ValidPin(pin) {
        return Fail(ArgumentOutOfRange);
      }
      if pin < 8 {
        config0 := SetBit(config0, pin, driveMode == SocketInterfaces.Input);
        WriteRegister(ConfigurationPort0, config0);
      } else {
        config1 := SetBit(config1, pin - 10, driveMode == SocketInterfaces.Input);
        WriteRegister(ConfigurationPort1, config1);
      }
      r := Pass;
    }

    method WriteRegister(register: bv8, value: bv8)
      modifies this`transfers
      ensures transfers == old(transfers) + [I2cWrite([register, value])]
    {
      transfers := transfers + [I2cWrite([register, value])];
    }

    /** One register read: the register number written, then one byte answered by the chip. */
    method ReadRegister(register: bv8) returns (value: bv8)
      modifies this`transfers
      ensures transfers == old(transfers) + [I2cWriteRead([register], [value])]
    {
      value :| true;
      transfers := transfers + [I2cWriteRead([register], [value])];
    }
  }

  /** After a successful Write, the pin reads back, from the shadow, the state written, and every
    * other pin of either port keeps its shadow bit. */
  lemma WriteTouchesOneBit(before: bv8, pin: int, state: bool, other: int)
    requires ValidPin(pin) && ValidPin(other) && other != pin && OnPortZero(other) == OnPortZero(pin)
    ensures TestBit(SetBit(before, BitOf(pin), state), BitOf(pin)) == state
    ensures TestBit(SetBit(before, BitOf(pin), state), BitOf(other)) == TestBit(before, BitOf(other))
  {
    SetBitKeeps(before, BitOf(pin), state, BitOf(other));
  }
}

=== FILE: pca9685.dfy ===
/** The PCA9685 sixteen-channel 12-bit PWM controller on I2C: its address, the register writes of
  * its constructor and frequency setter, and the five-byte channel update behind TurnOn, TurnOff,
  * SetDutyCycle and SetChannel. */
module Pca9685 {
  import opened Errors
  import opened Transfers
  import Casts

  /** A C# `ushort`. */
  newtype uint16 = x: int | 0 <= x < 0x1_0000

  const Mode1: bv8 := 0x00
  const Mode2: bv8 := 0x01
  const Led0OnLow: bv8 := 0x06
  const Prescale: bv8 := 0xFE

  /** The ON or OFF count that sets the channel's full-on or full-off bit (bit 4 of the high byte). */
  const Full: uint16 := 0x1000

  /** The chip's 7-bit address: 0x40 with the six address pins in bits 0 to 5. */
  function GetAddress(a0: bool, a1: bool, a2: bool, a3: bool, a4: bool, a5: bool): (r: bv8)
    ensures 0x40 <= r <= 0x7F
    ensures r & 0xC0 == 0x40
    ensures (r & 0x01 != 0) == a0 && (r & 0x02 != 0) == a1 && (r & 0x04 != 0) == a2
    ensures (r & 0x08 != 0) == a3 && (r & 0x10 != 0) == a4 && (r & 0x20 != 0) == a5
  {
    0x40 | (if a0 then 0x01 else 0x00) | (if a1 then 0x02 else 0x00) | (if a2 then 0x04 else 0x00)
    | (if a3 then 0x08 else 0x00) | (if a4 then 0x10 else 0x00) | (if a5 then 0x20 else 0x00)
  }

  /** The prescale register value the frequency setter computes: the frequency is scaled by 10/9
    * and the prescaler divides the 25 MHz oscillator by 4096 counts, in C# integer division. */
  function PrescaleFor(frequency: int): int
    requires 40 <= frequency <= 1500
  {
    25000000 / (4096 * (frequency * 10 / 9)) - 1
  }

  /** Multiplying by a natural number keeps the order. */
  lemma {:induction false} MulMono(q: nat, a: int, b: int)
    requires a <= b
    ensures q * a <= q * b
    decreases q
  {
    if q > 0 {
      MulMono(q - 1, a, b);
      assert q * a == (q - 1) * a + a && q * b == (q - 1) * b + b;
    }
  }

  /** A strict order of two products with the same positive factor is the order of the others. */
  lemma LessTimes(x: nat, y: nat, d: nat)
    requires x * d < y * d
    ensures x < y
  {
    if y <= x {
      MulMono(d, y, x);
    }
  }

  /** Dividing by more gives less. */
  lemma DivisionShrinks(n: nat, d1: int, d2: int)
    requires 0 < d1 <= d2
    ensures n / d2 <= n / d1
  {
    var q, p := n / d2, n / d1;
    assert q * d2 <= n;
    MulMono(q, d1, d2);
    assert n < (p + 1) * d1;
    LessTimes(q, p + 1, d1);
  }

  /** For every accepted frequency the prescale lies in 2..137, so its byte cast never truncates
    * (the chip itself accepts prescale values 3 and up). */
  lemma {:induction false} PrescaleInRange(frequency: int)
    requires 40 <= frequency <= 1500
    ensures 2 <= PrescaleFor(frequency) <= 137
  {
    var scaled := frequency * 10 / 9;
    assert 44 <= scaled <= 1666;
    DivisionShrinks(25000000, 4096 * 44, 4096 * scaled);
    DivisionShrinks(25000000, 4096 * scaled, 4096 * 1666);
  }

  /** Dividing more by the same gives no less. */
  lemma DivisionGrows(a: nat, b: nat, d: int)
    requires a <= b && 0 < d
    ensures a / d <= b / d
  {
    var qa, qb := a / d, b / d;
    assert qa * d <= a <= b < (qb + 1) * d;
    LessTimes(qa, qb + 1, d);
  }

  /** A higher frequency never gives a larger prescale. */
  lemma {:induction false} PrescaleMonotone(f1: int, f2: int)
    requires 40 <= f1 <= f2 <= 1500
    ensures PrescaleFor(f2) <= PrescaleFor(f1)
  {
    DivisionGrows(f1 * 10, f2 * 10, 9);
    var s1, s2 := f1 * 10 / 9, f2 * 10 / 9;
    DivisionShrinks(25000000, 4096 * s1, 4096 * s2);
  }

  /** The register writes of the frequency setter after it read `mode` from Mode1: sleep (Mode1
    * with bit 4 set), the prescale, then Mode1 restored. */
  function FrequencyWrites(mode: bv8, frequency: int): seq<I2cTransfer>
    requires 40 <= frequency <= 1500
  {
    [I2cWrite([Mode1, mode | 0x10]), I2cWrite([Prescale, PrescaleFor(frequency) as bv8]), I2cWrite([Mode1, mode])]
  }

  /** The five bytes SetChannel writes: the channel's ON_L register address, then the ON and OFF
    * counts low byte first. */
  function ChannelBytes(channel: int, on: uint16, off: uint16): (b: seq<bv8>)
    requires 0 <= channel <= 15 && on <= 4096 && off <= 4096
    ensures |b| == 5
  {
    [(6 + channel * 4) as bv8, (on % 256) as bv8, (on / 256) as bv8, (off % 256) as bv8, (off / 256) as bv8]
  }

  /** The count a low and a high byte stand for. */
  function CountOf(low: bv8, high: bv8): int {
    low as int + 256 * high as int
  }

  /** The channel whose ON_L register is `register`. */
  function ChannelAt(register: bv8): int {
    (register as int - 6) / 4
  }

  /** A count split into its low and high bytes is recovered from them. */
  lemma CountRoundTrip(count: uint16)
    requires count <= 4096
    ensures CountOf((count % 256) as bv8, (count / 256) as bv8) == count as int
  {
    Casts.ByteOfValue(count as int % 256);
    Casts.ByteOfValue(count as int / 256);
  }

  /** A channel's ON_L register address leads back to the channel. */
  lemma RegisterRoundTrip(channel: int)
    requires 0 <= channel <= 15
    ensures Led0OnLow <= (6 + channel * 4) as bv8 <= 0x42
    ensures ChannelAt((6 + channel * 4) as bv8) == channel
  {
    var r := 6 + channel * 4;
    Casts.ByteOfValue(r);
    assert (r as bv8) as int - 6 == 4 * channel;
  }

  /** The channel and both counts can be read back from the five bytes. */
  lemma ChannelBytesDecode(channel: int, on: uint16, off: uint16)
    requires 0 <= channel <= 15 && on <= 4096 && off <= 4096
    ensures var b := ChannelBytes(channel, on, off);
      Led0OnLow <= b[0] <= 0x42 && ChannelAt(b[0]) == channel
      && CountOf(b[1], b[2]) == on as int && CountOf(b[3], b[4]) == off as int
  {
    RegisterRoundTrip(channel);
    CountRoundTrip(on);
    CountRoundTrip(off);
  }

  /** Distinct updates write distinct bytes. */
  lemma {:induction false} ChannelBytesInjective(c1: int, on1: uint16, off1: uint16, c2: int, on2: uint16, off2: uint16)
    requires 0 <= c1 <= 15 && on1 <= 4096 && off1 <= 4096
    requires 0 <= c2 <= 15 && on2 <= 4096 && off2 <= 4096
    requires ChannelBytes(c1, on1, off1) == ChannelBytes(c2, on2, off2)
    ensures c1 == c2 && on1 == on2 && off1 == off2
  {
    ChannelBytesDecode(c1, on1, off1);
    ChannelBytesDecode(c2, on2, off2);
  }

  /** TurnOn sets the full-on bit and clears the full-off bit; TurnOff the reverse. */
  lemma FullOnAndOff(channel: int)
    requires 0 <= channel <= 15
    ensures ChannelBytes(channel, Full, 0)[2] == 0x10 && ChannelBytes(channel, Full, 0)[4] == 0x00
    ensures ChannelBytes(channel, 0, Full)[2] == 0x00 && ChannelBytes(channel, 0, Full)[4] == 0x10
  {
  }

  /** The OFF count SetDutyCycle computes for a duty cycle strictly between 0 and 1: the product
    * with 4096 truncated, which a power-of-two scaling keeps exact. */
  function DutyCount(dutyCycle: real): (count: uint16)
    requires 0.0 < dutyCycle < 1.0
    ensures count < 4096
    ensures count as real <= 4096.0 * dutyCycle < count as real + 1.0
  {
    (4096.0 * dutyCycle).Floor as uint16
  }

  /** A driver instance: its disposal flag, the transfers it made on its I2C device, and the
    * optional output-enable pin (active low) with the level last driven on it. */
  class Pca9685 {
    var disposed: bool
    var transfers: seq<I2cTransfer>
    const hasOutputEnable: bool
    var outputEnableHigh: bool

    /** The constructor drives the output-enable pin, when there is one, low (outputs on), then
      * sets Mode1 to 0x20 (auto-increment) and Mode2 to 0x06. */
    constructor (hasOutputEnable: bool)
      ensures this.hasOutputEnable == hasOutputEnable && !disposed
      ensures hasOutputEnable ==> !outputEnableHigh
      ensures transfers == [I2cWrite([Mode1, 0x20]), I2cWrite([Mode2, 0x06])]
    {
      this.hasOutputEnable := hasOutputEnable;
      disposed := false;
      outputEnableHigh := !hasOutputEnable;
      transfers := [];
      new;
      WriteRegister(Mode1, 0x20);
      WriteRegister(Mode2, 0x06);
    }

    method Dispose()
      modifies this`disposed
      ensures disposed
    {
      disposed := true;
    }

    /** The OutputEnabled getter: the pin reads low; false when there is no pin. */
    function OutputEnabled(): bool
      reads this
    {
      hasOutputEnable && !outputEnableHigh
    }

    /** The OutputEnabled setter: enabling drives the pin low, disabling drives it high. */
    method SetOutputEnabled(value: bool) returns (r: Outcome)
      modifies this`outputEnableHigh
      ensures disposed ==> r == Fail(ObjectDisposed) && outputEnableHigh == old(outputEnableHigh)
      ensures !disposed && !hasOutputEnable ==> r == Fail(NotSupported) && outputEnableHigh == old(outputEnableHigh)
      ensures !disposed && hasOutputEnable ==> r == Pass && OutputEnabled() == value
    {
      if disposed {
        return Fail(ObjectDisposed);
      }
      if !hasOutputEnable {
        return Fail(NotSupported);
      }
      outputEnableHigh := !value;
      r := Pass;
    }

    /** The Frequency setter: after the guards, a read-modify-write of Mode1 around the prescale. */
    method SetFrequency(value: int) returns (r: Outcome)
      modifies this`transfers
      ensures disposed ==> r == Fail(ObjectDisposed) && transfers == old(transfers)
      ensures !disposed && !(40 <= value <= 1500) ==> r == Fail(ArgumentOutOfRange) && transfers == old(transfers)
      ensures !disposed && 40 <= value <= 1500 ==>
        r == Pass && exists mode: bv8 :: transfers == old(transfers) + [I2cWriteRead([Mode1], [mode])] + FrequencyWrites(mode, value)
    {
      if disposed {
        return Fail(ObjectDisposed);
      }
      if value < 40 || value > 1500 {
        return Fail(ArgumentOutOfRange);
      }
      ghost var before := transfers;
      var mode := ReadRegister(Mode1);
      WriteRegister(Mode1, mode | 0x10);
      PrescaleInRange(value);
      WriteRegister(Prescale, PrescaleFor(value) as bv8);
      WriteRegister(Mode1, mode);
      assert transfers == before + [I2cWriteRead([Mode1], [mode])] + FrequencyWrites(mode, value);
      r := Pass;
    }

    method TurnOn(channel: int) returns (r: Outcome)
      modifies this`transfers
      ensures disposed ==> r == Fail(ObjectDisposed) && transfers == old(transfers)
      ensures !disposed && !(0 <= channel <= 15) ==> r == Fail(ArgumentOutOfRange) && transfers == old(transfers)
      ensures !disposed && 0 <= channel <= 15 ==> r == Pass && transfers == old(transfers) + [I2cWrite(ChannelBytes(channel, Full, 0))]
    {
      r := SetChannel(channel, Full, 0);
    }

    method TurnOff(channel: int) returns (r: Outcome)
      modifies this`transfers
      ensures disposed ==> r == Fail(ObjectDisposed) && transfers == old(transfers)
      ensures !disposed && !(0 <= channel <= 15) ==> r == Fail(ArgumentOutOfRange) && transfers == old(transfers)
      ensures !disposed && 0 <= channel <= 15 ==> r == Pass && transfers == old(transfers) + [I2cWrite(ChannelBytes(channel, 0, Full))]
    {
      r := SetChannel(channel, 0, Full);
    }

    /** SetDutyCycle: the duty cycle is checked first; 1 turns the channel fully on, 0 fully off,
      * anything between becomes an OFF count with ON at 0. */
    method SetDutyCycle(channel: int, dutyCycle: real) returns (r: Outcome)
      modifies this`transfers
      ensures !(0.0 <= dutyCycle <= 1.0) ==> r == Fail(ArgumentOutOfRange) && transfers == old(transfers)
      ensures 0.0 <= dutyCycle <= 1.0 && disposed ==> r == Fail(ObjectDisposed) && transfers == old(transfers)
      ensures 0.0 <= dutyCycle <= 1.0 && !disposed && !(0 <= channel <= 15) ==> r == Fail(ArgumentOutOfRange) && transfers == old(transfers)
      ensures 0.0 <= dutyCycle <= 1.0 && !disposed && 0 <= channel <= 15 ==>
        r == Pass && transfers == old(transfers) + [I2cWrite(
          if dutyCycle == 1.0 then ChannelBytes(channel, Full, 0)
          else if dutyCycle == 0.0 then ChannelBytes(channel, 0, Full)
          else ChannelBytes(channel, 0, DutyCount(dutyCycle)))]
    {
      if dutyCycle < 0.0 || dutyCycle > 1.0 {
        return Fail(ArgumentOutOfRange);
      }
      if dutyCycle == 1.0 {
        r := TurnOn(channel);
      } else if dutyCycle == 0.0 {
        r := TurnOff(channel);
      } else {
        r := SetChannel(channel, 0, DutyCount(dutyCycle));
      }
    }

    /** SetChannel: the guards in order, then one five-byte write. */
    method SetChannel(channel: int, on: uint16, off: uint16) returns (r: Outcome)
      modifies this`transfers
      ensures disposed ==> r == Fail(ObjectDisposed) && transfers == old(transfers)
      ensures !disposed && !(0 <= channel <= 15 && on <= 4096 && off <= 4096) ==>
        r == Fail(ArgumentOutOfRange) && transfers == old(transfers)
      ensures !disposed && 0 <= channel <= 15 && on <= 4096 && off <= 4096 ==>
        r == Pass && transfers == old(transfers) + [I2cWrite(ChannelBytes(channel, on, off))]
    {
      if disposed {
        return Fail(ObjectDisposed);
      }
      if channel < 0 || channel > 15 || on > 4096 || off > 4096 {
        return Fail(ArgumentOutOfRange);
      }
      var write5 := ChannelBuffer(channel, on, off);
      transfers := transfers + [I2cWrite(write5[..])];
      r := Pass;
    }

    /** The five-byte buffer SetChannel fills: the register address, then both counts split into
      * their low and high bytes. */
    static method ChannelBuffer(channel: int, on: uint16, off: uint16) returns (write5: array<bv8>)
      requires 0 <= channel <= 15 && on <= 4096 && off <= 4096
      ensures fresh(write5) && write5[..] == ChannelBytes(channel, on, off)
    {
      write5 := new bv8[5];
      write5[0] := (6 + channel * 4) as bv8;
      write5[1] := (on % 256) as bv8;
      write5[2] := (on / 256) as bv8;
      write5[3] := (off % 256) as bv8;
      write5[4] := (off / 256) as bv8;
      assert write5[..] == ChannelBytes(channel, on, off);
    }

    method WriteRegister(register: bv8, value: bv8)
      modifies this`transfers
      ensures transfers == old(transfers) + [I2cWrite([register, value])]
    {
      transfers := transfers + [I2cWrite([register, value])];
    }

    /** One register read: the register number written, then one byte answered by the chip. */
    method ReadRegister(register: bv8) returns (value: bv8)
      modifies this`transfers
      ensures transfers == old(transfers) + [I2cWriteRead([register], [value])]
    {
      value :| true;
      transfers := transfers + [I2cWriteRead([register], [value])];
    }
  }
}

=== FILE: rotary_h1.dfy ===
/** The Rotary H1 module: a quadrature-encoder counter chip on an SPI bus. Every exchange starts
  * with one instruction byte, a command in the top two bits OR-ed with a register in the low six;
  * the counter comes back as four bytes, most significant first, read as a signed 32-bit value. */
module RotaryH1 {
  import opened Errors
  import opened Transfers
  import opened SocketInterfaces
  import opened Sockets
  import SoftwareSpi
  import opened Casts

  /** The chip's commands. */
  datatype Command = ClearCommand | ReadCommand | WriteCommand | LoadCommand

  function CommandValue(c: Command): bv8 {
    match c
    case ClearCommand => 0x00
    case ReadCommand => 0x40
    case WriteCommand => 0x80
    case LoadCommand => 0xC0
  }

  /** The chip's registers. */
  datatype Register = Mode0Register | Mode1Register | InputRegister | CounterRegister | OutputRegister | StatusRegister

  function RegisterValue(r: Register): bv8 {
    match r
    case Mode0Register => 0x08
    case Mode1Register => 0x10
    case InputRegister => 0x18
    case CounterRegister => 0x20
    case OutputRegister => 0x28
    case StatusRegister => 0x30
  }

  /** The instruction byte: the command and the register OR-ed together, each in its own bits, so
    * both can be read back from it. */
  function Instruction(c: Command, r: Register): (b: bv8)
    ensures b & 0xC0 == CommandValue(c) && b & 0x3F == RegisterValue(r)
  {
    CommandValue(c) | RegisterValue(r)
  }

  /** Different command and register pairs give different instruction bytes. */
  lemma InstructionInjective(c1: Command, r1: Register, c2: Command, r2: Register)
    requires Instruction(c1, r1) == Instruction(c2, r2)
    ensures c1 == c2 && r1 == r2
  {
    assert CommandValue(c1) == CommandValue(c2);
    assert RegisterValue(r1) == RegisterValue(r2);
  }

  /** The counting modes; None counts nothing. */
  datatype CountMode = None | Quad1 | Quad2 | Quad4

  /** The quadrature bits of the Mode0 register for each counting mode. */
  function QuadBits(m: CountMode): bv8 {
    match m
    case None => 0x00
    case Quad1 => 0x01
    case Quad2 => 0x02
    case Quad4 => 0x03
  }

  /** The Mode0 byte the Mode setter writes: free running, index disabled, filter clock divided by
    * two (0x80), and the mode's quadrature bits. */
  function Mode0Byte(m: CountMode): (b: bv8)
    ensures b & 0x03 == QuadBits(m) && b & 0xFC == 0x80
  {
    0x80 | QuadBits(m)
  }

  /** Each counting mode has its own Mode0 byte. */
  lemma Mode0ByteInjective(m1: CountMode, m2: CountMode)
    requires Mode0Byte(m1) == Mode0Byte(m2)
    ensures m1 == m2
  {
    assert QuadBits(m1) == QuadBits(m2);
  }

  /** The Mode1 byte Initialize writes: four-byte counter, counting enabled. */
  const Mode1Byte: bv8 := 0x00

  /** The counter as Read computes it: the bytes shifted into place as ints and added, the top
    * byte's shift by 24 wrapping around into the sign. */
  function Decode(b: seq<bv8>): (r: int)
    requires |b| == 4
    ensures -TwoTo31 <= r < TwoTo31
    ensures r < 0 <==> b[0] >= 0x80
  {
    WrapInt32(b[0] as int * 0x100_0000) + b[1] as int * 0x1_0000 + b[2] as int * 0x100 + b[3] as int
  }

  /** The four bytes of a signed 32-bit value in two's complement, most significant first. */
  function Encode(n: int): (b: seq<bv8>)
    requires -TwoTo31 <= n < TwoTo31
    ensures |b| == 4
  {
    var u := n % TwoTo32;
    [(u / 0x100_0000) as bv8, (u / 0x1_0000 % 0x100) as bv8, (u / 0x100 % 0x100) as bv8, (u % 0x100) as bv8]
  }

  /** The unsigned value of four bytes, most significant first. */
  function Unsigned(b: seq<bv8>): (u: int)
    requires |b| == 4
    ensures 0 <= u < TwoTo32
  {
    b[0] as int * 0x100_0000 + b[1] as int * 0x1_0000 + b[2] as int * 0x100 + b[3] as int
  }

  /** Read's value is the bytes' unsigned value taken as a C# int. */
  lemma DecodeIsWrappedUnsigned(b: seq<bv8>)
    requires |b| == 4
    ensures Decode(b) == if Unsigned(b) < TwoTo31 then Unsigned(b) else Unsigned(b) - TwoTo32
  {
  }

  /** Division by a power of two, given the quotient and the remainder. */
  lemma DivMod256(u: int, q: int, r: int)
    requires u == q * 0x100 + r && 0 <= r < 0x100
    ensures u / 0x100 == q && u % 0x100 == r
  {
  }

  lemma DivMod65536(u: int, q: int, r: int)
    requires u == q * 0x1_0000 + r && 0 <= r < 0x1_0000
    ensures u / 0x1_0000 == q && u % 0x1_0000 == r
  {
  }

  lemma DivMod2To24(u: int, q: int, r: int)
    requires u == q * 0x100_0000 + r && 0 <= r < 0x100_0000
    ensures u / 0x100_0000 == q && u % 0x100_0000 == r
  {
  }

  lemma DivMod2To32(u: int, q: int, r: int)
    requires u == q * TwoTo32 + r && 0 <= r < TwoTo32
    ensures u / TwoTo32 == q && u % TwoTo32 == r
  {
  }

  /** A signed 32-bit value modulo 2^32 is its two's-complement pattern. */
  lemma Mod2To32(n: int)
    requires -TwoTo31 <= n < TwoTo31
    ensures n % TwoTo32 == if n >= 0 then n else n + TwoTo32
  {
    if n >= 0 {
      DivMod2To32(n, 0, n);
    } else {
      DivMod2To32(n, -1, n + TwoTo32);
    }
  }

  /** The base-256 digits of a value below 2^32, most significant first. */
  lemma {:induction false} Digits(u: int)
    requires 0 <= u < TwoTo32
    ensures 0 <= u / 0x100_0000 < 0x100
    ensures u == (u / 0x100_0000) * 0x100_0000 + (u / 0x1_0000 % 0x100) * 0x1_0000 + (u / 0x100 % 0x100) * 0x100 + u % 0x100
  {
    var q3, r3 := u / 0x100, u % 0x100;
    var q2, r2 := q3 / 0x100, q3 % 0x100;
    var q1, r1 := q2 / 0x100, q2 % 0x100;
    assert u == q3 * 0x100 + r3;
    assert q3 == q2 * 0x100 + r2;
    assert q2 == q1 * 0x100 + r1;
    DivMod65536(u, q2, r2 * 0x100 + r3);
    DivMod2To24(u, q1, r1 * 0x1_0000 + r2 * 0x100 + r3);
  }

  /** Four digits below 256 are the base-256 digits of the value `u` they spell. */
  lemma {:induction false} DigitsOf(u: int, x0: int, x1: int, x2: int, x3: int)
    requires 0 <= x0 < 0x100 && 0 <= x1 < 0x100 && 0 <= x2 < 0x100 && 0 <= x3 < 0x100
    requires u == x0 * 0x100_0000 + x1 * 0x1_0000 + x2 * 0x100 + x3
    ensures u % 0x100 == x3 && u / 0x100 % 0x100 == x2 && u / 0x1_0000 % 0x100 == x1 && u / 0x100_0000 == x0
  {
    DivMod256(u, x0 * 0x1_0000 + x1 * 0x100 + x2, x3);
    DivMod256(x0 * 0x1_0000 + x1 * 0x100 + x2, x0 * 0x100 + x1, x2);
    DivMod65536(u, x0 * 0x100 + x1, x2 * 0x100 + x3);
    DivMod256(x0 * 0x100 + x1, x0, x1);
    DivMod2To24(u, x0, x1 * 0x1_0000 + x2 * 0x100 + x3);
  }

  /** The unsigned value of four bytes has them as its base-256 digits. */
  lemma UnsignedDigits(b: seq<bv8>)
    requires |b| == 4
    ensures Unsigned(b) % 0x100 == b[3] as int
    ensures Unsigned(b) / 0x100 % 0x100 == b[2] as int
    ensures Unsigned(b) / 0x1_0000 % 0x100 == b[1] as int
    ensures Unsigned(b) / 0x100_0000 == b[0] as int
  {
    DigitsOf(Unsigned(b), b[0] as int, b[1] as int, b[2] as int, b[3] as int);
  }

  /** The bytes of Encode spell the value modulo 2^32. */
  lemma {:induction false} EncodeUnsigned(n: int)
    requires -TwoTo31 <= n < TwoTo31
    ensures Unsigned(Encode(n)) == n % TwoTo32
  {
    var u := n % TwoTo32;
    Digits(u);
    Casts.ByteOfValue(u / 0x100_0000);
    Casts.ByteOfValue(u / 0x1_0000 % 0x100);
    Casts.ByteOfValue(u / 0x100 % 0x100);
    Casts.ByteOfValue(u % 0x100);
  }

  /** Decoding an encoded value gives it back. */
  lemma {:induction false} DecodeEncode(n: int)
    requires -TwoTo31 <= n < TwoTo31
    ensures Decode(Encode(n)) == n
  {
    EncodeUnsigned(n);
    DecodeIsWrappedUnsigned(Encode(n));
    Mod2To32(n);
  }

  /** Encoding a decoded counter gives the four bytes back. */
  lemma {:induction false} EncodeDecode(b: seq<bv8>)
    requires |b| == 4
    ensures Encode(Decode(b)) == b
  {
    var n := Decode(b);
    DecodeIsWrappedUnsigned(b);
    EncodeUnsigned(n);
    Mod2To32(n);
    UnsignedInjective(Encode(n), b);
  }

  /** Four bytes are determined by their unsigned value. */
  lemma {:induction false} UnsignedInjective(a: seq<bv8>, b: seq<bv8>)
    requires |a| == 4 && |b| == 4 && Unsigned(a) == Unsigned(b)
    ensures a == b
  {
    UnsignedDigits(a);
    UnsignedDigits(b);
    Casts.ValueOfByte(a[0]);
    Casts.ValueOfByte(a[1]);
    Casts.ValueOfByte(a[2]);
    Casts.ValueOfByte(a[3]);
    Casts.ValueOfByte(b[0]);
    Casts.ValueOfByte(b[1]);
    Casts.ValueOfByte(b[2]);
    Casts.ValueOfByte(b[3]);
    assert a[0] == b[0] && a[1] == b[1] && a[2] == b[2] && a[3] == b[3];
  }

  /** The transfers Initialize makes on the bus: Mode0, Mode1, Status and Counter cleared, the
    * counter loaded into Output, the mode set to Quad1, and Mode1 written. */
  function InitTransfers(): seq<SpiTransfer> {
    [ SpiWrite([Instruction(ClearCommand, Mode0Register)]),
      SpiWrite([Instruction(ClearCommand, Mode1Register)]),
      SpiWrite([Instruction(ClearCommand, StatusRegister)]),
      SpiWrite([Instruction(ClearCommand, CounterRegister)]),
      SpiWrite([Instruction(LoadCommand, OutputRegister)]),
      SpiWrite([Instruction(WriteCommand, Mode0Register), Mode0Byte(Quad1)]),
      SpiWrite([Instruction(WriteCommand, Mode1Register), Mode1Byte]) ]
  }

  /** The bytes of Initialize's transfers. */
  lemma InitBytes()
    ensures InitTransfers() == [SpiWrite([0x08]), SpiWrite([0x10]), SpiWrite([0x30]), SpiWrite([0x20]),
                                SpiWrite([0xE8]), SpiWrite([0x88, 0x81]), SpiWrite([0x90, 0x00])]
  {
  }

  class RotaryH1 {
    const spi: SpiDevice
    const enable: DigitalIO
    const write1: array<bv8>
    const write2: array<bv8>
    const read4: array<bv8>
    var mode: CountMode

    /** The three scratch buffers are one, two and four bytes long and distinct. */
    ghost predicate Valid()
      reads this
    {
      write1.Length == 1 && write2.Length == 2 && read4.Length == 4
      && write1 != write2 && write2 != read4 && write1 != read4
    }

    constructor (spi: SpiDevice, enable: DigitalIO)
      ensures Valid() && fresh(write1) && fresh(write2) && fresh(read4)
      ensures this.spi == spi && this.enable == enable && mode == None
    {
      this.spi := spi;
      this.enable := enable;
      write1 := new bv8[1];
      write2 := new bv8[2];
      read4 := new bv8[4];
      mode := None;
    }

    /** The one-byte Write: the instruction byte alone. */
    method Write(command: Command, register: Register)
      requires Valid()
      modifies write1, spi
      ensures spi.transfers == old(spi.transfers) + [SpiWrite([Instruction(command, register)])]
    {
      write1[0] := Instruction(command, register);
      assert write1[..] == [Instruction(command, register)];
      spi.Write(write1[..]);
    }

    /** The two-byte Write: the instruction byte, then the register's new value. */
    method WriteValue(command: Command, register: Register, value: bv8)
      requires Valid()
      modifies write2, spi
      ensures spi.transfers == old(spi.transfers) + [SpiWrite([Instruction(command, register), value])]
    {
      write2[0] := Instruction(command, register);
      write2[1] := value;
      assert write2[..] == [Instruction(command, register), value];
      spi.Write(write2[..]);
    }

    /** Read: the instruction byte out, four bytes back, decoded most significant first. */
    method Read(command: Command, register: Register) returns (value: int)
      requires Valid()
      modifies write1, read4, spi
      ensures spi.transfers == old(spi.transfers) + [SpiWriteThenRead([Instruction(command, register)], read4[..])]
      ensures value == Decode(read4[..])
    {
      write1[0] := Instruction(command, register);
      assert write1[..] == [Instruction(command, register)];
      spi.WriteThenRead(write1[..], read4);
      value := Decode(read4[..]);
    }

    /** GetCount: the counter loaded into the output register, then the output register read. */
    method GetCount() returns (count: int)
      requires Valid()
      modifies write1, read4, spi
      ensures Valid()
      ensures spi.transfers == old(spi.transfers)
        + [SpiWrite([Instruction(LoadCommand, OutputRegister)]),
           SpiWriteThenRead([Instruction(ReadCommand, OutputRegister)], read4[..])]
      ensures count == Decode(read4[..]) && -TwoTo31 <= count < TwoTo31
    {
      Write(LoadCommand, OutputRegister);
      count := Read(ReadCommand, OutputRegister);
    }

    /** ResetCount: the counter register cleared. */
    method ResetCount()
      requires Valid()
      modifies write1, spi
      ensures Valid()
      ensures spi.transfers == old(spi.transfers) + [SpiWrite([Instruction(ClearCommand, CounterRegister)])]
    {
      Write(ClearCommand, CounterRegister);
    }

    /** The Mode setter: nothing when the mode is already `value`; otherwise the mode remembered
      * and Mode0 written with the mode's byte. */
    method SetMode(value: CountMode)
      requires Valid()
      modifies this, write2, spi
      ensures Valid() && mode == value
      ensures old(mode) == value ==> spi.transfers == old(spi.transfers) && unchanged(write2)
      ensures old(mode) != value ==>
        spi.transfers == old(spi.transfers) + [SpiWrite([Instruction(WriteCommand, Mode0Register), Mode0Byte(value)])]
    {
      if mode == value {
        return;
      }
      mode := value;
      WriteValue(WriteCommand, Mode0Register, Mode0Byte(mode));
    }
  }

  /** Setting the mode twice to the same value writes once. */
  method SetModeTwice(rotary: RotaryH1, value: CountMode)
    requires rotary.Valid()
    modifies rotary, rotary.write2, rotary.spi
    ensures rotary.Valid() && rotary.mode == value
    ensures |rotary.spi.transfers| <= |old(rotary.spi.transfers)| + 1
  {
    rotary.SetMode(value);
    rotary.SetMode(value);
  }

  /** The transfers Initialize makes once its pins are made. */
  method Start(spi: SpiDevice, enable: DigitalIO) returns (rotary: RotaryH1)
    requires spi.transfers == []
    modifies spi
    ensures fresh(rotary) && rotary.spi == spi && rotary.enable == enable
    ensures rotary.Valid() && rotary.mode == Quad1 && spi.transfers == InitTransfers()
  {
    rotary := new RotaryH1(spi, enable);
    rotary.Write(ClearCommand, Mode0Register);
    rotary.Write(ClearCommand, Mode1Register);
    rotary.Write(ClearCommand, StatusRegister);
    rotary.Write(ClearCommand, CounterRegister);
    rotary.Write(LoadCommand, OutputRegister);
    rotary.SetMode(Quad1);
    rotary.WriteValue(WriteCommand, Mode1Register, Mode1Byte);
  }

  /** Initialize: the bus made in SPI mode 0, the enable pin (5) made as an output driven high,
    * then the initialization transfers, which leave the counter in Quad1 mode. */
  method Initialize(parentSocket: Socket) returns (r: Result<RotaryH1>)
    modifies parentSocket`log
    ensures r.Ok? ==> CanMakeDigital(parentSocket.nativePins, parentSocket.creators, Five)
    ensures r.Ok? ==>
      && fresh(r.value) && fresh(r.value.spi) && fresh(r.value.enable)
      && r.value.Valid() && r.value.mode == Quad1
      && r.value.spi.transfers == InitTransfers()
      && MadeOutput(r.value.enable, true)
  {
    var enable :- OpenPins(parentSocket);
    var spi := new SpiDevice();
    var rotary := Start(spi, enable);
    r := Ok(rotary);
  }

  /** The socket calls of Initialize: the bus in SPI mode 0, then pin 5 as an output driven high. */
  method OpenPins(parentSocket: Socket) returns (r: Result<DigitalIO>)
    modifies parentSocket`log
    ensures r.Ok? ==> CanMakeDigital(parentSocket.nativePins, parentSocket.creators, Five)
    ensures r.Ok? ==> fresh(r.value) && MadeOutput(r.value, true)
  {
    var bus :- parentSocket.CreateSpiDevice(SoftwareSpi.Mode0, 8);
    r := parentSocket.CreateDigitalIOWithValue(Five, true);
  }
}

=== FILE: socket.dfy ===
/** A Gadgeteer socket: the socket types it supports, the native pins it maps, the creators a
  * mainboard installs, and how each Create call resolves a request against them. A creator is
  * board code the socket only calls; which creators are installed is a set of kinds, and what a
  * creator does is modelled by the board that installs it. The calls a socket makes on the
  * platform (opening a native pin or bus, making a native stub, calling a creator) are recorded,
  * in order, in `log`. */
module Sockets {
  import opened Errors
  import opened SocketInterfaces
  import SoftwareInterfaces
  import SoftwareSpi

  /** The seven signal pins of a socket. */
  datatype SocketPin = Three | Four | Five | Six | Seven | Eight | Nine

  /** The pin's number on the socket's connector. */
  function PinNumber(p: SocketPin): (n: int)
    ensures 3 <= n <= 9
  {
    match p
    case Three => 3
    case Four => 4
    case Five => 5
    case Six => 6
    case Seven => 7
    case Eight => 8
    case Nine => 9
  }

  /** The Gadgeteer socket types. */
  datatype SocketType = A | B | C | D | E | F | G | H | I | K | O | P | R | S | T | U | X | Y | Z

  /** The kinds of interface a socket hands out, one creator slot each. */
  datatype Kind = DigitalKind | AnalogKind | PwmKind | I2cKind | SpiKind | SerialKind

  /** A call a socket makes while resolving a request. */
  datatype SocketCall =
    | NativePinOpened(pin: SocketPin, nativePin: int)   // a native GPIO pin opened
    | PinCreatorCalled(kind: Kind, pin: SocketPin)      // a creator asked for a pin
    | BusCreatorCalled(kind: Kind)                      // a creator asked for a bus
    | NativeStubMade(kind: Kind)                        // the native analog or PWM stub made
    | NativeBusOpened(kind: Kind, deviceId: string)     // a native bus opened by device id

  /** Type X is a subset of type Y: a socket of type Y can serve a request for X. */
  predicate Supports(types: set<SocketType>, t: SocketType) {
    (t == X && Y in types) || t in types
  }

  /** A socket with Y serves X. */
  lemma YServesX(types: set<SocketType>)
    requires Y in types
    ensures Supports(types, X)
  {
  }

  /** Every type other than X is served exactly when it was added. */
  lemma OtherTypesExact(types: set<SocketType>, t: SocketType)
    requires t != X
    ensures Supports(types, t) <==> t in types
  {
  }

  /** The types after adding `added` one by one. */
  function WithTypes(types: set<SocketType>, added: seq<SocketType>): (r: set<SocketType>)
    ensures r == types + set t | t in added
  {
    if |added| == 0 then types
    else WithTypes(types, added[..|added| - 1]) + {added[|added| - 1]}
  }

  /** Adding the same types again changes nothing. */
  lemma WithTypesIdempotent(types: set<SocketType>, added: seq<SocketType>)
    ensures WithTypes(WithTypes(types, added), added) == WithTypes(types, added)
  {
  }

  /** The default-pin I2C request is redirected to pins Eight and Nine. */
  predicate DefaultI2cRedirects(types: set<SocketType>) {
    Supports(types, Y) && !Supports(types, I)
  }

  /** The explicit-pin I2C request is redirected to the default path. */
  predicate ExplicitI2cRedirects(types: set<SocketType>, sda: SocketPin, scl: SocketPin) {
    sda == Eight && scl == Nine && Supports(types, I)
  }

  /** The default-pin SPI request is redirected to pins Six to Nine. */
  predicate DefaultSpiRedirects(types: set<SocketType>) {
    Supports(types, Y) && !Supports(types, S)
  }

  /** The explicit-pin SPI request is redirected to the default path. */
  predicate ExplicitSpiRedirects(types: set<SocketType>, cs: SocketPin, mosi: SocketPin, miso: SocketPin, clk: SocketPin) {
    cs == Six && mosi == Seven && miso == Eight && clk == Nine && Supports(types, S)
  }

  /** The two I2C overloads never redirect to each other in turn: a redirect's guard excludes the
    * other's. */
  lemma I2cRedirectsExclusive(types: set<SocketType>, sda: SocketPin, scl: SocketPin)
    ensures !(DefaultI2cRedirects(types) && ExplicitI2cRedirects(types, sda, scl))
  {
  }

  /** The same holds for the two SPI overloads. */
  lemma SpiRedirectsExclusive(types: set<SocketType>, cs: SocketPin, mosi: SocketPin, miso: SocketPin, clk: SocketPin)
    ensures !(DefaultSpiRedirects(types) && ExplicitSpiRedirects(types, cs, mosi, miso, clk))
  {
  }

  /** A digital pin can be made: it is mapped natively or a digital creator is installed. */
  predicate CanMakeDigital(nativePins: map<SocketPin, int>, creators: set<Kind>, pin: SocketPin) {
    pin in nativePins || DigitalKind in creators
  }

  /** Every pin of `pins` can be made. */
  predicate CanMakeAll(nativePins: map<SocketPin, int>, creators: set<Kind>, pins: seq<SocketPin>) {
    forall k :: 0 <= k < |pins| ==> CanMakeDigital(nativePins, creators, pins[k])
  }

  /** The call that makes a digital pin: the native mapping first, then the creator. */
  function DigitalSteps(nativePins: map<SocketPin, int>, creators: set<Kind>, pin: SocketPin): (calls: seq<SocketCall>)
    ensures |calls| == 1 <==> CanMakeDigital(nativePins, creators, pin)
    ensures pin in nativePins ==> calls == [NativePinOpened(pin, nativePins[pin])]
    ensures pin !in nativePins && DigitalKind in creators ==> calls == [PinCreatorCalled(DigitalKind, pin)]
  {
    if pin in nativePins then [NativePinOpened(pin, nativePins[pin])]
    else if DigitalKind in creators then [PinCreatorCalled(DigitalKind, pin)]
    else []
  }

  /** The calls that make `pins` in order, up to the first that cannot be made. */
  function PinSteps(nativePins: map<SocketPin, int>, creators: set<Kind>, pins: seq<SocketPin>): seq<SocketCall> {
    if |pins| == 0 || !CanMakeDigital(nativePins, creators, pins[0]) then []
    else DigitalSteps(nativePins, creators, pins[0]) + PinSteps(nativePins, creators, pins[1..])
  }

  lemma TwoSteps(nativePins: map<SocketPin, int>, creators: set<Kind>, a: SocketPin, b: SocketPin)
    ensures PinSteps(nativePins, creators, [a, b])
            == if !CanMakeDigital(nativePins, creators, a) then []
               else DigitalSteps(nativePins, creators, a) + PinSteps(nativePins, creators, [b])
    ensures PinSteps(nativePins, creators, [b])
            == if !CanMakeDigital(nativePins, creators, b) then [] else DigitalSteps(nativePins, creators, b)
  {
    assert [a, b][1..] == [b];
    assert [b][1..] == [];
  }

  /** Making four pins is making the first two, then, if both were made, the other two. */
  lemma FourSteps(nativePins: map<SocketPin, int>, creators: set<Kind>, a: SocketPin, b: SocketPin, c: SocketPin, d: SocketPin)
    ensures PinSteps(nativePins, creators, [a, b, c, d])
            == if CanMakeDigital(nativePins, creators, a) && CanMakeDigital(nativePins, creators, b)
               then PinSteps(nativePins, creators, [a, b]) + PinSteps(nativePins, creators, [c, d])
               else PinSteps(nativePins, creators, [a, b])
    ensures CanMakeAll(nativePins, creators, [a, b, c, d])
            <==> CanMakeDigital(nativePins, creators, a) && CanMakeDigital(nativePins, creators, b)
                 && CanMakeDigital(nativePins, creators, c) && CanMakeDigital(nativePins, creators, d)
  {
    assert [a, b, c, d][1..] == [b, c, d];
    assert [b, c, d][1..] == [c, d];
    TwoSteps(nativePins, creators, a, b);
    TwoSteps(nativePins, creators, c, d);
    if CanMakeDigital(nativePins, creators, a) && CanMakeDigital(nativePins, creators, b) {
      SoftwareInterfaces.Assoc(DigitalSteps(nativePins, creators, a), DigitalSteps(nativePins, creators, b),
                               PinSteps(nativePins, creators, [c, d]));
    }
  }

  /** Making one pin. */
  lemma PinStepsOne(nativePins: map<SocketPin, int>, creators: set<Kind>, p: SocketPin)
    ensures PinSteps(nativePins, creators, [p]) == DigitalSteps(nativePins, creators, p)
  {
    assert [p][1..] == [];
  }

  /** Making the pins of `a + b` is making those of `a`, then those of `b`, when every pin of `a`
    * can be made. */
  lemma {:induction false} PinStepsAppend(nativePins: map<SocketPin, int>, creators: set<Kind>, a: seq<SocketPin>, b: seq<SocketPin>)
    requires CanMakeAll(nativePins, creators, a)
    ensures PinSteps(nativePins, creators, a + b) == PinSteps(nativePins, creators, a) + PinSteps(nativePins, creators, b)
  {
    if |a| > 0 {
      assert (a + b)[0] == a[0] && (a + b)[1..] == a[1..] + b;
      assert CanMakeAll(nativePins, creators, a[1..]) by {
        forall k | 0 <= k < |a[1..]| ensures CanMakeDigital(nativePins, creators, a[1..][k]) {
          assert a[1..][k] == a[k + 1];
        }
      }
      PinStepsAppend(nativePins, creators, a[1..], b);
      SoftwareInterfaces.Assoc(DigitalSteps(nativePins, creators, a[0]), PinSteps(nativePins, creators, a[1..]),
                               PinSteps(nativePins, creators, b));
    } else {
      assert a + b == b;
    }
  }

  /** One more pin that can be made extends the calls by its own. */
  lemma PinStepsExtend(nativePins: map<SocketPin, int>, creators: set<Kind>, pins: seq<SocketPin>, i: int)
    requires 0 <= i < |pins| && CanMakeAll(nativePins, creators, pins[..i])
    requires CanMakeDigital(nativePins, creators, pins[i])
    ensures CanMakeAll(nativePins, creators, pins[..i + 1])
    ensures PinSteps(nativePins, creators, pins[..i + 1])
            == PinSteps(nativePins, creators, pins[..i]) + DigitalSteps(nativePins, creators, pins[i])
  {
    assert pins[..i + 1] == pins[..i] + [pins[i]];
    PinStepsAppend(nativePins, creators, pins[..i], [pins[i]]);
    PinStepsOne(nativePins, creators, pins[i]);
  }

  /** The first pin that cannot be made ends the calls. */
  lemma PinStepsStop(nativePins: map<SocketPin, int>, creators: set<Kind>, pins: seq<SocketPin>, i: int)
    requires 0 <= i < |pins| && CanMakeAll(nativePins, creators, pins[..i])
    requires !CanMakeDigital(nativePins, creators, pins[i])
    ensures !CanMakeAll(nativePins, creators, pins)
    ensures PinSteps(nativePins, creators, pins) == PinSteps(nativePins, creators, pins[..i])
  {
    assert pins == pins[..i] + pins[i..];
    PinStepsAppend(nativePins, creators, pins[..i], pins[i..]);
    assert pins[i..][0] == pins[i];
  }

  /** Every pin of `outs` is a distinct output that was made, then driven once to its initial
    * level: what a module's `CreateDigitalIOAsync(pin, initialValue)` calls leave behind. */
  ghost predicate Outputs(outs: seq<DigitalIO>, initial: seq<bool>)
    reads set k | 0 <= k < |outs| :: outs[k]
  {
    && |outs| == |initial|
    && (forall j, k :: 0 <= j < k < |outs| ==> outs[j] != outs[k])
    && (forall k :: 0 <= k < |outs| ==> MadeOutput(outs[k], initial[k]))
  }

  /** A pin made as an input, switched to Output and driven once to `level`, with no handler. */
  ghost predicate MadeOutput(io: DigitalIO, level: bool)
    reads io
  {
    && io.Valid() && io.driveMode == Output
    && io.calls == [DriveModeSet(Input), DriveModeSet(Output), Driven(level)]
    && io.handlers == [] && io.interruptType == {}
  }

  /** A fresh output joins the run of outputs made before it. */
  lemma AddOutputKeeps(outs: seq<DigitalIO>, initial: seq<bool>, io: DigitalIO, level: bool)
    requires Outputs(outs, initial) && io !in outs
    requires MadeOutput(io, level)
    ensures Outputs(outs + [io], initial + [level])
  {
  }

  /** The call that makes a bus of one kind: its creator if installed, else the native bus. */
  function BusCalls(creators: set<Kind>, kind: Kind, deviceId: string): (calls: seq<SocketCall>)
    ensures kind in creators <==> calls == [BusCreatorCalled(kind)]
    ensures kind !in creators <==> calls == [NativeBusOpened(kind, deviceId)]
  {
    if kind in creators then [BusCreatorCalled(kind)] else [NativeBusOpened(kind, deviceId)]
  }

  /** What an I2C request hands out: a device from a creator or the native bus, or the software
    * engine over two digital pins. */
  datatype I2cMade =
    | SharedI2c(device: SocketInterfaces.I2cDevice)
    | SoftwareI2c(sda: DigitalIO, scl: DigitalIO, engine: SoftwareInterfaces.I2cDevice)

  /** What an SPI request hands out: a device from a creator or the native bus (modelled by its
    * origin only), or the software engine over four digital pins. */
  datatype SpiMade =
    | SharedSpi
    | SoftwareSpiMade(chipSelect: DigitalIO, masterOut: DigitalIO, masterIn: DigitalIO, clock: DigitalIO,
                      engine: SoftwareSpi.SpiDevice)

  /** The result of building the software I2C engine on two pins, `pinsOk` telling whether both
    * can be made. */
  ghost predicate SoftwareI2cMade(r: Result<I2cMade>, pinsOk: bool, slaveAddress: int)
    reads if r.Ok? && r.value.SoftwareI2c? then {r.value.sda, r.value.scl, r.value.engine} else {}
  {
    && (r.Ok? <==> pinsOk)
    && (r.Err? ==> r.error == UnsupportedPinMode)
    && (r.Ok? ==>
          && r.value.SoftwareI2c?
          && r.value.sda.driveMode == Input && r.value.scl.driveMode == Input
          && r.value.engine.writeAddress == SoftwareInterfaces.WriteAddress(slaveAddress)
          && r.value.engine.readAddress == SoftwareInterfaces.ReadAddress(slaveAddress)
          && !r.value.engine.start && r.value.engine.trace == [])
  }

  /** The result of building the software SPI engine on four pins (chip select, master out,
    * master in, clock), `pinsOk` telling whether all four can be made. */
  ghost predicate SoftwareSpiBuilt(r: Result<SpiMade>, pinsOk: bool, mode: SoftwareSpi.SpiMode, dataBitLength: int)
    reads if r.Ok? && r.value.SoftwareSpiMade? then {r.value.chipSelect, r.value.masterOut, r.value.masterIn, r.value.clock, r.value.engine} else {}
  {
    && (r.Ok? <==> pinsOk && dataBitLength == 8)
    && (r.Err? ==> r.error == if pinsOk then NotSupported else UnsupportedPinMode)
    && (r.Ok? ==>
          && r.value.SoftwareSpiMade?
          && r.value.chipSelect.driveMode == Input && r.value.masterOut.driveMode == Input
          && r.value.masterIn.driveMode == Input && r.value.clock.driveMode == Input
          && r.value.engine.clockEdge == SoftwareSpi.ClockEdge(mode)
          && r.value.engine.clockPolarity == SoftwareSpi.ClockPolarity(mode)
          && r.value.engine.trace == [])
  }

  class Socket {
    const number: int
    var supportedTypes: set<SocketType>
    var nativePins: map<SocketPin, int>
    var creators: set<Kind>
    var nativeI2cDeviceId: string
    var nativeSpiDeviceId: string
    var nativeSerialDeviceId: string
    var nativeSpiChipSelectPin: int
    var log: seq<SocketCall>

    constructor (socketNumber: int)
      ensures number == socketNumber
      ensures supportedTypes == {} && nativePins == map[] && creators == {} && log == []
    {
      number := socketNumber;
      supportedTypes := {};
      nativePins := map[];
      creators := {};
      nativeI2cDeviceId := "";
      nativeSpiDeviceId := "";
      nativeSerialDeviceId := "";
      nativeSpiChipSelectPin := 0;
      log := [];
    }

    predicate IsTypeSupported(t: SocketType)
      reads this`supportedTypes
    {
      Supports(supportedTypes, t)
    }

    /** Throws UnsupportedSocketType exactly when the type is not supported. */
    method EnsureTypeIsSupported(t: SocketType) returns (r: Outcome)
      ensures r.Pass? <==> IsTypeSupported(t)
      ensures r.Fail? ==> r.error == UnsupportedSocketType
    {
      if !IsTypeSupported(t) {
        return Fail(UnsupportedSocketType);
      }
      r := Pass;
    }

    /** Adds each type in turn to the supported set. */
    method AddSupportedTypes(types: seq<SocketType>)
      modifies this`supportedTypes
      ensures supportedTypes == WithTypes(old(supportedTypes), types)
    {
      for i := 0 to |types|
        invariant supportedTypes == WithTypes(old(supportedTypes), types[..i])
      {
        assert types[..i + 1][..i] == types[..i];
        supportedTypes := supportedTypes + {types[i]};
      }
      assert types[..|types|] == types;
    }

    /** Maps a socket pin to a native pin, replacing any earlier mapping of it. */
    method SetNativePin(pin: SocketPin, nativePin: int)
      modifies this`nativePins
      ensures nativePins == old(nativePins)[pin := nativePin]
    {
      nativePins := nativePins[pin := nativePin];
    }

    /** Installs (or removes, for a null delegate) the creator of one kind. */
    method SetCreator(kind: Kind, installed: bool)
      modifies this`creators
      ensures creators == if installed then old(creators) + {kind} else old(creators) - {kind}
    {
      if installed {
        creators := creators + {kind};
      } else {
        creators := creators - {kind};
      }
    }

    // -------------------------------------------------------------------------------------------
    // Digital pins
    // -------------------------------------------------------------------------------------------

    /** A digital pin, from the native mapping if there is one, else from the creator, else
      * UnsupportedPinMode; the pin handed out is in Input. */
    method CreateDigitalIO(pin: SocketPin) returns (r: Result<DigitalIO>)
      modifies this`log
      ensures r.Ok? <==> CanMakeDigital(nativePins, creators, pin)
      ensures r.Err? ==> r.error == UnsupportedPinMode
      ensures log == old(log) + DigitalSteps(nativePins, creators, pin)
      ensures r.Ok? ==> fresh(r.value) && r.value.Valid() && r.value.driveMode == Input
      ensures r.Ok? ==> r.value.calls == [DriveModeSet(Input)] && r.value.handlers == [] && r.value.interruptType == {}
    {
      if pin in nativePins {
        log := log + [NativePinOpened(pin, nativePins[pin])];
      } else if DigitalKind in creators {
        log := log + [PinCreatorCalled(DigitalKind, pin)];
      } else {
        return Err(UnsupportedPinMode);
      }
      var initial: DriveMode :| true;
      var result := new DigitalIO(initial);
      result.SetDriveMode(Input);
      r := Ok(result);
    }

    /** A digital input that reports the given edges. */
    method CreateDigitalIOWithEdges(pin: SocketPin, edges: set<Edge>) returns (r: Result<DigitalIO>)
      modifies this`log
      ensures r.Ok? <==> CanMakeDigital(nativePins, creators, pin)
      ensures r.Err? ==> r.error == UnsupportedPinMode
      ensures log == old(log) + DigitalSteps(nativePins, creators, pin)
      ensures r.Ok? ==> fresh(r.value) && r.value.Valid() && r.value.driveMode == Input && r.value.interruptType == edges
      ensures r.Ok? ==> r.value.calls == [DriveModeSet(Input)] && r.value.handlers == []
    {
      r := CreateDigitalIO(pin);
      if r.Ok? {
        r.value.SetInterruptType(edges);
      }
    }

    /** A module initializer's run of `CreateDigitalIOAsync(pins[k], initial[k])` calls, in
      * order; the first pin that cannot be made throws and stops the run. */
    method CreateOutputs(pins: seq<SocketPin>, initial: seq<bool>) returns (r: Result<seq<DigitalIO>>)
      requires |pins| == |initial|
      modifies this`log
      ensures r.Ok? <==> CanMakeAll(nativePins, creators, pins)
      ensures r.Err? ==> r.error == UnsupportedPinMode
      ensures log == old(log) + PinSteps(nativePins, creators, pins)
      ensures r.Ok? ==> Outputs(r.value, initial) && forall k :: 0 <= k < |r.value| ==> fresh(r.value[k])
    {
      var outs: seq<DigitalIO> := [];
      ghost var made: set<DigitalIO> := {};
      for i := 0 to |pins|
        invariant |outs| == i && CanMakeAll(nativePins, creators, pins[..i])
        invariant log == old(log) + PinSteps(nativePins, creators, pins[..i])
        invariant fresh(made) && forall k :: 0 <= k < i ==> outs[k] in made
        invariant Outputs(outs, initial[..i])
      {
        assert initial[..i + 1] == initial[..i] + [initial[i]];
        if !CanMakeDigital(nativePins, creators, pins[i]) {
          PinStepsStop(nativePins, creators, pins, i);
        } else {
          PinStepsExtend(nativePins, creators, pins, i);
        }
        var next := CreateDigitalIOWithValue(pins[i], initial[i]);
        if next.Err? {
          return Err(next.error);
        }
        AddOutputKeeps(outs, initial[..i], next.value, initial[i]);
        outs := outs + [next.value];
        made := made + {next.value};
      }
      assert pins[..|pins|] == pins && initial[..|initial|] == initial;
      r := Ok(outs);
    }

    /** A digital output driven to `initialValue`. */
    method CreateDigitalIOWithValue(pin: SocketPin, initialValue: bool) returns (r: Result<DigitalIO>)
      modifies this`log
      ensures r.Ok? <==> CanMakeDigital(nativePins, creators, pin)
      ensures r.Err? ==> r.error == UnsupportedPinMode
      ensures log == old(log) + DigitalSteps(nativePins, creators, pin)
      ensures r.Ok? ==> fresh(r.value) && MadeOutput(r.value, initialValue)
    {
      r := CreateDigitalIO(pin);
      if r.Ok? {
        r.value.SetDriveMode(Output);
        r.value.SetValue(initialValue);
      }
    }

    // -------------------------------------------------------------------------------------------
    // Analog, PWM and serial
    // -------------------------------------------------------------------------------------------

    /** An analog pin in Input. Type A is checked before anything else. Without a creator the
      * native stub is made, and its DriveMode setter throws NotSupported. */
    method CreateAnalogIO(pin: SocketPin) returns (r: Result<AnalogIO>)
      modifies this`log
      ensures !IsTypeSupported(A) ==> r == Err(UnsupportedSocketType) && log == old(log)
      ensures IsTypeSupported(A) && AnalogKind !in creators ==>
        r == Err(NotSupported) && log == old(log) + [NativeStubMade(AnalogKind)]
      ensures IsTypeSupported(A) && AnalogKind in creators ==>
        log == old(log) + [PinCreatorCalled(AnalogKind, pin)] && (r.Ok? || r == Err(NotSupported))
      ensures r.Ok? ==> fresh(r.value) && Input in r.value.accepts && r.value.calls == [AnalogModeSet(Input)]
    {
      var supported := EnsureTypeIsSupported(A);
      if supported.Fail? {
        return Err(supported.error);
      }
      var result: AnalogIO;
      if AnalogKind in creators {
        log := log + [PinCreatorCalled(AnalogKind, pin)];
        var accepts: set<DriveMode> :| true;
        result := new AnalogIO(accepts);
      } else {
        log := log + [NativeStubMade(AnalogKind)];
        result := new AnalogIO({});
      }
      var input := result.SetDriveMode(Input);
      if input.Fail? {
        return Err(input.error);
      }
      r := Ok(result);
    }

    /** An analog output at `initialVoltage`: the Input pin is switched to Output, which the
      * implementation may refuse. */
    method CreateAnalogIOWithVoltage(pin: SocketPin, initialVoltage: real) returns (r: Result<AnalogIO>)
      modifies this`log
      ensures !IsTypeSupported(A) ==> r == Err(UnsupportedSocketType) && log == old(log)
      ensures IsTypeSupported(A) && AnalogKind !in creators ==>
        r == Err(NotSupported) && log == old(log) + [NativeStubMade(AnalogKind)]
      ensures IsTypeSupported(A) && AnalogKind in creators ==>
        log == old(log) + [PinCreatorCalled(AnalogKind, pin)] && (r.Ok? || r == Err(NotSupported))
      ensures r.Ok? ==> fresh(r.value) && {Input, Output} <= r.value.accepts
      ensures r.Ok? ==> r.value.calls == [AnalogModeSet(Input), AnalogModeSet(Output), VoltageDriven(initialVoltage)]
    {
      r := CreateAnalogIO(pin);
      if r.Ok? {
        var output := r.value.SetDriveMode(Output);
        if output.Fail? {
          return Err(output.error);
        }
        r.value.SetVoltage(initialVoltage);
      }
    }

    /** A PWM output: type P is checked, then the creator is preferred to the native stub, whose
      * members throw NotSupported once used. */
    method CreatePwmOutput(pin: SocketPin) returns (r: Result<PwmOutput>)
      modifies this`log
      ensures !IsTypeSupported(P) ==> r == Err(UnsupportedSocketType) && log == old(log)
      ensures IsTypeSupported(P) ==> r.Ok? && fresh(r.value) && !r.value.enabled && r.value.calls == []
      ensures IsTypeSupported(P) ==> (r.value.supported <==> PwmKind in creators)
      ensures IsTypeSupported(P) ==>
        log == old(log) + [if PwmKind in creators then PinCreatorCalled(PwmKind, pin) else NativeStubMade(PwmKind)]
    {
      var supported := EnsureTypeIsSupported(P);
      if supported.Fail? {
        return Err(supported.error);
      }
      if PwmKind in creators {
        log := log + [PinCreatorCalled(PwmKind, pin)];
      } else {
        log := log + [NativeStubMade(PwmKind)];
      }
      var result := new PwmOutput(PwmKind in creators);
      r := Ok(result);
    }

    /** A serial device: type U is checked, then the creator is preferred to the native port. */
    method CreateSerialDevice() returns (r: Result<SerialDevice>)
      modifies this`log
      ensures !IsTypeSupported(U) ==> r == Err(UnsupportedSocketType) && log == old(log)
      ensures IsTypeSupported(U) ==> r.Ok? && fresh(r.value)
      ensures IsTypeSupported(U) ==> log == old(log) + BusCalls(creators, SerialKind, nativeSerialDeviceId)
    {
      var supported := EnsureTypeIsSupported(U);
      if supported.Fail? {
        return Err(supported.error);
      }
      OpenBus(SerialKind, nativeSerialDeviceId);
      var result := new SerialDevice();
      r := Ok(result);
    }

    method OpenBus(kind: Kind, deviceId: string)
      modifies this`log
      ensures log == old(log) + BusCalls(creators, kind, deviceId)
    {
      if kind in creators {
        log := log + [BusCreatorCalled(kind)];
      } else {
        log := log + [NativeBusOpened(kind, deviceId)];
      }
    }

    // -------------------------------------------------------------------------------------------
    // I2C
    // -------------------------------------------------------------------------------------------

    /** The default-pin I2C device. A socket with Y and without I gets the software engine on
      * pins Eight and Nine; otherwise I is required and the creator is preferred to the native
      * bus. The measure shows the redirect to the explicit overload cannot come back. */
    method CreateI2cDevice(slaveAddress: int) returns (r: Result<I2cMade>)
      modifies this`log
      decreases if IsTypeSupported(I) then 1 else 2
      ensures DefaultI2cRedirects(supportedTypes) ==> SoftwareI2cMade(r, CanMakeAll(nativePins, creators, [Eight, Nine]), slaveAddress) && log == old(log) + PinSteps(nativePins, creators, [Eight, Nine])
      ensures !IsTypeSupported(Y) && !IsTypeSupported(I) ==> r == Err(UnsupportedSocketType) && log == old(log)
      ensures IsTypeSupported(I) ==> r.Ok? && r.value.SharedI2c? && fresh(r.value.device)
      ensures IsTypeSupported(I) ==> log == old(log) + BusCalls(creators, I2cKind, nativeI2cDeviceId)
    {
      if IsTypeSupported(Y) && !IsTypeSupported(I) {
        r := CreateI2cDeviceOnPins(slaveAddress, Eight, Nine);
        return;
      }
      var supported := EnsureTypeIsSupported(I);
      if supported.Fail? {
        return Err(supported.error);
      }
      OpenBus(I2cKind, nativeI2cDeviceId);
      var device := new SocketInterfaces.I2cDevice();
      r := Ok(SharedI2c(device));
    }

    /** The I2C device on the given pins. Pins Eight and Nine on a socket with I go to the default
      * path; anything else makes SDA then SCL and builds the software engine on them. */
    method CreateI2cDeviceOnPins(slaveAddress: int, sda: SocketPin, scl: SocketPin) returns (r: Result<I2cMade>)
      modifies this`log
      decreases if IsTypeSupported(I) then 2 else 0
      ensures ExplicitI2cRedirects(supportedTypes, sda, scl) ==>
        r.Ok? && r.value.SharedI2c? && fresh(r.value.device) && log == old(log) + BusCalls(creators, I2cKind, nativeI2cDeviceId)
      ensures !ExplicitI2cRedirects(supportedTypes, sda, scl) ==>
        SoftwareI2cMade(r, CanMakeAll(nativePins, creators, [sda, scl]), slaveAddress) && log == old(log) + PinSteps(nativePins, creators, [sda, scl])
    {
      if sda == Eight && scl == Nine && IsTypeSupported(I) {
        r := CreateI2cDevice(slaveAddress);
        return;
      }
      var lines :- CreatePair(sda, scl);
      var engine := new SoftwareInterfaces.I2cDevice(slaveAddress);
      r := Ok(SoftwareI2c(lines.0, lines.1, engine));
    }

    /** Two digital pins made one after the other; the second is not tried when the first fails. */
    method CreatePair(a: SocketPin, b: SocketPin) returns (r: Result<(DigitalIO, DigitalIO)>)
      modifies this`log
      ensures r.Ok? <==> CanMakeDigital(nativePins, creators, a) && CanMakeDigital(nativePins, creators, b)
      ensures r.Err? ==> r.error == UnsupportedPinMode
      ensures log == old(log) + PinSteps(nativePins, creators, [a, b])
      ensures r.Ok? ==> fresh(r.value.0) && fresh(r.value.1)
      ensures r.Ok? ==> r.value.0.driveMode == Input && r.value.1.driveMode == Input
    {
      TwoSteps(nativePins, creators, a, b);
      var first :- CreateDigitalIO(a);
      var second :- CreateDigitalIO(b);
      r := Ok((first, second));
    }

    // -------------------------------------------------------------------------------------------
    // SPI
    // -------------------------------------------------------------------------------------------

    /** The default-pin SPI device. A socket with Y and without S gets the software engine on pins
      * Six to Nine; otherwise S is required and the creator is preferred to the native bus. */
    method CreateSpiDevice(mode: SoftwareSpi.SpiMode, dataBitLength: int) returns (r: Result<SpiMade>)
      modifies this`log
      decreases if IsTypeSupported(S) then 1 else 2
      ensures DefaultSpiRedirects(supportedTypes) ==>
        SoftwareSpiBuilt(r, CanMakeAll(nativePins, creators, [Six, Seven, Eight, Nine]), mode, dataBitLength) && log == old(log) + PinSteps(nativePins, creators, [Six, Seven, Eight, Nine])
      ensures !IsTypeSupported(Y) && !IsTypeSupported(S) ==> r == Err(UnsupportedSocketType) && log == old(log)
      ensures IsTypeSupported(S) ==> r == Ok(SharedSpi) && log == old(log) + BusCalls(creators, SpiKind, nativeSpiDeviceId)
    {
      if IsTypeSupported(Y) && !IsTypeSupported(S) {
        r := CreateSpiDeviceOnPins(mode, dataBitLength, Six, Seven, Eight, Nine);
        return;
      }
      var supported := EnsureTypeIsSupported(S);
      if supported.Fail? {
        return Err(supported.error);
      }
      OpenBus(SpiKind, nativeSpiDeviceId);
      r := Ok(SharedSpi);
    }

    /** The SPI device on the given pins. Pins Six to Nine on a socket with S go to the default
      * path; anything else makes chip select, master out, master in and clock, in that order,
      * and builds the software engine on them, which accepts only 8-bit words. */
    method CreateSpiDeviceOnPins(mode: SoftwareSpi.SpiMode, dataBitLength: int,
                                 cs: SocketPin, mosi: SocketPin, miso: SocketPin, clk: SocketPin)
      returns (r: Result<SpiMade>)
      modifies this`log
      decreases if IsTypeSupported(S) then 2 else 0
      ensures ExplicitSpiRedirects(supportedTypes, cs, mosi, miso, clk) ==>
        r == Ok(SharedSpi) && log == old(log) + BusCalls(creators, SpiKind, nativeSpiDeviceId)
      ensures !ExplicitSpiRedirects(supportedTypes, cs, mosi, miso, clk) ==>
        SoftwareSpiBuilt(r, CanMakeAll(nativePins, creators, [cs, mosi, miso, clk]), mode, dataBitLength) && log == old(log) + PinSteps(nativePins, creators, [cs, mosi, miso, clk])
    {
      if cs == Six && mosi == Seven && miso == Eight && clk == Nine && IsTypeSupported(S) {
        r := CreateSpiDevice(mode, dataBitLength);
        return;
      }
      r := BuildSoftwareSpi(mode, dataBitLength, cs, mosi, miso, clk);
    }

    /** The software path of the SPI overloads: the four pins, then the engine. */
    method BuildSoftwareSpi(mode: SoftwareSpi.SpiMode, dataBitLength: int,
                            cs: SocketPin, mosi: SocketPin, miso: SocketPin, clk: SocketPin)
      returns (r: Result<SpiMade>)
      modifies this`log
      ensures SoftwareSpiBuilt(r, CanMakeAll(nativePins, creators, [cs, mosi, miso, clk]), mode, dataBitLength)
      ensures log == old(log) + PinSteps(nativePins, creators, [cs, mosi, miso, clk])
    {
      var lines :- CreateFour(cs, mosi, miso, clk);
      var engine :- SoftwareSpi.SpiDevice.Create(mode, dataBitLength);
      r := Ok(SoftwareSpiMade(lines.0, lines.1, lines.2, lines.3, engine));
    }

    /** Four digital pins made in order; none after the first that fails is tried. */
    method CreateFour(a: SocketPin, b: SocketPin, c: SocketPin, d: SocketPin)
      returns (r: Result<(DigitalIO, DigitalIO, DigitalIO, DigitalIO)>)
      modifies this`log
      ensures r.Ok? <==> CanMakeAll(nativePins, creators, [a, b, c, d])
      ensures r.Err? ==> r.error == UnsupportedPinMode
      ensures log == old(log) + PinSteps(nativePins, creators, [a, b, c, d])
      ensures r.Ok? ==> fresh(r.value.0) && fresh(r.value.1) && fresh(r.value.2) && fresh(r.value.3)
      ensures r.Ok? ==> r.value.0.driveMode == Input && r.value.1.driveMode == Input
      ensures r.Ok? ==> r.value.2.driveMode == Input && r.value.3.driveMode == Input
    {
      FourSteps(nativePins, creators, a, b, c, d);
      ghost var l0 := log;
      var first :- CreatePair(a, b);
      var second :- CreatePair(c, d);
      SoftwareInterfaces.Assoc(l0, PinSteps(nativePins, creators, [a, b]), PinSteps(nativePins, creators, [c, d]));
      r := Ok((first.0, first.1, second.0, second.1));
    }
  }
}

=== FILE: socket_interfaces.dfy ===
/** The abstract interfaces a socket hands out (DigitalIO, AnalogIO, PwmOutput, I2cDevice,
  * SerialDevice) with the behaviour their base classes implement on top of the members each
  * implementation supplies. An implementation's members are modelled as recorded calls: whatever
  * the implementation returns is left arbitrary. */
module SocketInterfaces {
  import opened Errors
  import opened Transfers

  /** Windows' GpioPinDriveMode. */
  datatype DriveMode =
    | Input | Output | InputPullUp | InputPullDown
    | OutputOpenDrain | OutputOpenDrainPullUp | OutputOpenSource | OutputOpenSourcePullDown

  /** Windows' GpioPinEdge. */
  datatype Edge = FallingEdge | RisingEdge

  /** The numeric value of a GpioPinEdge member: FallingEdge is 0, RisingEdge is 1. */
  function EdgeValue(e: Edge): bv32 {
    match e
    case FallingEdge => 0
    case RisingEdge => 1
  }

  /** Edges combined with `|`, as a caller writes `FallingEdge | RisingEdge`. */
  function EdgeFlags(edges: set<Edge>): bv32 {
    (if FallingEdge in edges then EdgeValue(FallingEdge) else 0)
    | (if RisingEdge in edges then EdgeValue(RisingEdge) else 0)
  }

  /** The filter OnValueChanged applies as written: the stored InterruptType is tested with `&`
    * against each member's numeric value. */
  predicate ForwardsAsWritten(interruptType: bv32, rising: bool) {
    (rising && interruptType & EdgeValue(RisingEdge) != 0)
    || (!rising && interruptType & EdgeValue(FallingEdge) != 0)
  }

  /** The intended filter: a change is forwarded exactly when its edge is one of those requested. */
  predicate Forwards(requested: set<Edge>, rising: bool) {
    (if rising then RisingEdge else FallingEdge) in requested
  }

  /** As written, a falling edge is never forwarded, whatever InterruptType holds. */
  lemma FallingEdgeNeverForwarded(interruptType: bv32)
    ensures !ForwardsAsWritten(interruptType, false)
  {
  }

  /** The two filters disagree exactly on falling edges: the as-written filter drops them even when
    * they were requested, and agrees with the intended one on rising edges. */
  lemma FilterDiscrepancy(requested: set<Edge>)
    ensures ForwardsAsWritten(EdgeFlags(requested), true) == Forwards(requested, true)
    ensures FallingEdge in requested ==> Forwards(requested, false) && !ForwardsAsWritten(EdgeFlags(requested), false)
  {
  }

  /** Asking for both edges with `|` stores the same number as asking for rising edges only. */
  lemma BothEdgesIsRisingEdge()
    ensures EdgeFlags({FallingEdge, RisingEdge}) == EdgeFlags({RisingEdge})
  {
  }

  /** A subscriber of ValueChanged, by identity. */
  type Handler = nat

  /** What removing `h` from a multicast delegate leaves: its last occurrence is dropped, and a
    * handler that is not subscribed leaves the list as it is. */
  function RemoveLast(handlers: seq<Handler>, h: Handler): (r: seq<Handler>)
    ensures h !in handlers ==> r == handlers
    ensures h in handlers ==> |r| == |handlers| - 1
  {
    if |handlers| == 0 then []
    else
      var rest := handlers[..|handlers| - 1];
      var last := handlers[|handlers| - 1];
      assert handlers == rest + [last];
      if last == h then rest
      else
        assert h in handlers ==> h in rest;
        RemoveLast(rest, h) + [last]
  }

  /** RemoveLast drops one occurrence of `h` and nothing else. */
  lemma {:induction false} RemoveLastMultiset(handlers: seq<Handler>, h: Handler)
    ensures multiset(RemoveLast(handlers, h)) == multiset(handlers) - multiset{h}
  {
    if |handlers| > 0 {
      var rest := handlers[..|handlers| - 1];
      var last := handlers[|handlers| - 1];
      assert handlers == rest + [last];
      if last != h {
        RemoveLastMultiset(rest, h);
        assert multiset(handlers) == multiset(rest) + multiset{last};
      }
    }
  }

  /** The occurrence RemoveLast drops is the last one: the handlers after it stay in place. */
  lemma {:induction false} RemoveLastKeepsLaterOnes(handlers: seq<Handler>, h: Handler, k: nat)
    requires k < |handlers| && handlers[k] == h && h !in handlers[k + 1..]
    ensures RemoveLast(handlers, h) == handlers[..k] + handlers[k + 1..]
  {
    var rest := handlers[..|handlers| - 1];
    var last := handlers[|handlers| - 1];
    if k == |handlers| - 1 {
      assert handlers[..k] + handlers[k + 1..] == rest;
    } else {
      assert last in handlers[k + 1..];
      assert rest[k + 1..] + [last] == handlers[k + 1..];
      assert h !in rest[k + 1..];
      RemoveLastKeepsLaterOnes(rest, h, k);
      assert rest[..k] == handlers[..k];
    }
  }

  /** A call a DigitalIO's base class makes on its implementation. */
  datatype IoCall =
    | DriveModeSet(mode: DriveMode)   // the DriveMode setter
    | Sampled(level: bool)            // ReadInternal, with the level it returned
    | Driven(level: bool)             // WriteInternal
    | InterruptEnabled                // EnableInterrupt
    | InterruptDisabled               // DisableInterrupt

  /** Whether a call switches the implementation's interrupt on or off. */
  predicate IsInterruptCall(c: IoCall) {
    c.InterruptEnabled? || c.InterruptDisabled?
  }

  /** Whether the implementation's interrupt is on after `calls`: the last EnableInterrupt or
    * DisableInterrupt call decides. */
  function Armed(calls: seq<IoCall>): bool {
    if |calls| == 0 then false
    else
      match calls[|calls| - 1]
      case InterruptEnabled => true
      case InterruptDisabled => false
      case _ => Armed(calls[..|calls| - 1])
  }

  /** Some EnableInterrupt call in `calls` is followed by no other interrupt call. */
  ghost predicate EnabledLast(calls: seq<IoCall>) {
    exists k :: 0 <= k < |calls| && calls[k] == InterruptEnabled && NoInterruptCallAfter(calls, k)
  }

  ghost predicate NoInterruptCallAfter(calls: seq<IoCall>, k: nat) {
    forall j :: k < j < |calls| ==> !IsInterruptCall(calls[j])
  }

  /** The interrupt is on exactly when the last interrupt call was EnableInterrupt. */
  lemma {:induction false} ArmedMeans(calls: seq<IoCall>)
    ensures Armed(calls) <==> EnabledLast(calls)
  {
    if |calls| > 0 {
      var n := |calls| - 1;
      var prefix := calls[..n];
      if calls[n].InterruptDisabled? {
        forall k | 0 <= k < n && calls[k] == InterruptEnabled
          ensures !NoInterruptCallAfter(calls, k)
        {
          assert IsInterruptCall(calls[n]);
        }
      } else if !calls[n].InterruptEnabled? {
        ArmedMeans(prefix);
        if Armed(prefix) {
          var k :| 0 <= k < |prefix| && prefix[k] == InterruptEnabled && NoInterruptCallAfter(prefix, k);
          assert calls[k] == InterruptEnabled && NoInterruptCallAfter(calls, k);
        }
        if EnabledLast(calls) {
          var k :| 0 <= k < |calls| && calls[k] == InterruptEnabled && NoInterruptCallAfter(calls, k);
          assert prefix[k] == InterruptEnabled && NoInterruptCallAfter(prefix, k);
        }
      } else {
        assert calls[n] == InterruptEnabled && NoInterruptCallAfter(calls, n);
      }
    }
  }

  /** A call that is not EnableInterrupt or DisableInterrupt leaves the interrupt as it was. */
  lemma ArmedAfter(calls: seq<IoCall>, c: IoCall)
    ensures Armed(calls + [c]) == (if c == InterruptEnabled then true else if c == InterruptDisabled then false else Armed(calls))
  {
    assert (calls + [c])[..|calls|] == calls;
  }

  /** The base class of a digital pin. Read and Write put the pin into the direction they need;
    * Value, SetHigh, SetLow, IsHigh and IsLow leave the direction alone. The implementation's
    * interrupt is on exactly while ValueChanged has subscribers (`Valid`). */
  class DigitalIO {
    var driveMode: DriveMode
    var interruptType: set<Edge>
    var handlers: seq<Handler>
    var calls: seq<IoCall>

    ghost predicate Valid()
      reads this
    {
      Armed(calls) == (|handlers| > 0)
    }

    /** A pin whose implementation starts in `mode`, with nobody subscribed. InterruptType starts
      * at the default 0 of the C# enum GpioPinEdge, whose zero member is FallingEdge; the model
      * reads that default as no edge requested, the empty set of flags that `&` sees in 0. */
    constructor (mode: DriveMode)
      ensures Valid()
      ensures driveMode == mode && interruptType == {} && handlers == [] && calls == []
    {
      driveMode := mode;
      interruptType := {};
      handlers := [];
      calls := [];
    }

    /** The DriveMode setter. */
    method SetDriveMode(mode: DriveMode)
      requires Valid()
      modifies this
      ensures Valid()
      ensures driveMode == mode && calls == old(calls) + [DriveModeSet(mode)]
      ensures handlers == old(handlers) && interruptType == old(interruptType)
    {
      ArmedAfter(calls, DriveModeSet(mode));
      driveMode := mode;
      calls := calls + [DriveModeSet(mode)];
    }

    /** The implementation's ReadInternal: the level is whatever the pin reads. */
    method ReadInternal() returns (level: bool)
      requires Valid()
      modifies this
      ensures Valid()
      ensures calls == old(calls) + [Sampled(level)]
      ensures driveMode == old(driveMode) && handlers == old(handlers) && interruptType == old(interruptType)
    {
      level :| true;
      ArmedAfter(calls, Sampled(level));
      calls := calls + [Sampled(level)];
    }

    /** The implementation's WriteInternal. */
    method WriteInternal(level: bool)
      requires Valid()
      modifies this
      ensures Valid()
      ensures calls == old(calls) + [Driven(level)]
      ensures driveMode == old(driveMode) && handlers == old(handlers) && interruptType == old(interruptType)
    {
      ArmedAfter(calls, Driven(level));
      calls := calls + [Driven(level)];
    }

    /** Read: switches the pin to Input, then reads it. */
    method Read() returns (level: bool)
      requires Valid()
      modifies this
      ensures Valid() && driveMode == Input
      ensures calls == old(calls) + [DriveModeSet(Input), Sampled(level)]
      ensures handlers == old(handlers) && interruptType == old(interruptType)
    {
      SetDriveMode(Input);
      level := ReadInternal();
    }

    /** Write: switches the pin to Output, then drives it. */
    method Write(level: bool)
      requires Valid()
      modifies this
      ensures Valid() && driveMode == Output
      ensures calls == old(calls) + [DriveModeSet(Output), Driven(level)]
      ensures handlers == old(handlers) && interruptType == old(interruptType)
    {
      SetDriveMode(Output);
      WriteInternal(level);
    }

    /** The Value getter: reads without touching the direction. */
    method GetValue() returns (level: bool)
      requires Valid()
      modifies this
      ensures Valid()
      ensures calls == old(calls) + [Sampled(level)]
      ensures driveMode == old(driveMode) && handlers == old(handlers) && interruptType == old(interruptType)
    {
      level := ReadInternal();
    }

    /** The Value setter: drives without touching the direction. */
    method SetValue(level: bool)
      requires Valid()
      modifies this
      ensures Valid()
      ensures calls == old(calls) + [Driven(level)]
      ensures driveMode == old(driveMode) && handlers == old(handlers) && interruptType == old(interruptType)
    {
      WriteInternal(level);
    }

    method SetHigh()
      requires Valid()
      modifies this
      ensures Valid()
      ensures calls == old(calls) + [Driven(true)]
      ensures driveMode == old(driveMode) && handlers == old(handlers) && interruptType == old(interruptType)
    {
      WriteInternal(true);
    }

    method SetLow()
      requires Valid()
      modifies this
      ensures Valid()
      ensures calls == old(calls) + [Driven(false)]
      ensures driveMode == old(driveMode) && handlers == old(handlers) && interruptType == old(interruptType)
    {
      WriteInternal(false);
    }

    method IsHigh() returns (high: bool)
      requires Valid()
      modifies this
      ensures Valid()
      ensures calls == old(calls) + [Sampled(high)]
      ensures driveMode == old(driveMode) && handlers == old(handlers) && interruptType == old(interruptType)
    {
      high := ReadInternal();
    }

    method IsLow() returns (low: bool)
      requires Valid()
      modifies this
      ensures Valid()
      ensures calls == old(calls) + [Sampled(!low)]
      ensures driveMode == old(driveMode) && handlers == old(handlers) && interruptType == old(interruptType)
    {
      var level := ReadInternal();
      low := !level;
    }

    /** The InterruptType setter. */
    method SetInterruptType(edges: set<Edge>)
      modifies this`interruptType
      ensures interruptType == edges
    {
      interruptType := edges;
    }

    /** Subscribing to ValueChanged: the first subscriber turns the implementation's interrupt on. */
    method AddValueChanged(h: Handler)
      requires Valid()
      modifies this
      ensures Valid()
      ensures handlers == old(handlers) + [h]
      ensures calls == old(calls) + (if old(handlers) == [] then [InterruptEnabled] else [])
      ensures driveMode == old(driveMode) && interruptType == old(interruptType)
    {
      if handlers == [] {
        ArmedAfter(calls, InterruptEnabled);
        calls := calls + [InterruptEnabled];
      }
      handlers := handlers + [h];
    }

    /** Unsubscribing: when no subscriber is left, the interrupt is turned off (again, if the list
      * was already empty). */
    method RemoveValueChanged(h: Handler)
      requires Valid()
      modifies this
      ensures Valid()
      ensures handlers == RemoveLast(old(handlers), h)
      ensures calls == old(calls) + (if handlers == [] then [InterruptDisabled] else [])
      ensures driveMode == old(driveMode) && interruptType == old(interruptType)
    {
      var before := handlers;
      handlers := RemoveLast(handlers, h);
      if handlers == [] {
        ArmedAfter(calls, InterruptDisabled);
        calls := calls + [InterruptDisabled];
      } else {
        assert before != [];
      }
    }

    /** OnValueChanged: the subscribers notified, in subscription order, of a change to `rising`. */
    method OnValueChanged(rising: bool) returns (notified: seq<Handler>)
      ensures Forwards(interruptType, rising) ==> notified == handlers
      ensures !Forwards(interruptType, rising) ==> notified == []
    {
      if Forwards(interruptType, rising) {
        notified := handlers;
      } else {
        notified := [];
      }
    }
  }

  /** A call an AnalogIO's base class makes on its implementation. */
  datatype AnalogCall =
    | AnalogModeSet(mode: DriveMode)
    | VoltageSampled(voltage: real)
    | VoltageDriven(voltage: real)

  /** The base class of an analog pin: ReadVoltage and WriteVoltage set the direction first,
    * the Voltage property does not. The DriveMode setter belongs to the implementation, which
    * accepts the modes in `accepts` and throws NotSupported for the others. */
  class AnalogIO {
    const accepts: set<DriveMode>
    var calls: seq<AnalogCall>

    constructor (accepts: set<DriveMode>)
      ensures this.accepts == accepts && calls == []
    {
      this.accepts := accepts;
      calls := [];
    }

    /** The implementation's DriveMode setter. */
    method SetDriveMode(mode: DriveMode) returns (r: Outcome)
      modifies this
      ensures mode in accepts ==> r == Pass && calls == old(calls) + [AnalogModeSet(mode)]
      ensures mode !in accepts ==> r == Fail(NotSupported) && calls == old(calls)
    {
      if mode !in accepts {
        return Fail(NotSupported);
      }
      calls := calls + [AnalogModeSet(mode)];
      r := Pass;
    }

    method ReadVoltage() returns (r: Result<real>)
      modifies this
      ensures Input in accepts ==> r.Ok? && calls == old(calls) + [AnalogModeSet(Input), VoltageSampled(r.value)]
      ensures Input !in accepts ==> r == Err(NotSupported) && calls == old(calls)
    {
      var o := SetDriveMode(Input);
      if o.Fail? {
        return Err(o.error);
      }
      var v := GetVoltage();
      r := Ok(v);
    }

    method WriteVoltage(v: real) returns (r: Outcome)
      modifies this
      ensures Output in accepts ==> r == Pass && calls == old(calls) + [AnalogModeSet(Output), VoltageDriven(v)]
      ensures Output !in accepts ==> r == Fail(NotSupported) && calls == old(calls)
    {
      r := SetDriveMode(Output);
      if r.Pass? {
        SetVoltage(v);
      }
    }

    /** The Voltage getter. */
    method GetVoltage() returns (v: real)
      modifies this
      ensures calls == old(calls) + [VoltageSampled(v)]
    {
      v :| true;
      calls := calls + [VoltageSampled(v)];
    }

    /** The Voltage setter. */
    method SetVoltage(v: real)
      modifies this
      ensures calls == old(calls) + [VoltageDriven(v)]
    {
      calls := calls + [VoltageDriven(v)];
    }
  }

  /** A call a PwmOutput's base class makes on its implementation. */
  datatype PwmCall =
    | EnabledSet(state: bool)                         // SetEnabled
    | ValuesSet(frequency: real, dutyCycle: real)     // SetValues

  /** The base class of a PWM output. It keeps the last frequency and duty cycle whether or not
    * the output is on, and forwards them to the implementation only while it is on. An
    * implementation that is not `supported` (the native stub) throws NotSupported from both of
    * its members. */
  class PwmOutput {
    const supported: bool
    var enabled: bool
    var frequency: real
    var dutyCycle: real
    var calls: seq<PwmCall>

    constructor (supported: bool)
      ensures this.supported == supported
      ensures !enabled && frequency == 0.0 && dutyCycle == 0.0 && calls == []
    {
      this.supported := supported;
      enabled := false;
      frequency := 0.0;
      dutyCycle := 0.0;
      calls := [];
    }

    /** Set: the pair is forwarded while the output is on, then stored; a refused forward throws
      * before anything is stored. */
    method Set(f: real, d: real) returns (r: Outcome)
      modifies this
      ensures enabled == old(enabled)
      ensures r.Fail? <==> enabled && !supported
      ensures r.Fail? ==> r.error == NotSupported && frequency == old(frequency) && dutyCycle == old(dutyCycle) && calls == old(calls)
      ensures r.Pass? ==> frequency == f && dutyCycle == d && calls == old(calls) + (if enabled then [ValuesSet(f, d)] else [])
    {
      if enabled {
        if !supported {
          return Fail(NotSupported);
        }
        calls := calls + [ValuesSet(f, d)];
      }
      frequency := f;
      dutyCycle := d;
      r := Pass;
    }

    /** The Enabled setter: the flag is stored before the implementation is told, so it stays
      * stored when the implementation throws. */
    method SetEnabled(state: bool) returns (r: Outcome)
      modifies this
      ensures enabled == state && frequency == old(frequency) && dutyCycle == old(dutyCycle)
      ensures supported ==> r == Pass && calls == old(calls) + [EnabledSet(state)]
      ensures !supported ==> r == Fail(NotSupported) && calls == old(calls)
    {
      enabled := state;
      if !supported {
        return Fail(NotSupported);
      }
      calls := calls + [EnabledSet(state)];
      r := Pass;
    }

    /** The Frequency setter keeps the duty cycle. */
    method SetFrequency(f: real) returns (r: Outcome)
      modifies this
      ensures enabled == old(enabled)
      ensures r.Fail? <==> enabled && !supported
      ensures r.Fail? ==> r.error == NotSupported && frequency == old(frequency) && dutyCycle == old(dutyCycle) && calls == old(calls)
      ensures r.Pass? ==> frequency == f && dutyCycle == old(dutyCycle) && calls == old(calls) + (if enabled then [ValuesSet(f, old(dutyCycle))] else [])
    {
      r := Set(f, dutyCycle);
    }

    /** The DutyCycle setter keeps the frequency. */
    method SetDutyCycle(d: real) returns (r: Outcome)
      modifies this
      ensures enabled == old(enabled)
      ensures r.Fail? <==> enabled && !supported
      ensures r.Fail? ==> r.error == NotSupported && frequency == old(frequency) && dutyCycle == old(dutyCycle) && calls == old(calls)
      ensures r.Pass? ==> dutyCycle == d && frequency == old(frequency) && calls == old(calls) + (if enabled then [ValuesSet(old(frequency), d)] else [])
    {
      r := Set(frequency, d);
    }
  }

  /** The base class of an I2C device: the register helpers built on the implementation's Write,
    * Read and WriteThenRead, which are recorded in `transfers`. */
  class I2cDevice {
    var transfers: seq<I2cTransfer>

    constructor ()
      ensures transfers == []
    {
      transfers := [];
    }

    /** The implementation's Write. */
    method Write(buffer: seq<bv8>)
      modifies this
      ensures transfers == old(transfers) + [I2cWrite(buffer)]
    {
      transfers := transfers + [I2cWrite(buffer)];
    }

    /** The implementation's WriteThenRead: `readBuffer` receives what the device answered. */
    method WriteThenRead(writeBuffer: seq<bv8>, readBuffer: array<bv8>)
      modifies this, readBuffer
      ensures transfers == old(transfers) + [I2cWriteRead(writeBuffer, readBuffer[..])]
    {
      for i := 0 to readBuffer.Length
        invariant transfers == old(transfers)
      {
        var answer: bv8 :| true;
        readBuffer[i] := answer;
      }
      transfers := transfers + [I2cWriteRead(writeBuffer, readBuffer[..])];
    }

    method WriteRegister(register: bv8, value: bv8)
      modifies this
      ensures transfers == old(transfers) + [I2cWrite([register, value])]
    {
      Write([register, value]);
    }

    /** Writes `register` followed by `values` in one transfer; a null array is refused. */
    method WriteRegisters(register: bv8, values: array?<bv8>) returns (r: Outcome)
      modifies this
      ensures values == null ==> r == Fail(ArgumentNull) && transfers == old(transfers)
      ensures values != null ==> r == Pass && transfers == old(transfers) + [I2cWrite([register] + values[..])]
    {
      if values == null {
        return Fail(ArgumentNull);
      }
      Write([register] + values[..]);
      r := Pass;
    }

    /** Reads one register: a one-byte write of its number, then a one-byte read. */
    method ReadRegister(register: bv8) returns (value: bv8)
      modifies this
      ensures transfers == old(transfers) + [I2cWriteRead([register], [value])]
    {
      var read1 := new bv8[1];
      WriteThenRead([register], read1);
      value := read1[0];
      assert read1[..] == [value];
    }

    /** Reads consecutive registers into `values`; a null array is refused. */
    method ReadRegistersInto(register: bv8, values: array?<bv8>) returns (r: Outcome)
      modifies this, values
      ensures values == null ==> r == Fail(ArgumentNull) && transfers == old(transfers)
      ensures values != null ==> r == Pass && transfers == old(transfers) + [I2cWriteRead([register], values[..])]
    {
      if values == null {
        return Fail(ArgumentNull);
      }
      WriteThenRead([register], values);
      r := Pass;
    }

    /** Reads `count` consecutive registers; a count below one is refused. */
    method ReadRegisters(register: bv8, count: int) returns (r: Result<seq<bv8>>)
      modifies this
      ensures count < 1 ==> r == Err(ArgumentOutOfRange) && transfers == old(transfers)
      ensures count >= 1 ==> r.Ok? && |r.value| == count && transfers == old(transfers) + [I2cWriteRead([register], r.value)]
    {
      if count < 1 {
        return Err(ArgumentOutOfRange);
      }
      var result := new bv8[count];
      WriteThenRead([register], result);
      r := Ok(result[..]);
    }
  }

  /** The base class of an SPI device as the modules see it: each call of its Write and
    * WriteThenRead is recorded in `transfers`, with what the device answered. */
  class SpiDevice {
    var transfers: seq<SpiTransfer>

    constructor ()
      ensures transfers == []
    {
      transfers := [];
    }

    method Write(buffer: seq<bv8>)
      modifies this
      ensures transfers == old(transfers) + [SpiWrite(buffer)]
    {
      transfers := transfers + [SpiWrite(buffer)];
    }

    /** WriteThenRead: `readBuffer` receives what the device answered after the write. */
    method WriteThenRead(writeBuffer: seq<bv8>, readBuffer: array<bv8>)
      modifies this, readBuffer
      ensures transfers == old(transfers) + [SpiWriteThenRead(writeBuffer, readBuffer[..])]
    {
      for i := 0 to readBuffer.Length
        invariant transfers == old(transfers)
      {
        var answer: bv8 :| true;
        readBuffer[i] := answer;
      }
      transfers := transfers + [SpiWriteThenRead(writeBuffer, readBuffer[..])];
    }
  }

  /** The base class of a serial port: the single-byte helpers over the implementation's Read and
    * Write. */
  class SerialDevice {
    var transfers: seq<SerialTransfer>

    constructor ()
      ensures transfers == []
    {
      transfers := [];
    }

    method ReadByte() returns (b: bv8)
      modifies this
      ensures transfers == old(transfers) + [SerialRead([b])]
    {
      b :| true;
      transfers := transfers + [SerialRead([b])];
    }

    method WriteByte(b: bv8)
      modifies this
      ensures transfers == old(transfers) + [SerialWrite([b])]
    {
      transfers := transfers + [SerialWrite([b])];
    }
  }
}

=== FILE: software_interfaces.dfy ===
/** The bit-banged I2C master and SPI master that a socket builds from plain digital pins.
  *
  * Each engine is modelled by the ordered trace of calls it makes on its pins. A `Drive` is a
  * DigitalIO.Write (the pin is made an output and driven); a `Sample` is a DigitalIO.Read (the pin
  * is made an input, which on an open-drain bus releases the line, and read). Levels read from
  * the bus, and how long a slave holds SCL low, are chosen by the environment. */
module SoftwareInterfaces {
  import opened Bytes
  import opened Errors

  /** One call of an engine on one of its pins. */
  datatype LineOp<L> = Drive(line: L, level: bool) | Sample(line: L, level: bool)

  // ---------------------------------------------------------------------------------------------
  // I2C
  // ---------------------------------------------------------------------------------------------

  datatype I2cLine = Sda | Scl

  type I2cOp = LineOp<I2cLine>

  /** The address byte that starts a write: the 7-bit address shifted left and truncated to a
    * byte (only the address's low seven bits survive the cast). */
  function WriteAddress(slaveAddress: int): bv8 {
    ((slaveAddress % 128) as bv8) << 1
  }

  /** The address byte that starts a read: the write address with the read bit set. */
  function ReadAddress(slaveAddress: int): bv8 {
    WriteAddress(slaveAddress) | 1
  }

  /** The write address is the shifted address truncated to a byte, its read bit is clear, and the
    * address's low seven bits can be recovered from it. */
  lemma AddressBytes(slaveAddress: int)
    ensures WriteAddress(slaveAddress) as int == (2 * slaveAddress) % 256
    ensures WriteAddress(slaveAddress) & 1 == 0
    ensures (WriteAddress(slaveAddress) >> 1) as int == slaveAddress % 128
  {
    var h := slaveAddress % 128;
    var x := h as bv8;
    assert x as int == h;
    ShiftSevenBits(x);
    DoubleMod(slaveAddress);
  }

  lemma ShiftSevenBits(x: bv8)
    requires x < 128
    ensures (x << 1) >> 1 == x
    ensures (x << 1) & 1 == 0
    ensures (x << 1) as int == 2 * (x as int)
  {
  }

  lemma DoubleMod(a: int)
    ensures (2 * a) % 256 == 2 * (a % 128)
  {
    var q := a / 128;
    var h := a % 128;
    assert a == 128 * q + h;
    assert 2 * a == 256 * q + 2 * h;
  }

  /** `polls` reads of SCL that find it held low. */
  function Lows(polls: nat): seq<I2cOp> {
    if polls == 0 then [] else Lows(polls - 1) + [Sample(Scl, false)]
  }

  /** WaitForScl: SCL is read until it is found high (a slave may stretch the clock). */
  function Wait(polls: nat): seq<I2cOp> {
    Lows(polls) + [Sample(Scl, true)]
  }

  /** One bus-level step of the engine, with what it read from the bus. */
  datatype Symbol =
    | StartBit(repeated: bool, released: bool, polls: nat, idle: bool)   // SendStart
    | StopBit(polls: nat, idle: bool)                                    // SendStop
    | BitOut(bit: bool, released: bool, polls: nat, readBack: bool)       // WriteBit
    | BitIn(released: bool, polls: nat, bit: bool)                       // ReadBit
    | Release(scl: bool, sda: bool)                                      // ReleaseScl, ReleaseSda

  /** The pin calls of one step. A start that finds SDA low gives up before pulling it low; a
    * one-bit that finds SDA pulled low after the clock rose gives up before lowering SCL. */
  function Segment(s: Symbol): seq<I2cOp> {
    match s
    case StartBit(repeated, released, polls, idle) =>
      (if repeated then [Sample(Sda, released)] + Wait(polls) else [])
      + [Sample(Sda, idle)]
      + (if idle then [Drive(Sda, false), Drive(Scl, false)] else [])
    case StopBit(polls, idle) =>
      [Drive(Sda, false)] + Wait(polls) + [Sample(Sda, idle)]
    case BitOut(bit, released, polls, readBack) =>
      (if bit then [Sample(Sda, released)] else [Drive(Sda, false)])
      + Wait(polls)
      + (if bit then [Sample(Sda, readBack)] else [])
      + (if !bit || readBack then [Drive(Scl, false)] else [])
    case BitIn(released, polls, bit) =>
      [Sample(Sda, released)] + Wait(polls) + [Sample(Sda, bit), Drive(Scl, false)]
    case Release(scl, sda) =>
      [Sample(Scl, scl), Sample(Sda, sda)]
  }

  lemma Assoc<T>(a: seq<T>, b: seq<T>, c: seq<T>)
    ensures a + b + c == a + (b + c)
  {
  }

  /** The pin calls of a run of steps. */
  function Flatten(log: seq<Symbol>): seq<I2cOp> {
    if |log| == 0 then [] else Flatten(log[..|log| - 1]) + Segment(log[|log| - 1])
  }

  lemma FlattenSnoc(log: seq<Symbol>, s: Symbol)
    ensures Flatten(log + [s]) == Flatten(log) + Segment(s)
  {
    assert (log + [s])[..|log|] == log;
  }

  lemma {:induction false} FlattenAppend(a: seq<Symbol>, b: seq<Symbol>)
    ensures Flatten(a + b) == Flatten(a) + Flatten(b)
    decreases |b|
  {
    if |b| == 0 {
      assert a + b == a;
    } else {
      var b' := b[..|b| - 1];
      assert (a + b)[..|a + b| - 1] == a + b';
      FlattenAppend(a, b');
      Assoc(Flatten(a), Flatten(b'), Segment(b[|b| - 1]));
    }
  }

  /** A trace extended by four runs of steps in turn is extended by the run of all four. */
  lemma Join(t0: seq<I2cOp>, a: seq<Symbol>, b: seq<Symbol>, c: seq<Symbol>, d: seq<Symbol>, t: seq<I2cOp>)
    requires t == t0 + Flatten(a) + Flatten(b) + Flatten(c) + Flatten(d)
    ensures t == t0 + Flatten(a + (b + (c + d)))
  {
    FlattenAppend(c, d);
    FlattenAppend(b, c + d);
    FlattenAppend(a, b + (c + d));
    var A, B, C, D := Flatten(a), Flatten(b), Flatten(c), Flatten(d);
    calc {
      t0 + A + B + C + D;
      == { Assoc(t0 + A + B, C, D); }
      t0 + A + B + (C + D);
      == { Assoc(t0 + A, B, C + D); }
      t0 + A + (B + (C + D));
      == { Assoc(t0, A, B + (C + D)); }
      t0 + (A + (B + (C + D)));
    }
  }

  lemma Single(s: Symbol)
    ensures Flatten([s]) == Segment(s)
  {
    FlattenSnoc([], s);
  }

  /** Appending one step's pin calls to a trace that already holds a run of steps. */
  lemma Extend(t0: seq<I2cOp>, steps: seq<Symbol>, s: Symbol)
    ensures t0 + Flatten(steps) + Segment(s) == t0 + Flatten(steps + [s])
  {
    FlattenSnoc(steps, s);
    Assoc(t0, Flatten(steps), Segment(s));
  }

  /** Whether a step found the bus as it needed: a free bus for a START, SDA risen for a STOP, SDA
    * following a released one-bit. */
  function Succeeded(s: Symbol): bool {
    match s
    case StartBit(_, _, _, idle) => idle
    case StopBit(_, idle) => idle
    case BitOut(bit, _, _, readBack) => !bit || readBack
    case _ => true
  }

  /** The bits the master drove in a run of steps: those of its bit-out steps, in order. */
  function BitsOut(steps: seq<Symbol>): seq<bool> {
    if |steps| == 0 then []
    else BitsOut(steps[..|steps| - 1]) + (if steps[|steps| - 1].BitOut? then [steps[|steps| - 1].bit] else [])
  }

  /** The bits the master sampled in a run of steps: those of its bit-in steps, in order. */
  function BitsIn(steps: seq<Symbol>): seq<bool> {
    if |steps| == 0 then []
    else BitsIn(steps[..|steps| - 1]) + (if steps[|steps| - 1].BitIn? then [steps[|steps| - 1].bit] else [])
  }

  lemma BitsOutSnoc(steps: seq<Symbol>, s: Symbol)
    ensures BitsOut(steps + [s]) == BitsOut(steps) + (if s.BitOut? then [s.bit] else [])
  {
    assert (steps + [s])[..|steps|] == steps;
  }

  /** One round of the transmit loop: the bits driven so far grow by the next bit of `data`. */
  lemma BitsOutStep(steps: seq<Symbol>, s: Symbol, data: bv8, bit: nat)
    requires bit < 8 && BitsOut(steps) == BitsOf(data)[..bit]
    requires s.BitOut? && s.bit == BitsOf(data)[bit]
    ensures BitsOut(steps + [s]) == BitsOf(data)[..bit + 1]
  {
    BitsOutSnoc(steps, s);
    assert BitsOf(data)[..bit + 1] == BitsOf(data)[..bit] + [BitsOf(data)[bit]];
  }

  lemma BitsInSnoc(steps: seq<Symbol>, s: Symbol)
    ensures BitsIn(steps + [s]) == BitsIn(steps) + (if s.BitIn? then [s.bit] else [])
  {
    assert (steps + [s])[..|steps|] == steps;
  }

  /** The steps of one byte: an optional START, eight data bits, the acknowledgement bit, an
    * optional STOP. */
  datatype Frame = Frame(opening: seq<Symbol>, bits: seq<Symbol>, ack: Symbol, closing: seq<Symbol>) {
    function Steps(): seq<Symbol> {
      opening + (bits + ([ack] + closing))
    }
  }

  /** A frame as the bus carries it: at most one START before the data bits and at most one
    * STOP after the acknowledgement, and eight data bits, all driven by the master for a sent
    * byte, whose acknowledgement it samples, or all sampled for a received byte, whose
    * acknowledgement it drives (AllDriven and AllSampled read the counts as "every step"). */
  predicate WellFormed(f: Frame) {
    && |f.opening| <= 1 && (|f.opening| == 1 ==> f.opening[0].StartBit?)
    && |f.closing| <= 1 && (|f.closing| == 1 ==> f.closing[0].StopBit?)
    && |f.bits| == 8
    && ((f.ack.BitIn? && |BitsOut(f.bits)| == 8) || (f.ack.BitOut? && |BitsIn(f.bits)| == 8))
  }

  /** A run of steps drives as many bits as it has steps exactly when every step drives one. */
  lemma {:induction false} AllDriven(steps: seq<Symbol>)
    ensures |BitsOut(steps)| <= |steps|
    ensures |BitsOut(steps)| == |steps| <==> forall k :: 0 <= k < |steps| ==> steps[k].BitOut?
  {
    if |steps| > 0 {
      var init := steps[..|steps| - 1];
      AllDriven(init);
      assert forall k :: 0 <= k < |init| ==> init[k] == steps[k];
    }
  }

  /** A run of steps samples as many bits as it has steps exactly when every step samples one. */
  lemma {:induction false} AllSampled(steps: seq<Symbol>)
    ensures |BitsIn(steps)| <= |steps|
    ensures |BitsIn(steps)| == |steps| <==> forall k :: 0 <= k < |steps| ==> steps[k].BitIn?
  {
    if |steps| > 0 {
      var init := steps[..|steps| - 1];
      AllSampled(init);
      assert forall k :: 0 <= k < |init| ==> init[k] == steps[k];
    }
  }

  /** In a well-formed frame every data step goes the same way: all driven by the master in a
    * sent byte, all sampled in a received one, with the acknowledgement the other way. */
  lemma WellFormedBits(f: Frame)
    requires WellFormed(f)
    ensures f.ack.BitIn? ==> forall k :: 0 <= k < 8 ==> f.bits[k].BitOut?
    ensures f.ack.BitOut? ==> forall k :: 0 <= k < 8 ==> f.bits[k].BitIn?
  {
    AllDriven(f.bits);
    AllSampled(f.bits);
  }

  /** Every frame of a run is well formed. */
  predicate AllWellFormed(frames: seq<Frame>) {
    forall f :: f in frames ==> WellFormed(f)
  }

  /** One more well-formed frame keeps a run of frames well formed. */
  lemma WellFormedSnoc(frames: seq<Frame>, g: Frame)
    requires AllWellFormed(frames)
    requires WellFormed(g)
    ensures AllWellFormed(frames + [g])
  {
  }

  /** A phase's first frame, well formed, makes a well-formed run. */
  lemma WellFormedFirst(f: Frame)
    requires WellFormed(f)
    ensures AllWellFormed([f])
  {
  }

  /** The bits of a step run as a byte (a run of more than eight bits has no byte). */
  function ByteOf(bits: seq<bool>): bv8 {
    if |bits| <= 8 then FromBits(bits) else 0
  }

  /** The byte a frame carries, read back from its steps: a frame whose acknowledgement bit the
    * master sampled is a sent byte, one whose acknowledgement it drove is a received byte. */
  function EventOf(f: Frame): ByteEvent {
    var stop := if |f.closing| > 0 then Stopped(Succeeded(f.closing[0])) else NoStop;
    if f.ack.BitIn? then
      Sent(ByteOf(BitsOut(f.bits)), !f.ack.bit,
           if |f.opening| > 0 then Started(f.opening[0].StartBit? && f.opening[0].repeated, Succeeded(f.opening[0])) else NoStart,
           stop)
    else
      Received(ByteOf(BitsIn(f.bits)), f.ack.BitOut? && !f.ack.bit, stop)
  }

  lemma SentFrame(f: Frame, data: bv8, acked: bool)
    requires BitsOut(f.bits) == BitsOf(data) && f.ack.BitIn? && acked == !f.ack.bit
    ensures EventOf(f) == Sent(data, acked,
                               if |f.opening| > 0 then Started(f.opening[0].StartBit? && f.opening[0].repeated, Succeeded(f.opening[0])) else NoStart,
                               if |f.closing| > 0 then Stopped(Succeeded(f.closing[0])) else NoStop)
  {
    FromBitsOf(data);
  }

  lemma ReceivedFrame(f: Frame, d: bv8, sendAck: bool, sendStop: bool)
    requires BitsIn(f.bits) == BitsOf(d) && f.ack.BitOut? && f.ack.bit == !sendAck
    requires (|f.closing| > 0) == sendStop
    ensures EventOf(f) == Received(d, sendAck, if sendStop then Stopped(Succeeded(f.closing[0])) else NoStop)
  {
    FromBitsOf(d);
  }

  /** The bytes of a run of frames. */
  function Events(frames: seq<Frame>): seq<ByteEvent> {
    if |frames| == 0 then [] else Events(frames[..|frames| - 1]) + [EventOf(frames[|frames| - 1])]
  }

  lemma EventsSnoc(frames: seq<Frame>, f: Frame)
    ensures Events(frames + [f]) == Events(frames) + [EventOf(f)]
  {
    assert (frames + [f])[..|frames|] == frames;
  }

  /** The pin calls of a run of frames. */
  function Traffic(frames: seq<Frame>): seq<I2cOp> {
    if |frames| == 0 then [] else Traffic(frames[..|frames| - 1]) + Flatten(frames[|frames| - 1].Steps())
  }

  /** One more frame on the wire: a trace that held `frames` after `t0`, extended by the pin
    * calls of `f`, holds `frames + [f]`. */
  lemma TrafficStep(t0: seq<I2cOp>, frames: seq<Frame>, f: Frame, before: seq<I2cOp>, after: seq<I2cOp>)
    requires before == t0 + Traffic(frames)
    requires after == before + Flatten(f.Steps())
    ensures after == t0 + Traffic(frames + [f])
  {
    TrafficSnoc(t0, frames, f);
  }

  /** The first frame of a phase. */
  lemma FirstFrame(t0: seq<I2cOp>, f: Frame, after: seq<I2cOp>, flag: bool)
    requires after == t0 + Flatten(f.Steps())
    ensures after == t0 + Traffic([f])
    ensures Events([f]) == [EventOf(f)]
    ensures FlagAfterAll(flag, [EventOf(f)]) == FlagAfter(flag, EventOf(f))
  {
    assert Traffic([f]) == Flatten(f.Steps()) by {
      assert [f][..0] == [];
      assert [] + Flatten(f.Steps()) == Flatten(f.Steps());
    }
    assert Events([f]) == [EventOf(f)] by {
      assert [f][..0] == [];
      assert [] + [EventOf(f)] == [EventOf(f)];
    }
    assert [EventOf(f)][..0] == [];
  }

  lemma EventsStep(frames: seq<Frame>, f: Frame, evs: seq<ByteEvent>)
    requires evs == Events(frames)
    ensures evs + [EventOf(f)] == Events(frames + [f])
  {
    EventsSnoc(frames, f);
  }

  lemma TrafficSnoc(t0: seq<I2cOp>, frames: seq<Frame>, f: Frame)
    ensures t0 + Traffic(frames) + Flatten(f.Steps()) == t0 + Traffic(frames + [f])
  {
    assert (frames + [f])[..|frames|] == frames;
    Assoc(t0, Traffic(frames), Flatten(f.Steps()));
  }

  /** Whether a byte-level transfer began with a (repeated) START, and whether the bus was free. */
  datatype StartMark = NoStart | Started(repeated: bool, ok: bool)

  /** Whether a byte-level transfer ended with a STOP, and whether SDA rose. */
  datatype StopMark = NoStop | Stopped(ok: bool)

  /** One byte on the bus. `acked` is the slave's acknowledgement of a sent byte, or the master's
    * acknowledgement of a received one. */
  datatype ByteEvent =
    | Sent(data: bv8, acked: bool, start: StartMark, stop: StopMark)
    | Received(data: bv8, acked: bool, stop: StopMark)

  /** The `start` flag after one byte: a successful START sets it, a successful STOP clears it. */
  function FlagAfter(flag: bool, e: ByteEvent): bool {
    if e.stop.Stopped? && e.stop.ok then false
    else if e.Sent? && e.start.Started? && e.start.ok then true
    else flag
  }

  lemma FlagAfterReceived(flag: bool, e: ByteEvent)
    requires e.Received?
    ensures FlagAfter(flag, e) == (flag && !(e.stop.Stopped? && e.stop.ok))
  {
  }

  lemma FlagAfterSent(flag: bool, e: ByteEvent)
    requires e.Sent?
    ensures FlagAfter(flag, e) == ((flag || (e.start.Started? && e.start.ok)) && !(e.stop.Stopped? && e.stop.ok))
  {
  }

  /** One more byte: the flag after `ev + [e]` is the flag after `e`, from the flag after `ev`. */
  lemma FlagStep(flag: bool, ev: seq<ByteEvent>, e: ByteEvent, before: bool, after: bool)
    requires before == FlagAfterAll(flag, ev) && after == FlagAfter(before, e)
    ensures after == FlagAfterAll(flag, ev + [e])
  {
    FlagAfterAllSnoc(flag, ev, e);
  }

  function FlagAfterAll(flag: bool, events: seq<ByteEvent>): bool {
    if |events| == 0 then flag else FlagAfter(FlagAfterAll(flag, events[..|events| - 1]), events[|events| - 1])
  }

  lemma FlagAfterAllSnoc(flag: bool, events: seq<ByteEvent>, e: ByteEvent)
    ensures FlagAfterAll(flag, events + [e]) == FlagAfter(FlagAfterAll(flag, events), e)
  {
    assert (events + [e])[..|events|] == events;
  }

  /** Byte `j` of a write phase that sends the address byte and then `data`: only the first byte
    * may carry a START (a repeated one when the bus was already started), and a STOP follows the
    * address byte when there is no data, and otherwise the last data byte when `sendStop`. */
  ghost predicate WriteByte(e: ByteEvent, j: nat, address: bv8, data: seq<bv8>, sendStart: bool, sendStop: bool, flag: bool) {
    && j <= |data|
    && e.Sent? && e.data == (if j == 0 then address else data[j - 1])
    && (if j == 0 && sendStart then e.start.Started? && e.start.repeated == flag else e.start == NoStart)
    && (e.stop.Stopped? <==> (j == 0 && |data| == 0) || (0 < j && j == |data| && sendStop))
  }

  /** Every byte of `ev` is byte `j` of the write phase, for its own position `j`. */
  ghost predicate WrittenBytes(ev: seq<ByteEvent>, address: bv8, data: seq<bv8>, sendStart: bool, sendStop: bool, flag: bool) {
    |ev| == 0 ||
    (WrittenBytes(ev[..|ev| - 1], address, data, sendStart, sendStop, flag) &&
     WriteByte(ev[|ev| - 1], |ev| - 1, address, data, sendStart, sendStop, flag))
  }

  /** Every byte of `ev` was acknowledged. */
  predicate AllAcked(ev: seq<ByteEvent>) {
    |ev| == 0 || (AllAcked(ev[..|ev| - 1]) && ev[|ev| - 1].acked)
  }

  /** The bytes of one write phase (`Write(buffer, sendStart, sendStop)`): the address byte and
    * then the data bytes, stopping after the first byte the slave does not acknowledge. */
  ghost predicate WriteShape(ev: seq<ByteEvent>, address: bv8, data: seq<bv8>, sendStart: bool, sendStop: bool, flag: bool) {
    && 1 <= |ev| <= |data| + 1
    && WrittenBytes(ev, address, data, sendStart, sendStop, flag)
    && AllAcked(ev[..|ev| - 1])
    && (|ev| < |data| + 1 ==> !ev[|ev| - 1].acked)
  }

  /** Byte `j` (from 1) of a read phase into a buffer that ends up holding `data`: the byte
    * received into slot `j - 1`, acknowledged by the master unless it is the last, and followed
    * by a STOP when it is the last and `sendStop`. */
  ghost predicate ReadByte(e: ByteEvent, j: nat, data: seq<bv8>, sendStop: bool) {
    && 0 < j <= |data|
    && e.Received? && e.data == data[j - 1]
    && e.acked == (j < |data|)
    && (e.stop.Stopped? <==> j == |data| && sendStop)
  }

  /** Every byte of `ev` after the first is byte `j` of the read phase, for its own position. */
  ghost predicate ReceivedBytes(ev: seq<ByteEvent>, data: seq<bv8>, sendStop: bool) {
    |ev| <= 1 ||
    (ReceivedBytes(ev[..|ev| - 1], data, sendStop) && ReadByte(ev[|ev| - 1], |ev| - 1, data, sendStop))
  }

  /** The bytes of one read phase (`Read(buffer, sendStart, sendStop)`): the address byte, then,
    * if the slave acknowledged it, one received byte per buffer slot; a buffer the slave did not
    * answer for keeps what it held (`before`). */
  ghost predicate ReadShape(ev: seq<ByteEvent>, address: bv8, data: seq<bv8>, before: seq<bv8>, sendStart: bool, sendStop: bool, flag: bool) {
    && |data| == |before|
    && 1 <= |ev|
    && WriteByte(ev[0], 0, address, data, sendStart, false, flag)
    && (!ev[0].acked ==> |ev| == 1 && data == before)
    && (ev[0].acked ==> |ev| == |data| + 1)
    && ReceivedBytes(ev, data, sendStop)
  }

  lemma WrittenBytesSnoc(ev: seq<ByteEvent>, e: ByteEvent, address: bv8, data: seq<bv8>, sendStart: bool, sendStop: bool, flag: bool)
    ensures WrittenBytes(ev + [e], address, data, sendStart, sendStop, flag)
        == (WrittenBytes(ev, address, data, sendStart, sendStop, flag) && WriteByte(e, |ev|, address, data, sendStart, sendStop, flag))
  {
    assert (ev + [e])[..|ev|] == ev;
  }

  lemma AllAckedSnoc(ev: seq<ByteEvent>, e: ByteEvent)
    ensures AllAcked(ev + [e]) == (AllAcked(ev) && e.acked)
  {
    assert (ev + [e])[..|ev|] == ev;
  }

  lemma ReceivedBytesSnoc(ev: seq<ByteEvent>, e: ByteEvent, data: seq<bv8>, sendStop: bool)
    requires |ev| >= 1
    ensures ReceivedBytes(ev + [e], data, sendStop) == (ReceivedBytes(ev, data, sendStop) && ReadByte(e, |ev|, data, sendStop))
  {
    assert (ev + [e])[..|ev|] == ev;
  }

  /** Storing received byte `i` of a read phase into slot `i` of the buffer. */
  lemma StoreReceived(ev: seq<ByteEvent>, e: ByteEvent, held: seq<bv8>, now: seq<bv8>, i: nat, sendStop: bool)
    requires |ev| == i + 1 && i < |held| && ReceivedBytes(ev, held, sendStop)
    requires e.Received? && e.acked == (i + 1 < |held|) && (e.stop.Stopped? <==> i + 1 == |held| && sendStop)
    requires now == held[i := e.data]
    ensures ReceivedBytes(ev + [e], now, sendStop)
  {
    assert held[..i] == now[..i];
    ReceivedBytesAgree(ev, held, now, sendStop);
    ReceivedBytesSnoc(ev, e, now, sendStop);
  }

  /** A write phase that ends at a byte the slave did not acknowledge. */
  lemma WriteEnds(ev: seq<ByteEvent>, e: ByteEvent, address: bv8, data: seq<bv8>, sendStart: bool, sendStop: bool, flag: bool)
    requires WrittenBytes(ev, address, data, sendStart, sendStop, flag) && AllAcked(ev)
    requires WriteByte(e, |ev|, address, data, sendStart, sendStop, flag) && !e.acked
    ensures WriteShape(ev + [e], address, data, sendStart, sendStop, flag)
  {
    WrittenBytesSnoc(ev, e, address, data, sendStart, sendStop, flag);
    assert (ev + [e])[..|ev|] == ev;
  }

  /** The address byte of a write phase. */
  lemma WriteFirst(e: ByteEvent, address: bv8, data: seq<bv8>, sendStart: bool, sendStop: bool, flag: bool)
    requires WriteByte(e, 0, address, data, sendStart, sendStop, flag)
    ensures WrittenBytes([e], address, data, sendStart, sendStop, flag)
    ensures AllAcked([e]) == e.acked
    ensures !e.acked ==> WriteShape([e], address, data, sendStart, sendStop, flag)
  {
    assert [e][..0] == [];
  }

  /** The read phase, from its address byte `e` and what followed it. */
  lemma ReadEnds(ev: seq<ByteEvent>, e: ByteEvent, address: bv8, data: seq<bv8>, before: seq<bv8>,
                 sendStart: bool, sendStop: bool, flag: bool)
    requires 1 <= |ev| && ev[0] == e && WriteByte(e, 0, address, data, sendStart, false, flag)
    requires |data| == |before|
    requires !e.acked ==> |ev| == 1 && data == before
    requires e.acked ==> |ev| == |data| + 1 && ReceivedBytes(ev, data, sendStop)
    ensures ReadShape(ev, address, data, before, sendStart, sendStop, flag)
  {
  }

  /** A write phase every byte of which was acknowledged. */
  lemma WriteCompletes(ev: seq<ByteEvent>, address: bv8, data: seq<bv8>, sendStart: bool, sendStop: bool, flag: bool)
    requires WrittenBytes(ev, address, data, sendStart, sendStop, flag) && AllAcked(ev)
    requires |ev| == |data| + 1
    ensures WriteShape(ev, address, data, sendStart, sendStop, flag)
  {
    assert AllAcked(ev[..|ev| - 1]) by {
      assert ev[..|ev| - 1] == ev[..|ev| - 1];
    }
  }

  lemma {:induction false} WrittenBytesAt(ev: seq<ByteEvent>, address: bv8, data: seq<bv8>, sendStart: bool, sendStop: bool, flag: bool, j: nat)
    requires WrittenBytes(ev, address, data, sendStart, sendStop, flag) && j < |ev|
    ensures WriteByte(ev[j], j, address, data, sendStart, sendStop, flag)
  {
    if j < |ev| - 1 {
      WrittenBytesAt(ev[..|ev| - 1], address, data, sendStart, sendStop, flag, j);
    }
  }

  lemma {:induction false} AllAckedAt(ev: seq<ByteEvent>, j: nat)
    requires AllAcked(ev) && j < |ev|
    ensures ev[j].acked
  {
    if j < |ev| - 1 {
      AllAckedAt(ev[..|ev| - 1], j);
    }
  }

  lemma {:induction false} ReceivedBytesAt(ev: seq<ByteEvent>, data: seq<bv8>, sendStop: bool, j: nat)
    requires ReceivedBytes(ev, data, sendStop) && 0 < j < |ev|
    ensures ReadByte(ev[j], j, data, sendStop)
  {
    if j < |ev| - 1 {
      ReceivedBytesAt(ev[..|ev| - 1], data, sendStop, j);
    }
  }

  /** What the read bytes say depends only on the slots received so far and the buffer length. */
  lemma {:induction false} ReceivedBytesAgree(ev: seq<ByteEvent>, a: seq<bv8>, b: seq<bv8>, sendStop: bool)
    requires ReceivedBytes(ev, a, sendStop)
    requires |a| == |b| && 1 <= |ev| <= |a| + 1 && a[..|ev| - 1] == b[..|ev| - 1]
    ensures ReceivedBytes(ev, b, sendStop)
  {
    if |ev| > 1 {
      var k := |ev| - 1;
      assert a[..k - 1] == a[..k][..k - 1] && b[..k - 1] == b[..k][..k - 1];
      ReceivedBytesAgree(ev[..k], a, b, sendStop);
      assert a[k - 1] == a[..k][k - 1] && b[k - 1] == b[..k][k - 1];
    }
  }

  /** A write that every byte of is acknowledged sends the address byte, every data byte, and
    * exactly one STOP, at the end. */
  lemma CompleteWrite(ev: seq<ByteEvent>, address: bv8, data: seq<bv8>, flag: bool)
    requires WriteShape(ev, address, data, true, true, flag)
    requires ev[|ev| - 1].acked
    ensures |ev| == |data| + 1
    ensures forall i :: 0 <= i < |ev| ==> ev[i].data == (if i == 0 then address else data[i - 1])
    ensures ev[|ev| - 1].stop.Stopped?
    ensures forall i :: 0 <= i < |ev| - 1 ==> ev[i].stop == NoStop
  {
    forall i | 0 <= i < |ev|
      ensures ev[i].data == (if i == 0 then address else data[i - 1]) && (i < |ev| - 1 ==> ev[i].stop == NoStop)
    {
      WrittenBytesAt(ev, address, data, true, true, flag, i);
    }
    WrittenBytesAt(ev, address, data, true, true, flag, |ev| - 1);
  }

  /** A run of bytes with no STOP, and a START on the first byte at most, leaves the `start` flag
    * set if that START succeeded and unchanged otherwise. */
  lemma {:induction false} FlagWithoutStop(flag: bool, ev: seq<ByteEvent>)
    requires forall i :: 0 <= i < |ev| ==> ev[i].stop == NoStop
    requires forall i :: 1 <= i < |ev| ==> !(ev[i].Sent? && ev[i].start.Started?)
    ensures FlagAfterAll(flag, ev) == (flag || (|ev| > 0 && ev[0].Sent? && ev[0].start.Started? && ev[0].start.ok))
  {
    if |ev| > 0 {
      FlagWithoutStop(flag, ev[..|ev| - 1]);
    }
  }

  /** A write cut short by a NACK sends no STOP, so the bus is left started if it was, or if the
    * phase's START succeeded. */
  lemma AbortedWriteLeavesBusStarted(ev: seq<ByteEvent>, address: bv8, data: seq<bv8>, sendStart: bool, sendStop: bool, flag: bool)
    requires WriteShape(ev, address, data, sendStart, sendStop, flag)
    requires |ev| < |data| + 1
    ensures forall i :: 0 <= i < |ev| ==> ev[i].stop == NoStop
    ensures ev[0].Sent? && (sendStart <==> ev[0].start.Started?)
    ensures FlagAfterAll(flag, ev) == (flag || (sendStart && ev[0].start.ok))
  {
    forall i | 0 <= i < |ev|
      ensures ev[i].Sent? && ev[i].stop == NoStop && (i >= 1 ==> ev[i].start == NoStart)
    {
      WrittenBytesAt(ev, address, data, sendStart, sendStop, flag, i);
    }
    WrittenBytesAt(ev, address, data, sendStart, sendStop, flag, 0);
    FlagWithoutStop(flag, ev);
  }

  /** The write half of WriteThenRead sends no STOP once it has data, so its read half starts with
    * a repeated START exactly when the bus was started before or the write's START succeeded. */
  lemma WriteThenReadRepeats(ev: seq<ByteEvent>, address: bv8, data: seq<bv8>, flag: bool)
    requires WriteShape(ev, address, data, true, false, flag)
    requires |data| > 0
    ensures ev[0].Sent? && ev[0].start.Started?
    ensures FlagAfterAll(flag, ev) == (flag || ev[0].start.ok)
  {
    forall i | 0 <= i < |ev|
      ensures ev[i].Sent? && ev[i].stop == NoStop && (i >= 1 ==> ev[i].start == NoStart)
    {
      WrittenBytesAt(ev, address, data, true, false, flag, i);
    }
    WrittenBytesAt(ev, address, data, true, false, flag, 0);
    FlagWithoutStop(flag, ev);
  }

  /** The software I2C master over two pins. `trace` holds every pin call, in order. */
  class I2cDevice {
    const writeAddress: bv8
    const readAddress: bv8
    var start: bool
    var trace: seq<I2cOp>

    constructor (slaveAddress: int)
      ensures !start && trace == []
      ensures writeAddress == WriteAddress(slaveAddress) && readAddress == ReadAddress(slaveAddress)
    {
      writeAddress := WriteAddress(slaveAddress);
      readAddress := ReadAddress(slaveAddress);
      start := false;
      trace := [];
    }

    method ClearScl()
      modifies this`trace
      ensures trace == old(trace) + [Drive(Scl, false)]
    {
      trace := trace + [Drive(Scl, false)];
    }

    method ClearSda()
      modifies this`trace
      ensures trace == old(trace) + [Drive(Sda, false)]
    {
      trace := trace + [Drive(Sda, false)];
    }

    method ReadScl() returns (level: bool)
      modifies this`trace
      ensures trace == old(trace) + [Sample(Scl, level)]
    {
      level :| true;
      trace := trace + [Sample(Scl, level)];
    }

    method ReadSda() returns (level: bool)
      modifies this`trace
      ensures trace == old(trace) + [Sample(Sda, level)]
    {
      level :| true;
      trace := trace + [Sample(Sda, level)];
    }

    /** Reads SCL until it is high. The environment chooses `stretch`, the number of reads that
      * still find it low (the delay between reads is not modelled). */
    method WaitForScl() returns (ghost polls: nat)
      modifies this`trace
      ensures trace == old(trace) + Wait(polls)
    {
      var stretch: nat :| true;
      var k: nat := 0;
      var high := k == stretch;
      trace := trace + [Sample(Scl, high)];
      while !high
        invariant k <= stretch && high == (k == stretch)
        invariant trace == old(trace) + Lows(k) + [Sample(Scl, high)]
        decreases stretch - k
      {
        k := k + 1;
        high := k == stretch;
        trace := trace + [Sample(Scl, high)];
      }
      polls := k;
    }

    method WriteBit(bit: bool) returns (ok: bool, ghost step: Symbol)
      modifies this`trace
      ensures trace == old(trace) + Segment(step)
      ensures step.BitOut? && step.bit == bit && ok == Succeeded(step)
    {
      ghost var t0 := trace;
      var released := false;
      if bit {
        released := ReadSda();
      } else {
        ClearSda();
      }
      ghost var first: seq<I2cOp> := if bit then [Sample(Sda, released)] else [Drive(Sda, false)];
      assert trace == t0 + first;
      var polls := WaitForScl();
      Assoc(t0, first, Wait(polls));
      ghost var mid := first + Wait(polls);
      var readBack := false;
      if bit {
        readBack := ReadSda();
      }
      ghost var second: seq<I2cOp> := if bit then [Sample(Sda, readBack)] else [];
      Assoc(t0, mid, second);
      ghost var mid2 := mid + second;
      if bit && !readBack {
        ok := false;
      } else {
        ClearScl();
        ok := true;
      }
      ghost var third: seq<I2cOp> := if !bit || readBack then [Drive(Scl, false)] else [];
      Assoc(t0, mid2, third);
      ghost var all := mid2 + third;
      assert trace == t0 + all;
      step := BitOut(bit, released, polls, readBack);
      assert Segment(step) == all;
    }

    method ReadBit() returns (bit: bool, ghost step: Symbol)
      modifies this`trace
      ensures trace == old(trace) + Segment(step)
      ensures step.BitIn? && step.bit == bit
    {
      ghost var t0 := trace;
      var released := ReadSda();
      var polls := WaitForScl();
      Assoc(t0, [Sample(Sda, released)], Wait(polls));
      ghost var mid := [Sample(Sda, released)] + Wait(polls);
      bit := ReadSda();
      ClearScl();
      Assoc(t0, mid, [Sample(Sda, bit), Drive(Scl, false)]);
      step := BitIn(released, polls, bit);
    }

    /** SendStart: a repeated START first releases SDA and waits for SCL; the bus must be free
      * (SDA high) before SDA and then SCL are pulled low. */
    method SendStart() returns (ok: bool, ghost step: Symbol)
      modifies this`trace, this`start
      ensures trace == old(trace) + Segment(step)
      ensures step.StartBit? && step.repeated == old(start) && ok == Succeeded(step)
      ensures start == (old(start) || ok)
    {
      ghost var t0 := trace;
      var repeated := start;
      var released := false;
      ghost var polls: nat := 0;
      ghost var first: seq<I2cOp> := [];
      if start {
        released := ReadSda();
        polls := WaitForScl();
        first := [Sample(Sda, released)] + Wait(polls);
        Assoc(t0, [Sample(Sda, released)], Wait(polls));
      } else {
        assert t0 + first == t0;
      }
      assert trace == t0 + first;
      var idle := ReadSda();
      Assoc(t0, first, [Sample(Sda, idle)]);
      ghost var mid := first + [Sample(Sda, idle)];
      ghost var last: seq<I2cOp> := [];
      if !idle {
        ok := false;
        assert mid + last == mid;
      } else {
        ClearSda();
        ClearScl();
        last := [Drive(Sda, false), Drive(Scl, false)];
        start := true;
        ok := true;
      }
      Assoc(t0, mid, last);
      assert trace == t0 + (mid + last);
      step := StartBit(repeated, released, polls, idle);
      assert Segment(step) == mid + last;
    }

    /** SendStop: SDA low, wait for SCL, then SDA must have risen. */
    method SendStop() returns (ok: bool, ghost step: Symbol)
      modifies this`trace, this`start
      ensures trace == old(trace) + Segment(step)
      ensures step.StopBit? && ok == Succeeded(step)
      ensures start == (old(start) && !ok)
    {
      ghost var t0 := trace;
      ClearSda();
      var polls := WaitForScl();
      Assoc(t0, [Drive(Sda, false)], Wait(polls));
      ghost var mid := [Drive(Sda, false)] + Wait(polls);
      var idle := ReadSda();
      Assoc(t0, mid, [Sample(Sda, idle)]);
      if !idle {
        ok := false;
      } else {
        start := false;
        ok := true;
      }
      step := StopBit(polls, idle);
    }

    /** Read: a whole read transaction (START, address, the buffer, STOP), then both lines
      * released. */
    method Read(buffer: array?<bv8>) returns (r: Outcome, ghost frames: seq<Frame>, ghost release: Symbol)
      modifies this`trace, this`start, buffer
      ensures buffer == null ==> r == Fail(ArgumentNull) && trace == old(trace) && start == old(start)
      ensures buffer != null ==>
        && r == Pass
        && release.Release?
        && trace == old(trace) + Traffic(frames) + Segment(release)
        && ReadShape(Events(frames), readAddress, buffer[..], old(buffer[..]), true, true, old(start))
        && start == FlagAfterAll(old(start), Events(frames))
        && AllWellFormed(frames)
    {
      if buffer == null {
        return Fail(ArgumentNull), [], Release(false, false);
      }
      frames := ReadBytes(buffer, true, true);
      release := ReleaseLines();
      r := Pass;
    }

    /** Write: a whole write transaction (START, address, the buffer, STOP), then both lines
      * released. */
    method Write(buffer: array?<bv8>) returns (r: Outcome, ghost frames: seq<Frame>, ghost release: Symbol)
      modifies this`trace, this`start
      ensures buffer == null ==> r == Fail(ArgumentNull) && trace == old(trace) && start == old(start)
      ensures buffer != null ==>
        && r == Pass
        && release.Release?
        && trace == old(trace) + Traffic(frames) + Segment(release)
        && WriteShape(Events(frames), writeAddress, buffer[..], true, true, old(start))
        && start == FlagAfterAll(old(start), Events(frames))
        && AllWellFormed(frames)
    {
      if buffer == null {
        return Fail(ArgumentNull), [], Release(false, false);
      }
      frames := WriteBytes(buffer[..], true, true);
      release := ReleaseLines();
      r := Pass;
    }

    /** WriteThenRead: a write phase without STOP, then a read phase that begins with a (repeated)
      * START and ends with a STOP, then both lines released. */
    method WriteThenRead(writeBuffer: array?<bv8>, readBuffer: array?<bv8>)
      returns (r: Outcome, ghost writeFrames: seq<Frame>, ghost readFrames: seq<Frame>, ghost release: Symbol)
      modifies this`trace, this`start, readBuffer
      ensures (readBuffer == null || writeBuffer == null) ==>
        r == Fail(ArgumentNull) && trace == old(trace) && start == old(start)
      ensures writeBuffer == null && readBuffer != null ==> unchanged(readBuffer)
      ensures readBuffer != null && writeBuffer != null ==>
        && r == Pass
        && release.Release?
        && trace == old(trace) + Traffic(writeFrames) + Traffic(readFrames) + Segment(release)
        && WriteShape(Events(writeFrames), writeAddress, old(writeBuffer[..]), true, false, old(start))
        && ReadShape(Events(readFrames), readAddress, readBuffer[..], old(readBuffer[..]), true, true,
                     FlagAfterAll(old(start), Events(writeFrames)))
        && start == FlagAfterAll(FlagAfterAll(old(start), Events(writeFrames)), Events(readFrames))
        && AllWellFormed(writeFrames)
        && AllWellFormed(readFrames)
    {
      if readBuffer == null || writeBuffer == null {
        return Fail(ArgumentNull), [], [], Release(false, false);
      }
      writeFrames := WriteBytes(writeBuffer[..], true, false);
      readFrames := ReadBytes(readBuffer, true, true);
      release := ReleaseLines();
      r := Pass;
    }

    /** ReleaseScl then ReleaseSda: each line is let go by reading it. */
    method ReleaseLines() returns (ghost step: Symbol)
      modifies this`trace
      ensures step.Release? && trace == old(trace) + Segment(step)
    {
      var scl := ReadScl();
      var sda := ReadSda();
      step := Release(scl, sda);
    }

    /** The write phase: the address byte with an optional START (and a STOP when there is no
      * data), then the data bytes, the last one with a STOP when `sendStop`; the phase ends at
      * the first byte the slave does not acknowledge. */
    method WriteBytes(data: seq<bv8>, sendStart: bool, sendStop: bool) returns (ghost frames: seq<Frame>)
      modifies this`trace, this`start
      ensures trace == old(trace) + Traffic(frames)
      ensures WriteShape(Events(frames), writeAddress, data, sendStart, sendStop, old(start))
      ensures start == FlagAfterAll(old(start), Events(frames))
      ensures AllWellFormed(frames)
    {
      ghost var t0 := trace;
      ghost var flag := start;
      var acked, f := Transmit(sendStart, |data| == 0, writeAddress);
      FirstFrame(t0, f, trace, flag);
      WriteFirst(EventOf(f), writeAddress, data, sendStart, sendStop, flag);
      WellFormedFirst(f);
      frames := [f];
      if acked {
        frames := WriteData(data, sendStart, sendStop, flag, t0, frames);
      }
    }

    /** The data bytes of the write phase, after an acknowledged address byte (`first`). */
    method WriteData(data: seq<bv8>, ghost sendStart: bool, sendStop: bool, ghost flag: bool,
                     ghost t0: seq<I2cOp>, ghost first: seq<Frame>)
      returns (ghost frames: seq<Frame>)
      modifies this`trace, this`start
      requires |first| == 1 && trace == t0 + Traffic(first)
      requires WrittenBytes(Events(first), writeAddress, data, sendStart, sendStop, flag)
      requires AllAcked(Events(first)) && start == FlagAfterAll(flag, Events(first))
      requires AllWellFormed(first)
      ensures trace == t0 + Traffic(frames)
      ensures WriteShape(Events(frames), writeAddress, data, sendStart, sendStop, flag)
      ensures start == FlagAfterAll(flag, Events(frames))
      ensures AllWellFormed(frames)
    {
      frames := first;
      ghost var evs := Events(first);
      for i := 0 to |data|
        invariant trace == t0 + Traffic(frames)
        invariant |frames| == i + 1 && evs == Events(frames) && |evs| == i + 1
        invariant WrittenBytes(evs, writeAddress, data, sendStart, sendStop, flag)
        invariant AllAcked(evs)
        invariant start == FlagAfterAll(flag, evs)
        invariant AllWellFormed(frames)
      {
        var a, g := SendData(data[i], if i == |data| - 1 then sendStop else false,
                             data, i, sendStart, sendStop, flag, t0, frames, evs);
        ghost var e := EventOf(g);
        WellFormedSnoc(frames, g);
        if !a {
          WriteEnds(evs, e, writeAddress, data, sendStart, sendStop, flag);
          frames := frames + [g];
          return;
        }
        WrittenBytesSnoc(evs, e, writeAddress, data, sendStart, sendStop, flag);
        AllAckedSnoc(evs, e);
        frames := frames + [g];
        evs := evs + [e];
      }
      WriteCompletes(evs, writeAddress, data, sendStart, sendStop, flag);
    }

    /** Data byte `i` of the write phase, sent after the bytes `frames` of the phase so far. */
    method SendData(b: bv8, stopHere: bool, ghost data: seq<bv8>, ghost i: nat, ghost sendStart: bool,
                    ghost sendStop: bool, ghost flag: bool, ghost t0: seq<I2cOp>, ghost frames: seq<Frame>,
                    ghost evs: seq<ByteEvent>)
      returns (acked: bool, ghost g: Frame)
      modifies this`trace, this`start
      requires i < |data| && b == data[i] && stopHere == (i == |data| - 1 && sendStop)
      requires trace == t0 + Traffic(frames) && evs == Events(frames)
      requires start == FlagAfterAll(flag, evs)
      ensures trace == t0 + Traffic(frames + [g])
      ensures evs + [EventOf(g)] == Events(frames + [g])
      ensures start == FlagAfterAll(flag, evs + [EventOf(g)])
      ensures WriteByte(EventOf(g), i + 1, writeAddress, data, sendStart, sendStop, flag)
      ensures acked == EventOf(g).acked
      ensures WellFormed(g)
    {
      ghost var before := trace;
      ghost var flagBefore := start;
      acked, g := Transmit(false, stopHere, b);
      TrafficStep(t0, frames, g, before, trace);
      EventsStep(frames, g, evs);
      FlagStep(flag, evs, EventOf(g), flagBefore, start);
    }

    /** The read phase: the read-address byte with an optional START (and a STOP when the buffer is
      * empty); if the slave acknowledges it, one byte received into each slot, acknowledged
      * except the last, the last followed by a STOP when `sendStop`. */
    method ReadBytes(buffer: array<bv8>, sendStart: bool, sendStop: bool) returns (ghost frames: seq<Frame>)
      modifies this`trace, this`start, buffer
      ensures trace == old(trace) + Traffic(frames)
      ensures ReadShape(Events(frames), readAddress, buffer[..], old(buffer[..]), sendStart, sendStop, old(start))
      ensures start == FlagAfterAll(old(start), Events(frames))
      ensures AllWellFormed(frames)
    {
      ghost var t0 := trace;
      ghost var flag := start;
      var acked, f := Transmit(sendStart, buffer.Length == 0, readAddress);
      FirstFrame(t0, f, trace, flag);
      WellFormedFirst(f);
      frames := [f];
      ghost var e := EventOf(f);
      if acked {
        frames := ReadData(buffer, sendStop, flag, t0, frames);
      } else {
        assert buffer[..] == old(buffer[..]);
      }
      ReadEnds(Events(frames), e, readAddress, buffer[..], old(buffer[..]), sendStart, sendStop, flag);
    }

    /** The data bytes of the read phase, after an acknowledged address byte (`first`): one byte
      * received into each slot of `buffer`. */
    method ReadData(buffer: array<bv8>, sendStop: bool, ghost flag: bool, ghost t0: seq<I2cOp>, ghost first: seq<Frame>)
      returns (ghost frames: seq<Frame>)
      modifies this`trace, this`start, buffer
      requires |first| == 1 && trace == t0 + Traffic(first) && start == FlagAfterAll(flag, Events(first))
      requires AllWellFormed(first)
      ensures trace == t0 + Traffic(frames)
      ensures |Events(frames)| == buffer.Length + 1 && Events(frames)[0] == Events(first)[0]
      ensures ReceivedBytes(Events(frames), buffer[..], sendStop)
      ensures start == FlagAfterAll(flag, Events(frames))
      ensures AllWellFormed(frames)
    {
      frames := first;
      ghost var evs := Events(first);
      for i := 0 to buffer.Length
        invariant trace == t0 + Traffic(frames)
        invariant |frames| == i + 1 && evs == Events(frames) && |evs| == i + 1
        invariant evs[0] == Events(first)[0]
        invariant ReceivedBytes(evs, buffer[..], sendStop)
        invariant start == FlagAfterAll(flag, evs)
        invariant AllWellFormed(frames)
      {
        var g := ReceiveInto(buffer, i, sendStop, flag, t0, frames, evs);
        WellFormedSnoc(frames, g);
        frames := frames + [g];
        evs := evs + [EventOf(g)];
      }
    }

    /** Data byte `i` of the read phase: received, acknowledged unless it is the last, and stored
      * in slot `i`. */
    method ReceiveInto(buffer: array<bv8>, i: nat, sendStop: bool, ghost flag: bool,
                       ghost t0: seq<I2cOp>, ghost frames: seq<Frame>, ghost evs: seq<ByteEvent>)
      returns (ghost g: Frame)
      modifies this`trace, this`start, buffer
      requires i < buffer.Length && |evs| == i + 1
      requires trace == t0 + Traffic(frames) && evs == Events(frames)
      requires start == FlagAfterAll(flag, evs)
      requires ReceivedBytes(evs, buffer[..], sendStop)
      ensures trace == t0 + Traffic(frames + [g])
      ensures evs + [EventOf(g)] == Events(frames + [g])
      ensures start == FlagAfterAll(flag, evs + [EventOf(g)])
      ensures ReceivedBytes(evs + [EventOf(g)], buffer[..], sendStop)
      ensures WellFormed(g)
    {
      ghost var before := trace;
      ghost var flagBefore := start;
      ghost var held := buffer[..];
      var d;
      d, g := Receive(i < buffer.Length - 1, if i == buffer.Length - 1 then sendStop else false);
      TrafficStep(t0, frames, g, before, trace);
      EventsStep(frames, g, evs);
      FlagStep(flag, evs, EventOf(g), flagBefore, start);
      buffer[i] := d;
      StoreReceived(evs, EventOf(g), held, buffer[..], i, sendStop);
    }

    /** Transmit: an optional START, the eight bits of `data` most significant first, the slave's
      * acknowledgement bit, an optional STOP. The START's and STOP's results are not checked. */
    method Transmit(sendStart: bool, sendStop: bool, data: bv8) returns (acked: bool, ghost f: Frame)
      modifies this`trace, this`start
      ensures trace == old(trace) + Flatten(f.Steps())
      ensures |f.opening| == (if sendStart then 1 else 0) && |f.closing| == (if sendStop then 1 else 0)
      ensures sendStart ==> f.opening[0].StartBit? && f.opening[0].repeated == old(start)
      ensures sendStop ==> f.closing[0].StopBit?
      ensures |f.bits| == 8 && BitsOut(f.bits) == BitsOf(data)
      ensures f.ack.BitIn? && acked == !f.ack.bit
      ensures WellFormed(f)
      ensures EventOf(f) == Sent(data, acked,
                                 if sendStart then Started(old(start), Succeeded(f.opening[0])) else NoStart,
                                 if sendStop then Stopped(Succeeded(f.closing[0])) else NoStop)
      ensures start == FlagAfter(old(start), EventOf(f))
    {
      ghost var t0 := trace;
      ghost var opening := StartIf(sendStart);
      ghost var bits := ShiftOut(data);
      ghost var t2 := trace;
      var nack, ackStep := ReadBit();
      Single(ackStep);
      ghost var closing := StopIf(sendStop);
      acked := !nack;
      f := Frame(opening, bits, ackStep, closing);
      Join(t0, opening, bits, [ackStep], closing, trace);
      SentFrame(f, data, acked);
      FlagAfterSent(old(start), EventOf(f));
    }

    /** Transmit's optional START. */
    method StartIf(sendStart: bool) returns (ghost opening: seq<Symbol>)
      modifies this`trace, this`start
      ensures trace == old(trace) + Flatten(opening)
      ensures |opening| == if sendStart then 1 else 0
      ensures sendStart ==> opening[0].StartBit? && opening[0].repeated == old(start)
      ensures start == (old(start) || (sendStart && Succeeded(opening[0])))
    {
      opening := [];
      if sendStart {
        var _, step := SendStart();
        opening := [step];
        Single(step);
      } else {
        assert trace == old(trace) + Flatten(opening);
      }
    }

    /** The optional STOP that ends Transmit and Receive. */
    method StopIf(sendStop: bool) returns (ghost closing: seq<Symbol>)
      modifies this`trace, this`start
      ensures trace == old(trace) + Flatten(closing)
      ensures |closing| == if sendStop then 1 else 0
      ensures sendStop ==> closing[0].StopBit?
      ensures start == (old(start) && !(sendStop && Succeeded(closing[0])))
    {
      closing := [];
      if sendStop {
        var _, step := SendStop();
        closing := [step];
        Single(step);
      } else {
        assert trace == old(trace) + Flatten(closing);
      }
    }

    /** The bit loop of Transmit: `data`'s eight bits, most significant first. */
    method ShiftOut(data: bv8) returns (ghost bitSteps: seq<Symbol>)
      modifies this`trace
      ensures trace == old(trace) + Flatten(bitSteps)
      ensures |bitSteps| == 8
      ensures BitsOut(bitSteps) == BitsOf(data)
    {
      ghost var t1 := trace;
      bitSteps := [];
      var d := data;
      for bit := 0 to 8
        invariant d == Shifted(data, bit)
        invariant trace == t1 + Flatten(bitSteps)
        invariant |bitSteps| == bit
        invariant BitsOut(bitSteps) == BitsOf(data)[..bit]
      {
        TopBit(data, bit);
        var _, step := WriteBit((d & 0x80) != 0);
        Extend(t1, bitSteps, step);
        BitsOutStep(bitSteps, step, data, bit);
        bitSteps := bitSteps + [step];
        ShiftedNext(data, bit);
        d := d << 1;
      }
    }

    /** Receive: eight bits shifted in most significant first, the master's acknowledgement (sent
      * when `sendAck`), an optional STOP. */
    method Receive(sendAck: bool, sendStop: bool) returns (d: bv8, ghost f: Frame)
      modifies this`trace, this`start
      ensures trace == old(trace) + Flatten(f.Steps())
      ensures f.opening == [] && |f.closing| == (if sendStop then 1 else 0)
      ensures sendStop ==> f.closing[0].StopBit?
      ensures |f.bits| == 8 && BitsIn(f.bits) == BitsOf(d)
      ensures f.ack.BitOut? && f.ack.bit == !sendAck
      ensures WellFormed(f)
      ensures EventOf(f) == Received(d, sendAck, if sendStop then Stopped(Succeeded(f.closing[0])) else NoStop)
      ensures start == FlagAfter(old(start), EventOf(f))
    {
      ghost var t0, s0 := trace, start;
      ghost var bits;
      d, bits := ShiftIn();
      var _, ackStep := WriteBit(!sendAck);
      Single(ackStep);
      assert start == s0;
      ghost var closing := StopIf(sendStop);
      f := Frame([], bits, ackStep, closing);
      assert t0 == t0 + Flatten([]);
      Join(t0, [], bits, [ackStep], closing, trace);
      ReceivedFrame(f, d, sendAck, sendStop);
      ghost var e := EventOf(f);
      assert e.Received? && e.stop == if sendStop then Stopped(Succeeded(closing[0])) else NoStop;
      FlagAfterReceived(s0, e);
      assert start == FlagAfter(s0, e);
    }

    /** The bit loop of Receive: eight bits read and shifted in at the bottom of `d`. */
    method ShiftIn() returns (d: bv8, ghost bitSteps: seq<Symbol>)
      modifies this`trace
      ensures trace == old(trace) + Flatten(bitSteps)
      ensures |bitSteps| == 8 && BitsIn(bitSteps) == BitsOf(d)
    {
      ghost var t0 := trace;
      d := 0;
      bitSteps := [];
      ghost var bits: seq<bool> := [];
      for bit := 0 to 8
        invariant trace == t0 + Flatten(bitSteps)
        invariant |bitSteps| == bit && |bits| == bit
        invariant BitsIn(bitSteps) == bits
        invariant d == FromBits(bits)
      {
        var b, step := ReadBit();
        Extend(t0, bitSteps, step);
        BitsInSnoc(bitSteps, step);
        FromBitsSnoc(bits, b);
        d := (d << 1) | (if b then 1 else 0);
        bits := bits + [b];
        bitSteps := bitSteps + [step];
      }
      BitsOfFromBits(bits);
    }
  }
}

=== FILE: software_spi.dfy ===
/** The bit-banged SPI master a socket builds from four digital pins: chip select, master out,
  * master in and clock.
  *
  * As for the I2C master, the engine is modelled by the ordered trace of calls it makes on its
  * pins; the levels read on master-in are chosen by the environment. Each byte slot clocks eight
  * bits, most significant first, and then parks master-out low and the clock at its first level. */
module SoftwareSpi {
  import opened Bytes
  import opened Errors
  import opened SoftwareInterfaces

  datatype SpiLine = ChipSelect | MasterOut | MasterIn | Clock

  type SpiOp = LineOp<SpiLine>

  /** The four clock modes of an SPI connection, numbered 0 to 3. */
  datatype SpiMode = Mode0 | Mode1 | Mode2 | Mode3

  function ModeNumber(mode: SpiMode): bv8 {
    match mode
    case Mode0 => 0
    case Mode1 => 1
    case Mode2 => 2
    case Mode3 => 3
  }

  /** Bit 0 of the mode (the clock phase): when set, master-out is driven before the clock's
    * second edge and master-in sampled after it; when clear, master-in is sampled first and
    * master-out driven after the second edge. */
  function ClockEdge(mode: SpiMode): (edge: bool)
    ensures edge <==> mode.Mode1? || mode.Mode3?
  {
    ModeNumber(mode) & 0x01 != 0
  }

  /** The level the clock is driven to first in every bit, and parked at after every byte: high
    * exactly when bit 1 of the mode (the clock polarity) is clear. */
  function ClockPolarity(mode: SpiMode): (first: bool)
    ensures first <==> mode.Mode0? || mode.Mode1?
  {
    ModeNumber(mode) & 0x02 == 0
  }

  /** The four modes give four different clockings. */
  lemma ModesDiffer(a: SpiMode, b: SpiMode)
    requires a != b
    ensures ClockEdge(a) != ClockEdge(b) || ClockPolarity(a) != ClockPolarity(b)
  {
  }

  // ---------------------------------------------------------------------------------------------
  // The pin calls of a transfer
  // ---------------------------------------------------------------------------------------------

  /** One bit: the clock to its first level, then (phase set) master-out, the clock back and a
    * sample of master-in, or (phase clear) a sample, the clock back and master-out. The sample is
    * taken only when the slot has a read buffer byte to OR it into. */
  function BitOps(edge: bool, first: bool, out: bool, reading: bool, level: bool): seq<SpiOp> {
    if edge then [Drive(Clock, first)] + [Drive(MasterOut, out)] + [Drive(Clock, !first)] + SampleIf(reading, level)
    else [Drive(Clock, first)] + SampleIf(reading, level) + [Drive(Clock, !first)] + [Drive(MasterOut, out)]
  }

  /** Bit `k` of `out`, most significant first, as the walking mask finds it. */
  function SentBit(out: bv8, k: nat): bool
    requires k < 8
    decreases k
  {
    if k == 0 then out & 0x80 != 0 else SentBit(out << 1, k - 1)
  }

  /** The walking mask picks the bit `SentBit` names. */
  lemma MaskedBit(w: bv8, j: nat, mask: bv8)
    requires j < 8 && mask == Walk(j)
    ensures (w & mask != 0) == SentBit(w, j)
  {
    WalkBit(w, j);
    SentBitIs(w, j);
  }

  /** The bits in a byte slot. */
  const ByteWidth: nat := 8

  /** The first `n` bits of `b`, most significant first. */
  function Levels(b: bv8, n: nat): (levels: seq<bool>)
    requires n <= 8
    ensures |levels| == n
  {
    if n == 0 then [] else Levels(b, n - 1) + [SentBit(b, n - 1)]
  }

  lemma {:induction false} LevelsAre(b: bv8, n: nat)
    requires n <= 8
    ensures Levels(b, n) == BitsOf(b)[..n]
  {
    if n > 0 {
      LevelsAre(b, n - 1);
      SentBitIs(b, n - 1);
      TakeSnoc(BitsOf(b), n - 1);
    }
  }

  lemma {:induction false} SentBitIs(out: bv8, k: nat)
    requires k < 8
    ensures SentBit(out, k) == BitsOf(out)[k]
    decreases k
  {
    if k > 0 {
      SentBitIs(out << 1, k - 1);
      ShiftBitsOf(out, k - 1);
    }
  }

  /** The sample of master-in a reading slot takes in each bit. */
  function SampleIf(reading: bool, level: bool): seq<SpiOp> {
    if reading then [Sample(MasterIn, level)] else []
  }

  /** The first `|levels|` bits of a byte slot sending `out`, the levels sampled being `levels`. */
  function BitsOps(edge: bool, first: bool, out: bv8, reading: bool, levels: seq<bool>): seq<SpiOp>
    requires |levels| <= 8
  {
    if |levels| == 0 then []
    else
      var k := |levels| - 1;
      BitsOps(edge, first, out, reading, levels[..k]) + BitOps(edge, first, SentBit(out, k), reading, levels[k])
  }

  /** A whole byte slot: eight bits, then master-out low and the clock back to its first level.
    * `got` is the byte whose bits are the levels sampled. */
  function SlotOps(edge: bool, first: bool, out: bv8, reading: bool, got: bv8): seq<SpiOp> {
    BitsOps(edge, first, out, reading, Levels(got, ByteWidth)) + [Drive(MasterOut, false)] + [Drive(Clock, first)]
  }

  /** The byte sent in slot `k`: the write buffer's byte, or 0 past its end. */
  function OutByte(outs: seq<bv8>, k: nat): bv8 {
    if k < |outs| then outs[k] else 0
  }

  /** The byte slots of a transfer sending `outs`, in which the first `readLength` slots sample
    * master-in and `ins` are the bytes sampled (one per slot). */
  function Exchange(edge: bool, first: bool, outs: seq<bv8>, readLength: nat, ins: seq<bv8>): seq<SpiOp> {
    if |ins| == 0 then []
    else
      var k := |ins| - 1;
      Exchange(edge, first, outs, readLength, ins[..k]) + SlotOps(edge, first, OutByte(outs, k), k < readLength, ins[k])
  }

  /** What happens on the pins in the first bit of a slot before the read buffer is indexed. */
  function Overrun(edge: bool, first: bool, out: bv8): seq<SpiOp> {
    if edge then [Drive(Clock, first), Drive(MasterOut, SentBit(out, 0)), Drive(Clock, !first)]
    else [Drive(Clock, first)]
  }

  // ---------------------------------------------------------------------------------------------
  // What the pins see
  // ---------------------------------------------------------------------------------------------

  /** The levels driven onto `line`, in order. */
  function DrivenOn(ops: seq<SpiOp>, line: SpiLine): seq<bool> {
    if |ops| == 0 then []
    else
      var last := ops[|ops| - 1];
      DrivenOn(ops[..|ops| - 1], line) + (if last.Drive? && last.line == line then [last.level] else [])
  }

  /** The levels sampled, in order. */
  function Sampled(ops: seq<SpiOp>): seq<bool> {
    if |ops| == 0 then []
    else
      var last := ops[|ops| - 1];
      Sampled(ops[..|ops| - 1]) + (if last.Sample? then [last.level] else [])
  }

  /** `n` clock pulses starting at level `first`. */
  function Pulses(first: bool, n: nat): seq<bool> {
    if n == 0 then [] else Pulses(first, n - 1) + [first] + [!first]
  }

  /** The bits of `bytes`, byte after byte, each most significant first. */
  function BitsOfAll(bytes: seq<bv8>): seq<bool> {
    if |bytes| == 0 then [] else BitsOfAll(bytes[..|bytes| - 1]) + Levels(bytes[|bytes| - 1], ByteWidth)
  }

  /** The master-out levels of `n` slots sending `outs`: each byte's bits, then the parking low. */
  function SentLevels(outs: seq<bv8>, n: nat): seq<bool> {
    if n == 0 then [] else SentLevels(outs, n - 1) + Levels(OutByte(outs, n - 1), ByteWidth) + [false]
  }

  function Min(a: nat, b: nat): nat {
    if a < b then a else b
  }

  lemma TakeSnoc<T>(s: seq<T>, k: nat)
    requires k < |s|
    ensures s[..k + 1] == s[..k] + [s[k]]
  {
  }

  lemma TakeTake<T>(s: seq<T>, a: nat, b: nat)
    requires a <= b <= |s|
    ensures s[..b][..a] == s[..a]
  {
  }

  lemma {:induction false} DrivenOnAppend(a: seq<SpiOp>, b: seq<SpiOp>, line: SpiLine)
    ensures DrivenOn(a + b, line) == DrivenOn(a, line) + DrivenOn(b, line)
    decreases |b|
  {
    if |b| == 0 {
      assert a + b == a;
    } else {
      var b' := b[..|b| - 1];
      assert (a + b)[..|a + b| - 1] == a + b';
      DrivenOnAppend(a, b', line);
    }
  }

  lemma {:induction false} SampledAppend(a: seq<SpiOp>, b: seq<SpiOp>)
    ensures Sampled(a + b) == Sampled(a) + Sampled(b)
    decreases |b|
  {
    if |b| == 0 {
      assert a + b == a;
    } else {
      var b' := b[..|b| - 1];
      assert (a + b)[..|a + b| - 1] == a + b';
      SampledAppend(a, b');
    }
  }

  lemma One(op: SpiOp, line: SpiLine)
    ensures DrivenOn([op], line) == if op.Drive? && op.line == line then [op.level] else []
    ensures Sampled([op]) == if op.Sample? then [op.level] else []
  {
    assert [op][..0] == [];
  }

  /** Three pieces of a trace, seen on one line. */
  lemma Pieces(a: seq<SpiOp>, b: seq<SpiOp>, c: seq<SpiOp>, d: seq<SpiOp>, line: SpiLine)
    ensures DrivenOn(a + b + c + d, line) == DrivenOn(a, line) + DrivenOn(b, line) + DrivenOn(c, line) + DrivenOn(d, line)
    ensures Sampled(a + b + c + d) == Sampled(a) + Sampled(b) + Sampled(c) + Sampled(d)
  {
    DrivenOnAppend(a + b + c, d, line);
    DrivenOnAppend(a + b, c, line);
    DrivenOnAppend(a, b, line);
    SampledAppend(a + b + c, d);
    SampledAppend(a + b, c);
    SampledAppend(a, b);
  }

  lemma SampleIfSees(reading: bool, level: bool, line: SpiLine)
    ensures DrivenOn(SampleIf(reading, level), line) == []
    ensures Sampled(SampleIf(reading, level)) == if reading then [level] else []
  {
    if reading {
      One(Sample(MasterIn, level), line);
    }
  }

  /** A bit seen on one line is what its three drives show there. */
  lemma BitParts(edge: bool, first: bool, out: bool, reading: bool, level: bool, line: SpiLine)
    ensures DrivenOn(BitOps(edge, first, out, reading, level), line)
            == DrivenOn([Drive(Clock, first)], line) + DrivenOn([Drive(MasterOut, out)], line) + DrivenOn([Drive(Clock, !first)], line)
    ensures Sampled(BitOps(edge, first, out, reading, level)) == Sampled(SampleIf(reading, level))
  {
    var c1, m, c2, smp := [Drive(Clock, first)], [Drive(MasterOut, out)], [Drive(Clock, !first)], SampleIf(reading, level);
    SampleIfSees(reading, level, line);
    One(Drive(Clock, first), line);
    One(Drive(MasterOut, out), line);
    One(Drive(Clock, !first), line);
    if edge {
      Pieces(c1, m, c2, smp, line);
    } else {
      Pieces(c1, smp, c2, m, line);
    }
  }

  /** What one bit drives onto master-out: its data bit. */
  lemma BitOut(edge: bool, first: bool, out: bool, reading: bool, level: bool)
    ensures DrivenOn(BitOps(edge, first, out, reading, level), MasterOut) == [out]
  {
    BitParts(edge, first, out, reading, level, MasterOut);
  }

  /** What one bit drives onto the clock: its first level, then the other. */
  lemma BitClock(edge: bool, first: bool, out: bool, reading: bool, level: bool)
    ensures DrivenOn(BitOps(edge, first, out, reading, level), Clock) == [first] + [!first]
  {
    BitParts(edge, first, out, reading, level, Clock);
  }

  /** One bit leaves chip select alone. */
  lemma BitSelect(edge: bool, first: bool, out: bool, reading: bool, level: bool)
    ensures DrivenOn(BitOps(edge, first, out, reading, level), ChipSelect) == []
  {
    BitParts(edge, first, out, reading, level, ChipSelect);
  }

  /** One bit samples master-in once when its slot reads, never otherwise. */
  lemma BitSample(edge: bool, first: bool, out: bool, reading: bool, level: bool)
    ensures Sampled(BitOps(edge, first, out, reading, level)) == if reading then [level] else []
  {
    BitParts(edge, first, out, reading, level, MasterIn);
    SampleIfSees(reading, level, MasterIn);
  }

  /** The first bits of a slot send the first bits of its byte. */
  lemma {:induction false} BitsOut(edge: bool, first: bool, out: bv8, reading: bool, levels: seq<bool>)
    requires |levels| <= 8
    ensures DrivenOn(BitsOps(edge, first, out, reading, levels), MasterOut) == Levels(out, |levels|)
  {
    if |levels| > 0 {
      var k := |levels| - 1;
      BitsOut(edge, first, out, reading, levels[..k]);
      BitOut(edge, first, SentBit(out, k), reading, levels[k]);
      DrivenOnAppend(BitsOps(edge, first, out, reading, levels[..k]), BitOps(edge, first, SentBit(out, k), reading, levels[k]), MasterOut);
    }
  }

  /** The first bits of a slot pulse the clock once each. */
  lemma {:induction false} BitsClock(edge: bool, first: bool, out: bv8, reading: bool, levels: seq<bool>)
    requires |levels| <= 8
    ensures DrivenOn(BitsOps(edge, first, out, reading, levels), Clock) == Pulses(first, |levels|)
  {
    if |levels| > 0 {
      var k := |levels| - 1;
      BitsClock(edge, first, out, reading, levels[..k]);
      BitClock(edge, first, SentBit(out, k), reading, levels[k]);
      DrivenOnAppend(BitsOps(edge, first, out, reading, levels[..k]), BitOps(edge, first, SentBit(out, k), reading, levels[k]), Clock);
      Assoc(Pulses(first, k), [first], [!first]);
    }
  }

  /** The bits of a slot leave chip select alone. */
  lemma {:induction false} BitsSelect(edge: bool, first: bool, out: bv8, reading: bool, levels: seq<bool>)
    requires |levels| <= 8
    ensures DrivenOn(BitsOps(edge, first, out, reading, levels), ChipSelect) == []
  {
    if |levels| > 0 {
      var k := |levels| - 1;
      BitsSelect(edge, first, out, reading, levels[..k]);
      BitSelect(edge, first, SentBit(out, k), reading, levels[k]);
      DrivenOnAppend(BitsOps(edge, first, out, reading, levels[..k]), BitOps(edge, first, SentBit(out, k), reading, levels[k]), ChipSelect);
    }
  }

  /** The bits of a reading slot sample exactly the given levels, in order. */
  lemma {:induction false} BitsSample(edge: bool, first: bool, out: bv8, reading: bool, levels: seq<bool>)
    requires |levels| <= 8
    ensures Sampled(BitsOps(edge, first, out, reading, levels)) == if reading then levels else []
  {
    if |levels| > 0 {
      var k := |levels| - 1;
      var a, b := BitsOps(edge, first, out, reading, levels[..k]), BitOps(edge, first, SentBit(out, k), reading, levels[k]);
      BitsSnoc(edge, first, out, reading, levels);
      BitsSample(edge, first, out, reading, levels[..k]);
      BitSample(edge, first, SentBit(out, k), reading, levels[k]);
      SampleJoin(BitsOps(edge, first, out, reading, levels), a, b, levels, reading);
    }
  }

  /** Sampling a run made of the bits so far and one more bit. */
  lemma SampleJoin(whole: seq<SpiOp>, a: seq<SpiOp>, b: seq<SpiOp>, levels: seq<bool>, reading: bool)
    requires |levels| > 0 && whole == a + b
    requires Sampled(a) == if reading then levels[..|levels| - 1] else []
    requires Sampled(b) == if reading then [levels[|levels| - 1]] else []
    ensures Sampled(whole) == if reading then levels else []
  {
    SampledAppend(a, b);
    SampleStep(levels, reading, Sampled(a), Sampled(b));
  }

  lemma BitsSnoc(edge: bool, first: bool, out: bv8, reading: bool, levels: seq<bool>)
    requires 0 < |levels| <= 8
    ensures BitsOps(edge, first, out, reading, levels)
            == BitsOps(edge, first, out, reading, levels[..|levels| - 1])
               + BitOps(edge, first, SentBit(out, |levels| - 1), reading, levels[|levels| - 1])
  {
  }

  /** The sample of one more bit extends those of the bits so far. */
  lemma SampleStep(levels: seq<bool>, reading: bool, before: seq<bool>, bit: seq<bool>)
    requires |levels| > 0
    requires before == if reading then levels[..|levels| - 1] else []
    requires bit == if reading then [levels[|levels| - 1]] else []
    ensures before + bit == if reading then levels else []
  {
    if reading {
      TakeSnoc(levels, |levels| - 1);
      assert levels[..|levels|] == levels;
    } else {
      assert before + bit == [];
    }
  }

  /** A whole slot sends its byte, then a low. */
  lemma SlotOut(edge: bool, first: bool, out: bv8, reading: bool, got: bv8)
    ensures DrivenOn(SlotOps(edge, first, out, reading, got), MasterOut) == Levels(out, ByteWidth) + [false]
  {
    BitsOut(edge, first, out, reading, Levels(got, ByteWidth));
    ParkedOut(BitsOps(edge, first, out, reading, Levels(got, ByteWidth)), first);
  }

  /** A whole slot pulses the clock eight times and parks it at its first level. */
  lemma SlotClock(edge: bool, first: bool, out: bv8, reading: bool, got: bv8)
    ensures DrivenOn(SlotOps(edge, first, out, reading, got), Clock) == Pulses(first, ByteWidth) + [first]
  {
    BitsClock(edge, first, out, reading, Levels(got, ByteWidth));
    ParkedClock(BitsOps(edge, first, out, reading, Levels(got, ByteWidth)), first);
  }

  /** A slot leaves chip select alone. */
  lemma SlotSelect(edge: bool, first: bool, out: bv8, reading: bool, got: bv8)
    ensures DrivenOn(SlotOps(edge, first, out, reading, got), ChipSelect) == []
  {
    BitsSelect(edge, first, out, reading, Levels(got, ByteWidth));
    ParkedSelect(BitsOps(edge, first, out, reading, Levels(got, ByteWidth)), first);
  }

  /** A reading slot samples the bits of `got`, most significant first; another samples nothing. */
  lemma SlotSample(edge: bool, first: bool, out: bv8, reading: bool, got: bv8)
    ensures Sampled(SlotOps(edge, first, out, reading, got)) == if reading then Levels(got, ByteWidth) else []
  {
    BitsSample(edge, first, out, reading, Levels(got, ByteWidth));
    ParkedSample(BitsOps(edge, first, out, reading, Levels(got, ByteWidth)), first);
  }

  // The two drives that end a slot, seen on each line.

  lemma ParkedOut(bits: seq<SpiOp>, first: bool)
    ensures DrivenOn(bits + [Drive(MasterOut, false)] + [Drive(Clock, first)], MasterOut) == DrivenOn(bits, MasterOut) + [false]
  {
    DrivenOnAppend(bits + [Drive(MasterOut, false)], [Drive(Clock, first)], MasterOut);
    DrivenOnAppend(bits, [Drive(MasterOut, false)], MasterOut);
    One(Drive(MasterOut, false), MasterOut);
    One(Drive(Clock, first), MasterOut);
  }

  lemma ParkedClock(bits: seq<SpiOp>, first: bool)
    ensures DrivenOn(bits + [Drive(MasterOut, false)] + [Drive(Clock, first)], Clock) == DrivenOn(bits, Clock) + [first]
  {
    DrivenOnAppend(bits + [Drive(MasterOut, false)], [Drive(Clock, first)], Clock);
    DrivenOnAppend(bits, [Drive(MasterOut, false)], Clock);
    One(Drive(MasterOut, false), Clock);
    One(Drive(Clock, first), Clock);
  }

  lemma ParkedSelect(bits: seq<SpiOp>, first: bool)
    ensures DrivenOn(bits + [Drive(MasterOut, false)] + [Drive(Clock, first)], ChipSelect) == DrivenOn(bits, ChipSelect)
  {
    DrivenOnAppend(bits + [Drive(MasterOut, false)], [Drive(Clock, first)], ChipSelect);
    DrivenOnAppend(bits, [Drive(MasterOut, false)], ChipSelect);
    One(Drive(MasterOut, false), ChipSelect);
    One(Drive(Clock, first), ChipSelect);
  }

  lemma ParkedSample(bits: seq<SpiOp>, first: bool)
    ensures Sampled(bits + [Drive(MasterOut, false)] + [Drive(Clock, first)]) == Sampled(bits)
  {
    SampledAppend(bits + [Drive(MasterOut, false)], [Drive(Clock, first)]);
    SampledAppend(bits, [Drive(MasterOut, false)]);
    One(Drive(MasterOut, false), MasterIn);
    One(Drive(Clock, first), MasterIn);
  }

  lemma BitsOfAllStep(bytes: seq<bv8>, k: nat)
    requires k < |bytes|
    ensures BitsOfAll(bytes[..k + 1]) == BitsOfAll(bytes[..k]) + Levels(bytes[k], ByteWidth)
  {
    TakeTake(bytes, k, k + 1);
  }

  /** Over a whole transfer, master-in's samples are the bits of the bytes read, in order. */
  lemma {:induction false} ExchangeSample(edge: bool, first: bool, outs: seq<bv8>, readLength: nat, ins: seq<bv8>)
    ensures Sampled(Exchange(edge, first, outs, readLength, ins)) == BitsOfAll(ins[..Min(readLength, |ins|)])
  {
    if |ins| > 0 {
      var k := |ins| - 1;
      ExchangeSample(edge, first, outs, readLength, ins[..k]);
      SlotSample(edge, first, OutByte(outs, k), k < readLength, ins[k]);
      SampledAppend(Exchange(edge, first, outs, readLength, ins[..k]), SlotOps(edge, first, OutByte(outs, k), k < readLength, ins[k]));
      ReadStep(ins, readLength, Sampled(Exchange(edge, first, outs, readLength, ins[..k])),
               Sampled(SlotOps(edge, first, OutByte(outs, k), k < readLength, ins[k])));
    }
  }

  /** The samples of one more slot extend those of the bytes read so far. */
  lemma ReadStep(ins: seq<bv8>, readLength: nat, before: seq<bool>, slot: seq<bool>)
    requires |ins| > 0
    requires before == BitsOfAll(ins[..|ins| - 1][..Min(readLength, |ins| - 1)])
    requires slot == if |ins| - 1 < readLength then Levels(ins[|ins| - 1], ByteWidth) else []
    ensures before + slot == BitsOfAll(ins[..Min(readLength, |ins|)])
  {
    var k := |ins| - 1;
    if k < readLength {
      TakeTake(ins, k, k);
      BitsOfAllStep(ins, k);
      assert ins[..k + 1] == ins;
    } else {
      TakeTake(ins, readLength, k);
      assert before + slot == before;
    }
  }

  /** Over a whole transfer, master-out carries each slot's byte followed by a low. */
  lemma {:induction false} ExchangeOut(edge: bool, first: bool, outs: seq<bv8>, readLength: nat, ins: seq<bv8>)
    ensures DrivenOn(Exchange(edge, first, outs, readLength, ins), MasterOut) == SentLevels(outs, |ins|)
  {
    if |ins| > 0 {
      var k := |ins| - 1;
      ExchangeOut(edge, first, outs, readLength, ins[..k]);
      SlotOut(edge, first, OutByte(outs, k), k < readLength, ins[k]);
      DrivenOnAppend(Exchange(edge, first, outs, readLength, ins[..k]), SlotOps(edge, first, OutByte(outs, k), k < readLength, ins[k]), MasterOut);
      Assoc(SentLevels(outs, k), Levels(OutByte(outs, k), ByteWidth), [false]);
    }
  }

  /** The byte slots of a transfer never touch chip select. */
  lemma {:induction false} ExchangeSelect(edge: bool, first: bool, outs: seq<bv8>, readLength: nat, ins: seq<bv8>)
    ensures DrivenOn(Exchange(edge, first, outs, readLength, ins), ChipSelect) == []
  {
    if |ins| > 0 {
      var k := |ins| - 1;
      ExchangeSelect(edge, first, outs, readLength, ins[..k]);
      SlotSelect(edge, first, OutByte(outs, k), k < readLength, ins[k]);
      DrivenOnAppend(Exchange(edge, first, outs, readLength, ins[..k]), SlotOps(edge, first, OutByte(outs, k), k < readLength, ins[k]), ChipSelect);
    }
  }

  // ---------------------------------------------------------------------------------------------
  // Step lemmas for the transfer loops
  // ---------------------------------------------------------------------------------------------

  lemma BitsStep(t0: seq<SpiOp>, edge: bool, first: bool, out: bv8, reading: bool, levels: seq<bool>,
                 level: bool, before: seq<SpiOp>, after: seq<SpiOp>)
    requires |levels| < 8
    requires before == t0 + BitsOps(edge, first, out, reading, levels)
    requires after == before + BitOps(edge, first, SentBit(out, |levels|), reading, level)
    ensures after == t0 + BitsOps(edge, first, out, reading, levels + [level])
  {
    assert (levels + [level])[..|levels|] == levels;
    Assoc(t0, BitsOps(edge, first, out, reading, levels), BitOps(edge, first, SentBit(out, |levels|), reading, level));
  }

  lemma SlotStep(t0: seq<SpiOp>, edge: bool, first: bool, out: bv8, reading: bool, levels: seq<bool>,
                 got: bv8, before: seq<SpiOp>, after: seq<SpiOp>)
    requires |levels| == 8 && BitsOf(got) == levels
    requires before == t0 + BitsOps(edge, first, out, reading, levels)
    requires after == before + [Drive(MasterOut, false)] + [Drive(Clock, first)]
    ensures after == t0 + SlotOps(edge, first, out, reading, got)
  {
    LevelsAre(got, ByteWidth);
    assert BitsOf(got)[..8] == BitsOf(got);
    Assoc(t0, BitsOps(edge, first, out, reading, levels), [Drive(MasterOut, false)]);
    Assoc(t0, BitsOps(edge, first, out, reading, levels) + [Drive(MasterOut, false)], [Drive(Clock, first)]);
  }

  lemma ExchangeStep(t0: seq<SpiOp>, edge: bool, first: bool, outs: seq<bv8>, readLength: nat, ins: seq<bv8>,
                     got: bv8, before: seq<SpiOp>, after: seq<SpiOp>)
    requires before == t0 + Exchange(edge, first, outs, readLength, ins)
    requires after == before + SlotOps(edge, first, OutByte(outs, |ins|), |ins| < readLength, got)
    ensures after == t0 + Exchange(edge, first, outs, readLength, ins + [got])
  {
    ExchangeSnoc(edge, first, outs, readLength, ins, got);
    Assoc(t0, Exchange(edge, first, outs, readLength, ins), SlotOps(edge, first, OutByte(outs, |ins|), |ins| < readLength, got));
  }

  lemma ExchangeSnoc(edge: bool, first: bool, outs: seq<bv8>, readLength: nat, ins: seq<bv8>, got: bv8)
    ensures Exchange(edge, first, outs, readLength, ins + [got])
            == Exchange(edge, first, outs, readLength, ins) + SlotOps(edge, first, OutByte(outs, |ins|), |ins| < readLength, got)
  {
    assert (ins + [got])[..|ins|] == ins;
  }

  lemma Framed(t0: seq<SpiOp>, select: SpiOp, body: seq<SpiOp>, tail: seq<SpiOp>,
               t1: seq<SpiOp>, t2: seq<SpiOp>, t3: seq<SpiOp>)
    requires t1 == t0 + [select] && t2 == t1 + body && t3 == t2 + tail
    ensures t3 == t0 + [select] + body + tail
  {
  }

  lemma Fours(t0: seq<SpiOp>, a: SpiOp, b: SpiOp, c: SpiOp, d: seq<SpiOp>,
              t1: seq<SpiOp>, t2: seq<SpiOp>, t3: seq<SpiOp>, t4: seq<SpiOp>)
    requires t1 == t0 + [a] && t2 == t1 + [b] && t3 == t2 + [c] && t4 == t3 + d
    ensures t4 == t0 + ([a] + [b] + [c] + d)
  {
  }

  lemma Fours'(t0: seq<SpiOp>, a: SpiOp, b: seq<SpiOp>, c: SpiOp, d: SpiOp,
               t1: seq<SpiOp>, t2: seq<SpiOp>, t3: seq<SpiOp>, t4: seq<SpiOp>)
    requires t1 == t0 + [a] && t2 == t1 + b && t3 == t2 + [c] && t4 == t3 + [d]
    ensures t4 == t0 + ([a] + b + [c] + [d])
  {
  }

  /** The length of a buffer, 0 for none. */
  function Len(a: array?<bv8>): nat {
    if a == null then 0 else a.Length
  }

  function Max(a: nat, b: nat): nat {
    if a < b then b else a
  }

  // ---------------------------------------------------------------------------------------------
  // The device
  // ---------------------------------------------------------------------------------------------

  class SpiDevice {
    const clockEdge: bool
    const clockPolarity: bool
    var trace: seq<SpiOp>

    constructor (mode: SpiMode)
      ensures clockEdge == ClockEdge(mode) && clockPolarity == ClockPolarity(mode)
      ensures trace == []
    {
      clockEdge := ClockEdge(mode);
      clockPolarity := ClockPolarity(mode);
      trace := [];
    }

    /** Only eight data bits per word are supported. */
    static method Create(mode: SpiMode, dataBitLength: int) returns (r: Result<SpiDevice>)
      ensures r.Err? <==> dataBitLength != 8
      ensures r.Err? ==> r.error == NotSupported
      ensures r.Ok? ==> fresh(r.value) && r.value.trace == []
      ensures r.Ok? ==> r.value.clockEdge == ClockEdge(mode) && r.value.clockPolarity == ClockPolarity(mode)
    {
      if dataBitLength != 8 {
        return Err(NotSupported);
      }
      var d := new SpiDevice(mode);
      r := Ok(d);
    }

    method WritePin(line: SpiLine, level: bool)
      modifies this`trace
      ensures trace == old(trace) + [Drive(line, level)]
    {
      trace := trace + [Drive(line, level)];
    }

    method ReadMasterIn() returns (level: bool)
      modifies this`trace
      ensures trace == old(trace) + [Sample(MasterIn, level)]
    {
      level :| true;
      trace := trace + [Sample(MasterIn, level)];
    }

    /** Write: the buffer sent with nothing read, chip select raised after. */
    method Write(buffer: array?<bv8>) returns (r: Outcome, ghost ins: seq<bv8>)
      modifies this`trace
      ensures buffer == null ==> r == Fail(ArgumentNull) && trace == old(trace)
      ensures buffer != null ==>
        && r == Pass
        && |ins| == buffer.Length
        && trace == old(trace) + [Drive(ChipSelect, false)] + Exchange(clockEdge, clockPolarity, buffer[..], 0, ins)
                    + [Drive(ChipSelect, true)]
    {
      if buffer == null {
        return Fail(ArgumentNull), [];
      }
      ins := WriteRead(buffer, null, true);
      r := Pass;
    }

    /** Read: zeros clocked out while the buffer is filled, chip select raised after. */
    method Read(buffer: array?<bv8>) returns (r: Outcome, ghost ins: seq<bv8>)
      modifies this`trace, buffer
      ensures buffer == null ==> r == Fail(ArgumentNull) && trace == old(trace)
      ensures buffer != null ==>
        && r == Pass
        && |ins| == buffer.Length
        && trace == old(trace) + [Drive(ChipSelect, false)] + Exchange(clockEdge, clockPolarity, [], buffer.Length, ins)
                    + [Drive(ChipSelect, true)]
        && forall k :: 0 <= k < buffer.Length ==> buffer[k] == ins[k]
    {
      if buffer == null {
        return Fail(ArgumentNull), [];
      }
      ins := WriteRead(null, buffer, true);
      r := Pass;
    }

    /** Read as written: the null write buffer it passes on is dereferenced before any pin moves. */
    method ReadAsWritten(buffer: array?<bv8>) returns (r: Outcome)
      modifies this`trace, buffer
      ensures r == if buffer == null then Fail(ArgumentNull) else Fail(NullReference)
      ensures trace == old(trace)
      ensures buffer != null ==> unchanged(buffer)
    {
      if buffer == null {
        return Fail(ArgumentNull);
      }
      var o, _ := WriteReadAsWritten(null, buffer, true);
      r := o;
    }

    /** WriteThenRead: a write with chip select left low, then a read that raises it. */
    method WriteThenRead(writeBuffer: array?<bv8>, readBuffer: array?<bv8>)
      returns (r: Outcome, ghost written: seq<bv8>, ghost ins: seq<bv8>)
      modifies this`trace, readBuffer
      ensures (readBuffer == null || writeBuffer == null) ==> r == Fail(ArgumentNull) && trace == old(trace)
      ensures writeBuffer == null && readBuffer != null ==> unchanged(readBuffer)
      ensures readBuffer != null && writeBuffer != null ==>
        && r == Pass
        && |written| == writeBuffer.Length && |ins| == readBuffer.Length
        && trace == old(trace)
                    + [Drive(ChipSelect, false)] + Exchange(clockEdge, clockPolarity, old(writeBuffer[..]), 0, written)
                    + [Drive(ChipSelect, false)] + Exchange(clockEdge, clockPolarity, [], readBuffer.Length, ins)
                    + [Drive(ChipSelect, true)]
        && forall k :: 0 <= k < readBuffer.Length ==> readBuffer[k] == ins[k]
    {
      if readBuffer == null || writeBuffer == null {
        return Fail(ArgumentNull), [], [];
      }
      written := WriteRead(writeBuffer, null, false);
      ins := WriteRead(null, readBuffer, true);
      r := Pass;
    }

    /** WriteThenRead as written: the write phase runs, then its read phase fails on the null write
      * buffer, leaving chip select low. */
    method WriteThenReadAsWritten(writeBuffer: array?<bv8>, readBuffer: array?<bv8>)
      returns (r: Outcome, ghost written: seq<bv8>)
      modifies this`trace, readBuffer
      ensures (readBuffer == null || writeBuffer == null) ==> r == Fail(ArgumentNull) && trace == old(trace)
      ensures readBuffer != null ==> unchanged(readBuffer)
      ensures readBuffer != null && writeBuffer != null ==>
        && r == Fail(NullReference)
        && |written| == writeBuffer.Length
        && trace == old(trace)
                    + [Drive(ChipSelect, false)] + Exchange(clockEdge, clockPolarity, old(writeBuffer[..]), 0, written)
    {
      if readBuffer == null || writeBuffer == null {
        return Fail(ArgumentNull), [];
      }
      var _, w := WriteReadAsWritten(writeBuffer, null, false);
      written := w;
      var o, _ := WriteReadAsWritten(null, readBuffer, true);
      r := o;
    }

    /** WriteAndRead: one full-duplex transfer over the longer of the two buffers. */
    method WriteAndRead(writeBuffer: array?<bv8>, readBuffer: array?<bv8>) returns (r: Outcome, ghost ins: seq<bv8>)
      modifies this`trace, readBuffer
      ensures (readBuffer == null || writeBuffer == null) ==> r == Fail(ArgumentNull) && trace == old(trace)
      ensures writeBuffer == null && readBuffer != null ==> unchanged(readBuffer)
      ensures readBuffer != null && writeBuffer != null ==>
        && r == Pass
        && |ins| == Max(writeBuffer.Length, readBuffer.Length)
        && trace == old(trace) + [Drive(ChipSelect, false)]
                    + Exchange(clockEdge, clockPolarity, if writeBuffer == readBuffer then [] else old(writeBuffer[..]),
                               readBuffer.Length, ins)
                    + [Drive(ChipSelect, true)]
        && forall k :: 0 <= k < readBuffer.Length ==> readBuffer[k] == ins[k]
    {
      if readBuffer == null || writeBuffer == null {
        return Fail(ArgumentNull), [];
      }
      ins := WriteRead(writeBuffer, readBuffer, true);
      r := Pass;
    }

    /** The transfer, with a missing write buffer sending zeros and master-in sampled only into
      * bytes the read buffer has. The read buffer is cleared first; when it is also the write
      * buffer, zeros are sent. */
    method WriteRead(writeBuffer: array?<bv8>, readBuffer: array?<bv8>, deselectAfter: bool) returns (ghost ins: seq<bv8>)
      modifies this`trace, readBuffer
      ensures |ins| == Max(Len(writeBuffer), Len(readBuffer))
      ensures trace == old(trace) + [Drive(ChipSelect, false)]
                       + Exchange(clockEdge, clockPolarity,
                                  if writeBuffer == null || writeBuffer == readBuffer then [] else old(writeBuffer[..]),
                                  Len(readBuffer), ins)
                       + (if deselectAfter then [Drive(ChipSelect, true)] else [])
      ensures readBuffer != null ==> forall k :: 0 <= k < readBuffer.Length ==> readBuffer[k] == ins[k]
    {
      ghost var t0 := trace;
      ghost var outs := if writeBuffer == null || writeBuffer == readBuffer then [] else writeBuffer[..];
      var writeLength := if writeBuffer == null then 0 else writeBuffer.Length;
      var readLength := 0;
      if readBuffer != null {
        readLength := readBuffer.Length;
        Clear(readBuffer);
      }
      WritePin(ChipSelect, false);
      ghost var t1 := trace;
      var slots := if writeLength < readLength then readLength else writeLength;
      ins := Transfer(writeBuffer, readBuffer, slots, outs);
      ghost var t2 := trace;
      if deselectAfter {
        WritePin(ChipSelect, true);
      }
      Framed(t0, Drive(ChipSelect, false), Exchange(clockEdge, clockPolarity, outs, Len(readBuffer), ins),
             if deselectAfter then [Drive(ChipSelect, true)] else [], t1, t2, trace);
    }

    /** The transfer as written: the write buffer's length is taken unconditionally, and every
      * slot ORs into the read buffer when there is one, so a read buffer shorter than the write
      * buffer is indexed past its end in the first bit of the first slot beyond it. */
    method WriteReadAsWritten(writeBuffer: array?<bv8>, readBuffer: array?<bv8>, deselectAfter: bool)
      returns (r: Outcome, ghost ins: seq<bv8>)
      modifies this`trace, readBuffer
      ensures writeBuffer == null ==> r == Fail(NullReference) && trace == old(trace)
      ensures writeBuffer == null && readBuffer != null ==> unchanged(readBuffer)
      ensures writeBuffer != null && readBuffer != null && writeBuffer.Length > readBuffer.Length ==>
        && r == Fail(IndexOutOfRange)
        && |ins| == readBuffer.Length
        && trace == old(trace) + [Drive(ChipSelect, false)]
                    + Exchange(clockEdge, clockPolarity, old(writeBuffer[..]), readBuffer.Length, ins)
                    + Overrun(clockEdge, clockPolarity, old(writeBuffer[readBuffer.Length]))
        && forall k :: 0 <= k < readBuffer.Length ==> readBuffer[k] == ins[k]
      ensures writeBuffer != null && (readBuffer == null || writeBuffer.Length <= readBuffer.Length) ==>
        && r == Pass
        && |ins| == Max(writeBuffer.Length, Len(readBuffer))
        && trace == old(trace) + [Drive(ChipSelect, false)]
                    + Exchange(clockEdge, clockPolarity, if writeBuffer == readBuffer then [] else old(writeBuffer[..]),
                               Len(readBuffer), ins)
                    + (if deselectAfter then [Drive(ChipSelect, true)] else [])
        && (readBuffer != null ==> forall k :: 0 <= k < readBuffer.Length ==> readBuffer[k] == ins[k])
    {
      if writeBuffer == null {
        return Fail(NullReference), [];
      }
      if readBuffer != null && writeBuffer.Length > readBuffer.Length {
        ins := Overrunning(writeBuffer, readBuffer);
        return Fail(IndexOutOfRange), ins;
      }
      ins := WriteRead(writeBuffer, readBuffer, deselectAfter);
      r := Pass;
    }

    /** The as-written transfer with a read buffer shorter than the write buffer, up to the
      * failing index. */
    method Overrunning(writeBuffer: array<bv8>, readBuffer: array<bv8>) returns (ghost ins: seq<bv8>)
      requires writeBuffer.Length > readBuffer.Length
      modifies this`trace, readBuffer
      ensures |ins| == readBuffer.Length
      ensures trace == old(trace) + [Drive(ChipSelect, false)]
                       + Exchange(clockEdge, clockPolarity, old(writeBuffer[..]), readBuffer.Length, ins)
                       + Overrun(clockEdge, clockPolarity, old(writeBuffer[readBuffer.Length]))
      ensures forall k :: 0 <= k < readBuffer.Length ==> readBuffer[k] == ins[k]
    {
      ghost var t0 := trace;
      ghost var outs := writeBuffer[..];
      Clear(readBuffer);
      WritePin(ChipSelect, false);
      ghost var t1 := trace;
      ins := Transfer(writeBuffer, readBuffer, readBuffer.Length, outs);
      ghost var t2 := trace;
      FirstBit(writeBuffer[readBuffer.Length]);
      Framed(t0, Drive(ChipSelect, false), Exchange(clockEdge, clockPolarity, outs, readBuffer.Length, ins),
             Overrun(clockEdge, clockPolarity, writeBuffer[readBuffer.Length]), t1, t2, trace);
    }

    /** The pin calls of a slot's first bit that come before the read buffer is indexed. */
    method FirstBit(w: bv8)
      modifies this`trace
      ensures trace == old(trace) + Overrun(clockEdge, clockPolarity, w)
    {
      MaskedBit(w, 0, 0x80);
      WritePin(Clock, clockPolarity);
      if clockEdge {
        WritePin(MasterOut, (w & 0x80) != 0);
        WritePin(Clock, !clockPolarity);
      }
    }

    /** The read buffer cleared before a transfer. */
    method Clear(buffer: array<bv8>)
      modifies buffer
      ensures forall k :: 0 <= k < buffer.Length ==> buffer[k] == 0
    {
      for i := 0 to buffer.Length
        invariant forall k :: 0 <= k < i ==> buffer[k] == 0
      {
        buffer[i] := 0;
      }
    }

    /** `count` byte slots. Slot `i` sends the write buffer's byte `i` (0 past its end) and, when
      * the read buffer has a byte `i`, ORs the sampled levels into it. */
    method Transfer(writeBuffer: array?<bv8>, readBuffer: array?<bv8>, count: nat, ghost outs: seq<bv8>)
      returns (ghost ins: seq<bv8>)
      requires writeBuffer != null && writeBuffer != readBuffer ==> writeBuffer[..] == outs
      requires writeBuffer == null || writeBuffer == readBuffer ==> outs == []
      requires readBuffer != null ==> forall k :: 0 <= k < readBuffer.Length ==> readBuffer[k] == 0
      modifies this`trace, readBuffer
      ensures |ins| == count
      ensures trace == old(trace) + Exchange(clockEdge, clockPolarity, outs, Len(readBuffer), ins)
      ensures readBuffer != null ==>
        forall k :: 0 <= k < readBuffer.Length ==> readBuffer[k] == if k < count then ins[k] else 0
    {
      ghost var t0 := trace;
      ins := [];
      for i := 0 to count
        invariant |ins| == i
        invariant trace == t0 + Exchange(clockEdge, clockPolarity, outs, Len(readBuffer), ins)
        invariant readBuffer != null ==>
          forall k :: 0 <= k < readBuffer.Length ==> readBuffer[k] == if k < i then ins[k] else 0
        invariant writeBuffer != null && writeBuffer != readBuffer ==> writeBuffer[..] == outs
      {
        var got := NextSlot(writeBuffer, readBuffer, i, outs, t0, ins);
        ins := ins + [got];
      }
    }

    /** Slot `i` of a transfer whose first `i` slots are done. */
    method NextSlot(writeBuffer: array?<bv8>, readBuffer: array?<bv8>, i: nat, ghost outs: seq<bv8>,
                    ghost t0: seq<SpiOp>, ghost ins: seq<bv8>) returns (ghost got: bv8)
      requires |ins| == i
      requires trace == t0 + Exchange(clockEdge, clockPolarity, outs, Len(readBuffer), ins)
      requires readBuffer != null ==>
        forall k :: 0 <= k < readBuffer.Length ==> readBuffer[k] == if k < i then ins[k] else 0
      requires writeBuffer != null && writeBuffer != readBuffer ==> writeBuffer[..] == outs
      requires writeBuffer == null || writeBuffer == readBuffer ==> outs == []
      modifies this`trace, readBuffer
      ensures trace == t0 + Exchange(clockEdge, clockPolarity, outs, Len(readBuffer), ins + [got])
      ensures readBuffer != null ==>
        forall k :: 0 <= k < readBuffer.Length ==> readBuffer[k] == if k < i + 1 then (ins + [got])[k] else 0
    {
      var w: bv8 := 0;
      if writeBuffer != null && i < writeBuffer.Length {
        w := writeBuffer[i];
      }
      assert w == OutByte(outs, i);
      var reading := readBuffer != null && i < readBuffer.Length;
      ghost var before := trace;
      got := Slot(w, readBuffer, i, reading);
      ExchangeStep(t0, clockEdge, clockPolarity, outs, Len(readBuffer), ins, got, before, trace);
    }

    /** One byte slot: eight bits under the walking mask, then master-out low and the clock back
      * to its first level. */
    method Slot(w: bv8, readBuffer: array?<bv8>, i: nat, reading: bool) returns (ghost got: bv8)
      requires reading ==> readBuffer != null && i < readBuffer.Length && readBuffer[i] == 0
      modifies this`trace, readBuffer
      ensures trace == old(trace) + SlotOps(clockEdge, clockPolarity, w, reading, got)
      ensures reading ==> readBuffer[i] == got
      ensures readBuffer != null ==>
        forall k :: 0 <= k < readBuffer.Length && (k != i || !reading) ==> readBuffer[k] == old(readBuffer[k])
    {
      ghost var t0 := trace;
      var levels := ShiftBits(w, readBuffer, i, reading);
      OrBitsRoundTrip(levels);
      got := OrBits(levels);
      ghost var before := trace;
      WritePin(MasterOut, false);
      WritePin(Clock, clockPolarity);
      SlotStep(t0, clockEdge, clockPolarity, w, reading, levels, got, before, trace);
    }

    /** The eight bits of a slot; `levels` are the levels sampled (false where none is). */
    method ShiftBits(w: bv8, readBuffer: array?<bv8>, i: nat, reading: bool) returns (ghost levels: seq<bool>)
      requires reading ==> readBuffer != null && i < readBuffer.Length && readBuffer[i] == 0
      modifies this`trace, readBuffer
      ensures |levels| == 8
      ensures trace == old(trace) + BitsOps(clockEdge, clockPolarity, w, reading, levels)
      ensures reading ==> readBuffer[i] == OrBits(levels)
      ensures readBuffer != null ==>
        forall k :: 0 <= k < readBuffer.Length && (k != i || !reading) ==> readBuffer[k] == old(readBuffer[k])
    {
      ghost var t0 := trace;
      var mask: bv8 := 0x80;
      levels := [];
      for j := 0 to 8
        invariant mask == Walk(j) && |levels| == j
        invariant trace == t0 + BitsOps(clockEdge, clockPolarity, w, reading, levels)
        invariant reading ==> readBuffer[i] == OrBits(levels)
        invariant readBuffer != null ==>
          forall k :: 0 <= k < readBuffer.Length && (k != i || !reading) ==> readBuffer[k] == old(readBuffer[k])
      {
        var level := NextBit(w, mask, j, readBuffer, i, reading, t0, levels);
        levels := levels + [level];
        WalkNext(j);
        mask := mask >> 1;
      }
    }

    /** Bit `j` of a slot whose first `j` bits are done. */
    method NextBit(w: bv8, mask: bv8, j: nat, readBuffer: array?<bv8>, i: nat, reading: bool,
                   ghost t0: seq<SpiOp>, ghost levels: seq<bool>) returns (ghost level: bool)
      requires j < 8 && mask == Walk(j) && |levels| == j
      requires reading ==> readBuffer != null && i < readBuffer.Length && readBuffer[i] == OrBits(levels)
      requires trace == t0 + BitsOps(clockEdge, clockPolarity, w, reading, levels)
      modifies this`trace, readBuffer
      ensures trace == t0 + BitsOps(clockEdge, clockPolarity, w, reading, levels + [level])
      ensures reading ==> readBuffer[i] == OrBits(levels + [level])
      ensures readBuffer != null ==>
        forall k :: 0 <= k < readBuffer.Length && (k != i || !reading) ==> readBuffer[k] == old(readBuffer[k])
    {
      var out := (w & mask) != 0;
      MaskedBit(w, j, mask);
      ghost var before := trace;
      level := ClockBit(out, mask, readBuffer, i, reading);
      BitsStep(t0, clockEdge, clockPolarity, w, reading, levels, level, before, trace);
      if reading {
        OrInto(levels, level, mask, old(readBuffer[i]), readBuffer[i]);
      }
    }

    /** One bit of a slot, in the order the clock phase asks for; when the slot reads, the level
      * sampled is ORed into the slot's byte under `mask`. */
    method ClockBit(out: bool, mask: bv8, readBuffer: array?<bv8>, i: nat, reading: bool) returns (ghost level: bool)
      requires reading ==> readBuffer != null && i < readBuffer.Length
      modifies this`trace, readBuffer
      ensures trace == old(trace) + BitOps(clockEdge, clockPolarity, out, reading, level)
      ensures reading ==> readBuffer[i] == old(readBuffer[i]) | (if level then mask else 0)
      ensures readBuffer != null ==>
        forall k :: 0 <= k < readBuffer.Length && (k != i || !reading) ==> readBuffer[k] == old(readBuffer[k])
    {
      ghost var t0 := trace;
      WritePin(Clock, clockPolarity);
      ghost var t1 := trace;
      if clockEdge {
        WritePin(MasterOut, out);
        ghost var t2 := trace;
        WritePin(Clock, !clockPolarity);
        ghost var t3 := trace;
        level := SampleInto(mask, readBuffer, i, reading);
        Fours(t0, Drive(Clock, clockPolarity), Drive(MasterOut, out), Drive(Clock, !clockPolarity),
              SampleIf(reading, level), t1, t2, t3, trace);
      } else {
        level := SampleInto(mask, readBuffer, i, reading);
        ghost var t2 := trace;
        WritePin(Clock, !clockPolarity);
        ghost var t3 := trace;
        WritePin(MasterOut, out);
        Fours'(t0, Drive(Clock, clockPolarity), SampleIf(reading, level), Drive(Clock, !clockPolarity),
               Drive(MasterOut, out), t1, t2, t3, trace);
      }
    }

    /** When the slot reads: master-in sampled and ORed into the slot's byte under `mask`. */
    method SampleInto(mask: bv8, readBuffer: array?<bv8>, i: nat, reading: bool) returns (ghost level: bool)
      requires reading ==> readBuffer != null && i < readBuffer.Length
      modifies this`trace, readBuffer
      ensures trace == old(trace) + SampleIf(reading, level)
      ensures reading ==> readBuffer[i] == old(readBuffer[i]) | (if level then mask else 0)
      ensures readBuffer != null ==>
        forall k :: 0 <= k < readBuffer.Length && (k != i || !reading) ==> readBuffer[k] == old(readBuffer[k])
    {
      level := false;
      if reading {
        var l := ReadMasterIn();
        readBuffer[i] := readBuffer[i] | (if l then mask else 0);
        level := l;
      }
    }
  }
}

=== FILE: transfers.dfy ===
/** What a driver or module hands to an I2C, SPI or serial device, one record per call. */
module Transfers {

  /** One call on an I2C device. `I2cWriteRead` is a write followed by a read on the same
    * transaction (Windows' `WriteRead`, the Gadgeteer layer's `WriteThenRead`); `read` holds the
    * bytes the device answered with. */
  datatype I2cTransfer =
    | I2cWrite(data: seq<bv8>)
    | I2cRead(read: seq<bv8>)
    | I2cWriteRead(written: seq<bv8>, read: seq<bv8>)

  /** One call on an SPI device: `SpiWrite` (the device's answer discarded) or a write and read. */
  datatype SpiTransfer =
    | SpiWrite(data: seq<bv8>)
    | SpiWriteThenRead(written: seq<bv8>, read: seq<bv8>)

  /** One call on a serial device. */
  datatype SerialTransfer =
    | SerialWrite(data: seq<bv8>)
    | SerialRead(read: seq<bv8>)
}
